=== FILE: README.md ===
# Social network core, modelled in Dafny

This project models the logic of a small social network: a Go backend that
stores users, follows, groups, posts, reactions, notifications, chat messages
and sessions in SQLite, and a Next.js client that keeps a WebSocket open and
folds the events it receives into the conversation list, the open chat
transcript and the notification bell.

The model is functional. SQL tables are sequences of rows, and each query is
a function from the table to its answer or to the new table. The hub's
registry is a map from user id to connection id, and each connection has a
bounded queue. Each HTTP handler is a function from its request fields and the
store to the status it writes, the new store and the envelopes it pushes. Each
React effect is a step function over an event queue. Lemmas relate the pieces:
round trips, invariants, reference definitions, and concrete inputs that show
how the code behaves.

How the modules map onto the system:

- **Client real-time pipeline.**
  - `WsDecoder` splits and parses a WebSocket frame.
  - `ClientSession` models the auth provider's event queue and its socket lifecycle.
  - `ConversationList` reconciles the direct-message panel. `ChatListView` is its read projection.
  - `LiveTranscript` is the open chat. `ChatInput` is the message box.
  - `NotificationBell` is the navigation bar. `NotificationRouting` is the notification dropdown.
  - `GroupForms`, `CheckedList` and `UserSearch` cover the group dialogs, user pickers and search box.
  - `Validation.ValidateForm` is the sign-up form.
- **Server delivery.**
  - `Hub` covers the registry, the per-connection queues, `readPump` and `ServeWs`.
  - `Delivery` covers the notification and chat senders.
  - `Outbox` is the "store a notification, then push it" pattern the handlers share.
- **Stores.** `FollowStore`, `GroupStore`, `GroupDeletion`, `PostVisibility`,
  `ReactionStore`, `NotificationStore`, `ChatStore`, `ChatFold`,
  `SessionStore` and `UserStore`.
- **Handlers.** `AuthHandler`, `UserHandler`, `FollowHandler`, `GroupHandler`,
  `PostHandler`, `CommentHandler`, `ReactionHandler`, `EventHandler` and `ChatHandler`.
  - A handler behind the authentication middleware takes a definite caller.
  - A handler registered without it takes an optional caller. Where such a handler dereferences a missing user, the recovery middleware answers 500.
  - A handler's status is the first one it writes, because net/http ignores later `WriteHeader` calls.
- **Shared pieces.**
  - `RateLimiter` is the sliding window per remote address. The key is `RemoteAddr`, which holds the port as well as the IP, so each client connection has its own window. `Validation` holds the server's user checks.
  - `CharClass` holds the regular expressions, written as predicates.
  - `Text`, `Atoi` and `Order` model string splitting and trimming, `strconv.Atoi` and `ORDER BY ... DESC`.

The client's `onmessage` wraps the whole fragment loop in one `try`, so the
first fragment that fails to parse ends delivery of the rest of the frame.
Earlier fragments have already been delivered by then.

Several handlers behave in ways that look unintended. The
model keeps them as written, and lemmas make them visible:

- **Status-code quirks.**
  - `CreateGroupHandler` writes 200 before it creates the group.
  - Updates of groups, of posts and of almost-private post audiences are stored before a later check answers 400.
  - A reaction on a comment is stored before the handler fails.
  - A comment on a missing post is stored and then answered with 500.
- **Session and account quirks.**
  - A failed login still ends the user's sessions.
  - A password change is never stored.
  - A user row with a NULL birth date cannot log in (401), and its session check answers 500.
  - The same row makes its profile page and follow listings answer 500 and its posts page 404.
- **Notification quirks.**
  - A post's author is notified of their own group post.
  - Joining a group notifies the creator on every click, including the click that withdraws the request.
  - Cancelling one group invitation deletes the caller's invitations to every group.
  - Deleting a group leaves the notifications of its events behind. `DeleteGroupHandler` is modelled with the deletion as written. The corrected deletion is proved separately.
- **Chat quirk.**
  - The full chat history query fails for any user who has sent a direct message. Nothing calls it.

## Model

| member | source | states |
|---|---|---|
| WsDecoder.Fragments | frontend/app/api/websocket.ts:17 | Exactly the non-blank pieces of the frame split at newlines, none of them holding a newline. |
| WsDecoder.Deliver | frontend/app/api/websocket.ts:18-22 | The delivered events are the parses of a prefix of the fragments, in order. The prefix stops just before the first fragment that fails to parse. |
| WsDecoder.DeliverUnique | frontend/app/api/websocket.ts:15-26 | The prefix property, the all-parsed property and the stop-at-failure property together determine the delivered sequence. |
| WsDecoder.OnMessage | frontend/app/api/websocket.ts:14-26 | The handler delivers exactly `Deliver(Fragments(frame))`: a parse failure stops every later fragment of the frame. |
| WsDecoder.DeliverEach | frontend/app/api/websocket.ts:18-21 | The loop delivers one event per parsed fragment, in payload order, and stops at the first failure. The loop invariant carries the proof. |
| WsDecoder.DeliverAllIffAllParse | frontend/app/api/websocket.ts:17-22 | The number of delivered events equals the number of non-blank fragments exactly when every fragment parses. Otherwise it is smaller. |
| WsDecoder.BlankFrameDeliversNothing | frontend/app/api/websocket.ts:17-18 | A frame whose lines are all blank produces no `onMessage` call. |
| WsDecoder.DecodeLines | frontend/app/api/websocket.ts:17-21 | Events serialised one per line, where each serialisation is non-blank, newline-free and parses back, are delivered exactly and in order. |
| ClientSession.Initial | frontend/app/auth/AuthProvider.tsx:34-36 | The provider starts with an empty queue, no socket and no user, and satisfies the socket invariant. |
| ClientSession.SetAuth | frontend/app/auth/AuthProvider.tsx:49-63 | The effect closes the previous socket if one was open. It opens a socket for the user iff logged in with a known user. An open is issued only when no socket remains. |
| ClientSession.Enqueue | frontend/app/auth/AuthProvider.tsx:51-54 | An event is appended at the end of the queue. Nothing queued earlier moves, and nothing else in the provider changes. |
| ClientSession.EnqueueAllAppends | frontend/app/auth/AuthProvider.tsx:51-54 | A whole frame lands at the end of the queue in delivery order, and the socket and user are untouched. |
| ClientSession.Clear | frontend/app/components/nav.tsx:104 | The consumer's `setMessages([])` empties the queue and changes nothing else. |
| ClientSession.ReplayBalanced | frontend/app/auth/AuthProvider.tsx:49-63 | Over any sequence of login changes, opens minus closes equals the number of open sockets, which is 0 or 1. The provider stays valid throughout. |
| ConversationList.FindIndex | frontend/app/home/DM/directMessages.tsx:99-105 | The match is the first conversation with the same two users in either order, or with the same group. `None` means no conversation matches. |
| ConversationList.Refresh | frontend/app/home/DM/directMessages.tsx:107-116 | The preview becomes exactly the new message. In an open group view the group is marked read and nothing is counted. In an open direct view the chat is marked read and nothing is counted. Otherwise the counter, with a missing value read as 0, rises by one iff someone else sent the message. |
| ConversationList.MoveToFront | frontend/app/home/DM/directMessages.tsx:117-119 | The refreshed conversation moves to index 0. The others keep their relative order and the length is unchanged. |
| ConversationList.ApplyEvent | frontend/app/home/DM/directMessages.tsx:94-127 | A non-chat event changes nothing. An unmatched chat event requests both refetches and leaves the list alone. A matched event refreshes that conversation and moves it to the front. |
| ConversationList.MoveToFrontKeepsIdentities | frontend/app/home/DM/directMessages.tsx:117-119 | Moving to the front is a permutation of the conversations. |
| ConversationList.ApplyBatchKeepsConversations | frontend/app/home/DM/directMessages.tsx:94-120 | However many events a batch holds, the list keeps its length and exactly the same conversations, as a multiset. |
| ConversationList.NonChatBatchIsInert | frontend/app/home/DM/directMessages.tsx:95 | A batch without chat events leaves the list unchanged and requests nothing. |
| ConversationList.Click | frontend/app/home/DM/directMessages.tsx:151-160 | Only the clicked conversation's counter is reset to 0. It is marked read by username when it has no group, else by group id. |
| ConversationList.Search | frontend/app/home/DM/directMessages.tsx:188-191 | The shown list holds exactly the conversations whose peer name or group title contains the query, ignoring case. Each matching conversation appears as often as in the full list and every other one not at all. |
| ConversationList.SearchKeepsOrder | frontend/app/home/DM/directMessages.tsx:188-191 | Searching a joined list gives the joined searches of its parts, so the filter keeps the list order. |
| ConversationList.SearchEmptyQuery | frontend/app/home/DM/directMessages.tsx:188-191 | An empty query shows every conversation. |
| ConversationList.ClickVisibleAsWritten | frontend/app/home/DM/directMessages.tsx:151-160 | As written, the index of the clicked row in the filtered list is applied to the full list. |
| ConversationList.VisibleIndex | frontend/app/home/DM/directMessages.tsx:188-191 | Each shown row corresponds to a position in the full list that holds the same conversation. |
| ConversationList.ClickVisible | frontend/app/home/DM/directMessages.tsx:151-160 | Corrected click: the conversation of the clicked row is the one cleared and marked read. |
| ConversationList.ClickVisibleAsWrittenClearsWrongConversation | frontend/app/home/DM/directMessages.tsx:188-191 | With two conversations and a query matching only the second, clicking the only row clears and marks read the first. The second keeps its unread count. |
| ChatListView.Kind | frontend/app/home/DM/Chat/chatList.tsx:35-41 | A row is a user row iff the peer id is non-zero. Otherwise it is a group row iff the group id is non-zero. Otherwise nothing is drawn. |
| ChatListView.RowsFrom | frontend/app/home/DM/Chat/chatList.tsx:35-41 | The drawn rows are exactly the conversations of a drawable kind, in increasing list order. |
| ChatListView.Rows | frontend/app/home/DM/Chat/chatList.tsx:44 | The "No Chats" note is shown iff the list is empty. Otherwise the rows are the drawable conversations in list order. |
| ChatListView.Preview | frontend/app/home/DM/Chat/chatList.tsx:68-73 | The preview shows only the first message, or the placeholder when there is none. A direct preview is prefixed "You: " iff the local user sent it. A group preview is prefixed with the sender's label. |
| ChatListView.GroupSender | frontend/app/home/DM/Chat/chatList.tsx:69-70 | The sender label is "You" for the local user, otherwise the member's username, or empty when the sender is not a listed member. |
| ChatListView.Badge | frontend/app/home/DM/Chat/chatList.tsx:75-82 | The badge is shown iff the counter is present and non-zero, and it shows that value. |
| ChatListView.UserLinkIsOpenView | frontend/app/home/DM/Chat/chatList.tsx:94 | A user row's link is exactly the path the reconciler treats as that direct chat being open. |
| ChatListView.GroupLinkIsOpenView | frontend/app/home/DM/Chat/chatList.tsx:57 | A group row's link is exactly the path the reconciler treats as that group being open. |
| ChatListView.ClickHidesBadge | frontend/app/home/DM/Chat/chatList.tsx:111-117 | After a click, the clicked row shows no badge. |
| ChatListView.RefreshShowsLatest | frontend/app/home/DM/Chat/chatList.tsx:105-110 | After a new message is filed under a conversation, its preview shows that message's content. |
| ChatListView.RefreshShowsBadge | frontend/app/home/DM/Chat/chatList.tsx:111-117 | A message from someone else in a conversation that is not open raises the badge to the old count plus one. |
| LiveTranscript.Matches | frontend/app/chat/chatMessages.tsx:43-47 | The append test throws exactly when the direct test fails in a group view for an event without a payload. Otherwise it holds iff the direct test or the group test holds. |
| LiveTranscript.DenotificationThrowsInGroupView | frontend/app/chat/chatMessages.tsx:43-47 | In a group view, a payload-less de-notification makes the consumer throw. |
| LiveTranscript.GroupMatchIgnoresType | frontend/app/chat/chatMessages.tsx:46-47 | Any event carrying a message of the open group is appended, whatever its type. |
| LiveTranscript.Matched | frontend/app/chat/chatMessages.tsx:43-47 | The batch fails iff the test throws on one of its events. Otherwise no more messages than the batch holds. |
| LiveTranscript.SetCallsKeepsLast | frontend/app/chat/chatMessages.tsx:42-48 | Repeated calls from the same captured array leave the captured array plus the last match only. |
| LiveTranscript.OnBatchKeepsOnlyLastMatch | frontend/app/chat/chatMessages.tsx:42-48 | However many events of a batch match, the transcript grows by at most one message, the last match. |
| LiveTranscript.OnBatchAppendAll | frontend/app/chat/chatMessages.tsx:42-48 | Corrected consumer: the live list becomes the previous list followed by every match, in order. |
| LiveTranscript.OnBatchDropsEarlierMatch | frontend/app/chat/chatMessages.tsx:42-48 | Two messages of the open conversation in one batch: as written only the second survives, while the corrected consumer keeps both. |
| LiveTranscript.RenderDirect | frontend/app/chat/chatMessages.tsx:16-21 | One bubble per message, in order. A bubble is "sent" iff the local user wrote it, else "received". |
| LiveTranscript.FindMember | frontend/app/chat/chatMessages.tsx:24 | The member found has the sender's id. `None` means no member has it. |
| LiveTranscript.RenderGroup | frontend/app/chat/chatMessages.tsx:23-31 | Exactly the messages from listed members are drawn, in order, each with its member. A bubble is sent iff the local user wrote it. |
| LiveTranscript.Render | frontend/app/chat/chatMessages.tsx:62-83 | A direct view draws the history followed by the live messages, with no sorting or de-duplication. A group view draws exactly the messages of listed members from the same sequence, each as a group bubble. A view with both draws the direct bubbles then the group ones, and a view with neither draws nothing. |
| NotificationBell.Initial | frontend/app/components/nav.tsx:20 | The bell starts with the session's unread count, or 0, and with the toast and dropdown hidden. |
| NotificationBell.FirstOfKind | frontend/app/components/nav.tsx:94-96 | Returns the index of the first event of the kind, with no earlier one. `None` means the batch holds none. |
| NotificationBell.OnBatch | frontend/app/components/nav.tsx:84-104 | An empty batch does nothing. For a non-empty batch: a recount is requested iff it holds a notification or de-notification; the toast changes only for a notification and shows the first one's content; the last effect clears the queue; the count is not touched. |
| NotificationBell.DenotificationsOnlyRecount | frontend/app/components/nav.tsx:89-96 | A batch of de-notifications only requests a recount and a clear, and shows no toast. |
| NotificationBell.HideToast | frontend/app/components/nav.tsx:98-100 | The scheduled hide hides the toast and changes neither the count nor the dropdown. |
| NotificationBell.OnUnreadCount | frontend/app/components/nav.tsx:30-34 | The fetched count replaces the badge count, and nothing else changes. |
| NotificationBell.ToggleDropdown | frontend/app/components/nav.tsx:77 | The dropdown flips and the count stays. |
| NotificationBell.MouseDown | frontend/app/components/nav.tsx:48-58 | Mark-all-read is issued iff an open dropdown is closed by a click outside it. Any other click changes nothing. |
| NotificationBell.CountComesFromFetches | frontend/app/components/nav.tsx:30-34 | Over any trace the badge count is the count of the last fetch in the trace, or the initial one if none was fetched. It is never adjusted arithmetically. |
| NotificationBell.LastFetchWins | frontend/app/components/nav.tsx:30-34 | After a fetch, the events that follow it and are not fetches leave its count on the badge. |
| NotificationRouting.Dispatch | frontend/app/components/notifications.tsx:92-101 | Follow requests, group invitations and join requests get their own items. Every other type is informing. |
| NotificationRouting.InformingRoute | frontend/app/components/notifications.tsx:188-195 | Post, comment and reaction types go to the post. "follow" goes to the profile. The group types go to the group page. Any other type stays put. |
| NotificationRouting.Click | frontend/app/components/notifications.tsx:188 | Every click marks all read first, and then navigates iff the item has a route. |
| NotificationRouting.ItemRouteRefinesInforming | frontend/app/components/notifications.tsx:92-101 | Every dedicated item routes where the informing item would, except a follow request, which routes to the requester while the informing item would not move. |
| NotificationRouting.Respond | frontend/app/components/notifications.tsx:300-304 | Only the three request kinds send a response. A join-request response carries the group from the object id and the user from the notifying id. |
| NotificationRouting.Decide | frontend/app/components/notifications.tsx:137-176 | An undecided item becomes decided only by an ok response. A failed response leaves it undecided, and a decided item never changes. |
| NotificationRouting.FirstOkResponseDecides | frontend/app/components/notifications.tsx:113 | A decided item stays decided. With no ok response an undecided item stays undecided, and an ok first response decides it. |
| NotificationRouting.FirstOkAtDecides | frontend/app/components/notifications.tsx:137-176 | Wherever the first ok response sits in the sequence, the decision is its action. |
| NotificationRouting.Step | frontend/app/components/notifications.tsx:61 | Loading replaces the list. "Show previous" hides its button and fetches every notification. |
| NotificationRouting.ShowPreviousIsPermanent | frontend/app/components/notifications.tsx:70-79 | Once pressed, the "Show previous notifications" button never comes back. |
| ChatInput.Send | frontend/app/chat/chatInput.tsx:16-31 | An empty box sends nothing. Otherwise one message is sent with sender = local user, receiver = peer, id 0, the clock's time and the group id when non-zero, and the box is cleared. |
| ChatInput.KeyDown | frontend/app/chat/chatInput.tsx:34-38 | Enter behaves exactly like the send button, and any other key does nothing. |
| ChatInput.DirectEchoFindsConversation | frontend/app/chat/chatInput.tsx:18-25 | A message sent from a direct view is filed under that same conversation when its echo arrives. |
| ChatInput.GroupEchoFindsConversation | frontend/app/chat/chatInput.tsx:26-28 | A message sent from a group view is filed under that group when it comes back. |
| ChatInput.ReceiverAndGroupBothSet | frontend/app/chat/chatInput.tsx:20 | The receiver is taken from the peer even in a group view, so receiver and group are both set when the peer id is non-zero. |
| GroupForms.EditTitle | frontend/app/home/DM/CreateGroup/createGroup.tsx:29-35 | An edit longer than 32 UTF-16 code units is ignored. Otherwise it is taken, and the warning shows iff that length is exactly 32. |
| GroupForms.EditDescription | frontend/app/home/DM/CreateGroup/createGroup.tsx:37-43 | The same rule with the limit 200 code units. |
| GroupForms.Submit | frontend/app/home/DM/CreateGroup/createGroup.tsx:58-72 | A '/' in the title is refused first, then an empty trimmed title or description, then an empty member list. Only a form passing all three is posted. |
| GroupForms.BlankTitleRefused | frontend/app/home/DM/CreateGroup/createGroup.tsx:62-66 | A whitespace-only title is refused like an empty one. |
| GroupForms.Reply | frontend/app/home/DM/CreateGroup/createGroup.tsx:80-87 | 409 alerts and keeps the dialog open. Only an ok status closes it. |
| GroupForms.ClickJoin | frontend/app/home/DM/ShowGroups/groupDetails.tsx:74-117 | A title over 32 or a description over 200 UTF-16 code units sets an error and sends nothing. The request is 'unjoin' iff already requested. A failed response throws before any state change. An ok response flips `isRequested` and sets the status to 'pending' after join and '' after unjoin. |
| GroupForms.SuccessfulClickSyncsPending | frontend/app/home/DM/ShowGroups/groupDetails.tsx:110-117 | After a successful click, the Pending button shows iff `isRequested` holds. |
| GroupForms.ClickTwiceRestores | frontend/app/home/DM/ShowGroups/groupDetails.tsx:157 | Two successful clicks return the button to where it was. |
| CheckedList.Toggle | frontend/app/home/DM/CreateGroup/createGroup.tsx:99-107 | A present id is removed everywhere it occurs. An absent id is appended at the end. |
| CheckedList.ToggleKeepsNoDup | frontend/app/home/DM/CreateGroup/createGroup.tsx:101-103 | A duplicate-free checked list stays duplicate-free. |
| CheckedList.ToggleTwiceAbsent | frontend/app/home/DM/CreateGroup/createGroup.tsx:101-103 | Toggling an absent id twice restores the list exactly. |
| CheckedList.ToggleTwicePresent | frontend/app/home/DM/CreateGroup/createGroup.tsx:101-103 | Toggling a present id twice restores the set of ids but moves the id to the end. |
| CheckedList.Picker | frontend/app/components/usersList.tsx:26-46 | The final list is the initial ids with every click toggled in order. With a callback, the parent is told the list once on mount and once after each click, and the k-th report is the list after the first k clicks. Without one it is told nothing. |
| CheckedList.ToggleAllSnoc | frontend/app/components/usersList.tsx:26-46 | One more click toggles its id in the list the earlier clicks produced. |
| CheckedList.PickerKeepsNoDup | frontend/app/components/usersList.tsx:29-36 | Starting duplicate-free, the picker's list stays duplicate-free. |
| UserSearch.Search | frontend/app/components/search.tsx:20-22 | Exactly the users whose lower-cased name contains the lower-cased query, each as often as in the input and in the input order, so never more users than given. |
| UserSearch.SearchKeepsOrder | frontend/app/components/search.tsx:20-22 | Searching a joined list gives the joined searches of its parts. |
| UserSearch.EmptyQueryListsAll | frontend/app/components/search.tsx:20-22 | An empty query returns every user. |
| UserSearch.LongerQueryNarrows | frontend/app/components/search.tsx:20-22 | When the longer query contains the shorter, its result is the shorter query's result filtered again, and so a subset of it. |
| UserSearch.Change | frontend/app/components/search.tsx:17-22 | The focus callback, when given, runs on every change before the filtered list is handed up. |
| Validation.ValidateForm | frontend/app/signup/page.tsx:21-69 | The result is `None` iff every check passes. Otherwise it is the first failing check's message, in the order username length and class, e-mail length and pattern, first name, last name, nickname, age. Lengths are counted in UTF-16 code units. |
| Validation.ClientAcceptImpliesServerFormat | frontend/app/signup/page.tsx:21 | A form the client accepts passes every format check of the server's `ValidateUser`. |
| Validation.ServerAcceptsShortUsername | backend/pkg/utilities/validation.go:71-75 | The server accepts a 2-character username the client refuses, so the client's rule is strictly narrower. |
| Validation.ValidateUser | backend/pkg/utilities/validation.go:12-69 | The first failing check is returned, in the order e-mail format, e-mail taken, username class, username taken, nickname, first name, last name, date format, age. `None` means all pass. |
| Validation.Register | backend/pkg/api/auth_handler.go:123-132 | The account is created iff `ValidateUser` passes. The later `isValidUsername` gate adds no refusal. |
| Validation.UsernameCheckIsRedundant | backend/pkg/api/auth_handler.go:269-271 | `isValidUsername` never refuses what `ValidateUser` let through, because the character class is the same. |
| Validation.TrimSpace | backend/pkg/utilities/validation.go:83 | The result has no leading or trailing space. All-space text becomes empty, and text without spaces is unchanged. |
| Validation.Sanitize | backend/pkg/utilities/validation.go:82-91 | The output holds only `[a-zA-Z0-9_-]` characters. |
| Validation.SanitizeIsFilter | backend/pkg/utilities/validation.go:82-91 | The trim cannot matter: sanitising is the same as deleting every character outside the class. |
| Validation.SanitizeKeepsValidName | backend/pkg/utilities/validation.go:71-91 | A valid name is returned unchanged. |
| Validation.SanitizeIdempotent | backend/pkg/utilities/validation.go:82-91 | Sanitising twice is sanitising once. |
| Validation.SanitizedIsName | backend/pkg/utilities/validation.go:71-91 | A non-empty sanitised string is a valid name. |
| CharClass.First | backend/pkg/utilities/validation.go:14-17 | The first position of a character, with no earlier occurrence, or the length when it is absent. |
| CharClass.Last | backend/pkg/utilities/validation.go:14-17 | The last position of a character, with no later occurrence, or the length when it is absent. |
| CharClass.PatternAtIsOnlyAt | backend/pkg/utilities/validation.go:14-17 | Any split the e-mail pattern accepts has its '@' as the only '@' of the address. |
| CharClass.PatternDotIsLastDot | backend/pkg/utilities/validation.go:14-17 | Any split the e-mail pattern accepts uses the last '.' of the address. |
| CharClass.EmailShapeIsPattern | backend/pkg/utilities/validation.go:14-17 | The pattern accepts exactly the addresses with one '@', a non-empty local part over its class, and a domain D "." T with D non-empty over its class and T 2 to 4 letters after the last '.'. |
| Hub.Empty | backend/pkg/websocket/hub.go:11-18 | A new hub has no clients and is valid. |
| Hub.Serve | backend/pkg/websocket/websocket.go:81-110 | A `userID` that does not parse leaves the new connection unregistered. Otherwise the user maps to the new connection, an earlier connection is left open, and the hub stays valid. |
| Hub.Close | backend/pkg/websocket/hub.go:25-29 | Closing marks the channel closed, and closing a closed channel sets the panic flag. |
| Hub.Unregister | backend/pkg/websocket/hub.go:25-29 | Unregistering is keyed by user id: a missing user is a no-op; otherwise whichever connection the user holds is removed from the registry and this connection's channel is closed. |
| Hub.Broadcast | backend/pkg/websocket/hub.go:30-39 | Every registered connection with room gets the packet. Every full one is closed and its user removed. Unregistered connections are untouched. |
| Hub.BroadcastKeepsValid | backend/pkg/websocket/hub.go:24-39 | After a broadcast every key still maps to an open connection of that user, within capacity. |
| Hub.Inbound | backend/pkg/websocket/websocket.go:34-56 | A frame over 2000 bytes is skipped. Any other frame is broadcast to every client. |
| Hub.SendToUser | backend/pkg/websocket/websocket.go:112-125 | An unregistered user or a full queue drops the packet with no other change. A closed connection raises the panic flag. Otherwise the packet is appended to that user's queue, whose capacity is 256. The registry never changes. |
| Hub.Drain | backend/pkg/websocket/websocket.go:58-79 | The writer removes the oldest queued packet and returns it. |
| Hub.StaleUnregisterRemovesLiveClient | backend/pkg/websocket/hub.go:25-29 | A stale connection's unregister removes the user's newer, live connection from the registry and closes only the stale channel. |
| Hub.DoubleCloseAfterReconnect | backend/pkg/websocket/hub.go:25-37 | A connection closed by a full broadcast is closed a second time when its user reconnects and the old read loop then unregisters. |
| Delivery.NotificationEnvelope | backend/pkg/websocket/notification_ws.go:11-14 | A notification is wrapped as type "notification" with the notification as payload. |
| Delivery.DenotificationEnvelope | backend/pkg/websocket/notification_ws.go:41-43 | A de-notification has type "denotification" and no payload. |
| Delivery.ChatEnvelope | backend/pkg/websocket/chat_ws.go:12-15 | A chat message is wrapped as type "chat" with the stored message as payload. |
| Delivery.SendNotification | backend/pkg/websocket/notification_ws.go:9-37 | The envelope reaches the user iff the user is connected and has room. Otherwise it is dropped and nothing changes. |
| Delivery.SendDenotification | backend/pkg/websocket/notification_ws.go:39-66 | The same drop rules, with a payload-less envelope. |
| Delivery.SendToAll | backend/pkg/websocket/chat_ws.go:50-56 | Sending to a list keeps the hub valid, keeps its registry and set of connections, and leaves a connection of a user outside the list as it was. |
| Delivery.SendToAllSkipsOthers | backend/pkg/websocket/chat_ws.go:50-56 | A connection of a user outside the list is left as it was. |
| Delivery.SendToAllReaches | backend/pkg/websocket/chat_ws.go:50-56 | With no repeated ids, every reachable listed user gets the packet exactly once. |
| Delivery.SendChat | backend/pkg/websocket/chat_ws.go:10-33 | A direct message goes to the sender, as an echo, and to the receiver. Only the receiver gets a notification row. |
| Delivery.SendChatReachesBothEnds | backend/pkg/websocket/chat_ws.go:25-26 | Both ends receive the message when reachable, and no other connection changes. |
| Delivery.SendGroupChat | backend/pkg/websocket/chat_ws.go:35-67 | When the members cannot be read, nothing is sent or written. Otherwise every member, the sender included, is sent the envelope and gets a notification row. |
| Delivery.SendGroupChatReachesMembers | backend/pkg/websocket/chat_ws.go:50-62 | Every reachable member receives the message, and a non-member's connection is untouched. |
| Outbox.Notify | backend/pkg/db/queries/notification_db.go:12-31 | The notification is stored under the next id without its image, since the INSERT has no image column, and the push to exactly its notified user carries the image. |
| Outbox.Denotify | backend/pkg/websocket/notification_ws.go:39-66 | One de-notification is pushed to the user, and the table is unchanged. |
| Outbox.NotifyEach | backend/pkg/api/post/post_handler.go:109-138 | One notification per listed user, in list order: the table grows by exactly those rows, stored without image, and the push log by exactly those pushes. |
| Outbox.DenotifyEach | backend/pkg/api/group_handler.go:411-413 | One de-notification per listed user, in list order, with the table untouched. |
| Outbox.NotifyEachRecipients | backend/pkg/api/post/post_handler.go:109-138 | Notifying a list pushes to exactly that list, in order. |
| RateLimiter.LastN | backend/pkg/middleware/ratelimit.go:33-35 | The last `n` entries, or all of them when fewer: a suffix of length at most `n`. |
| RateLimiter.Admit | backend/pkg/middleware/ratelimit.go:20-39 | A full list whose oldest entry is within a minute refuses with 429 and changes nothing. A full list whose oldest entry has expired drops that entry, appends now and forwards. A shorter list appends and forwards. Other addresses are untouched. |
| RateLimiter.AdmitKeepsSorted | backend/pkg/middleware/ratelimit.go:33-35 | With a clock that never goes back, every list stays in time order. |
| RateLimiter.RefusalMeansFullMinute | backend/pkg/middleware/ratelimit.go:28-32 | A refusal means 100 requests were admitted within the last minute. |
| RateLimiter.OldestExpiredAdmits | backend/pkg/middleware/ratelimit.go:33-37 | A request at least a minute after the oldest entry is always forwarded. |
| RateLimiter.AdmitKeepsBounded | backend/pkg/middleware/ratelimit.go:28-35 | No list ever exceeds 100 entries. |
| RateLimiter.Run | backend/pkg/middleware/ratelimit.go:20-39 | One verdict per request, and no address ever holds more than 100 remembered requests. |
| RateLimiter.AdmitIsLastN | backend/pkg/middleware/ratelimit.go:33-37 | One admitted step keeps the list equal to the last 100 entries of the list plus now. |
| RateLimiter.ListIsLastAdmitted | backend/pkg/middleware/ratelimit.go:22-37 | After any run, an address's list is exactly its last 100 admitted request times. |
| FollowStore.Follow | backend/pkg/db/queries/follow_db.go:12-26 | The pair gets the given status, inserted or overwritten, and every other pair is unchanged. |
| FollowStore.Unfollow | backend/pkg/db/queries/follow_db.go:29-51 | The pair is deleted. An absent pair is an error that changes nothing. |
| FollowStore.Decline | backend/pkg/db/queries/follow_db.go:232-243 | The pair is deleted whatever its status, and an absent pair is not an error. |
| FollowStore.Accept | backend/pkg/db/queries/follow_db.go:246-257 | Only a pending row of the pair becomes accepted. Every other row is unchanged. |
| FollowStore.Following | backend/pkg/db/queries/follow_db.go:130-146 | The listed users are exactly those the user follows with an accepted row. |
| FollowStore.Followers | backend/pkg/db/queries/follow_db.go:149-165 | The listed users are exactly those who follow the user with an accepted row. |
| FollowStore.Stats | backend/pkg/db/queries/follow_db.go:53-73 | The following count is the number of accepted rows the user follows from, the follower count the number of accepted rows following the user, and each equals the size of the set of users at the other end. |
| FollowStore.AcceptCounts | backend/pkg/db/queries/follow_db.go:246-257 | Accepting a pending request adds exactly one to each side's counts. |
| FollowStore.UnfollowCounts | backend/pkg/db/queries/follow_db.go:29-51 | Removing an accepted row takes exactly one off each side's counts. |
| FollowStore.ButtonLabel | backend/pkg/db/queries/follow_db.go:76-101 | No row gives "Follow", pending gives "Pending", and any other status gives "Following". |
| FollowStore.FollowsOrFollowed | backend/pkg/db/queries/follow_db.go:103-127 | No row in either direction gives false, and true needs an accepted row in some direction. |
| FollowStore.OneDirectionIsDeterministic | backend/pkg/db/queries/follow_db.go:108-126 | With a row in one direction only, the answer does not depend on row order. |
| FollowStore.MixedRowsDependOnOrder | backend/pkg/db/queries/follow_db.go:108-126 | With an accepted row one way and a pending row the other, the answer flips with row order. |
| GroupStore.MemberStatus | backend/pkg/db/queries/group_db.go:503-522 | "" when the pair has no row, and otherwise the status of one of its rows. With one row per pair, the status is 'accepted' iff the user is an accepted member. |
| GroupStore.InGroup | backend/pkg/db/queries/group_db.go:463-471 | True iff the pair has a row, whatever its status. |
| GroupStore.AddMember | backend/pkg/db/queries/group_db.go:389-396 | One row with the status is appended, and nothing else changes. |
| GroupStore.Invite | backend/pkg/db/queries/group_db.go:409-418 | One pending row per listed id, in order, appended. |
| GroupStore.RemoveMember | backend/pkg/db/queries/group_db.go:399-406 | Every row of the pair goes, whatever its status. All other rows stay in order. |
| GroupStore.DropPending | backend/pkg/db/queries/group_db.go:421-448 | Only the pair's pending rows go. |
| GroupStore.AcceptInvitation | backend/pkg/db/queries/group_db.go:431-438 | The pair's pending rows become accepted, and nothing else changes. |
| GroupStore.RemoveMembers | backend/pkg/db/queries/group_db.go:451-460 | Every row of every listed user in the group goes. Rows of other groups or users stay. |
| GroupStore.RequestAdd | backend/pkg/db/queries/group_db.go:259-285 | An existing pending row of the pair is deleted. Otherwise a row with the given status is inserted. |
| GroupStore.RequestTwiceRestores | backend/pkg/db/queries/group_db.go:259-285 | A request followed by a second request restores the table exactly. |
| GroupStore.Categorize | backend/pkg/db/queries/group_db.go:524-585 | Created holds groups the user made. Joined holds groups with an accepted row and another creator. Discover holds groups without one and with another creator. |
| GroupStore.CategoriesPartition | backend/pkg/db/queries/group_db.go:555-585 | Every group lands in exactly one of the three tabs. |
| GroupStore.NotMemberOf | backend/pkg/db/queries/group_db.go:301-341 | Lists groups without an accepted row for the user, or with a pending one. |
| GroupStore.NotMemberOfIsNotAccepted | backend/pkg/db/queries/group_db.go:301-341 | With one row per pair, the pending test adds nothing: the list is exactly the groups without an accepted row. |
| GroupStore.Hyphenate | backend/pkg/db/queries/group_db.go:15-21 | Same length, no spaces left, and every space is replaced by '-'. |
| GroupStore.FindNamed | backend/pkg/db/queries/group_db.go:15-21 | The first group whose name is either of the two, with no earlier one. |
| GroupStore.AcceptedMembers | backend/pkg/db/queries/group_db.go:39-43 | Exactly the accepted members, with the creator first. |
| GroupStore.ByName | backend/pkg/db/queries/group_db.go:13-66 | A group named as given or with its spaces turned into hyphens, with its accepted members, creator first. An error iff no group has either name. |
| GroupStore.SpacedNameFindsHyphenated | backend/pkg/db/queries/group_db.go:15-21 | A name with spaces finds the group whose stored name has hyphens. |
| GroupStore.IsCreator | backend/pkg/db/queries/group_db.go:85-96 | An unknown group is an error. Otherwise the result is true iff the user is its creator. |
| GroupStore.NameExists | backend/pkg/db/queries/group_db.go:99-107 | True iff a group has exactly this name. |
| GroupStore.Update | backend/pkg/db/queries/group_db.go:130-149 | The name and description always change. The image changes only when one is given. Other groups are untouched. |
| GroupStore.IdByName | backend/pkg/db/queries/group_db.go:485-500 | The id of a group with exactly this name. An error iff no group has it. |
| GroupStore.AcceptedIds | backend/pkg/db/queries/group_db.go:343-386 | Exactly the ids of the group's accepted members. |
| GroupDeletion.DeleteAsWritten | backend/pkg/db/queries/group_db.go:178-221 | As written: the group's own notifications go, the notifications about its posts go, and the third delete removes rows of type 'event' with the group's id. |
| GroupDeletion.Delete | backend/pkg/db/queries/group_db.go:178-221 | Corrected: the third delete removes the 'event_creation' rows of the group's events. |
| GroupDeletion.EventDeleteIsInert | backend/pkg/db/queries/group_db.go:203-206 | The third delete as written removes nothing unless some row has type 'event', which no handler writes. |
| GroupDeletion.EventNotificationSurvives | backend/pkg/api/event_handler.go:88 | An event notification of a deleted group survives the deletion as written, and the corrected deletion removes it. |
| PostVisibility.PermittedMeans | backend/pkg/db/queries/post_db.go:324-350 | Permission holds iff one of five reasons applies: owner; public post by a public author outside a group; private post, accepted follower, outside a group; almost-private post, listed viewer, outside a group; group post and accepted member. |
| PostVisibility.GroupPostNeedsMembership | backend/pkg/db/queries/post_db.go:335-337 | A non-owner sees a group post iff an accepted member, whatever its privacy. |
| PostVisibility.FeedMatchesPermission | backend/pkg/db/queries/post_db.go:70-85 | The feed filter and the permission check agree on every post. |
| PostVisibility.ProfileAdmitsPermitted | backend/pkg/db/queries/post_db.go:256-271 | On an author's page, the profile filter admits every post the permission check allows. |
| PostVisibility.ProfileAdmitsMore | backend/pkg/db/queries/post_db.go:256-271 | A public post of a private author is listed for an accepted follower, though not permitted. |
| PostVisibility.Feed | backend/pkg/db/queries/post_db.go:59-96 | The feed is exactly the permitted posts with a known author, newest first. |
| PostVisibility.ProfilePosts | backend/pkg/db/queries/post_db.go:245-282 | The author's admitted posts, sorted newest first. |
| PostVisibility.Find | backend/pkg/db/queries/post_db.go:50-57 | A post with the id, or `None` iff no post has it. |
| PostVisibility.IsPermitted | backend/pkg/db/queries/post_db.go:324-350 | A missing post or author is an error. Otherwise the result is the permission check. |
| PostVisibility.SinglePost | backend/pkg/db/queries/post_db.go:132-212 | The post is returned only when it exists and is permitted. Any miss is the same "not found or not permitted" error. |
| PostVisibility.SinglePostAgreesWithCheck | backend/pkg/db/queries/post_db.go:143-166 | The single-post read succeeds exactly when the permission check says yes. |
| PostVisibility.UpdateViewers | backend/pkg/db/queries/post_db.go:352-374 | The post's viewers become exactly the given ids. Other posts' rows stay. |
| ReactionStore.UserReaction | backend/pkg/db/queries/reactions_db.go:92-110 | The caller's reaction type on the target, or nil when there is none. |
| ReactionStore.Toggle | backend/pkg/db/queries/reactions_db.go:32-61 | The same type again removes the reaction and answers true. Anything else sets it and answers false. Only the caller's reaction on that target changes, so there is at most one per user and target. |
| ReactionStore.ToggleTwiceRestores | backend/pkg/db/queries/reactions_db.go:32-61 | Reacting twice with the same type from no reaction leaves the table as it was. |
| ReactionStore.Counts | backend/pkg/db/queries/reactions_db.go:64-89 | Each used type name maps to its count, which is positive. Unused names are absent. |
| ReactionStore.RemovalCounts | backend/pkg/db/queries/reactions_db.go:39-46 | Removing a reaction takes one off its type's count, dropping the name at 0, and leaves other names alone. |
| ReactionStore.AdditionCounts | backend/pkg/db/queries/reactions_db.go:50-60 | A first reaction adds one to its type's count and leaves other names alone. |
| NotificationStore.Create | backend/pkg/db/queries/notification_db.go:12-31 | The row is appended under the given id, and earlier rows are unchanged. Every column the INSERT names is the note's. The image, which the INSERT leaves out, is stored empty. |
| NotificationStore.All | backend/pkg/db/queries/notification_db.go:33-52 | Exactly the user's rows, each as often as stored, newest first. |
| NotificationStore.New | backend/pkg/db/queries/notification_db.go:54-73 | Exactly the user's unread rows, newest first. |
| NotificationStore.CountUnread | backend/pkg/db/queries/notification_db.go:121-129 | At most the number of rows, and 0 iff the user has no unread row. |
| NotificationStore.NewIsUnreadOfAll | backend/pkg/db/queries/notification_db.go:55-123 | The new list is the unread part of the full list, and the unread count is its length. |
| NotificationStore.MarkRead | backend/pkg/db/queries/notification_db.go:103-110 | Only the row with the id becomes read. |
| NotificationStore.MarkReadLowersCount | backend/pkg/db/queries/notification_db.go:103-110 | With unique ids, marking a row read lowers the user's unread count by one iff that row was an unread row of the user, and otherwise leaves it. |
| NotificationStore.MarkAllRead | backend/pkg/db/queries/notification_db.go:112-119 | Every row of the user becomes read. Other users' rows are unchanged. |
| NotificationStore.MarkAllReadClears | backend/pkg/db/queries/notification_db.go:112-129 | After mark-all-read the unread count is 0, and no other user's row changed. |
| NotificationStore.ChangeType | backend/pkg/db/queries/notification_db.go:75-101 | Only rows of the pair whose type is listed are retyped. Every other field and row is kept. |
| NotificationStore.Delete | backend/pkg/db/queries/notification_db.go:131-138 | Exactly the rows with the id go. |
| NotificationStore.DeleteFollowNotes | backend/pkg/db/queries/notification_db.go:140-147 | Exactly the pair's follow and follow-request rows go. |
| NotificationStore.First | backend/pkg/db/queries/notification_db.go:173-223 | The first row satisfying the test, with no earlier one. `None` means no row satisfies it. |
| NotificationStore.DeleteInvite | backend/pkg/db/queries/notification_db.go:149-170 | With no matching invitation, 0 and no change. Otherwise the first match's id, and every match is deleted. |
| NotificationStore.ByDetails | backend/pkg/db/queries/notification_db.go:173-223 | With no matching row, the zero notification (id 0) with no error. Any other answer is a matching row. |
| NotificationStore.DeleteAbsent | backend/pkg/db/queries/notification_db.go:131-138 | Deleting an id no row has changes nothing. |
| NotificationStore.DeleteAppended | backend/pkg/db/queries/notification_db.go:131-138 | Deleting the id of a row appended under a fresh id removes just that row. |
| NotificationStore.ByDetailsFirst | backend/pkg/db/queries/notification_db.go:213-217 | The lookup returns the first matching row when there is one. |
| NotificationStore.AllByDetails | backend/pkg/db/queries/notification_db.go:256-313 | Every row of the notifying user on the object id with a listed type, and nothing else. |
| NotificationStore.AllByDetailsIgnoresObject | backend/pkg/db/queries/notification_db.go:256-313 | The `object` argument is accepted but not used: two lookups differing only in it return the same rows. |
| ChatStore.NullIf | backend/pkg/db/queries/chat_db.go:16 | A zero receiver or group id is stored as NULL, and any other id as itself. |
| ChatStore.NullIfRoundTrip | backend/pkg/db/queries/chat_db.go:16 | A stored id column reads back as the id written, zero included. |
| ChatStore.CreateMessage | backend/pkg/db/queries/chat_db.go:13-30 | The message is appended under the assigned id, with its zero ids stored as NULL. |
| ChatStore.CreateNotes | backend/pkg/db/queries/chat_db.go:32-51 | One unread row per listed user. An empty list is rejected by SQLite and changes nothing. |
| ChatStore.DirectUnread | backend/pkg/db/queries/chat_db.go:352-364 | At most the number of rows, and 0 iff the user has no row for a direct message from the peer. |
| ChatStore.GroupUnread | backend/pkg/db/queries/chat_db.go:366-379 | At most the number of rows, and 0 iff the user has no row for a message of the group. |
| ChatStore.MarkRead | backend/pkg/db/queries/chat_db.go:53-66 | Exactly the user's rows for direct messages from the peer go. |
| ChatStore.MarkGroupRead | backend/pkg/db/queries/chat_db.go:68-81 | Exactly the user's rows for messages of the group go. |
| ChatStore.MarkReadClears | backend/pkg/db/queries/chat_db.go:53-66 | After mark-read the direct count for that peer is 0, and other users' rows stay in order. |
| ChatStore.MarkGroupReadClears | backend/pkg/db/queries/chat_db.go:68-81 | After group mark-read the group count is 0, and other users' rows stay in order. |
| ChatStore.DirectMessageCountsOnce | backend/pkg/websocket/chat_ws.go:28 | Storing a direct message and writing its receiver's row raises that receiver's count for the sender by exactly one. |
| ChatStore.NewChatUsers | backend/pkg/db/queries/chat_db.go:381-413 | Exactly the other users related by a follow row of any status, in either direction, with whom no direct message has been exchanged. |
| ChatStore.MessageEndsNewChat | backend/pkg/db/queries/chat_db.go:381-413 | Once a message between the two is stored, the peer is no longer offered as a new chat. |
| ChatFold.ScanInt | backend/pkg/db/queries/chat_db.go:214-221 | A NULL column reads as 0, and a stored id reads as itself. |
| ChatFold.PeerOf | backend/pkg/db/queries/chat_db.go:315-320 | The peer is the receiver when the user sent the message, else the sender. |
| ChatFold.ItemOf | backend/pkg/db/queries/chat_db.go:277-320 | A group row is keyed by its group. A direct row is keyed by its peer. |
| ChatFold.ItemOfAsWritten | backend/pkg/db/queries/chat_db.go:214-221 | As written, a direct row's receiver is read from the NULL group column, so it is 0. |
| ChatFold.FirstKeysHasEveryKey | backend/pkg/db/queries/chat_db.go:256-347 | Each key of the input appears exactly once in the first-appearance list. |
| ChatFold.Insert | backend/pkg/db/queries/chat_db.go:211 | A message joins its key's conversation at the end, or opens a new conversation last. |
| ChatFold.InsertFirst | backend/pkg/db/queries/chat_db.go:308 | A conversation is opened only for a key not yet present. |
| ChatFold.GroupAllShape | backend/pkg/db/queries/chat_db.go:211-249 | One conversation per key, in order of first appearance. Each holds all its key's items in input order, so every item lands in exactly one. |
| ChatFold.GroupFirstShape | backend/pkg/db/queries/chat_db.go:308-345 | The same conversations, each holding only its key's first (newest) item. |
| ChatFold.LastChats | backend/pkg/db/queries/chat_db.go:255-349 | One conversation per group or peer, in the order of its newest row, each holding only that newest message. |
| ChatFold.LastChatsAreHeadsOfAllChats | backend/pkg/db/queries/chat_db.go:255-350 | With the receiver read from its own column, the two queries give the same conversations in the same order. Each last-message conversation holds the newest message of the full one. |
| ChatFold.AllChatsAsWritten | backend/pkg/db/queries/chat_db.go:157-253 | The full-history query fails iff some direct row names a peer whose user lookup fails. Otherwise its conversation keys are the first keys of the as-written items in row order, and each conversation holds its messages. |
| ChatFold.SentMessageFailsQuery | backend/pkg/db/queries/chat_db.go:214-233 | As written, one message the user sent in a direct chat makes the whole query fail, because the peer read as 0 is looked up and no user has id 0. |
| ChatFold.SentMessageBreaksFullQuery | backend/pkg/db/queries/chat_db.go:214-233 | User 1 has sent one message to user 2. The full query fails, while the last-message query files it under peer 2. |
| SessionStore.Create | backend/pkg/db/queries/session_db.go:14-35 | The fresh id belongs to the user until now + 24h. Other sessions are unchanged. |
| SessionStore.Delete | backend/pkg/db/queries/session_db.go:38-45 | Only that session goes. |
| SessionStore.UserIdOf | backend/pkg/db/queries/session_db.go:48-60 | The session's user when it exists with `expires_at > now`, otherwise 0. |
| SessionStore.IsValid | backend/pkg/db/queries/session_db.go:84-92 | True iff the session exists and has not expired. |
| SessionStore.SessionUser | backend/pkg/db/queries/session_db.go:105-132 | The live session's user, when that user still has a row, and nil otherwise. |
| SessionStore.Refresh | backend/pkg/db/queries/session_db.go:63-71 | An existing session, expired or not, lives until now + 24h. Others are unchanged. |
| SessionStore.DeleteExpired | backend/pkg/db/queries/session_db.go:74-81 | Exactly the sessions with `expires_at <= now` go, so every remaining one is valid. |
| SessionStore.DeleteExpiredKeepsLookups | backend/pkg/db/queries/session_db.go:74-81 | Purging changes no lookup at that instant. |
| SessionStore.RemoveUser | backend/pkg/db/queries/session_db.go:95-102 | Every session of the user goes, and only those. |
| SessionStore.RemoveThenCreateLeavesOne | backend/pkg/api/auth_handler.go:50-61 | Removing then creating leaves the user exactly one session, the new one. |
| UserStore.Avatar | backend/pkg/db/queries/user_db.go:27 | An empty avatar is stored as "ProfileImage.png", and any other is kept. |
| UserStore.Create | backend/pkg/db/queries/user_db.go:19-42 | The row is appended under the fresh id with the given username, e-mail, password, names, nickname and about text. It is always public, stores the default avatar for an empty one and the given one otherwise, and a NULL birth date for an empty one. |
| UserStore.Update | backend/pkg/db/queries/user_db.go:74-87 | The row with the id takes the given first name, last name, nickname, birth date, about text, visibility and avatar. Password, username and e-mail never change, and other rows are untouched. |
| UserStore.FollowUnfollow | backend/pkg/db/queries/user_db.go:99-118 | "follow" inserts a pending row unless one exists. "unfollow" deletes it. Any other action is an error. |
| UserStore.FollowIsIdempotent | backend/pkg/db/queries/user_db.go:101-110 | Following twice is following once. |
| UserStore.AllExcluding | backend/pkg/db/queries/user_db.go:132-157 | One item per other user, in table order: their id, their username, the default avatar for an empty one and a zero post count. |
| UserStore.Others | backend/pkg/db/queries/user_db.go:134-136 | Exactly the users of the table whose id differs from the given one. |
| UserStore.AllExcludingAppend | backend/pkg/db/queries/user_db.go:132-157 | Appending a user adds its item at the end of every other user's listing and leaves its own listing unchanged. |
| UserStore.PostCount | backend/pkg/db/queries/user_db.go:187-195 | The number of posts whose author is the user. |
| UserStore.Ranked | backend/pkg/db/queries/user_db.go:160-167 | Every user with their post count, ordered by post count, largest first. |
| UserStore.TopEngaged | backend/pkg/db/queries/user_db.go:160-185 | The first `limit` users of the ranking by post count, or all of them when there are fewer or the limit is negative. No user left out has more posts than one kept. |
| UserStore.ByUsername | backend/pkg/db/queries/user_db.go:197-206 | The first user in table order with the name, or `None` iff no user has it. |
| UserStore.FetchByUsername | backend/pkg/db/queries/user_db.go:52-61 | Missing iff no user has the name. Unscannable iff the first such user has a NULL birth date. Otherwise that user is found. |
| UserStore.DatedNameIsFound | backend/pkg/db/queries/user_db.go:52-61 | When the name exists and all its rows carry a birth date, the fetch finds a user. |
| Atoi.Atoi | backend/pkg/websocket/websocket.go:89-94 | Empty text gives nothing. A value is returned only for text starting with a digit or a sign, and only within the 64-bit range. |
| Atoi.AtoiOfShow | backend/pkg/websocket/websocket.go:89-94 | Rendering a non-negative number and parsing it back gives the number. |
| Atoi.AtoiOfText | backend/pkg/api/group_handler.go:342 | Every 64-bit number, the most negative one included, reads back from its text. |
| Atoi.AtoiRejectsLetters | backend/pkg/websocket/websocket.go:89-94 | A non-numeric `userID` such as "abc" does not parse. |
| Text.Split | frontend/app/api/websocket.ts:17 | At least one piece, and no piece contains the separator. |
| Text.Utf16Length | frontend/app/home/DM/CreateGroup/createGroup.tsx:29-35 | JavaScript's `length`: between the number of characters and twice that, and equal to it when every character lies in the Basic Multilingual Plane. |
| Text.EmojiCountsTwice | frontend/app/home/DM/CreateGroup/createGroup.tsx:29-35 | A three-character string ending in an emoji is four code units long. |
| Text.JoinSplit | frontend/app/api/websocket.ts:17 | Joining the pieces of a split gives back the original string. |
| Text.SplitJoin | backend/pkg/api/user_handler.go:44-48 | Splitting a join of separator-free pieces gives back exactly those pieces. |
| Text.TrimEmptyIffBlank | frontend/app/api/websocket.ts:17 | A string trims to empty exactly when it is all white space. |
| Order.SortDesc | backend/pkg/db/queries/post_db.go:86 | The rows are a permutation of the input, sorted by key, largest first. |
| Order.FilterSortCommute | backend/pkg/db/queries/post_db.go:86 | Sorting the kept rows equals keeping the rows of the sorted table. |
| ChatHandler.Refusal | backend/pkg/api/chat_handler.go:131-155 | A send is refused iff the sender is not the caller, or a group sender is not accepted, or a direct sender has no accepted follow row either way. |
| ChatHandler.SendMessage | backend/pkg/api/chat_handler.go:116-175 | No session gives 401 and no body 400. 201 iff the send is not refused, and every other answer changes nothing. On 201 the message row holds the caller as sender, NULL for a zero receiver or group, the content and the time. A direct message adds one chat-note row for its receiver and goes out on the direct path. A group message adds one chat-note row per accepted member and goes to those members, since a missing group reads as an empty group without error. |
| ChatHandler.GroupSendReachesMembers | backend/pkg/websocket/chat_ws.go:35-66 | After a 201 to a group, the sender is an accepted member, every accepted member with a connection got the chat envelope, and no other user's connections changed. |
| ChatHandler.ForgedSenderIsRefused | backend/pkg/api/chat_handler.go:131-134 | A message claiming another sender gets 400 whatever else holds, and nothing changes. |
| ChatHandler.MarkRead | backend/pkg/api/chat_handler.go:199-232 | Neither name nor group gives 400. The username takes precedence. An unknown username writes 500 but still deletes the rows for peer 0. |
| ChatHandler.UnknownUsernameStillDeletes | backend/pkg/api/chat_handler.go:213-218 | A mistyped username still deletes rows: those of direct messages from user 0. |
| GroupHandler.Invitation | backend/pkg/api/group_handler.go:116-128 | The invitation is a `group_invitation` about the group, from the creator to the invitee. |
| GroupHandler.CreatedRows | backend/pkg/api/group_handler.go:97-131 | One row per list entry, not de-duplicated. The creator's row is accepted and every other row pending. |
| GroupHandler.CreateGroup | backend/pkg/api/group_handler.go:22-138 | Over-long fields give 400 with no change. 200 iff the fields fit, the caller is known and the name is free, and any other answer changes nothing. On 200 the group is appended. With a member list, one row per entry and one for the creator are added, and the outbox gains exactly one invitation per listed non-creator, in list order. Without one, nothing else changes. |
| GroupHandler.CreatorIsAccepted | backend/pkg/api/group_handler.go:97-131 | With a well-formed member list, the creator is an accepted member of the new group. |
| GroupHandler.BadMemberListLeavesEmptyGroup | backend/pkg/api/group_handler.go:62-96 | With a malformed member list the group is stored, the answer is 200, and not even the creator is a member. |
| GroupHandler.ViewGroup | backend/pkg/api/group_handler.go:140-206 | An empty name gives 400 and an unknown one 404. A pending status shows the pending message. Otherwise the group is shown iff the caller is an accepted member or its creator. |
| GroupHandler.HyphenateIdempotent | backend/pkg/api/group_handler.go:154-158 | Hyphenating twice is hyphenating once. |
| GroupHandler.ByNameFallbackIsRedundant | backend/pkg/api/group_handler.go:154-158 | The second lookup, by the hyphenated name, never finds what the first missed. |
| GroupHandler.RemoveMembers | backend/pkg/api/group_handler.go:580-623 | Only the creator removes members. Anyone else gets 403 or an earlier error, and the table is unchanged. |
| GroupHandler.RemoveMembersRouteAsWritten | backend/cmd/server/main.go:115 | The route as registered never passes a user to the handler. |
| GroupHandler.RemoveMembersRouteNeverSucceeds | backend/pkg/api/group_handler.go:604-609 | As registered, no request to remove members succeeds, and the table never changes. |
| GroupHandler.RemoveMembersRoute | backend/cmd/server/main.go:115 | Behind the authentication middleware, the session's user reaches the handler. |
| GroupHandler.RemoveMembersRouteLetsCreatorIn | backend/pkg/api/group_handler.go:604-616 | With the middleware in place, the creator can remove members. |
| GroupHandler.UpdateGroup | backend/pkg/api/group_handler.go:282-364 | A non-integer group id gives 400, an unknown group 500 and a non-creator 403, all with no change. For the creator the group is updated whatever follows. A removed id that does not parse then gives 400 with the members untouched. When every id parses, the listed members are removed and the answer is 200. |
| GroupHandler.UpdateGroupResubmit | backend/pkg/api/group_handler.go:282-364 | Submitting the creator's edit a second time gives the same answer and leaves the groups as the first submit did. |
| GroupHandler.ParseIds | backend/pkg/api/group_handler.go:338-349 | Every text is parsed, in order, or the result is `None` when some text does not parse. |
| GroupHandler.DeleteGroup | backend/pkg/api/group_handler.go:367-417 | An unknown name gives 404. 204 iff the caller created the group, and any other answer changes nothing. On 204 the group goes and its membership rows stay. The notifications kept are exactly those not about the group or its posts and not of the never-matching event kind. One de-notification is sent per accepted member, after the earlier output. |
| GroupHandler.DeleteGroupKeepsEventNotes | backend/pkg/db/queries/group_db.go:203-206 | An `event_creation` notification about an event of the group survives its deletion. |
| GroupHandler.DeleteTwiceIsNotFound | backend/pkg/api/group_handler.go:367-417 | When the name is unique, deleting the group a second time gives 404 and changes nothing. |
| GroupHandler.InviteUsers | backend/pkg/api/group_handler.go:420-500 | One invitee with any membership row refuses the whole request with 409. Otherwise every listed user gets a pending row, the outbox gains exactly one invitation per listed user in list order, and the connection registry stays well formed. |
| GroupHandler.InviteThenCancelRestores | backend/pkg/api/group_handler.go:420-748 | Inviting one user and then cancelling that invitation leaves the membership table as it was. |
| GroupHandler.GroupDetails | backend/pkg/api/group_handler.go:208-258 | The group is found by either spelling of its name, together with the caller's status ("" for none). |
| GroupHandler.CancelInvitation | backend/pkg/api/group_handler.go:684-747 | The invitee's pending row goes. When an invitation from the caller is found, the invitee gets a de-notification and every invitation from the caller to the invitee is deleted. |
| GroupHandler.CancelDropsOtherInvitations | backend/pkg/api/group_handler.go:728-741 | Cancelling an invitation to one group also deletes the caller's invitation to another group. |
| GroupHandler.Label | backend/pkg/api/group_handler.go:654-676 | A pending invitee is labelled "Pending", anyone else "Invite". |
| GroupHandler.InvitationList | backend/pkg/api/group_handler.go:625-681 | An unknown group name gives 404 and an empty list. Otherwise 200 with one entry per other user who is not an accepted member, in table order, each labelled "Pending" for a pending row and "Invite" otherwise. |
| GroupHandler.InvitedShowsPending | backend/pkg/api/group_handler.go:625-681 | A user invited to a group they had no row in appears in its invitation list labelled "Pending". |
| GroupHandler.AnswerInvitation | backend/pkg/api/group_handler.go:749-797 | Accept turns the pending row accepted. Decline deletes it. Both retype the invitations to "group". Any other action gives 400 with no change. |
| GroupHandler.AcceptedInvitationJoins | backend/pkg/api/group_handler.go:764-795 | An accepted invitation makes the invitee an accepted member. |
| GroupHandler.AnswerJoinRequest | backend/pkg/api/group_handler.go:503-577 | Non-integer ids give 400. Otherwise the row is accepted or dropped, for any caller and even without a session. Without a session the answer is 500 and no notification changes. With one, 204, and the request notification is retyped to 'group'. |
| GroupHandler.JoinNote | backend/pkg/api/group_handler.go:826-849 | A join request is a `group_join_request` notification for the creator. |
| GroupHandler.JoinRequest | backend/pkg/api/group_handler.go:799-885 | "join" toggles a pending row and always notifies the creator. "unjoin" removes every row of the user and withdraws the request notification. Any other type gives 400. |
| GroupHandler.JoinTwiceNotifiesTwice | backend/pkg/api/group_handler.go:818-849 | Joining twice withdraws the pending row, yet the creator is notified both times. |
| FollowHandler.FollowNote | backend/pkg/api/follow_handler.go:53-118 | The notification is from the caller to the followed user, of type "follow" or "follow_request", with the given content and an empty image, because the caller is read without its avatar. |
| FollowHandler.FollowButton | backend/pkg/api/follow_handler.go:17-122 | Following oneself gives 400. "Following" stores an accepted row and sends one "follow" notification. "Follow" unfollows and deletes the follow notification, with a de-notification only if it was unread. Any other state stores a pending row and sends one "follow_request". |
| FollowHandler.RequestThenUnfollowRestores | backend/pkg/api/follow_handler.go:72-118 | A request followed by an unfollow restores the follow and notification tables. The followed user is sent the notification and then its withdrawal. |
| FollowHandler.WithdrawnIsStored | backend/pkg/api/follow_handler.go:72-98 | The notification the unfollow finds is the one just stored. |
| FollowHandler.AnswerRequest | backend/pkg/api/follow_handler.go:187-240 | Accept sets pending to accepted. Decline deletes the row. Both retype the request to "follow". Any other action gives 400 and changes nothing. |
| FollowHandler.AcceptedRequesterFollows | backend/pkg/api/follow_handler.go:206-239 | Accepting a pending request makes the requester an accepted follower. |
| FollowHandler.Listing | backend/pkg/api/follow_handler.go:123-185 | The user named by the fourth path segment, then one item per user with a row at the other end of an accepted out-edge or in-edge: id, username and the avatar, or "profileImage.png" when it is empty. An unknown name gives 404, and a name whose first row has no birth date gives 500. |
| FollowHandler.ListItem | backend/pkg/db/queries/follow_db.go:184-193 | The item carries the user's id and username, and the avatar unless it is empty, in which case it is "profileImage.png". The image is never empty. |
| FollowHandler.ListingsAreDual | backend/pkg/api/follow_handler.go:123-185 | When a following listing for user a and a followers listing for user b both succeed, b's item is in a's listing iff a's item is in b's. |
| PostHandler.PostNote | backend/pkg/api/post/post_handler.go:84-136 | The "post" notification about the post, from the author to one member of the audience. |
| PostHandler.ViewerRows | backend/pkg/db/queries/post_db.go:35-48 | One viewer row per checked id, for this post. |
| PostHandler.CreatePost | backend/pkg/api/post/post_handler.go:17-143 | An unknown privacy gives 400 before anything is stored. A missing session gives 401. An almost-private post stores each checked id as a viewer. The outbox gains exactly one post notification per checked id, or per accepted follower for any other post, in that order. A malformed viewer list answers 400 with the post already stored. |
| PostHandler.PostNotifiesFollowers | backend/pkg/api/post/post_handler.go:108-138 | A public or private post notifies exactly the author's accepted followers. |
| PostHandler.AlmostPrivateAudience | backend/pkg/api/post/post_handler.go:71-107 | An almost-private post is visible to exactly the listed users besides its author, and they are the ones notified. |
| PostHandler.Posts | backend/pkg/api/post/post_handler.go:145-178 | Without a session 401. Otherwise the caller's feed: the permitted posts, newest first. |
| PostHandler.NewFile | backend/pkg/api/post/post_handler.go:216-234 | `clearFile` empties the file, else an upload replaces it, else it is kept. |
| PostHandler.Rewrite | backend/pkg/db/queries/post_db.go:98-120 | Only the post with the id changes: its privacy and file. |
| PostHandler.UpdatePost | backend/pkg/api/post/post_handler.go:180-259 | A post the caller cannot see is 404. Someone else's visible post is 403. Otherwise the privacy and file are stored, and the viewer set is replaced only for almost-private. |
| PostHandler.UnknownPrivacyHidesPost | backend/pkg/api/post/post_handler.go:210-236 | An update can store a privacy no form offers. The post is then hidden from everyone but its author. |
| PostHandler.Withdraw | backend/pkg/api/post/post_handler.go:288-310 | Every "post" notification the author sent about the post, read or not, is de-notified to its recipient once and deleted. Every other row stays. |
| PostHandler.DeletePost | backend/pkg/api/post/post_handler.go:261-317 | Without a session 401, and a non-integer id 400. 200 iff the post is visible to the caller and is theirs, and any other answer changes nothing. The post then goes and its notifications are withdrawn. |
| PostHandler.DeleteDenotifiesReadNotes | backend/pkg/api/post/post_handler.go:288-310 | A notification already read is still de-notified when its post is deleted. |
| PostHandler.ViewPost | backend/pkg/api/post/post_handler.go:320-389 | An empty id gives 400 and no session 401. A post the caller may not see gives 403. 200 with the post iff the id parses and the caller may see it. |
| PostHandler.UserPosts | backend/pkg/api/post/post_handler.go:392-437 | The named user's page as the profile filter admits it. Every failed user lookup, including a NULL birth date, gives 404 with no posts. A visitor without a session is treated as user 0. |
| PostHandler.CreateGroupPost | backend/pkg/api/post/post_handler.go:440-535 | The post is stored in the named group, and the outbox gains exactly one post notification per accepted member, the author included. |
| PostHandler.GroupPostNotifiesAuthor | backend/pkg/api/post/post_handler.go:504-531 | An author who is an accepted member is notified of their own group post. |
| PostHandler.GroupPosts | backend/pkg/api/post/post_handler.go:538-561 | Every post of the named group whose author has a user row, as the inner join requires, newest first, with no session or membership check. |
| PostHandler.GroupPostsIgnoreVisibility | backend/pkg/db/queries/post_db.go:403-422 | The group page lists a post to someone the permission check keeps it from. |
| CommentHandler.CommentNote | backend/pkg/api/post/comment_handler.go:137-150 | The "comment" notification is about the post, from the commenter to the author. |
| CommentHandler.AddComment | backend/pkg/api/post/comment_handler.go:30-159 | A missing or non-integer post id gives 400, and a non-image attachment stores nothing. Any change appends exactly the new comment. The answer is then 201 iff the post exists, and the author is notified iff the post exists and someone else commented. |
| CommentHandler.OnlyOthersNotify | backend/pkg/api/post/comment_handler.go:137-150 | Commenting on one's own post notifies nobody. Anyone else's comment reaches the author. |
| CommentHandler.Edit | backend/pkg/db/queries/comment_db.go:96-103 | Only the comment with the id changes its content and file. |
| CommentHandler.UpdateComment | backend/pkg/api/post/comment_handler.go:200-216 | The comment named in the body is rewritten with no session or ownership check. |
| CommentHandler.AnyoneCanEditAnyComment | backend/pkg/api/post/comment_handler.go:200-216 | Any request, with or without a session, can rewrite another user's comment. |
| ReactionHandler.ReactionNote | backend/pkg/api/reaction_handler.go:61-94 | The "reaction" notification is about the post, from the reactor to the owner. |
| ReactionHandler.NotifyOwner | backend/pkg/api/reaction_handler.go:55-115 | Own posts give no notification. An added or changed reaction replaces the prior one with a new, pushed notification. A removal deletes it and de-notifies if unread. |
| ReactionHandler.React | backend/pkg/api/reaction_handler.go:15-149 | Non-POST gives 405. Not exactly one target gives 400. A comment reaction is stored and then fails with 500. A post reaction answers with the new counts and the caller's reaction. |
| ReactionHandler.CommentReactionStoredThenFails | backend/pkg/api/reaction_handler.go:45-53 | A reaction on a comment is stored, yet the request always fails. |
| ReactionHandler.ChangedReactionReplacesNotification | backend/pkg/api/reaction_handler.go:61-94 | Reacting and then changing the reaction leaves the owner one reaction notification from the caller, the newer one. |
| EventHandler.FormError | backend/pkg/api/event_handler.go:30-45 | No error iff the title has at most 50 characters, the description at most 500, neither is empty and the date is set. |
| EventHandler.EventNote | backend/pkg/api/event_handler.go:81-95 | Each invitation is addressed to its member, has type `event_creation`, carries the event id as object id and the group name as object. |
| EventHandler.Invitees | backend/pkg/api/event_handler.go:81-106 | Exactly the accepted members other than the creator. |
| EventHandler.CreateEvent | backend/pkg/api/event_handler.go:21-109 | A bad form gives 400 with no change. 201 iff the form is good, the caller is known and the group name resolves. The event is then appended, and every accepted member other than the creator gets exactly one `event_creation` notification. |
| EventHandler.CreatorIsNotInvited | backend/pkg/api/event_handler.go:81-106 | The creator never receives the invitation, and every other accepted member does. |
| EventHandler.Respond | backend/pkg/api/event_handler.go:142-191 | No answer gives 400 and no session 401. 200 iff the event id is an integer, whether or not the event exists. The caller's answer then replaces any earlier one, and nothing else changes. |
| EventHandler.LastAnswerWins | backend/pkg/db/queries/event_db.go:103-111 | Answering twice keeps only the second answer. |
| EventHandler.ResponsesTo | backend/pkg/api/event_handler.go:193-209 | Exactly the answers to the event, by user. |
| UserHandler.Users | backend/pkg/api/user_handler.go:21-39 | Without a session the nil user is dereferenced and the answer is 500. Otherwise one item per other user, in table order, with the default avatar for an empty one and a zero post count. |
| UserHandler.UsersListsNewUserLast | backend/pkg/api/user_handler.go:21-39 | A user appended to the table appears last in everyone else's listing and not in their own. |
| UserHandler.Profiles | backend/pkg/api/user_handler.go:41-113 | A path with fewer than 4 pieces gives 400, an unknown name 404, and a name whose first row has no birth date 500. Otherwise 200 with the named user, their accepted follower and following counts, their unread count, and a post count equal to the number of posts they wrote. `isOwner` holds iff the profile id is the requester's, a visitor counting as id 0. |
| UserHandler.RoutedPathNamesUser | backend/cmd/server/main.go:37 | Every path the "/api/user/" route receives has a fourth piece, so the 400 answer is unreachable. |
| UserHandler.VisitorOwnsNothing | backend/pkg/api/user_handler.go:86-100 | A visitor without a session never owns a stored user's profile. |
| UserHandler.NewAvatar | backend/pkg/api/user_handler.go:157-178 | An upload wins, then a deletion request gives "", else the current avatar stays. |
| UserHandler.UpdateUser | backend/pkg/api/user_handler.go:131-207 | Without a session 401 with no change. Otherwise 200, and only the caller's row changes: first name, last name, nickname, birth date, about text, visibility and avatar follow the form, while id, password, username and e-mail are kept. |
| UserHandler.DeletedAvatarBecomesDefault | backend/pkg/api/user_handler.go:167-176 | Deleting the avatar with no new upload stores the default image. |
| UserHandler.PasswordIsNeverStored | backend/pkg/api/user_handler.go:181-190 | Whatever password the form carries, the stored table is the same. |
| UserHandler.TopEngaged | backend/pkg/api/user_handler.go:210-220 | The first three users, or all when fewer, of the ranking by post count, sorted most active first. |
| AuthHandler.Lookup | backend/pkg/db/queries/user_db.go:10-17 | A user whose e-mail or username is the identifier. Nothing when no user matches, or when the first match has a NULL birth date. |
| AuthHandler.Login | backend/pkg/api/auth_handler.go:16-84 | No body gives 400. An unknown identifier and a wrong password both give 401, and a wrong password still leaves the user with no session. A right password gives 200 and exactly one live session. Other users' sessions are unchanged. |
| AuthHandler.WrongPasswordSignsOut | backend/pkg/api/auth_handler.go:50-59 | A failed login with someone's identifier ends all of that user's sessions. |
| AuthHandler.Register | backend/pkg/api/auth_handler.go:86-166 | 200 iff the server's user checks pass. The new public row with the hashed password and birth date is then appended, with a live session for it. Otherwise 400 with no change. |
| AuthHandler.RegisterKeepsIdentifiersUnique | backend/pkg/api/auth_handler.go:123-132 | A new account cannot take an e-mail or username already in the table. |
| AuthHandler.Logout | backend/pkg/api/auth_handler.go:168-190 | Without a cookie, 400 with no change. Otherwise the cookie's session is no longer live, and every other session is kept. |
| AuthHandler.CheckSession | backend/pkg/api/auth_handler.go:204-262 | Anything but GET gives 405. A user comes back iff the cookie names a live session of an existing user with a birth date, and it is that session's user. |
| AuthHandler.LoginThenCheckFindsUser | backend/pkg/api/auth_handler.go:204-262 | Right after a successful login, the session check finds the user. |

## Left out

- Concurrency: goroutines, channel blocking, the hub goroutine and unsynchronised reads of the registry are modelled as one sequential state machine. Races are not modelled.
- SQL engine details: unique constraints, type affinity, foreign-key cascades and migrations are not modelled. Tables are sequences of rows in rowid order, and `LIMIT 1` without `ORDER BY` reads the first row.
- Database errors other than those the handlers branch on, and JSON encoding and decoding, are not modelled. A parse is a parameter or an `Option`.
- bcrypt, `uuid.NewV4`, fresh row ids and the clock are parameters, not computations.
- File storage (`SaveFile`, the attachment copy, `GetImageHandler`) is not modelled. Image sniffing by `http.DetectContentType` is a boolean field of an upload.
- The age checks of the server and the sign-up form use floating point. Their outcomes are parameters.
- `toLowerCase` is modelled on ASCII letters only. Other characters are left unchanged.
- A Go string's byte length is modelled as its character count. This agrees on ASCII input. The client's JavaScript lengths are UTF-16 code units and are modelled as such by `Text.Utf16Length`.
- URL unescaping and `encodeURIComponent` are parameters.
- CORS, OPTIONS preflight, form-parse failures and cookie attributes are not modelled.
- React scheduling and the 4-second toast timer are not modelled. The hide is an explicit event.
- `notification_handler.go` is not modelled: it only forwards to the notification queries, which are.
- `GetEventsHandler`, `GetCommentsHandler` and `GetAvailableReactionsHandler` are plain listings and are not modelled.
- Reaction counts attached to post listings are not modelled.
- A post's title and content, and the event and comment CRUD queries beyond the update and respond calls the handlers make, are not modelled.
- The swap of `object` and `object_id` through `NULLIF` in `CreateNotification` is not modelled. A notification is stored with every column the INSERT names, and without its image, which the INSERT leaves out.
- PostHandler.CreatePost: the rows `GetFollowers` returns are a parameter whose members must be the accepted followers; their order is not derived from the table.
- UserHandler.UpdateUser: the avatar file copy and the password hashing are parameters.
- EventHandler.Respond: the replacement of an earlier answer assumes the unique constraint on (event, user) that `INSERT OR REPLACE` relies on. The schema is not part of this model.
- ChatFold.AllChatsAsWritten: the group branch's group lookups are not modelled. Only the direct branch's user lookups can fail.
- PostHandler.CreateGroupPost: `GetGroupMembersAsUsers` (group_db.go:376-383) skips a member whose user row is missing. The group world has no users table, so every accepted member id is notified.
- GroupHandler.DeleteGroup: the same skip in `GetGroupMembersAsUsers` is not modelled. Every accepted member id is sent a de-notification.
- EventHandler.CreateEvent: the same skip in `GetGroupMembersAsUsers` is not modelled. Every accepted member id other than the creator is invited.
- ChatFold.LastChats: the lookups of the last-message query (`GetGroupData`, `GetUserItemByID` for a sender outside the group, the unread counts) and the errors they can raise are not modelled. The function is the fold over rows whose lookups succeed.
- ChatHandler.SendMessage: `GetGroupMembersAsUsers` skips a member whose user row is missing. The chat world has no users table, so every accepted member id is a recipient.
- ChatFold: the rows the two chat-list queries select (their WHERE clauses, chat_db.go:157-159 and 255-257) are a parameter, not derived from the messages table.
- ReactionStore: the table is a map keyed on (user, target). This assumes the unique index that the `ON CONFLICT` clause of reactions_db.go:51-54 needs. The schema is not part of this model.
- FollowHandler.Listing: the items are a set. The follows table is a map, so the order in which SQLite returns the rows is not modelled.
- NotificationBell.OnBatch: on a failing batch, the recount fetch issued before the throw is not recorded among the effects.
- EventHandler.ResponsesTo: only the answer per user is modelled, not the username and avatar columns of the response rows.
- ChatHandler.GroupSendReachesMembers: requires the accepted member ids to be duplicate-free, which the schema's unique constraint would give.
- AuthHandler.Register: the date parse is a parameter that requires a non-empty birth date. The session cookie is not modelled.
- Validation.ValidateForm: the age check is a boolean parameter, as it relies on floating point.

## Findings

| source | as written | input that shows it | evidently intended | confidence | as-written member | corrected member |
|---|---|---|---|---|---|---|
| frontend/app/home/DM/directMessages.tsx:151-160 | `handleChatClick(i)` indexes the full conversation list, but each row passes its position in the search-filtered list | conversations "a" and "b" (3 unread), query "b": clicking the only row clears and marks read "a" | clear and mark read the conversation whose row was clicked | not executed | ConversationList.ClickVisibleAsWrittenClearsWrongConversation | ConversationList.ClickVisible |
| frontend/app/chat/chatMessages.tsx:42-48 | every match calls `setRealTimeMessages([...realTimeMessages, payload])` on the array captured when the effect started, so the last call wins | a batch holding two messages of the open conversation: only the second is shown | append every matching message | not executed | LiveTranscript.OnBatchDropsEarlierMatch | LiveTranscript.OnBatchAppendAll |
| backend/pkg/db/queries/chat_db.go:214-233 | the direct branch of `GetAllChatQuery` parses the receiver id from the group column, which is NULL for a direct message, so it reads 0 and then looks up user 0, which fails the whole query | a history holding one message user 1 sent to user 2: the full query fails | read the receiver column, as `GetLastMessageOfAllChatQuery` does | not executed | ChatFold.SentMessageBreaksFullQuery | ChatFold.LastChats | backend/pkg/db/queries/chat_db.go:255-349 | One conversation per group or peer, in the order of its newest row, each holding only that newest message. |
| ChatFold.LastChatsAreHeadsOfAllChats |
| backend/pkg/db/queries/group_db.go:203-206 | deleting a group removes notifications of type 'event' whose object id is the group id, but event notifications have type 'event_creation' and carry the event id | a group with one event: its `event_creation` notification survives the deletion | delete the notifications of the group's events | not executed | GroupDeletion.EventNotificationSurvives | GroupDeletion.Delete |
| backend/cmd/server/main.go:115 | the remove-members route is registered without the authentication middleware, while the handler reads the user from the request context | any request to remove members, even by the creator: the context holds no user, so it fails | register the route behind the middleware like the other group routes | not executed | GroupHandler.RemoveMembersRouteNeverSucceeds | GroupHandler.RemoveMembersRouteLetsCreatorIn |

=== FILE: atoi.dfy ===
/** Go's `strconv.Atoi` on a 64-bit platform, and decimal rendering of integers. */
module Atoi {
  import opened Wrappers

  const MaxInt64 := 0x7FFF_FFFF_FFFF_FFFF
  const MinInt64 := -0x8000_0000_0000_0000

  predicate IsDigit(c: char) {
    '0' <= c <= '9'
  }

  predicate AllDigits(s: string) {
    forall i :: 0 <= i < |s| ==> IsDigit(s[i])
  }

  /** The value of a run of decimal digits. */
  function Value(s: string): (n: nat)
    requires AllDigits(s)
  {
    if |s| == 0 then 0 else Value(s[..|s| - 1]) * 10 + (s[|s| - 1] as int - '0' as int)
  }

  /**
   * An optional '+' or '-' followed by at least one digit, within the 64-bit
   * range; anything else is an error (`None`).
   */
  function Atoi(s: string): (r: Option<int>)
    ensures r.Some? ==> MinInt64 <= r.value <= MaxInt64
    ensures |s| == 0 ==> r.None?
    ensures r.Some? ==> |s| > 0 && (IsDigit(s[0]) || s[0] == '+' || s[0] == '-')
  {
    var neg := |s| > 0 && s[0] == '-';
    var digits := if |s| > 0 && (s[0] == '+' || s[0] == '-') then s[1..] else s;
    if |digits| == 0 || !AllDigits(digits) then None
    else
      var v: int := Value(digits);
      var n := if neg then 0 - v else v;
      if MinInt64 <= n <= MaxInt64 then Some(n) else None
  }

  function DigitChar(d: nat): (c: char)
    requires d < 10
    ensures IsDigit(c) && c as int - '0' as int == d
  {
    ('0' as int + d) as char
  }

  /** `strconv.Itoa` for non-negative numbers. */
  function Show(n: nat): (s: string)
    ensures |s| > 0 && AllDigits(s)
  {
    if n < 10 then [DigitChar(n)] else Show(n / 10) + [DigitChar(n % 10)]
  }

  lemma {:induction false} ValueOfShow(n: nat)
    ensures Value(Show(n)) == n
  {
    if n >= 10 {
      ValueOfShow(n / 10);
      var s := Show(n);
      assert s[..|s| - 1] == Show(n / 10);
    }
  }

  /** Rendering a number in range and parsing it back gives the number. */
  lemma AtoiOfShow(n: nat)
    requires n <= MaxInt64
    ensures Atoi(Show(n)) == Some(n)
  {
    ValueOfShow(n);
  }

  /** `strconv.Itoa`: decimal text with a leading '-' for negative numbers. */
  function Text(n: int): (s: string)
    ensures |s| > 0
  {
    if n >= 0 then Show(n) else "-" + Show(-n)
  }

  /** Every 64-bit number, the most negative one included, reads back from its text. */
  lemma AtoiOfText(n: int)
    requires MinInt64 <= n <= MaxInt64
    ensures Atoi(Text(n)) == Some(n)
  {
    if n >= 0 {
      AtoiOfShow(n);
    } else {
      ValueOfShow(-n);
      var s := Text(n);
      assert s[0] == '-' && s[1..] == Show(-n);
    }
  }

  /** A non-numeric `userID` such as "abc" does not parse. */
  lemma AtoiRejectsLetters()
    ensures Atoi("abc").None? && Atoi("").None? && Atoi("-").None?
  {
    assert !IsDigit("abc"[0]);
  }
}

=== FILE: auth_handler.dfy ===
/**
 * Signing in and out (auth_handler.go): login, registration, logout and the
 * session check. Password hashing and comparison are given as parameters
 * (bcrypt salts at random); the fresh session id and the clock are
 * parameters too.
 */
module AuthHandler {
  import opened Wrappers
  import Http
  import SessionStore
  import UserStore
  import Validation

  datatype World = World(users: seq<UserStore.User>, sessions: SessionStore.Sessions)

  /** The first user, in row order, whose e-mail or username is the identifier. */
  function FirstMatch(users: seq<UserStore.User>, ident: string): (r: Option<UserStore.User>)
    ensures r.None? <==> forall u :: u in users ==> u.email != ident && u.username != ident
    ensures r.Some? ==> r.value in users && (r.value.email == ident || r.value.username == ident)
  {
    if |users| == 0 then None
    else if users[0].email == ident || users[0].username == ident then Some(users[0])
    else FirstMatch(users[1..], ident)
  }

  /**
   * `GetUserByEmailOrUsername`: the first matching row. A NULL birth date
   * cannot be scanned into the string field, so such a row is an error too.
   */
  function Lookup(users: seq<UserStore.User>, ident: string): (r: Option<UserStore.User>)
    ensures r.Some? ==> r.value in users && (r.value.email == ident || r.value.username == ident) && r.value.dateOfBirth.Some?
    ensures r.None? <==> FirstMatch(users, ident).None? || FirstMatch(users, ident).value.dateOfBirth.None?
  {
    match FirstMatch(users, ident)
    case None => None
    case Some(u) => if u.dateOfBirth.None? then None else Some(u)
  }

  /**
   * `LoginHandler` (no middleware). `matches(hash, password)` stands for
   * `bcrypt.CompareHashAndPassword` succeeding. The user's sessions are all
   * removed before the password is compared, so a wrong password still
   * signs that user out everywhere; unknown user and wrong password give the
   * same 401.
   */
  function Login(w: World, httpMethod: string, body: Option<(string, string)>, matches: (string, string) -> bool,
                 sid: string, now: int): (r: (int, World))
    ensures httpMethod == "OPTIONS" ==> r == (Http.Ok, w)
    ensures httpMethod != "OPTIONS" && body.None? ==> r == (Http.BadRequest, w)
    ensures httpMethod != "OPTIONS" && body.Some? && Lookup(w.users, body.value.0).None? ==> r == (Http.Unauthorized, w)
    ensures r.1.users == w.users
    ensures httpMethod != "OPTIONS" && body.Some? && Lookup(w.users, body.value.0).Some? ==>
              var u := Lookup(w.users, body.value.0).value;
              (r.0 == Http.Ok <==> matches(u.password, body.value.1))
              && (r.0 != Http.Ok ==> r.0 == Http.Unauthorized && SessionStore.SessionsOf(r.1.sessions, u.id) == {})
              && (r.0 == Http.Ok ==> SessionStore.SessionsOf(r.1.sessions, u.id) == {sid}
                                     && SessionStore.Live(r.1.sessions, sid, now))
              && forall s :: s in w.sessions && s != sid && w.sessions[s].userId != u.id ==>
                               s in r.1.sessions && r.1.sessions[s] == w.sessions[s]
  {
    if httpMethod == "OPTIONS" then (Http.Ok, w)
    else match body
      case None => (Http.BadRequest, w)
      case Some((ident, password)) =>
        match Lookup(w.users, ident)
        case None => (Http.Unauthorized, w)
        case Some(u) =>
          var cleared := SessionStore.RemoveUser(w.sessions, u.id);
          if !matches(u.password, password) then (Http.Unauthorized, w.(sessions := cleared))
          else
            SessionStore.RemoveThenCreateLeavesOne(w.sessions, sid, u.id, now);
            (Http.Ok, w.(sessions := SessionStore.Create(cleared, sid, u.id, now)))
  }

  /** A failed login by someone else's identifier ends every session of that user: the sign-out is observable. */
  lemma WrongPasswordSignsOut(w: World, ident: string, password: string, matches: (string, string) -> bool,
                              sid: string, now: int, s: string)
    requires Lookup(w.users, ident).Some?
    requires !matches(Lookup(w.users, ident).value.password, password)
    requires s in w.sessions && w.sessions[s].userId == Lookup(w.users, ident).value.id
    ensures var r := Login(w, "POST", Some((ident, password)), matches, sid, now);
            r.0 == Http.Unauthorized && !SessionStore.Live(r.1.sessions, s, now)
  {
    var r := Login(w, "POST", Some((ident, password)), matches, sid, now);
    assert s !in SessionStore.SessionsOf(r.1.sessions, Lookup(w.users, ident).value.id);
  }

  function Emails(users: seq<UserStore.User>): (r: set<string>)
    ensures forall e :: e in r <==> exists u :: u in users && u.email == e
  {
    set u | u in users :: u.email
  }

  function Usernames(users: seq<UserStore.User>): (r: set<string>)
    ensures forall n :: n in r <==> exists u :: u in users && u.username == n
  {
    set u | u in users :: u.username
  }

  /**
   * `RegisterHandler` (no middleware), after the form is parsed and the
   * avatar saved (`avatar` is the saved name, or empty). `hashed` is the
   * bcrypt hash of the password; `dateParses` is the outcome of parsing the
   * birth date as YYYY-MM-DD, which an empty string never passes. A rejected form answers 400; an accepted
   * one adds the user and signs them in.
   */
  function Register(w: World, u: Validation.Signup, hashed: string, aboutMe: string, avatar: string,
                    dateParses: bool, ofAge: bool, freshId: int, sid: string, now: int): (r: (int, World))
    requires dateParses ==> u.dateOfBirth != ""
    ensures r.0 == Http.Ok <==> Validation.ValidateUser(u, Emails(w.users), Usernames(w.users), dateParses, ofAge).None?
    ensures r.0 != Http.Ok ==> r == (Http.BadRequest, w)
    ensures r.0 == Http.Ok ==>
              |r.1.users| == |w.users| + 1 && r.1.users[..|w.users|] == w.users
              && var row := r.1.users[|w.users|];
                 row.id == freshId && row.username == u.username && row.email == u.email && row.password == hashed
                 && row.isPublic && row.dateOfBirth == Some(u.dateOfBirth)
                 && SessionStore.Live(r.1.sessions, sid, now) && r.1.sessions[sid].userId == freshId
  {
    match Validation.Register(u, Emails(w.users), Usernames(w.users), dateParses, ofAge)
    case Rejected(_) => (Http.BadRequest, w)
    case Created =>
      Validation.UsernameCheckIsRedundant(u, Emails(w.users), Usernames(w.users), dateParses, ofAge);
      var form := UserStore.Form(u.username, u.email, hashed, u.firstName, u.lastName, u.nickname, u.dateOfBirth,
                                 aboutMe, avatar, false);
      var (users, id) := UserStore.Create(w.users, form, freshId);
      (Http.Ok, World(users, SessionStore.Create(w.sessions, sid, id, now)))
  }

  /** A new account cannot take an e-mail or username already in the table. */
  lemma RegisterKeepsIdentifiersUnique(w: World, u: Validation.Signup, hashed: string, aboutMe: string, avatar: string,
                                       dateParses: bool, ofAge: bool, freshId: int, sid: string, now: int, v: UserStore.User)
    requires dateParses ==> u.dateOfBirth != ""
    requires Register(w, u, hashed, aboutMe, avatar, dateParses, ofAge, freshId, sid, now).0 == Http.Ok
    requires v in w.users
    ensures v.email != u.email && v.username != u.username
  {
    assert v.email in Emails(w.users) && v.username in Usernames(w.users);
  }

  /** `LogoutHandler` (no middleware): without a cookie 400, else the session is deleted. */
  function Logout(w: World, cookie: Option<string>, now: int): (r: (int, World))
    ensures cookie.None? ==> r == (Http.BadRequest, w)
    ensures cookie.Some? ==> r.0 == Http.Ok && r.1.users == w.users && !SessionStore.Live(r.1.sessions, cookie.value, now)
    ensures cookie.Some? ==> forall s :: s != cookie.value ==> (s in r.1.sessions <==> s in w.sessions)
  {
    match cookie
    case None => (Http.BadRequest, w)
    case Some(id) => (Http.Ok, w.(sessions := SessionStore.Delete(w.sessions, id)))
  }

  /** The first row with the id. */
  function ById(users: seq<UserStore.User>, id: int): (r: Option<UserStore.User>)
    ensures r.None? <==> forall u :: u in users ==> u.id != id
    ensures r.Some? ==> r.value in users && r.value.id == id
  {
    if |users| == 0 then None
    else if users[0].id == id then Some(users[0])
    else ById(users[1..], id)
  }

  function Ids(users: seq<UserStore.User>): (r: set<int>)
    ensures forall id :: id in r <==> exists u :: u in users && u.id == id
  {
    set u | u in users :: u.id
  }

  /**
   * `CheckSessionHandler` (no middleware): 405 for anything but GET; no
   * cookie, an unknown or expired session, or a session whose user is gone
   * all answer "not logged in"; a user row with a NULL birth date fails the
   * scan (500).
   */
  function CheckSession(w: World, httpMethod: string, cookie: Option<string>, now: int): (r: (int, Option<UserStore.User>))
    ensures httpMethod != "GET" ==> r == (Http.MethodNotAllowed, None)
    ensures r.1.Some? ==> r.0 == Http.Ok
    ensures httpMethod == "GET" ==>
              (r.1.Some? <==> cookie.Some? && SessionStore.SessionUser(w.sessions, Ids(w.users), cookie.value, now).Some?
                              && ById(w.users, w.sessions[cookie.value].userId).value.dateOfBirth.Some?)
    ensures r.1.Some? ==> r.1.value in w.users && r.1.value.id == w.sessions[cookie.value].userId
  {
    if httpMethod != "GET" then (Http.MethodNotAllowed, None)
    else match cookie
      case None => (Http.Ok, None)
      case Some(id) =>
        match SessionStore.SessionUser(w.sessions, Ids(w.users), id, now)
        case None => (Http.Ok, None)
        case Some(uid) =>
          match ById(w.users, uid)
          case None => assert false; (Http.Ok, None)
          case Some(u) => if u.dateOfBirth.None? then (Http.ServerError, None) else (Http.Ok, Some(u))
  }

  /** Right after a successful login, the session check finds the user. */
  lemma LoginThenCheckFindsUser(w: World, ident: string, password: string, matches: (string, string) -> bool,
                                sid: string, now: int)
    requires Lookup(w.users, ident).Some? && matches(Lookup(w.users, ident).value.password, password)
    requires forall a, b :: a in w.users && b in w.users && a.id == b.id ==> a == b
    ensures var r := Login(w, "POST", Some((ident, password)), matches, sid, now);
            CheckSession(r.1, "GET", Some(sid), now) == (Http.Ok, Some(Lookup(w.users, ident).value))
  {
    var u := Lookup(w.users, ident).value;
    var r := Login(w, "POST", Some((ident, password)), matches, sid, now);
    assert sid in SessionStore.SessionsOf(r.1.sessions, u.id);
    assert u.id in Ids(r.1.users);
  }
}

=== FILE: char_class.dfy ===
/**
 * The character classes and the e-mail pattern shared by the signup form and
 * the server's validators: `[a-zA-Z0-9_-]+` for names and
 * `[a-zA-Z0-9._%+-]+@[a-zA-Z0-9.-]+\.[a-zA-Z]{2,4}` for e-mail addresses.
 */
module CharClass {

  predicate IsLetter(c: char) {
    'a' <= c <= 'z' || 'A' <= c <= 'Z'
  }

  predicate IsAlnum(c: char) {
    IsLetter(c) || '0' <= c <= '9'
  }

  /** `[a-zA-Z0-9_-]` */
  predicate IsNameChar(c: char) {
    IsAlnum(c) || c == '_' || c == '-'
  }

  /** `[a-zA-Z0-9._%+-]`, the local part of an address. */
  predicate IsLocalChar(c: char) {
    IsAlnum(c) || c == '.' || c == '_' || c == '%' || c == '+' || c == '-'
  }

  /** `[a-zA-Z0-9.-]`, the domain of an address. */
  predicate IsDomainChar(c: char) {
    IsAlnum(c) || c == '.' || c == '-'
  }

  predicate All(s: string, p: char -> bool) {
    forall i :: 0 <= i < |s| ==> p(s[i])
  }

  /** `^[a-zA-Z0-9_-]+$` */
  predicate IsName(s: string) {
    |s| > 0 && All(s, IsNameChar)
  }

  /**
   * The e-mail pattern read as a regular expression: some '@' at `at` and some
   * '.' at `dot` split the address into local part, domain and a 2 to 4 letter
   * ending, each over its class.
   */
  predicate EmailSplitsAt(s: string, at: int, dot: int) {
    0 < at && at + 1 < dot && dot < |s|
    && s[at] == '@' && s[dot] == '.'
    && All(s[..at], IsLocalChar) && All(s[at + 1..dot], IsDomainChar)
    && 2 <= |s| - dot - 1 <= 4 && All(s[dot + 1..], IsLetter)
  }

  predicate EmailPattern(s: string) {
    exists at, dot :: 0 < at < dot < |s| && EmailSplitsAt(s, at, dot)
  }

  function Count(s: string, c: char): (n: nat)
    ensures n == 0 <==> c !in s
  {
    if |s| == 0 then 0 else (if s[0] == c then 1 else 0) + Count(s[1..], c)
  }

  /** The first position of `c`, or `|s|`. */
  function First(s: string, c: char): (i: nat)
    ensures i <= |s| && (i < |s| ==> s[i] == c) && c !in s[..i]
    ensures i == |s| <==> c !in s
  {
    if |s| == 0 then 0 else if s[0] == c then 0 else 1 + First(s[1..], c)
  }

  /** The last position of `c`, or `|s|` when there is none. */
  function Last(s: string, c: char): (i: nat)
    ensures i <= |s| && (i < |s| ==> s[i] == c && c !in s[i + 1..])
    ensures i == |s| <==> c !in s
  {
    if |s| == 0 then 0
    else if s[|s| - 1] == c then |s| - 1
    else
      var j := Last(s[..|s| - 1], c);
      if j == |s| - 1 then |s| else (assert s[j + 1..] == s[..|s| - 1][j + 1..] + [s[|s| - 1]]; j)
  }

  /**
   * The same pattern stated directly: exactly one '@'; a non-empty local part;
   * after the '@', the text after the last '.' is 2 to 4 letters and the text
   * before it is a non-empty domain.
   */
  predicate EmailShape(s: string) {
    Count(s, '@') == 1
    && var at := First(s, '@');
       at > 0 && All(s[..at], IsLocalChar) && DomainShape(s[at + 1..])
  }

  /** What follows the '@': a non-empty domain, a last '.', then 2 to 4 letters. */
  predicate DomainShape(rest: string) {
    var dot := Last(rest, '.');
    dot < |rest| && dot > 0 && All(rest[..dot], IsDomainChar)
    && 2 <= |rest| - dot - 1 <= 4 && All(rest[dot + 1..], IsLetter)
  }

  lemma CountZero(s: string, c: char)
    requires forall i :: 0 <= i < |s| ==> s[i] != c
    ensures Count(s, c) == 0
  {
  }

  lemma {:induction false} CountConcat(a: string, b: string, c: char)
    ensures Count(a + b, c) == Count(a, c) + Count(b, c)
  {
    if |a| > 0 {
      assert (a + b)[1..] == a[1..] + b;
      CountConcat(a[1..], b, c);
    } else {
      assert a + b == b;
    }
  }

  /** `First` finds the position of the only earlier-free occurrence. */
  lemma FirstAt(s: string, c: char, i: nat)
    requires i < |s| && s[i] == c && c !in s[..i]
    ensures First(s, c) == i
  {
    var f := First(s, c);
    assert forall k :: 0 <= k < i ==> s[k] == s[..i][k];
    assert forall k :: 0 <= k < f ==> s[k] == s[..f][k];
  }

  lemma LastAt(s: string, c: char, i: nat)
    requires i < |s| && s[i] == c && c !in s[i + 1..]
    ensures Last(s, c) == i
  {
    var l := Last(s, c);
    assert forall k :: i < k < |s| ==> s[k] == s[i + 1..][k - i - 1];
    assert forall k :: l < k < |s| ==> s[k] == s[l + 1..][k - l - 1];
  }

  lemma NoAtAfter(s: string, at: int, dot: int)
    requires EmailSplitsAt(s, at, dot)
    ensures '@' !in s[at + 1..]
  {
    var rest := s[at + 1..];
    forall i | 0 <= i < |rest|
      ensures rest[i] != '@'
    {
      if at + 1 + i < dot {
        assert rest[i] == s[at + 1..dot][i];
      } else if at + 1 + i > dot {
        assert rest[i] == s[dot + 1..][at + i - dot];
      }
    }
  }

  lemma PatternAtIsOnlyAt(s: string, at: int, dot: int)
    requires EmailSplitsAt(s, at, dot)
    ensures Count(s, '@') == 1 && First(s, '@') == at
  {
    var rest := s[at + 1..];
    assert s == s[..at] + [s[at]] + rest;
    assert '@' !in s[..at];
    CountZero(s[..at], '@');
    NoAtAfter(s, at, dot);
    CountZero(rest, '@');
    CountConcat(s[..at] + [s[at]], rest, '@');
    CountConcat(s[..at], [s[at]], '@');
    FirstAt(s, '@', at);
  }

  lemma PatternDotIsLastDot(s: string, at: int, dot: int)
    requires EmailSplitsAt(s, at, dot)
    ensures Last(s[at + 1..], '.') == dot - at - 1
  {
    var rest := s[at + 1..];
    var d := dot - at - 1;
    assert rest[d] == '.';
    assert rest[d + 1..] == s[dot + 1..];
    assert '.' !in s[dot + 1..];
    LastAt(rest, '.', d);
  }

  lemma PatternImpliesShape(s: string, at: int, dot: int)
    requires EmailSplitsAt(s, at, dot)
    ensures EmailShape(s)
  {
    PatternAtIsOnlyAt(s, at, dot);
    PatternDomainShape(s, at, dot);
  }

  lemma PatternDomainShape(s: string, at: int, dot: int)
    requires EmailSplitsAt(s, at, dot)
    ensures DomainShape(s[at + 1..])
  {
    PatternDotIsLastDot(s, at, dot);
    var rest := s[at + 1..];
    var d := dot - at - 1;
    assert rest[..d] == s[at + 1..dot];
    assert rest[d + 1..] == s[dot + 1..];
  }

  lemma ShapeImpliesPattern(s: string)
    requires EmailShape(s)
    ensures EmailSplitsAt(s, First(s, '@'), First(s, '@') + 1 + Last(s[First(s, '@') + 1..], '.'))
  {
    var at := First(s, '@');
    var rest := s[at + 1..];
    var d := Last(rest, '.');
    var dot := at + 1 + d;
    assert DomainShape(rest);
    assert rest[..d] == s[at + 1..dot];
    assert rest[d + 1..] == s[dot + 1..];
  }

  /** The direct statement is the pattern: each accepts exactly what the other does. */
  lemma EmailShapeIsPattern(s: string)
    ensures EmailShape(s) <==> EmailPattern(s)
  {
    if EmailPattern(s) {
      var at, dot :| 0 < at < dot < |s| && EmailSplitsAt(s, at, dot);
      PatternImpliesShape(s, at, dot);
    }
    if EmailShape(s) {
      ShapeImpliesPattern(s);
    }
  }
}

=== FILE: chat_fold.dfy ===
/**
 * The conversation-list queries of chat_db.go: `GetAllChatQuery` and
 * `GetLastMessageOfAllChatQuery` walk the user's message rows, newest first,
 * and group them into one conversation per peer and per group. The conversation
 * headers (user and group records, unread counts) come from other queries and
 * are not part of the fold; a conversation here is its key and its messages.
 */
module ChatFold {
  import opened Wrappers
  import opened Model
  import Atoi

  /** A `messages` row; `None` is SQL NULL. */
  datatype Row = Row(id: int, senderId: int, receiverId: Option<int>, groupId: Option<int>, content: string, createdAt: int)

  /**
   * A nullable id column scanned into bytes and read back with `strconv.Atoi`,
   * the error discarded: NULL scans to no bytes, which does not parse, so 0.
   */
  function ScanInt(c: Option<int>): (r: int)
    ensures c.None? ==> r == 0
    ensures c.Some? && Atoi.MinInt64 < c.value <= Atoi.MaxInt64 ==> r == c.value
  {
    match c
    case None =>
      Atoi.AtoiRejectsLetters();
      Atoi.Atoi("").GetOr(0)
    case Some(v) =>
      if Atoi.MinInt64 < v <= Atoi.MaxInt64 then Atoi.AtoiOfText(v); Atoi.Atoi(Atoi.Text(v)).GetOr(0)
      else Atoi.Atoi(Atoi.Text(v)).GetOr(0)
  }

  datatype Key = Peer(userId: int) | Room(groupId: int)

  datatype Conv = Conv(key: Key, messages: seq<ChatMessage>)

  type Item = (Key, ChatMessage)

  /** The peer of a direct message: the receiver when the user sent it, the sender otherwise. */
  function PeerOf(userId: int, m: ChatMessage): (p: int)
    ensures m.senderId == userId ==> p == m.receiverId
    ensures m.senderId != userId ==> p == m.senderId
  {
    if m.senderId == userId then m.receiverId else m.senderId
  }

  /**
   * A row as `GetLastMessageOfAllChatQuery` reads it: a group row keeps its
   * group id, a direct row its receiver id, and the key follows.
   */
  function ItemOf(userId: int, row: Row): (it: Item)
    ensures row.groupId.Some? ==> it.0 == Room(ScanInt(row.groupId)) && it.1.receiverId == 0
    ensures row.groupId.None? ==> it.0 == Peer(PeerOf(userId, it.1)) && it.1.receiverId == ScanInt(row.receiverId)
    ensures it.1.id == row.id && it.1.senderId == row.senderId && it.1.content == row.content
  {
    if row.groupId.Some? then
      (Room(ScanInt(row.groupId)), ChatMessage(row.id, row.senderId, 0, ScanInt(row.groupId), row.content, row.createdAt))
    else
      var m := ChatMessage(row.id, row.senderId, ScanInt(row.receiverId), 0, row.content, row.createdAt);
      (Peer(PeerOf(userId, m)), m)
  }

  /**
   * A row as `GetAllChatQuery` reads it: in the direct branch the receiver id
   * is parsed from the group column, which is NULL there, so it is always 0.
   */
  function ItemOfAsWritten(userId: int, row: Row): (it: Item)
    ensures row.groupId.Some? ==> it == ItemOf(userId, row)
    ensures row.groupId.None? ==> it.1.receiverId == 0 && it.0 == Peer(PeerOf(userId, it.1))
    ensures row.groupId.None? && row.senderId == userId ==> it.0 == Peer(0)
  {
    if row.groupId.Some? then ItemOf(userId, row)
    else
      var m := ChatMessage(row.id, row.senderId, ScanInt(row.groupId), 0, row.content, row.createdAt);
      (Peer(PeerOf(userId, m)), m)
  }

  function Items(userId: int, rows: seq<Row>): (r: seq<Item>)
    ensures |r| == |rows| && forall i :: 0 <= i < |rows| ==> r[i] == ItemOf(userId, rows[i])
  {
    seq(|rows|, i requires 0 <= i < |rows| => ItemOf(userId, rows[i]))
  }

  function ItemsAsWritten(userId: int, rows: seq<Row>): (r: seq<Item>)
    ensures |r| == |rows| && forall i :: 0 <= i < |rows| ==> r[i] == ItemOfAsWritten(userId, rows[i])
  {
    seq(|rows|, i requires 0 <= i < |rows| => ItemOfAsWritten(userId, rows[i]))
  }

  function Keys(convs: seq<Conv>): (r: seq<Key>)
    ensures |r| == |convs| && forall i :: 0 <= i < |convs| ==> r[i] == convs[i].key
  {
    seq(|convs|, i requires 0 <= i < |convs| => convs[i].key)
  }

  predicate Distinct(ks: seq<Key>) {
    forall i, j :: 0 <= i < j < |ks| ==> ks[i] != ks[j]
  }

  /** Reference definition: the keys of the items, each at its first appearance. */
  function FirstKeys(items: seq<Item>): (r: seq<Key>)
    ensures Distinct(r)
    decreases |items|
  {
    if |items| == 0 then []
    else
      var rest := FirstKeys(items[..|items| - 1]);
      var k := items[|items| - 1].0;
      if k in rest then rest else rest + [k]
  }

  /** Reference definition: the messages of the items with key `k`, in item order. */
  function MessagesOf(items: seq<Item>, k: Key): seq<ChatMessage>
    decreases |items|
  {
    if |items| == 0 then []
    else
      var rest := MessagesOf(items[..|items| - 1], k);
      if items[|items| - 1].0 == k then rest + [items[|items| - 1].1] else rest
  }

  lemma {:induction false} FirstKeysHasEveryKey(items: seq<Item>, k: Key)
    ensures k in FirstKeys(items) <==> MessagesOf(items, k) != []
    decreases |items|
  {
    if |items| > 0 {
      FirstKeysHasEveryKey(items[..|items| - 1], k);
    }
  }

  /** Appends `m` to the conversation with key `k`, or opens a new one at the end. */
  function Insert(convs: seq<Conv>, k: Key, m: ChatMessage): (r: seq<Conv>)
    ensures Keys(r) == if k in Keys(convs) then Keys(convs) else Keys(convs) + [k]
    ensures Distinct(Keys(convs)) ==>
              forall i :: 0 <= i < |convs| ==>
                r[i].messages == (if convs[i].key == k then convs[i].messages + [m] else convs[i].messages)
    ensures k !in Keys(convs) ==> r[|convs|] == Conv(k, [m])
    decreases |convs|
  {
    if |convs| == 0 then [Conv(k, [m])]
    else if convs[0].key == k then [convs[0].(messages := convs[0].messages + [m])] + convs[1..]
    else
      var tail := Insert(convs[1..], k, m);
      InsertConsKeys(convs, k, tail);
      assert Keys(convs) == [convs[0].key] + Keys(convs[1..]);
      if Distinct(Keys(convs)) then
        assert Distinct(Keys(convs[1..]));
        InsertConsMessages(convs, k, m, tail);
        [convs[0]] + tail
      else [convs[0]] + tail
  }

  /** The recursive step of `Insert` on the keys: a head with another key stays in front. */
  lemma InsertConsKeys(convs: seq<Conv>, k: Key, tail: seq<Conv>)
    requires |convs| > 0 && convs[0].key != k
    requires Keys(tail) == if k in Keys(convs[1..]) then Keys(convs[1..]) else Keys(convs[1..]) + [k]
    ensures Keys([convs[0]] + tail) == if k in Keys(convs) then Keys(convs) else Keys(convs) + [k]
  {
    var h := convs[0].key;
    assert Keys(convs) == [h] + Keys(convs[1..]);
    assert Keys([convs[0]] + tail) == [h] + Keys(tail);
    if k !in Keys(convs[1..]) {
      assert [h] + (Keys(convs[1..]) + [k]) == [h] + Keys(convs[1..]) + [k];
    }
  }

  /** The recursive step of `Insert` on the messages. */
  lemma InsertConsMessages(convs: seq<Conv>, k: Key, m: ChatMessage, tail: seq<Conv>)
    requires |convs| > 0 && convs[0].key != k && |tail| >= |convs| - 1
    requires forall i :: 0 <= i < |convs| - 1 ==>
               tail[i].messages == (if convs[1..][i].key == k then convs[1..][i].messages + [m] else convs[1..][i].messages)
    ensures forall i :: 0 <= i < |convs| ==>
              ([convs[0]] + tail)[i].messages == (if convs[i].key == k then convs[i].messages + [m] else convs[i].messages)
  {
    var r := [convs[0]] + tail;
    forall i | 0 <= i < |convs|
      ensures r[i].messages == (if convs[i].key == k then convs[i].messages + [m] else convs[i].messages)
    {
      if i > 0 {
        assert r[i] == tail[i - 1] && convs[i] == convs[1..][i - 1];
      }
    }
  }

  /** Opens a conversation for `k` holding just `m`, unless one already exists. */
  function InsertFirst(convs: seq<Conv>, k: Key, m: ChatMessage): (r: seq<Conv>)
    ensures k in Keys(convs) ==> r == convs
    ensures k !in Keys(convs) ==> r == convs + [Conv(k, [m])]
  {
    if k in Keys(convs) then convs else convs + [Conv(k, [m])]
  }

  /** The `GetAllChatQuery` loop: every item joins its key's conversation. */
  function GroupAll(items: seq<Item>): seq<Conv>
    decreases |items|
  {
    if |items| == 0 then []
    else Insert(GroupAll(items[..|items| - 1]), items[|items| - 1].0, items[|items| - 1].1)
  }

  /** The `GetLastMessageOfAllChatQuery` loop: only the first item of each key is kept. */
  function GroupFirst(items: seq<Item>): seq<Conv>
    decreases |items|
  {
    if |items| == 0 then []
    else InsertFirst(GroupFirst(items[..|items| - 1]), items[|items| - 1].0, items[|items| - 1].1)
  }

  /**
   * One conversation per key, in order of first appearance; each holds all
   * of its key's items in input order, so every item lands in exactly one.
   */
  lemma {:induction false} GroupAllShape(items: seq<Item>)
    ensures Keys(GroupAll(items)) == FirstKeys(items)
    ensures forall i :: 0 <= i < |GroupAll(items)| ==>
              GroupAll(items)[i].messages == MessagesOf(items, GroupAll(items)[i].key)
    decreases |items|
  {
    if |items| > 0 {
      var pre := items[..|items| - 1];
      var (k, m) := items[|items| - 1];
      GroupAllShape(pre);
      var g := GroupAll(pre);
      var r := GroupAll(items);
      assert r == Insert(g, k, m);
      forall i | 0 <= i < |r|
        ensures r[i].messages == MessagesOf(items, r[i].key)
      {
        if i < |g| {
          assert r[i].key == g[i].key;
        } else {
          assert k !in FirstKeys(pre);
          FirstKeysHasEveryKey(pre, k);
        }
      }
    }
  }

  /** The same conversations in the same order, each holding only its key's first item. */
  lemma {:induction false} GroupFirstShape(items: seq<Item>)
    ensures Keys(GroupFirst(items)) == FirstKeys(items)
    ensures forall i :: 0 <= i < |GroupFirst(items)| ==>
              |MessagesOf(items, GroupFirst(items)[i].key)| > 0
              && GroupFirst(items)[i].messages == [MessagesOf(items, GroupFirst(items)[i].key)[0]]
    decreases |items|
  {
    if |items| > 0 {
      var pre := items[..|items| - 1];
      var (k, m) := items[|items| - 1];
      GroupFirstShape(pre);
      var g := GroupFirst(pre);
      var r := GroupFirst(items);
      assert r == InsertFirst(g, k, m);
      forall i | 0 <= i < |r|
        ensures |MessagesOf(items, r[i].key)| > 0 && r[i].messages == [MessagesOf(items, r[i].key)[0]]
      {
        if i < |g| {
          assert r[i] == g[i];
          MessagesOfExtends(items, g[i].key);
        } else {
          assert r[i] == Conv(k, [m]);
          FirstKeysHasEveryKey(pre, k);
          assert MessagesOf(items, k) == [m];
        }
      }
    }
  }

  /** One more item leaves the first message of a key that already had one. */
  lemma MessagesOfExtends(items: seq<Item>, key: Key)
    requires |items| > 0 && MessagesOf(items[..|items| - 1], key) != []
    ensures MessagesOf(items, key) != [] && MessagesOf(items, key)[0] == MessagesOf(items[..|items| - 1], key)[0]
  {
  }

  /**
   * A direct row whose conversation cannot be opened: the first row of each
   * peer looks up the user and the peer with `GetUserItemByID`, and either
   * id missing from the users table (`known`) is an error.
   */
  predicate LookupFails(userId: int, row: Row, known: set<int>) {
    row.groupId.None? && (userId !in known || ItemOfAsWritten(userId, row).0.userId !in known)
  }

  /**
   * `GetAllChatQuery` as written, with the user lookups of its direct branch:
   * any direct row whose user or peer is missing ends the query with an
   * error (the first row of that peer is where the lookup happens). The
   * lookups of the group branch are not part of this model. No handler calls
   * this query: the only call in chat_handler.go is commented out.
   */
  function AllChatsAsWritten(userId: int, rows: seq<Row>, known: set<int>): (r: Result<seq<Conv>>)
    ensures r.Err? <==> exists i :: 0 <= i < |rows| && LookupFails(userId, rows[i], known)
    ensures r.Ok? ==> Keys(r.value) == FirstKeys(ItemsAsWritten(userId, rows))
    ensures r.Ok? ==> forall i :: 0 <= i < |r.value| ==>
              r.value[i].messages == MessagesOf(ItemsAsWritten(userId, rows), r.value[i].key)
  {
    if exists i :: 0 <= i < |rows| && LookupFails(userId, rows[i], known) then Err("sql: no rows in result set")
    else
      GroupAllShape(ItemsAsWritten(userId, rows));
      Ok(GroupAll(ItemsAsWritten(userId, rows)))
  }

  /** `GetAllChatQuery` with the direct branch reading the receiver column, as the other query does. */
  function AllChats(userId: int, rows: seq<Row>): seq<Conv> {
    GroupAll(Items(userId, rows))
  }

  /**
   * `GetLastMessageOfAllChatQuery`: one conversation per group or peer, in the
   * order of their newest rows, each holding only that row's message.
   */
  function LastChats(userId: int, rows: seq<Row>): (r: seq<Conv>)
    ensures Keys(r) == FirstKeys(Items(userId, rows))
    ensures forall i :: 0 <= i < |r| ==>
              |MessagesOf(Items(userId, rows), r[i].key)| > 0
              && r[i].messages == [MessagesOf(Items(userId, rows), r[i].key)[0]]
  {
    GroupFirstShape(Items(userId, rows));
    GroupFirst(Items(userId, rows))
  }

  /**
   * With the receiver read from its own column the two queries agree: the
   * same conversations in the same order, and each last-message conversation
   * holds the first (newest) message of the full one.
   */
  lemma LastChatsAreHeadsOfAllChats(userId: int, rows: seq<Row>)
    ensures Keys(LastChats(userId, rows)) == Keys(AllChats(userId, rows))
    ensures forall i :: 0 <= i < |LastChats(userId, rows)| ==>
              |AllChats(userId, rows)[i].messages| > 0
              && LastChats(userId, rows)[i].messages == [AllChats(userId, rows)[i].messages[0]]
  {
    var items := Items(userId, rows);
    GroupAllShape(items);
    GroupFirstShape(items);
    forall i | 0 <= i < |LastChats(userId, rows)|
      ensures |AllChats(userId, rows)[i].messages| > 0
    {
      var k := GroupFirst(items)[i].key;
      assert k in FirstKeys(items);
      FirstKeysHasEveryKey(items, k);
    }
  }

  /**
   * As written, the direct branch reads the peer of every message the user
   * sent as user 0, and no user has id 0, so any history holding such a
   * message makes `GetAllChatQuery` fail.
   */
  lemma {:induction false} SentMessageFailsQuery(userId: int, rows: seq<Row>, known: set<int>, i: nat)
    requires 0 !in known && i < |rows| && rows[i].groupId.None? && rows[i].senderId == userId
    ensures AllChatsAsWritten(userId, rows, known).Err?
  {
    assert ItemOfAsWritten(userId, rows[i]).0 == Peer(0);
    assert LookupFails(userId, rows[i], known);
  }

  /**
   * One message from user 1 to user 2, both stored: the full query as written
   * fails, while the last-message query files the message under peer 2.
   */
  lemma SentMessageBreaksFullQuery()
    ensures var rows := [Row(7, 1, Some(2), None, "hi", 100)];
            AllChatsAsWritten(1, rows, {1, 2}).Err?
            && Keys(LastChats(1, rows)) == [Peer(2)]
  {
    var rows := [Row(7, 1, Some(2), None, "hi", 100)];
    SentMessageFailsQuery(1, rows, {1, 2}, 0);
    assert Items(1, rows) == [ItemOf(1, rows[0])];
    assert Items(1, rows)[..0] == [];
  }
}

=== FILE: chat_handler.dfy ===
/**
 * The chat endpoints (chat_handler.go): who may send a message, how it is
 * stored and pushed, and how mark-read picks the rows to delete.
 */
module ChatHandler {
  import opened Wrappers
  import opened Model
  import Atoi
  import Hub
  import Delivery
  import ChatStore
  import ChatFold
  import GroupStore
  import FollowStore
  import UserStore
  import Http

  datatype World = World(db: ChatStore.ChatDb, members: GroupStore.Members, follows: FollowStore.Follows, hub: Hub.Hub)

  datatype Outcome = Outcome(status: int, world: World)

  /**
   * The checks before anything is stored: the sender must be the caller, a
   * group sender an accepted member, and a direct sender related to the
   * receiver by a follow row whose status is accepted.
   */
  function Refusal(w: World, caller: int, m: ChatMessage, forwardFirst: bool): (r: Option<string>)
    ensures m.senderId != caller ==> r == Some("Sender is not the same as the logged in User")
    ensures r.None? <==>
              m.senderId == caller
              && (m.groupId != 0 ==> GroupStore.MemberStatus(w.members, m.groupId, caller) == GroupStore.AcceptedStatus)
              && (m.groupId == 0 ==> FollowStore.FollowsOrFollowed(w.follows, m.senderId, m.receiverId, forwardFirst))
  {
    if caller != m.senderId then Some("Sender is not the same as the logged in User")
    else if m.groupId != 0 then
      if GroupStore.MemberStatus(w.members, m.groupId, m.senderId) != "accepted" then Some("Sender is not part of the group")
      else None
    else if !FollowStore.FollowsOrFollowed(w.follows, m.senderId, m.receiverId, forwardFirst) then
      Some("Users do not have a follower relationship")
    else None
  }

  /** The chat-notification insert after a push; its failure is only logged. */
  function AddNotes(db: ChatStore.ChatDb, messageId: int, ids: seq<int>): (r: ChatStore.ChatDb)
    ensures |ids| == 0 ==> r == db
    ensures |ids| > 0 ==> r.notes == db.notes + ChatStore.NoteRows(messageId, ids) && r.messages == db.messages
  {
    match ChatStore.CreateNotes(db, messageId, ids)
    case Ok(db') => db'
    case Err(_) => db
  }

  /**
   * `SendMessageHandler`. `caller` is the authenticated user (None: no
   * session), `body` the decoded message (None: bad JSON) and `freshId` the
   * row id the insert gets. A group message goes to the group's accepted
   * members: `GetGroupData` reads them even when the group row is gone,
   * because `GetGroupQuery` answers a missing row with an empty group and no
   * error.
   */
  function SendMessage(w: World, caller: Option<int>, body: Option<ChatMessage>, freshId: int,
                       forwardFirst: bool): (r: Outcome)
    requires Hub.Valid(w.hub) && freshId !in w.db.messages
    ensures caller.None? ==> r.status == Http.Unauthorized
    ensures caller.Some? && body.None? ==> r.status == Http.BadRequest
    ensures r.status == Http.Created <==>
              caller.Some? && body.Some? && Refusal(w, caller.value, body.value, forwardFirst).None?
    ensures r.status != Http.Created ==> r.world == w
    ensures r.status == Http.Created ==>
              var m := body.value;
              r.world.db.messages == w.db.messages[freshId := ChatFold.Row(freshId, caller.value, ChatStore.NullIf(m.receiverId),
                                                                            ChatStore.NullIf(m.groupId), m.content, m.createdAt)]
              && r.world.members == w.members && r.world.follows == w.follows
              && Hub.Valid(r.world.hub) && r.world.hub.clients == w.hub.clients
              && (m.groupId == 0 ==>
                    r.world.db.notes == w.db.notes + [ChatStore.NoteRow(freshId, m.receiverId)]
                    && r.world.hub == Delivery.SendChat(w.hub, m.(id := freshId)).hub)
              && (m.groupId != 0 ==>
                    var ids := GroupStore.AcceptedIds(w.members, m.groupId);
                    r.world.db.notes == w.db.notes + ChatStore.NoteRows(freshId, ids)
                    && r.world.hub == Delivery.SendGroupChat(w.hub, m.(id := freshId), Some(ids)).hub)
  {
    match (caller, body)
    case (None, _) => Outcome(Http.Unauthorized, w)
    case (Some(_), None) => Outcome(Http.BadRequest, w)
    case (Some(u), Some(m)) =>
      if Refusal(w, u, m, forwardFirst).Some? then Outcome(Http.BadRequest, w)
      else
        var (db, stored) := ChatStore.CreateMessage(w.db, m, freshId);
        var push := if stored.groupId == 0 then Delivery.SendChat(w.hub, stored)
                    else Delivery.SendGroupChat(w.hub, stored, Some(GroupStore.AcceptedIds(w.members, stored.groupId)));
        assert ChatStore.NoteRows(freshId, []) == [];
        Outcome(Http.Created, w.(db := AddNotes(db, stored.id, push.notified), hub := push.hub))
  }

  /**
   * A group message that is sent reaches every accepted member of the group
   * with a free connection, the sender included, and leaves every other
   * connection as it was.
   */
  lemma GroupSendReachesMembers(w: World, caller: int, m: ChatMessage, freshId: int, forwardFirst: bool)
    requires Hub.Valid(w.hub) && freshId !in w.db.messages && m.groupId != 0
    requires Delivery.NoDup(GroupStore.AcceptedIds(w.members, m.groupId))
    requires SendMessage(w, Some(caller), Some(m), freshId, forwardFirst).status == Http.Created
    ensures var h := SendMessage(w, Some(caller), Some(m), freshId, forwardFirst).world.hub;
            GroupStore.IsAccepted(w.members, m.groupId, caller)
            && (forall u :: GroupStore.IsAccepted(w.members, m.groupId, u) && Delivery.Reachable(w.hub, u) ==>
                  Delivery.Got(w.hub, h, u, Hub.Push(Delivery.ChatEnvelope(m.(id := freshId)))))
            && (forall u :: u in w.hub.clients && !GroupStore.IsAccepted(w.members, m.groupId, u) ==>
                  h.conns[w.hub.clients[u]] == w.hub.conns[w.hub.clients[u]])
  {
    var ids := GroupStore.AcceptedIds(w.members, m.groupId);
    Delivery.SendGroupChatReachesMembers(w.hub, m.(id := freshId), ids);
  }

  /** A message claiming another sender is refused whatever else holds, and nothing changes. */
  lemma ForgedSenderIsRefused(w: World, caller: int, m: ChatMessage, freshId: int, forwardFirst: bool)
    requires Hub.Valid(w.hub) && freshId !in w.db.messages && m.senderId != caller
    ensures SendMessage(w, Some(caller), Some(m), freshId, forwardFirst) == Outcome(Http.BadRequest, w)
  {
  }

  /**
   * `MarkMessageAsReadHandler`. A username takes precedence over a group id;
   * an unknown username writes 500 but the handler carries on and deletes the
   * rows for peer 0.
   */
  function MarkRead(db: ChatStore.ChatDb, users: seq<UserStore.User>, caller: Option<int>,
                    userBName: string, groupIdParam: string): (r: (int, ChatStore.ChatDb))
    ensures caller.None? ==> r == (Http.Unauthorized, db)
    ensures caller.Some? && userBName == "" && (Atoi.Atoi(groupIdParam).None? || Atoi.Atoi(groupIdParam) == Some(0)) ==>
              r == (Http.BadRequest, db)
    ensures caller.Some? && userBName != "" ==>
              var peer := UserStore.ByUsername(users, userBName);
              r.1 == ChatStore.MarkRead(db, caller.value, if peer.Some? then peer.value.id else 0)
              && (r.0 == Http.Ok <==> peer.Some?)
    ensures caller.Some? && userBName == "" && Atoi.Atoi(groupIdParam).Some? && Atoi.Atoi(groupIdParam) != Some(0) ==>
              r == (Http.Ok, ChatStore.MarkGroupRead(db, caller.value, Atoi.Atoi(groupIdParam).value))
  {
    match caller
    case None => (Http.Unauthorized, db)
    case Some(u) =>
      var groupId := Atoi.Atoi(groupIdParam);
      if userBName == "" && (groupId.None? || groupId.value == 0) then (Http.BadRequest, db)
      else if userBName != "" then
        match UserStore.ByUsername(users, userBName)
        case None => (Http.ServerError, ChatStore.MarkRead(db, u, 0))
        case Some(peer) => (Http.Ok, ChatStore.MarkRead(db, u, peer.id))
      else (Http.Ok, ChatStore.MarkGroupRead(db, u, groupId.value))
  }

  /** A mistyped username still deletes rows: those of direct messages from user 0. */
  lemma UnknownUsernameStillDeletes(db: ChatStore.ChatDb, users: seq<UserStore.User>, caller: int, name: string)
    requires name != "" && forall u :: u in users ==> u.username != name
    ensures MarkRead(db, users, Some(caller), name, "").0 == Http.ServerError
    ensures MarkRead(db, users, Some(caller), name, "").1 == ChatStore.MarkRead(db, caller, 0)
  {
  }
}

=== FILE: chat_input.dfy ===
/** The message box under a conversation (chatInput.tsx): what a send builds and posts. */
module ChatInput {
  import opened Model
  import ConversationList

  /**
   * `validateAndSendChatMessage`: nothing happens for an empty box; otherwise one
   * message is posted and the box is cleared. `now` is the clock reading.
   */
  function Send(chat: Chat, text: string, now: int): (r: (string, seq<ChatMessage>))
    ensures |text| == 0 <==> r.1 == []
    ensures |text| == 0 ==> r.0 == text
    ensures |text| > 0 ==> r.0 == "" && |r.1| == 1
    ensures |text| > 0 ==>
              var m := r.1[0];
              m.senderId == chat.userA.id && m.receiverId == chat.userB.id && m.content == text
              && m.id == 0 && m.createdAt == now
              && m.groupId == (if chat.group.id != 0 then chat.group.id else 0)
  {
    if |text| > 0 then
      var base := ChatMessage(0, chat.userA.id, chat.userB.id, 0, text, now);
      ("", [if chat.group.id != 0 then base.(groupId := chat.group.id) else base])
    else (text, [])
  }

  /** `enterCheck`: Enter sends exactly as the button does; other keys do nothing. */
  function KeyDown(chat: Chat, text: string, key: string, now: int): (r: (string, seq<ChatMessage>))
    ensures key == "Enter" ==> r == Send(chat, text, now)
    ensures key != "Enter" ==> r == (text, [])
  {
    if key == "Enter" then Send(chat, text, now) else (text, [])
  }

  /** A message sent from a direct view is filed under that same conversation when it comes back. */
  lemma DirectEchoFindsConversation(chat: Chat, text: string, now: int)
    requires |text| > 0 && chat.userB.id != 0 && chat.group.id == 0
    ensures ConversationList.Matches(chat, Send(chat, text, now).1[0])
  {
  }

  /** A message sent from a group view is filed under that group. */
  lemma GroupEchoFindsConversation(chat: Chat, text: string, now: int)
    requires |text| > 0 && chat.group.id != 0
    ensures ConversationList.Matches(chat, Send(chat, text, now).1[0])
  {
  }

  /** The receiver and the group are exclusive only when a group view carries no peer. */
  lemma ReceiverAndGroupBothSet(chat: Chat, text: string, now: int)
    requires |text| > 0
    ensures var m := Send(chat, text, now).1[0];
            (m.receiverId != 0 && m.groupId != 0) <==> (chat.userB.id != 0 && chat.group.id != 0)
  {
  }
}

=== FILE: chat_list_view.dfy ===
/**
 * The conversation list as drawn (chatList.tsx): which kind of row each
 * conversation becomes, its preview line, its unread badge and its link.
 */
module ChatListView {
  import opened Wrappers
  import opened Model
  import LiveTranscript
  import ConversationList

  datatype RowKind = UserRow | GroupRow | NoRow

  /** A peer id makes a user row; otherwise a group id makes a group row; otherwise nothing. */
  function Kind(c: Chat): (k: RowKind)
    ensures k.UserRow? <==> c.userB.id != 0
    ensures k.GroupRow? <==> c.userB.id == 0 && c.group.id != 0
  {
    if c.userB.id != 0 then UserRow
    else if c.group.id != 0 then GroupRow
    else NoRow
  }

  /** The indices of the conversations drawn as rows, from `from` on; a click reports the row's index. */
  function RowsFrom(chats: seq<Chat>, from: nat): (r: seq<nat>)
    requires from <= |chats|
    ensures forall i: nat :: i in r <==> from <= i < |chats| && !Kind(chats[i]).NoRow?
    ensures forall k, l :: 0 <= k < l < |r| ==> r[k] < r[l]
    decreases |chats| - from
  {
    if from == |chats| then []
    else
      var rest := RowsFrom(chats, from + 1);
      if Kind(chats[from]).NoRow? then rest
      else
        assert forall k :: 0 <= k < |rest| ==> rest[k] in rest;
        [from] + rest
  }

  /** The rows drawn for a list, in list order; `None` is the "No Chats to display" note. */
  function Rows(chats: seq<Chat>): (r: Option<seq<nat>>)
    ensures r.None? <==> |chats| == 0
    ensures r.Some? ==> forall i: nat :: i in r.value <==> i < |chats| && !Kind(chats[i]).NoRow?
    ensures r.Some? ==> forall k, l :: 0 <= k < l < |r.value| ==> r.value[k] < r.value[l]
  {
    if |chats| == 0 then None else Some(RowsFrom(chats, 0))
  }

  /**
   * The preview line; `None` is the "No Messages to display" note. A group
   * preview from a sender outside the member list has no name before the colon.
   */
  function Preview(c: Chat): (r: Option<string>)
    requires !Kind(c).NoRow?
    ensures r.None? <==> |c.messages| == 0
    ensures r.Some? && Kind(c).UserRow? ==>
              r.value == (if c.messages[0].senderId == c.userA.id then "You: " else "") + c.messages[0].content
    ensures r.Some? && Kind(c).GroupRow? ==>
              r.value == GroupSender(c, c.messages[0].senderId) + ": " + c.messages[0].content
  {
    if |c.messages| == 0 then None
    else
      var m := c.messages[0];
      if Kind(c).UserRow? then Some((if m.senderId == c.userA.id then "You: " else "") + m.content)
      else Some(GroupSender(c, m.senderId) + ": " + m.content)
  }

  /** "You", the member's username, or nothing when the sender is not a listed member. */
  function GroupSender(c: Chat, sender: int): (r: string)
    ensures sender == c.userA.id ==> r == "You"
    ensures sender != c.userA.id && LiveTranscript.FindMember(c.group.members, sender).Some? ==>
              r == LiveTranscript.FindMember(c.group.members, sender).value.username
    ensures sender != c.userA.id && LiveTranscript.FindMember(c.group.members, sender).None? ==> r == ""
  {
    if sender == c.userA.id then "You"
    else match LiveTranscript.FindMember(c.group.members, sender)
      case Some(u) => u.username
      case None => ""
  }

  /** The badge shows the counter iff it is truthy: present and not 0. */
  function Badge(c: Chat): (r: Option<int>)
    ensures r.Some? <==> c.notification.Some? && c.notification.value != 0
    ensures r.Some? ==> r.value == c.notification.value
  {
    if c.notification.Some? && c.notification.value != 0 then c.notification else None
  }

  /** Where a row links to. */
  function Link(c: Chat, enc: string -> string): (r: string)
    requires !Kind(c).NoRow?
  {
    if Kind(c).GroupRow? then "/groups/" + enc(c.group.title) else "/chat/" + enc(c.userB.username)
  }

  /** Following a user row's link opens the view the list treats as open: new messages there are marked read. */
  lemma UserLinkIsOpenView(c: Chat, m: ChatMessage, enc: string -> string)
    requires Kind(c).UserRow? && m.receiverId != 0
    ensures ConversationList.DirectIsOpen(c, m, Link(c, enc), enc)
  {
  }

  /** Following a group row's link opens the group view, so group messages are marked read there. */
  lemma GroupLinkIsOpenView(c: Chat, m: ChatMessage, enc: string -> string)
    requires Kind(c).GroupRow? && m.groupId != 0
    ensures ConversationList.GroupIsOpen(c, m, Link(c, enc), enc)
  {
  }

  /** A clicked row shows no badge afterwards. */
  lemma ClickHidesBadge(chats: seq<Chat>, idx: nat)
    requires idx < |chats|
    ensures Badge(ConversationList.Click(chats, idx).0[idx]).None?
  {
  }

  /** After a new message is filed under a conversation, its preview shows that message. */
  lemma RefreshShowsLatest(c: Chat, m: ChatMessage, path: string, me: Option<int>, enc: string -> string)
    requires Kind(c).UserRow? && m.senderId != c.userA.id
    ensures Preview(ConversationList.Refresh(c, m, path, me, enc).0) == Some(m.content)
  {
    var r := ConversationList.Refresh(c, m, path, me, enc).0;
    assert r.messages == [m] && Kind(r) == Kind(c);
    assert "" + m.content == m.content;
  }

  /** A message from someone else in a conversation that is not open raises the badge to the new count. */
  lemma RefreshShowsBadge(c: Chat, m: ChatMessage, path: string, me: Option<int>, enc: string -> string)
    requires !ConversationList.GroupIsOpen(c, m, path, enc) && !ConversationList.DirectIsOpen(c, m, path, enc)
    requires ConversationList.FromOther(m, me) && ConversationList.Unread(c) >= 0
    ensures Badge(ConversationList.Refresh(c, m, path, me, enc).0) == Some(ConversationList.Unread(c) + 1)
  {
  }
}

=== FILE: chat_store.dfy ===
/**
 * The `messages` and `chat_notifications` tables of chat_db.go: storing a
 * message, the unread rows written after delivery, the two unread counts, the
 * two mark-read deletes, and `GetNewChatUsers`.
 */
module ChatStore {
  import opened Wrappers
  import opened Model
  import opened SeqUtil
  import opened ChatFold
  import FollowStore

  /** An unread chat-notification row: message id and notified user. */
  datatype NoteRow = NoteRow(messageId: int, userId: int)

  datatype ChatDb = ChatDb(messages: map<int, Row>, notes: seq<NoteRow>)

  /** Every notification row refers to a stored message. */
  predicate Valid(db: ChatDb) {
    forall n :: n in db.notes ==> n.messageId in db.messages
  }

  /** `NULLIF(?, 0)`: zero is stored as NULL. */
  function NullIf(x: int): (c: Option<int>)
    ensures c.None? <==> x == 0
    ensures c.Some? ==> c.value == x
  {
    if x == 0 then None else Some(x)
  }

  /** A stored id column reads back as the id that was written, zero included. */
  lemma NullIfRoundTrip(x: int)
    requires -0x7FFF_FFFF_FFFF_FFFF <= x <= 0x7FFF_FFFF_FFFF_FFFF
    ensures ScanInt(NullIf(x)) == x
  {
  }

  /** `CreateChatMessage` with the row id the database assigns. */
  function CreateMessage(db: ChatDb, m: ChatMessage, freshId: int): (r: (ChatDb, ChatMessage))
    requires freshId !in db.messages
    ensures r.1 == m.(id := freshId)
    ensures r.0.notes == db.notes && r.0.messages.Keys == db.messages.Keys + {freshId}
    ensures forall k :: k in db.messages ==> r.0.messages[k] == db.messages[k]
    ensures r.0.messages[freshId] == Row(freshId, m.senderId, NullIf(m.receiverId), NullIf(m.groupId), m.content, m.createdAt)
    ensures Valid(db) ==> Valid(r.0)
  {
    (db.(messages := db.messages[freshId := Row(freshId, m.senderId, NullIf(m.receiverId), NullIf(m.groupId), m.content, m.createdAt)]),
     m.(id := freshId))
  }

  function NoteRows(messageId: int, ids: seq<int>): (r: seq<NoteRow>)
    ensures |r| == |ids| && forall i :: 0 <= i < |ids| ==> r[i] == NoteRow(messageId, ids[i])
  {
    seq(|ids|, i requires 0 <= i < |ids| => NoteRow(messageId, ids[i]))
  }

  /**
   * `CreateChatNotifications`: one row per listed user, in one statement. With
   * no users the statement is `VALUES ;`, which SQLite rejects.
   */
  function CreateNotes(db: ChatDb, messageId: int, ids: seq<int>): (r: Result<ChatDb>)
    ensures r.Err? <==> |ids| == 0
    ensures r.Ok? ==> r.value == db.(notes := db.notes + NoteRows(messageId, ids))
  {
    if |ids| == 0 then Err("syntax error") else Ok(db.(notes := db.notes + NoteRows(messageId, ids)))
  }

  /** A row counted by `GetChatNotificationsQuery(user, sender)`. */
  predicate DirectFrom(messages: map<int, Row>, user: int, sender: int, n: NoteRow) {
    n.userId == user && n.messageId in messages
    && messages[n.messageId].senderId == sender && messages[n.messageId].groupId.None?
  }

  /** A row counted by `GetGroupChatNotificationsQuery(user, group)`. */
  predicate InGroup(messages: map<int, Row>, user: int, group: int, n: NoteRow) {
    n.userId == user && n.messageId in messages
    && messages[n.messageId].groupId == Some(group) && messages[n.messageId].receiverId.None?
  }

  /** A row removed by `DeleteGroupChatNotifications(user, group)`: no receiver test. */
  predicate GroupDeleted(messages: map<int, Row>, user: int, group: int, n: NoteRow) {
    n.userId == user && n.messageId in messages && messages[n.messageId].groupId == Some(group)
  }

  function DirectUnread(db: ChatDb, user: int, sender: int): (c: nat)
    ensures c <= |db.notes|
    ensures c == 0 <==> forall n :: n in db.notes ==> !DirectFrom(db.messages, user, sender, n)
  {
    var r := Filter(db.notes, (n: NoteRow) => DirectFrom(db.messages, user, sender, n));
    assert |r| > 0 ==> r[0] in r;
    |r|
  }

  function GroupUnread(db: ChatDb, user: int, group: int): (c: nat)
    ensures c <= |db.notes|
    ensures c == 0 <==> forall n :: n in db.notes ==> !InGroup(db.messages, user, group, n)
  {
    var r := Filter(db.notes, (n: NoteRow) => InGroup(db.messages, user, group, n));
    assert |r| > 0 ==> r[0] in r;
    |r|
  }

  /** `DeleteChatNotifications(user, peer)`: the user's rows for direct messages from the peer. */
  function MarkRead(db: ChatDb, user: int, peer: int): (r: ChatDb)
    ensures r.messages == db.messages
    ensures forall n :: n in r.notes <==> n in db.notes && !DirectFrom(db.messages, user, peer, n)
    ensures Valid(db) ==> Valid(r)
  {
    db.(notes := Filter(db.notes, (n: NoteRow) => !DirectFrom(db.messages, user, peer, n)))
  }

  /** `DeleteGroupChatNotifications(user, group)`: the user's rows for messages of the group. */
  function MarkGroupRead(db: ChatDb, user: int, group: int): (r: ChatDb)
    ensures r.messages == db.messages
    ensures forall n :: n in r.notes <==> n in db.notes && !GroupDeleted(db.messages, user, group, n)
    ensures Valid(db) ==> Valid(r)
  {
    db.(notes := Filter(db.notes, (n: NoteRow) => !GroupDeleted(db.messages, user, group, n)))
  }

  /** After mark-read the direct count for that peer is 0, and other users' rows are kept in order. */
  lemma MarkReadClears(db: ChatDb, user: int, peer: int, other: int)
    requires other != user
    ensures DirectUnread(MarkRead(db, user, peer), user, peer) == 0
    ensures Filter(MarkRead(db, user, peer).notes, (n: NoteRow) => n.userId == other) == Filter(db.notes, (n: NoteRow) => n.userId == other)
  {
    var keep := (n: NoteRow) => !DirectFrom(db.messages, user, peer, n);
    var r := MarkRead(db, user, peer);
    FilterNone(r.notes, (n: NoteRow) => DirectFrom(db.messages, user, peer, n));
    FilterNarrow(db.notes, (n: NoteRow) => n.userId == other, keep);
  }

  /** After group mark-read the group count for that group is 0, and other users' rows are kept in order. */
  lemma MarkGroupReadClears(db: ChatDb, user: int, group: int, other: int)
    requires other != user
    ensures GroupUnread(MarkGroupRead(db, user, group), user, group) == 0
    ensures Filter(MarkGroupRead(db, user, group).notes, (n: NoteRow) => n.userId == other) == Filter(db.notes, (n: NoteRow) => n.userId == other)
  {
    var keep := (n: NoteRow) => !GroupDeleted(db.messages, user, group, n);
    var r := MarkGroupRead(db, user, group);
    FilterNone(r.notes, (n: NoteRow) => InGroup(db.messages, user, group, n));
    FilterNarrow(db.notes, (n: NoteRow) => n.userId == other, keep);
  }

  /**
   * Storing a direct message and writing its receiver's row raises the
   * receiver's count for that sender by exactly one.
   */
  lemma DirectMessageCountsOnce(db: ChatDb, m: ChatMessage, freshId: int)
    requires Valid(db) && freshId !in db.messages && m.groupId == 0
    ensures var (db1, stored) := CreateMessage(db, m, freshId);
            var r := CreateNotes(db1, stored.id, [m.receiverId]);
            r.Ok? && DirectUnread(r.value, m.receiverId, m.senderId) == DirectUnread(db, m.receiverId, m.senderId) + 1
  {
    var (db1, stored) := CreateMessage(db, m, freshId);
    var db2 := CreateNotes(db1, stored.id, [m.receiverId]).value;
    var p1 := (n: NoteRow) => DirectFrom(db.messages, m.receiverId, m.senderId, n);
    var p2 := (n: NoteRow) => DirectFrom(db2.messages, m.receiverId, m.senderId, n);
    assert forall n :: n in db.notes ==> p1(n) == p2(n);
    FilterSame(db.notes, p1, p2);
    FilterConcat(db.notes, NoteRows(stored.id, [m.receiverId]), p2);
    assert NoteRows(stored.id, [m.receiverId]) == [NoteRow(freshId, m.receiverId)];
    assert DirectUnread(db, m.receiverId, m.senderId) == |Filter(db.notes, p1)|;
    assert DirectUnread(db2, m.receiverId, m.senderId) == |Filter(db2.notes, p2)|;
  }

  /** A direct message has been exchanged between the two users, in either direction. */
  predicate Exchanged(db: ChatDb, user: int, other: int) {
    exists k :: k in db.messages && (
      (db.messages[k].receiverId == Some(user) && db.messages[k].senderId == other)
      || (db.messages[k].senderId == user && db.messages[k].receiverId == Some(other)))
  }

  /** A follow row of any status links the two users, in either direction. */
  predicate Related(follows: FollowStore.Follows, user: int, other: int) {
    (other, user) in follows || (user, other) in follows
  }

  /**
   * `GetNewChatUsers`: the users, in table order, other than the user, related
   * by a follow row and with no direct message exchanged yet.
   */
  function NewChatUsers(users: seq<int>, follows: FollowStore.Follows, db: ChatDb, user: int): (r: seq<int>)
    ensures forall v :: v in r <==> v in users && v != user && Related(follows, user, v) && !Exchanged(db, user, v)
  {
    Filter(users, v => v != user && Related(follows, user, v) && !Exchanged(db, user, v))
  }

  /** Once a message between the two is stored, the peer is no longer offered as a new chat. */
  lemma MessageEndsNewChat(users: seq<int>, follows: FollowStore.Follows, db: ChatDb, m: ChatMessage, freshId: int)
    requires freshId !in db.messages && m.receiverId != 0 && m.groupId == 0
    ensures m.receiverId !in NewChatUsers(users, follows, CreateMessage(db, m, freshId).0, m.senderId)
    ensures m.senderId !in NewChatUsers(users, follows, CreateMessage(db, m, freshId).0, m.receiverId)
  {
    var db1 := CreateMessage(db, m, freshId).0;
    assert db1.messages[freshId].receiverId == Some(m.receiverId);
    assert Exchanged(db1, m.senderId, m.receiverId);
    assert Exchanged(db1, m.receiverId, m.senderId);
  }
}

=== FILE: checked_list.dfy ===
/**
 * The checked-member list of the user pickers (`toggleUserCheck` in
 * createGroup.tsx and usersList.tsx): a click removes the id when present and
 * appends it otherwise.
 */
module CheckedList {
  import SeqUtil

  predicate NoDup(s: seq<int>) {
    forall i, j :: 0 <= i < j < |s| ==> s[i] != s[j]
  }

  function Other(id: int): int -> bool {
    x => x != id
  }

  function Toggle(prev: seq<int>, id: int): (r: seq<int>)
    ensures id in r <==> id !in prev
    ensures forall x :: x != id ==> (x in r <==> x in prev)
    ensures id in prev ==> r == SeqUtil.Filter(prev, Other(id))
    ensures id !in prev ==> r == prev + [id]
  {
    if id in prev then SeqUtil.Filter(prev, Other(id)) else prev + [id]
  }

  lemma {:induction false} FilterKeepsNoDup(s: seq<int>, keep: int -> bool)
    requires NoDup(s)
    ensures NoDup(SeqUtil.Filter(s, keep))
  {
    if |s| > 0 {
      assert NoDup(s[1..]);
      FilterKeepsNoDup(s[1..], keep);
      if keep(s[0]) {
        assert s[0] !in s[1..];
        assert s[0] !in SeqUtil.Filter(s[1..], keep);
        var r := [s[0]] + SeqUtil.Filter(s[1..], keep);
        assert forall k :: 1 <= k < |r| ==> r[k] in SeqUtil.Filter(s[1..], keep);
      }
    }
  }

  /** The list never holds an id twice. */
  lemma ToggleKeepsNoDup(prev: seq<int>, id: int)
    requires NoDup(prev)
    ensures NoDup(Toggle(prev, id))
  {
    if id in prev {
      FilterKeepsNoDup(prev, Other(id));
    }
  }

  /** Removing an id that occurs once leaves the rest in order. */
  lemma {:induction false} FilterOtherRemovesOne(a: seq<int>, id: int, b: seq<int>)
    requires id !in a && id !in b
    ensures SeqUtil.Filter(a + [id] + b, Other(id)) == a + b
  {
    SeqUtil.FilterConcat(a + [id], b, Other(id));
    SeqUtil.FilterConcat(a, [id], Other(id));
    FilterOtherKeepsAll(a, id);
    FilterOtherKeepsAll(b, id);
    var none: seq<int> := [];
    assert SeqUtil.Filter([id], Other(id)) == none;
    assert a + none == a;
  }

  lemma FilterOtherKeepsAll(s: seq<int>, id: int)
    requires id !in s
    ensures SeqUtil.Filter(s, Other(id)) == s
  {
    SeqUtil.FilterKeepsAll(s, Other(id));
  }

  /** Checking then unchecking an unchecked id restores the list exactly. */
  lemma ToggleTwiceAbsent(prev: seq<int>, id: int)
    requires id !in prev
    ensures Toggle(Toggle(prev, id), id) == prev
  {
    FilterOtherRemovesOne(prev, id, []);
    assert prev + [id] + [] == prev + [id];
    assert prev + [] == prev;
  }

  /** Unchecking then checking a checked id restores the set of ids but moves it to the end. */
  lemma ToggleTwicePresent(prev: seq<int>, id: int)
    requires id in prev
    ensures var r := Toggle(Toggle(prev, id), id);
            (forall x :: x in r <==> x in prev) && r[|r| - 1] == id
  {
  }

  datatype PickerEffect = Report(checked: seq<int>)

  /** The list after the clicks, each one toggling its id, first click first. */
  function ToggleAll(initial: seq<int>, clicks: seq<int>): seq<int>
    decreases |clicks|
  {
    if |clicks| == 0 then initial else ToggleAll(Toggle(initial, clicks[0]), clicks[1..])
  }

  /** One more click toggles the list reached so far. */
  lemma {:induction false} ToggleAllSnoc(initial: seq<int>, clicks: seq<int>, c: int)
    ensures ToggleAll(initial, clicks + [c]) == Toggle(ToggleAll(initial, clicks), c)
    decreases |clicks|
  {
    if |clicks| == 0 {
      assert clicks + [c] == [c];
      assert [c][1..] == [];
    } else {
      assert (clicks + [c])[1..] == clicks[1..] + [c];
      ToggleAllSnoc(Toggle(initial, clicks[0]), clicks[1..], c);
    }
  }

  /**
   * `UsersList`: the list starts as the initial ids and, when a parent callback is
   * given, the parent is told the list on mount and after every toggle.
   */
  function Picker(initial: seq<int>, clicks: seq<int>, hasCallback: bool): (r: (seq<int>, seq<PickerEffect>))
    ensures r.0 == ToggleAll(initial, clicks)
    ensures hasCallback ==> |r.1| == |clicks| + 1
                            && forall k :: 0 <= k <= |clicks| ==> r.1[k] == Report(ToggleAll(initial, clicks[..k]))
    ensures hasCallback ==> r.1[0] == Report(initial) && r.1[|r.1| - 1] == Report(r.0)
    ensures !hasCallback ==> r.1 == []
    decreases |clicks|
  {
    if |clicks| == 0 then (initial, if hasCallback then [Report(initial)] else [])
    else
      var n := |clicks|;
      var prev := Picker(initial, clicks[..n - 1], hasCallback);
      var next := Toggle(prev.0, clicks[n - 1]);
      LastClick(initial, clicks);
      if hasCallback then
        ReportsExtend(initial, clicks, prev.1, next);
        (next, prev.1 + [Report(next)])
      else (next, prev.1)
  }

  /** The last click toggles the list the earlier clicks reached. */
  lemma LastClick(initial: seq<int>, clicks: seq<int>)
    requires |clicks| > 0
    ensures ToggleAll(initial, clicks) == Toggle(ToggleAll(initial, clicks[..|clicks| - 1]), clicks[|clicks| - 1])
  {
    assert clicks[..|clicks| - 1] + [clicks[|clicks| - 1]] == clicks;
    ToggleAllSnoc(initial, clicks[..|clicks| - 1], clicks[|clicks| - 1]);
  }

  /** The reports for the earlier clicks, followed by the final list, are the reports for all clicks. */
  lemma ReportsExtend(initial: seq<int>, clicks: seq<int>, reports: seq<PickerEffect>, next: seq<int>)
    requires |clicks| > 0 && |reports| == |clicks|
    requires forall k :: 0 <= k < |clicks| ==> reports[k] == Report(ToggleAll(initial, clicks[..|clicks| - 1][..k]))
    requires next == ToggleAll(initial, clicks)
    ensures forall k :: 0 <= k <= |clicks| ==> (reports + [Report(next)])[k] == Report(ToggleAll(initial, clicks[..k]))
  {
    forall k | 0 <= k <= |clicks| ensures (reports + [Report(next)])[k] == Report(ToggleAll(initial, clicks[..k])) {
      if k < |clicks| {
        assert clicks[..|clicks| - 1][..k] == clicks[..k];
      } else {
        assert clicks[..k] == clicks;
      }
    }
  }

  /** Starting duplicate-free, the picker's list stays duplicate-free. */
  lemma {:induction false} PickerKeepsNoDup(initial: seq<int>, clicks: seq<int>, hasCallback: bool)
    requires NoDup(initial)
    ensures NoDup(Picker(initial, clicks, hasCallback).0)
    decreases |clicks|
  {
    if |clicks| > 0 {
      PickerKeepsNoDup(initial, clicks[..|clicks| - 1], hasCallback);
      ToggleKeepsNoDup(Picker(initial, clicks[..|clicks| - 1], hasCallback).0, clicks[|clicks| - 1]);
    }
  }
}

=== FILE: client_session.dfy ===
/**
 * The authentication provider (AuthProvider.tsx): it opens the WebSocket once the
 * user is known, closes it when the login state or the user changes, and keeps
 * the shared `messages` queue that the three consumers read.
 */
module ClientSession {
  import opened Wrappers
  import opened Model

  datatype SocketEffect = Open(userId: int) | Close

  /** `socket` holds the user id the open socket was created for. */
  datatype Provider = Provider(
    loggedIn: bool, user: Option<UserRef>, socket: Option<int>, messages: seq<Envelope>)

  /** The socket is open only for the logged-in user it was opened for. */
  ghost predicate Valid(p: Provider) {
    p.socket.Some? ==> p.loggedIn && p.user.Some? && p.socket.value == p.user.value.id
  }

  function Initial(): (p: Provider)
    ensures p.messages == [] && p.socket.None? && !p.loggedIn && p.user.None?
    ensures Valid(p)
  {
    Provider(false, None, None, [])
  }

  /**
   * The socket effect re-runs after `isLoggedIn` or `user` changed: the previous
   * run's cleanup closes its socket, then a socket is opened iff the user is
   * logged in and known.
   */
  function SetAuth(p: Provider, loggedIn: bool, user: Option<UserRef>): (r: (Provider, seq<SocketEffect>))
    ensures r.0.loggedIn == loggedIn && r.0.user == user && r.0.messages == p.messages
    ensures r.0.socket.Some? <==> loggedIn && user.Some?
    ensures Valid(r.0)
    ensures Close in r.1 <==> p.socket.Some?
    ensures forall u :: Open(u) in r.1 <==> loggedIn && user.Some? && u == user.value.id
    ensures |r.1| > 0 && r.1[0].Open? ==> p.socket.None?
  {
    var cleanup := if p.socket.Some? then [Close] else [];
    if loggedIn && user.Some? then
      (p.(loggedIn := loggedIn, user := user, socket := Some(user.value.id)), cleanup + [Open(user.value.id)])
    else
      (p.(loggedIn := loggedIn, user := user, socket := None), cleanup)
  }

  /** `handleWebSocketMessage`: one decoded event joins the end of the queue. */
  function Enqueue(p: Provider, e: Envelope): (r: Provider)
    ensures |r.messages| == |p.messages| + 1
    ensures r.messages[..|p.messages|] == p.messages && r.messages[|p.messages|] == e
    ensures r.(messages := p.messages) == p
  {
    p.(messages := p.messages + [e])
  }

  /** Delivering a frame's events one by one. */
  function EnqueueAll(p: Provider, events: seq<Envelope>): Provider
    decreases |events|
  {
    if |events| == 0 then p else EnqueueAll(Enqueue(p, events[0]), events[1..])
  }

  /** A whole frame lands at the end of the queue in delivery order, and nothing queued earlier moves. */
  lemma {:induction false} EnqueueAllAppends(p: Provider, events: seq<Envelope>)
    ensures EnqueueAll(p, events).messages == p.messages + events
    ensures EnqueueAll(p, events).socket == p.socket
    ensures EnqueueAll(p, events).user == p.user
    decreases |events|
  {
    if |events| > 0 {
      EnqueueAllAppends(Enqueue(p, events[0]), events[1..]);
      assert p.messages + [events[0]] + events[1..] == p.messages + events;
    }
  }

  /** `setMessages([])` from the notification consumer. */
  function Clear(p: Provider): (r: Provider)
    ensures r.messages == [] && r.(messages := p.messages) == p
  {
    p.(messages := [])
  }

  /** Replays login changes from the initial provider, collecting socket effects. */
  function Replay(p: Provider, changes: seq<(bool, Option<UserRef>)>): (r: (Provider, seq<SocketEffect>))
    decreases |changes|
  {
    if |changes| == 0 then (p, [])
    else
      var step := SetAuth(p, changes[0].0, changes[0].1);
      var rest := Replay(step.0, changes[1..]);
      (rest.0, step.1 + rest.1)
  }

  /** Open and close effects alternate: opens minus closes is 1 exactly when a socket is open. */
  function Balance(effects: seq<SocketEffect>): int {
    if |effects| == 0 then 0
    else (if effects[0].Open? then 1 else -1) + Balance(effects[1..])
  }

  lemma {:induction false} BalanceConcat(a: seq<SocketEffect>, b: seq<SocketEffect>)
    ensures Balance(a + b) == Balance(a) + Balance(b)
  {
    if |a| > 0 {
      assert (a + b)[1..] == a[1..] + b;
      BalanceConcat(a[1..], b);
    } else {
      assert a + b == b;
    }
  }

  /**
   * Starting with no socket, every replay leaves as many opens unmatched by a
   * close as there are sockets open (0 or 1), and the provider stays valid.
   */
  lemma {:induction false} ReplayBalanced(p: Provider, changes: seq<(bool, Option<UserRef>)>)
    requires Valid(p)
    ensures Valid(Replay(p, changes).0)
    ensures Balance(Replay(p, changes).1) == (if Replay(p, changes).0.socket.Some? then 1 else 0) - (if p.socket.Some? then 1 else 0)
    decreases |changes|
  {
    if |changes| > 0 {
      var step := SetAuth(p, changes[0].0, changes[0].1);
      ReplayBalanced(step.0, changes[1..]);
      BalanceConcat(step.1, Replay(step.0, changes[1..]).1);
      var cleanup: seq<SocketEffect> := if p.socket.Some? then [Close] else [];
      if changes[0].0 && changes[0].1.Some? {
        BalanceConcat(cleanup, [Open(changes[0].1.value.id)]);
      }
    }
  }
}

=== FILE: comment_handler.dfy ===
/**
 * The comment endpoints (comment_handler.go, comment_db.go): adding a comment,
 * which notifies the post's author, and editing one.
 */
module CommentHandler {
  import opened Wrappers
  import opened Model
  import Atoi
  import Hub
  import Http
  import opened Outbox

  datatype Comment = Comment(id: int, postId: int, userId: int, content: string, file: string)

  /** An uploaded attachment: whether its first bytes sniff as an image, and the name it is saved under. */
  datatype Upload = Upload(isImage: bool, savedName: string)

  /** `posts` maps each post to its author. */
  datatype World = World(comments: seq<Comment>, posts: map<int, int>, out: Out)

  function CommentNote(me: Actor, owner: int, postId: int, now: int): (n: Notification)
    ensures n.notifiedUserId == owner && n.notifyingUserId == me.id && n.kind == "comment" && n.objectId == postId
  {
    Notification(0, owner, me.id, "comment", postId, "", me.username + " Commented on your Post.", false, now, me.avatarUrl)
  }

  /**
   * `AddCommentHandler` (no middleware). The comment is stored before the
   * post's author is looked up, so a comment on a missing post is kept and
   * the request fails (500). The author is notified unless they wrote the
   * comment.
   */
  function AddComment(w: World, caller: Option<Actor>, postIdParam: string, content: string, upload: Option<Upload>,
                      freshId: int, now: int): (r: (int, World))
    requires Hub.Valid(w.out.hub)
    ensures postIdParam == "" || Atoi.Atoi(postIdParam).None? ==> r == (Http.BadRequest, w)
    ensures Atoi.Atoi(postIdParam).Some? && caller.None? ==> r == (Http.Unauthorized, w)
    ensures upload.Some? && !upload.value.isImage ==> r.1 == w && r.0 != Http.Created
    ensures r.1 != w ==> postIdParam != "" && Atoi.Atoi(postIdParam).Some? && caller.Some?
                         && (upload.None? || upload.value.isImage)
    ensures r.1 != w ==>
              var p := Atoi.Atoi(postIdParam).value;
              r.1.comments == w.comments + [Comment(freshId, p, caller.value.id, content,
                                                    if upload.Some? then upload.value.savedName else "")]
              && r.1.posts == w.posts
              && (r.0 == Http.Created <==> p in w.posts)
              && (r.0 == Http.Created && w.posts[p] != caller.value.id ==>
                    r.1.out == Notify(w.out, CommentNote(caller.value, w.posts[p], p, now)))
              && (r.0 != Http.Created || w.posts[p] == caller.value.id ==> r.1.out == w.out)
  {
    if postIdParam == "" then (Http.BadRequest, w)
    else match Atoi.Atoi(postIdParam)
      case None => (Http.BadRequest, w)
      case Some(p) =>
        match caller
        case None => (Http.Unauthorized, w)
        case Some(me) =>
          if upload.Some? && !upload.value.isImage then (Http.BadRequest, w)
          else
            var file := if upload.Some? then upload.value.savedName else "";
            var comments := w.comments + [Comment(freshId, p, me.id, content, file)];
            if p !in w.posts then (Http.ServerError, w.(comments := comments))
            else
              var owner := w.posts[p];
              var out := if owner != me.id then Notify(w.out, CommentNote(me, owner, p, now)) else w.out;
              (Http.Created, World(comments, w.posts, out))
  }

  /** Commenting on one's own post notifies nobody; anyone else's comment reaches the author. */
  lemma OnlyOthersNotify(w: World, me: Actor, p: int, content: string, freshId: int, now: int)
    requires Hub.Valid(w.out.hub) && p in w.posts && Atoi.MinInt64 < p <= Atoi.MaxInt64
    ensures var r := AddComment(w, Some(me), Atoi.Text(p), content, None, freshId, now).1;
            (|r.out.sent| == |w.out.sent| <==> w.posts[p] == me.id)
  {
    Atoi.AtoiOfText(p);
  }

  /** `UpdateCommentQuery`: content and file of the row with the id; no other row changes. */
  function Edit(t: seq<Comment>, id: int, content: string, file: string): (r: seq<Comment>)
    ensures |r| == |t|
    ensures forall i :: 0 <= i < |t| ==>
              (t[i].id == id ==> r[i] == t[i].(content := content, file := file))
              && (t[i].id != id ==> r[i] == t[i])
  {
    seq(|t|, i requires 0 <= i < |t| => if t[i].id == id then t[i].(content := content, file := file) else t[i])
  }

  /**
   * `UpdateCommentHandler` (no middleware): the body names the comment by id
   * and no session or ownership is checked.
   */
  function UpdateComment(w: World, body: Option<Comment>): (r: (int, World))
    ensures body.None? ==> r == (Http.BadRequest, w)
    ensures body.Some? ==> r == (Http.Ok, w.(comments := Edit(w.comments, body.value.id, body.value.content, body.value.file)))
  {
    match body
    case None => (Http.BadRequest, w)
    case Some(c) => (Http.Ok, w.(comments := Edit(w.comments, c.id, c.content, c.file)))
  }

  /** Any request, with or without a session, can rewrite another user's comment. */
  lemma AnyoneCanEditAnyComment(w: World, i: nat, content: string)
    requires i < |w.comments|
    ensures UpdateComment(w, Some(Comment(w.comments[i].id, 0, 0, content, ""))).1.comments[i].content == content
  {
  }
}

=== FILE: conversation_list.dfy ===
/**
 * The direct-messages panel (directMessages.tsx): the WebSocket consumer that
 * keeps the conversation list current, the row click that clears a counter, and
 * the search filter over the list.
 */
module ConversationList {
  import opened Wrappers
  import opened Model
  import opened Text
  import SeqUtil

  /** Requests the panel issues; fetches and mark-read calls are not modelled further. */
  datatype ListEffect = FetchChats | FetchAddChat | MarkChatRead(username: string) | MarkGroupRead(groupId: int)

  /** The `findIndex` test: the same two users in either order, or the same group. */
  predicate Matches(c: Chat, m: ChatMessage) {
    (m.receiverId != 0
      && ((c.userA.id == m.senderId && c.userB.id == m.receiverId)
          || (c.userB.id == m.senderId && c.userA.id == m.receiverId)))
    || (m.groupId != 0 && c.group.id == m.groupId)
  }

  function FindIndex(chats: seq<Chat>, m: ChatMessage): (r: Option<nat>)
    ensures r.Some? ==> r.value < |chats| && Matches(chats[r.value], m)
    ensures r.Some? ==> forall j :: 0 <= j < r.value ==> !Matches(chats[j], m)
    ensures r.None? <==> forall j :: 0 <= j < |chats| ==> !Matches(chats[j], m)
  {
    if |chats| == 0 then None
    else if Matches(chats[0], m) then Some(0)
    else match FindIndex(chats[1..], m)
      case None => None
      case Some(i) => Some(i + 1)
  }

  /** The counter as `+notification || 0` reads it. */
  function Unread(c: Chat): int {
    c.notification.GetOr(0)
  }

  predicate FromOther(m: ChatMessage, me: Option<int>) {
    me.None? || m.senderId != me.value
  }

  predicate GroupIsOpen(c: Chat, m: ChatMessage, path: string, enc: string -> string) {
    m.groupId != 0 && path == "/groups/" + enc(c.group.title)
  }

  predicate DirectIsOpen(c: Chat, m: ChatMessage, path: string, enc: string -> string) {
    m.receiverId != 0 && path == "/chat/" + enc(c.userB.username)
  }

  /**
   * The matched conversation after a new message: its preview becomes that
   * message; an open conversation is marked read instead of counting, and
   * otherwise the counter goes up for messages from someone else.
   */
  function Refresh(c: Chat, m: ChatMessage, path: string, me: Option<int>, enc: string -> string): (r: (Chat, seq<ListEffect>))
    ensures r.0.messages == [m]
    ensures r.0.userA == c.userA && r.0.userB == c.userB && r.0.group == c.group
    ensures GroupIsOpen(c, m, path, enc) ==> r.1 == [MarkGroupRead(c.group.id)] && r.0.notification == c.notification
    ensures !GroupIsOpen(c, m, path, enc) && DirectIsOpen(c, m, path, enc) ==>
              r.1 == [MarkChatRead(c.userB.username)] && r.0.notification == c.notification
    ensures !GroupIsOpen(c, m, path, enc) && !DirectIsOpen(c, m, path, enc) ==> r.1 == []
    ensures !GroupIsOpen(c, m, path, enc) && !DirectIsOpen(c, m, path, enc) && FromOther(m, me) ==>
              r.0.notification == Some(Unread(c) + 1)
    ensures !(!GroupIsOpen(c, m, path, enc) && !DirectIsOpen(c, m, path, enc) && FromOther(m, me)) ==>
              r.0.notification == c.notification
  {
    var latest := c.(messages := [m]);
    if GroupIsOpen(c, m, path, enc) then (latest, [MarkGroupRead(c.group.id)])
    else if DirectIsOpen(c, m, path, enc) then (latest, [MarkChatRead(c.userB.username)])
    else if FromOther(m, me) then (latest.(notification := Some(Unread(c) + 1)), [])
    else (latest, [])
  }

  /** `splice(i, 1)` then `unshift(x)`. */
  function MoveToFront(s: seq<Chat>, i: nat, x: Chat): (r: seq<Chat>)
    requires i < |s|
    ensures |r| == |s| && r[0] == x
    ensures r[1..] == s[..i] + s[i + 1..]
  {
    [x] + (s[..i] + s[i + 1..])
  }

  predicate IsChatEvent(e: Envelope) {
    e.kind == "chat" && e.payload.Some?
  }

  /** The conversation a chat event is filed under; a payload without chat fields matches none. */
  function MatchOf(chats: seq<Chat>, e: Envelope): Option<nat>
    requires IsChatEvent(e)
  {
    if |chats| == 0 then None
    else match e.payload.value
      case ChatPayload(m) => FindIndex(chats, m)
      case NotificationPayload(_) => None
  }

  /** One event of the queue applied to the conversation list. */
  function ApplyEvent(chats: seq<Chat>, e: Envelope, path: string, me: Option<int>, enc: string -> string): (r: (seq<Chat>, seq<ListEffect>))
    ensures |r.0| == |chats|
    ensures !IsChatEvent(e) ==> r == (chats, [])
    ensures IsChatEvent(e) && MatchOf(chats, e).None? ==> r == (chats, [FetchChats, FetchAddChat])
    ensures IsChatEvent(e) && MatchOf(chats, e).Some? ==>
              var i := MatchOf(chats, e).value;
              var refreshed := Refresh(chats[i], e.payload.value.msg, path, me, enc);
              r.0[0] == refreshed.0 && r.0[1..] == chats[..i] + chats[i + 1..] && r.1 == refreshed.1
  {
    if !IsChatEvent(e) then (chats, [])
    else match MatchOf(chats, e)
      case None => (chats, [FetchChats, FetchAddChat])
      case Some(i) =>
        var refreshed := Refresh(chats[i], e.payload.value.msg, path, me, enc);
        (MoveToFront(chats, i, refreshed.0), refreshed.1)
  }

  /** The `forEach` over the queue: events are applied in order to the same list. */
  function ApplyBatch(chats: seq<Chat>, events: seq<Envelope>, path: string, me: Option<int>, enc: string -> string): (r: (seq<Chat>, seq<ListEffect>))
    decreases |events|
  {
    if |events| == 0 then (chats, [])
    else
      var first := ApplyEvent(chats, events[0], path, me, enc);
      var rest := ApplyBatch(first.0, events[1..], path, me, enc);
      (rest.0, first.1 + rest.1)
  }

  /** What makes a conversation the same conversation: its two users and its group. */
  function Identity(c: Chat): (UserRef, UserRef, GroupRef) {
    (c.userA, c.userB, c.group)
  }

  function Identities(s: seq<Chat>): (r: seq<(UserRef, UserRef, GroupRef)>)
    ensures |r| == |s|
  {
    if |s| == 0 then [] else [Identity(s[0])] + Identities(s[1..])
  }

  lemma {:induction false} IdentitiesConcat(a: seq<Chat>, b: seq<Chat>)
    ensures Identities(a + b) == Identities(a) + Identities(b)
  {
    if |a| == 0 {
      assert a + b == b;
    } else {
      assert (a + b)[1..] == a[1..] + b;
      IdentitiesConcat(a[1..], b);
    }
  }

  /** Moving a refreshed conversation to the front keeps the same conversations. */
  lemma {:induction false} MoveToFrontKeepsIdentities(s: seq<Chat>, i: nat, x: Chat)
    requires i < |s| && Identity(x) == Identity(s[i])
    ensures multiset(Identities(MoveToFront(s, i, x))) == multiset(Identities(s))
  {
    var r := MoveToFront(s, i, x);
    var left, mid, right := s[..i], [s[i]], s[i + 1..];
    assert s == left + (mid + right);
    assert r == [x] + (left + right);
    IdentitiesConcat(left, mid + right);
    IdentitiesConcat(mid, right);
    IdentitiesConcat([x], left + right);
    IdentitiesConcat(left, right);
    assert Identities(mid) == Identities([x]);
    SwapMultiset(Identities(left), Identities(mid), Identities(right));
  }

  lemma SwapMultiset<T>(a: seq<T>, b: seq<T>, c: seq<T>)
    ensures multiset(a + (b + c)) == multiset(b + (a + c))
  {
    assert multiset(a + (b + c)) == multiset(a) + multiset(b) + multiset(c);
    assert multiset(b + (a + c)) == multiset(b) + multiset(a) + multiset(c);
  }

  /**
   * However many events a batch holds, the list keeps its length and exactly
   * its conversations; only previews, counters and order change.
   */
  lemma {:induction false} ApplyBatchKeepsConversations(chats: seq<Chat>, events: seq<Envelope>, path: string, me: Option<int>, enc: string -> string)
    ensures |ApplyBatch(chats, events, path, me, enc).0| == |chats|
    ensures multiset(Identities(ApplyBatch(chats, events, path, me, enc).0)) == multiset(Identities(chats))
    decreases |events|
  {
    if |events| > 0 {
      var first := ApplyEvent(chats, events[0], path, me, enc);
      if IsChatEvent(events[0]) && MatchOf(chats, events[0]).Some? {
        var i := MatchOf(chats, events[0]).value;
        var refreshed := Refresh(chats[i], events[0].payload.value.msg, path, me, enc);
        MoveToFrontKeepsIdentities(chats, i, refreshed.0);
      }
      ApplyBatchKeepsConversations(first.0, events[1..], path, me, enc);
    }
  }

  /** A batch with no chat event leaves the list alone and requests nothing. */
  lemma {:induction false} NonChatBatchIsInert(chats: seq<Chat>, events: seq<Envelope>, path: string, me: Option<int>, enc: string -> string)
    requires forall i :: 0 <= i < |events| ==> !IsChatEvent(events[i])
    ensures ApplyBatch(chats, events, path, me, enc) == (chats, [])
    decreases |events|
  {
    if |events| > 0 {
      assert !IsChatEvent(events[0]);
      assert forall i :: 0 <= i < |events| - 1 ==> events[1..][i] == events[i + 1];
      NonChatBatchIsInert(chats, events[1..], path, me, enc);
      assert ApplyEvent(chats, events[0], path, me, enc) == (chats, []);
      var none: seq<ListEffect> := [];
      assert none + none == none;
    }
  }

  /** `handleChatClick(idx)`: only that row's counter is reset, then that conversation is marked read. */
  function Click(chats: seq<Chat>, idx: nat): (r: (seq<Chat>, ListEffect))
    requires idx < |chats|
    ensures |r.0| == |chats| && r.0[idx] == chats[idx].(notification := Some(0))
    ensures forall j :: 0 <= j < |chats| && j != idx ==> r.0[j] == chats[j]
    ensures chats[idx].group.id == 0 ==> r.1 == MarkChatRead(chats[idx].userB.username)
    ensures chats[idx].group.id != 0 ==> r.1 == MarkGroupRead(chats[idx].group.id)
  {
    var cleared := chats[idx].(notification := Some(0));
    (chats[idx := cleared],
     if cleared.group.id == 0 then MarkChatRead(cleared.userB.username) else MarkGroupRead(cleared.group.id))
  }

  /** The search box: the peer's name or the group's title contains the query, ignoring case. */
  predicate SearchHit(q: string, c: Chat) {
    Includes(Lower(c.userB.username), Lower(q)) || Includes(Lower(c.group.title), Lower(q))
  }

  function HitFor(q: string): Chat -> bool {
    c => SearchHit(q, c)
  }

  function Search(chats: seq<Chat>, q: string): (r: seq<Chat>)
    ensures |r| <= |chats|
    ensures forall c :: c in r <==> c in chats && SearchHit(q, c)
    ensures forall c :: multiset(r)[c] == if SearchHit(q, c) then multiset(chats)[c] else 0
  {
    SeqUtil.FilterCounts(chats, HitFor(q));
    SeqUtil.Filter(chats, HitFor(q))
  }

  /** The shown list keeps the conversations' order: hits from an earlier part of the list come first. */
  lemma SearchKeepsOrder(a: seq<Chat>, b: seq<Chat>, q: string)
    ensures Search(a + b, q) == Search(a, q) + Search(b, q)
  {
    SeqUtil.FilterConcat(a, b, HitFor(q));
  }

  /** An empty query shows every conversation. */
  lemma SearchEmptyQuery(chats: seq<Chat>)
    ensures Search(chats, "") == chats
  {
    forall i | 0 <= i < |chats|
      ensures HitFor("")(chats[i])
    {
      IncludesEmpty(Lower(chats[i].userB.username));
    }
    SeqUtil.FilterKeepsAll(chats, HitFor(""));
  }

  /**
   * As written: the list shows `Search(chats, q)` and each row calls the click
   * handler with its position in that filtered list, but the handler indexes the
   * full list.
   */
  function ClickVisibleAsWritten(chats: seq<Chat>, q: string, idx: nat): (r: (seq<Chat>, ListEffect))
    requires idx < |Search(chats, q)|
    ensures |r.0| == |chats| && r.0[idx] == chats[idx].(notification := Some(0))
  {
    Click(chats, idx)
  }

  /** The clicked row's conversation, found in the full list. */
  function VisibleIndex(chats: seq<Chat>, q: string, idx: nat): (i: nat)
    requires idx < |Search(chats, q)|
    ensures i < |chats| && chats[i] == Search(chats, q)[idx]
  {
    SeqUtil.FilterIndex(chats, HitFor(q), idx)
  }

  /** Corrected: the conversation whose row was clicked is the one cleared and marked read. */
  function ClickVisible(chats: seq<Chat>, q: string, idx: nat): (r: (seq<Chat>, ListEffect))
    requires idx < |Search(chats, q)|
    ensures |r.0| == |chats|
    ensures r.0[VisibleIndex(chats, q, idx)] == Search(chats, q)[idx].(notification := Some(0))
    ensures Search(chats, q)[idx].group.id == 0 ==> r.1 == MarkChatRead(Search(chats, q)[idx].userB.username)
    ensures Search(chats, q)[idx].group.id != 0 ==> r.1 == MarkGroupRead(Search(chats, q)[idx].group.id)
  {
    Click(chats, VisibleIndex(chats, q, idx))
  }

  /**
   * With conversations "a" and "b" (3 unread) and the query "b", the only row
   * shown is "b"; clicking it resets "a" and marks "a" read, and "b" keeps its
   * 3 unread.
   */
  lemma ClickVisibleAsWrittenClearsWrongConversation()
    ensures
      var me := UserRef(1, "me");
      var noGroup := GroupRef(0, "", []);
      var a := Chat([], me, UserRef(2, "a"), noGroup, Some(0));
      var b := Chat([], me, UserRef(3, "b"), noGroup, Some(3));
      Search([a, b], "b") == [b]
      && ClickVisibleAsWritten([a, b], "b", 0).0[1].notification == Some(3)
      && ClickVisibleAsWritten([a, b], "b", 0).1 == MarkChatRead("a")
      && ClickVisible([a, b], "b", 0).0[1].notification == Some(0)
  {
    var me := UserRef(1, "me");
    var noGroup := GroupRef(0, "", []);
    var a := Chat([], me, UserRef(2, "a"), noGroup, Some(0));
    var b := Chat([], me, UserRef(3, "b"), noGroup, Some(3));
    assert Lower("a") == "a" && Lower("b") == "b" && Lower("") == "";
    assert !Includes("a", "b") by {
      assert !OccursAt("a", "b", 0);
    }
    assert Includes("b", "b") by {
      assert OccursAt("b", "b", 0);
    }
    assert !SearchHit("b", a);
    assert SearchHit("b", b);
    assert Search([a, b], "b") == [b] by {
      assert [a, b][1..] == [b];
      assert [b][1..] == [];
    }
    assert VisibleIndex([a, b], "b", 0) == 1;
  }
}

=== FILE: delivery.dfy ===
/**
 * The server's push paths (notification_ws.go, chat_ws.go): which envelope is
 * built and which users it is queued for. The chat paths also name the users who
 * get an unread chat-notification row; the rows themselves are written by
 * `ChatStore`, after delivery, so a failed insert never retracts a delivery.
 */
module Delivery {
  import opened Wrappers
  import opened Model
  import opened Hub

  function NotificationEnvelope(n: Notification): (e: Envelope)
    ensures e.kind == "notification" && e.payload == Some(NotificationPayload(n))
  {
    Envelope("notification", Some(NotificationPayload(n)))
  }

  function DenotificationEnvelope(): (e: Envelope)
    ensures e.kind == "denotification" && e.payload.None?
  {
    Envelope("denotification", None)
  }

  function ChatEnvelope(m: ChatMessage): (e: Envelope)
    ensures e.kind == "chat" && e.payload == Some(ChatPayload(m))
  {
    Envelope("chat", Some(ChatPayload(m)))
  }

  /** The user's connection is registered, open and has room: a send reaches it. */
  predicate Reachable(h: Hub, uid: int)
    requires Valid(h)
  {
    uid in h.clients && HasRoom(h, h.clients[uid])
  }

  /** The queue of the user's connection, as it was in `h`, now ends with `p`. */
  predicate Got(h: Hub, r: Hub, uid: int, p: Packet)
    requires Valid(h) && uid in h.clients
  {
    h.clients[uid] in r.conns && r.conns[h.clients[uid]].queue == h.conns[h.clients[uid]].queue + [p]
  }

  /**
   * `SendNotificationToUser`: the notification envelope is queued for a
   * reachable user; an absent user or a full queue drops it.
   */
  function SendNotification(h: Hub, uid: int, n: Notification): (r: Hub)
    requires Valid(h)
    ensures Valid(r) && r.clients == h.clients && r.panicked == h.panicked
    ensures Reachable(h, uid) ==> Got(h, r, uid, Push(NotificationEnvelope(n)))
    ensures !Reachable(h, uid) ==> r == h
  {
    SendToUser(h, uid, Push(NotificationEnvelope(n)))
  }

  /** `SendDeNotificationToUser`: the same drop rules, with a payload-less envelope. */
  function SendDenotification(h: Hub, uid: int): (r: Hub)
    requires Valid(h)
    ensures Valid(r) && r.clients == h.clients && r.panicked == h.panicked
    ensures Reachable(h, uid) ==> Got(h, r, uid, Push(DenotificationEnvelope()))
    ensures !Reachable(h, uid) ==> r == h
  {
    SendToUser(h, uid, Push(DenotificationEnvelope()))
  }

  /** Queues `p` for each listed user in turn, with the drop rules of `SendToUser`. */
  function SendToAll(h: Hub, ids: seq<int>, p: Packet): (r: Hub)
    requires Valid(h)
    ensures Valid(r) && r.clients == h.clients && r.panicked == h.panicked && r.conns.Keys == h.conns.Keys
    ensures forall cid :: cid in h.conns && (forall u :: u in ids && u in h.clients ==> h.clients[u] != cid) ==>
              r.conns[cid] == h.conns[cid]
    decreases |ids|
  {
    if |ids| == 0 then h
    else
      assert forall u :: u in ids[1..] ==> u in ids;
      SendToAll(SendToUser(h, ids[0], p), ids[1..], p)
  }

  /** Distinct users of a valid hub hold distinct connections. */
  lemma DistinctUsersDistinctConns(h: Hub, u: int, v: int)
    requires Valid(h) && u in h.clients && v in h.clients && u != v
    ensures h.clients[u] != h.clients[v]
  {
    assert h.conns[h.clients[u]].userId == u;
  }

  /** A connection of a user outside the list is left as it was. */
  lemma SendToAllSkipsOthers(h: Hub, ids: seq<int>, p: Packet, u: int)
    requires Valid(h) && u in h.clients && u !in ids
    ensures SendToAll(h, ids, p).conns[h.clients[u]] == h.conns[h.clients[u]]
  {
    forall v | v in ids && v in h.clients
      ensures h.clients[v] != h.clients[u]
    {
      DistinctUsersDistinctConns(h, u, v);
    }
  }

  /** With no repeated ids, every reachable listed user gets the packet exactly once. */
  lemma {:induction false} SendToAllReaches(h: Hub, ids: seq<int>, p: Packet, u: int)
    requires Valid(h) && NoDup(ids) && u in ids && Reachable(h, u)
    ensures Got(h, SendToAll(h, ids, p), u, p)
    decreases |ids|
  {
    var h1 := SendToUser(h, ids[0], p);
    assert NoDup(ids[1..]);
    if u == ids[0] {
      assert u !in ids[1..];
      SendToAllSkipsOthers(h1, ids[1..], p, u);
    } else {
      assert u in ids[1..];
      if ids[0] in h.clients {
        DistinctUsersDistinctConns(h, u, ids[0]);
      }
      SendToAllReaches(h1, ids[1..], p, u);
    }
  }

  predicate NoDup(ids: seq<int>) {
    forall i, j :: 0 <= i < j < |ids| ==> ids[i] != ids[j]
  }

  /** What a chat push did: the hub after delivery, and whom the notification rows are for. */
  datatype ChatPush = ChatPush(hub: Hub, notified: seq<int>)

  /**
   * `SendChatToUsers`: the chat envelope goes to the sender (the echo) and then
   * to the receiver; only the receiver gets a notification row.
   */
  function SendChat(h: Hub, m: ChatMessage): (r: ChatPush)
    requires Valid(h)
    ensures Valid(r.hub) && r.hub.clients == h.clients && r.hub.panicked == h.panicked
    ensures r.notified == [m.receiverId]
  {
    ChatPush(SendToAll(h, [m.senderId, m.receiverId], Push(ChatEnvelope(m))), [m.receiverId])
  }

  /** A direct message reaches both ends when they can be reached, and no other connection changes. */
  lemma SendChatReachesBothEnds(h: Hub, m: ChatMessage)
    requires Valid(h) && m.senderId != m.receiverId
    ensures Reachable(h, m.senderId) ==> Got(h, SendChat(h, m).hub, m.senderId, Push(ChatEnvelope(m)))
    ensures Reachable(h, m.receiverId) ==> Got(h, SendChat(h, m).hub, m.receiverId, Push(ChatEnvelope(m)))
    ensures forall u :: u in h.clients && u != m.senderId && u != m.receiverId ==>
              SendChat(h, m).hub.conns[h.clients[u]] == h.conns[h.clients[u]]
  {
    var ids := [m.senderId, m.receiverId];
    var p := Push(ChatEnvelope(m));
    assert NoDup(ids);
    if Reachable(h, m.senderId) { SendToAllReaches(h, ids, p, m.senderId); }
    if Reachable(h, m.receiverId) { SendToAllReaches(h, ids, p, m.receiverId); }
    forall u | u in h.clients && u != m.senderId && u != m.receiverId
      ensures SendChat(h, m).hub.conns[h.clients[u]] == h.conns[h.clients[u]]
    {
      SendToAllSkipsOthers(h, ids, p, u);
    }
  }

  /**
   * `SendGroupChatToUsers`: when the group's members cannot be read nothing is
   * sent and no row is written; otherwise every member, the sender included, is
   * sent the envelope and gets a notification row.
   */
  function SendGroupChat(h: Hub, m: ChatMessage, members: Option<seq<int>>): (r: ChatPush)
    requires Valid(h)
    ensures Valid(r.hub) && r.hub.clients == h.clients && r.hub.panicked == h.panicked
    ensures members.None? ==> r == ChatPush(h, [])
    ensures members.Some? ==> r.notified == members.value
  {
    match members
    case None => ChatPush(h, [])
    case Some(ids) => ChatPush(SendToAll(h, ids, Push(ChatEnvelope(m))), ids)
  }

  /** Every reachable member receives a group message; a non-member's connection is untouched. */
  lemma SendGroupChatReachesMembers(h: Hub, m: ChatMessage, members: seq<int>)
    requires Valid(h) && NoDup(members)
    ensures forall u :: u in members && Reachable(h, u) ==> Got(h, SendGroupChat(h, m, Some(members)).hub, u, Push(ChatEnvelope(m)))
    ensures forall u :: u in h.clients && u !in members ==>
              SendGroupChat(h, m, Some(members)).hub.conns[h.clients[u]] == h.conns[h.clients[u]]
  {
    forall u | u in members && Reachable(h, u)
      ensures Got(h, SendGroupChat(h, m, Some(members)).hub, u, Push(ChatEnvelope(m)))
    {
      SendToAllReaches(h, members, Push(ChatEnvelope(m)), u);
    }
    forall u | u in h.clients && u !in members
      ensures SendGroupChat(h, m, Some(members)).hub.conns[h.clients[u]] == h.conns[h.clients[u]]
    {
      SendToAllSkipsOthers(h, members, Push(ChatEnvelope(m)), u);
    }
  }
}

=== FILE: event_handler.dfy ===
/**
 * The group event endpoints (event_handler.go, event_db.go): creating an
 * event, which invites the group's accepted members, and answering one.
 */
module EventHandler {
  import opened Wrappers
  import opened Model
  import opened SeqUtil
  import Atoi
  import Hub
  import Http
  import GroupStore
  import opened Outbox

  const MaxTitleLength := 50
  const MaxDescriptionLength := 500

  datatype Event = Event(id: int, groupId: int, creatorId: int, title: string, description: string)

  /** `event_responses`: (event, user) to the answer; one answer per pair, the last one kept. */
  type Responses = map<(int, int), string>

  datatype World = World(groups: seq<GroupStore.Group>, members: GroupStore.Members, events: seq<Event>,
                         responses: Responses, out: Out)

  /** The JSON body; `dateIsZero` says the event date was left at Go's zero time. */
  datatype Form = Form(title: string, description: string, dateIsZero: bool, groupName: string)

  /** The form checks, in the order the handler makes them. */
  function FormError(f: Form): (r: Option<string>)
    ensures r.None? <==> |f.title| <= MaxTitleLength && |f.description| <= MaxDescriptionLength
                         && f.title != "" && f.description != "" && !f.dateIsZero
  {
    if |f.title| > MaxTitleLength then Some("Title must not exceed 50 characters")
    else if |f.description| > MaxDescriptionLength then Some("Description must not exceed 500 characters")
    else if f.title == "" || f.description == "" || f.dateIsZero then Some("Missing required fields")
    else None
  }

  /** The invitation an accepted member gets: about the event, labelled with the group name as sent. */
  function EventNote(me: Actor, f: Form, eventId: int, now: int): (make: int -> Notification)
    ensures forall u :: make(u).notifiedUserId == u && make(u).kind == "event_creation"
                        && make(u).objectId == eventId && make(u).objectName == f.groupName
  {
    (u: int) => Notification(0, u, me.id, "event_creation", eventId, f.groupName,
                             me.username + " from " + f.groupName + " is inviting you to " + f.title + ".",
                             false, now, me.avatarUrl)
  }

  /** The accepted members of the group other than the creator. */
  function Invitees(t: GroupStore.Members, gid: int, me: int): (r: seq<int>)
    ensures forall u :: u in r <==> GroupStore.IsAccepted(t, gid, u) && u != me
  {
    Filter(GroupStore.AcceptedIds(t, gid), (u: int) => u != me)
  }

  /**
   * `CreateEventHandler` (no middleware). `body` is the decoded form (None:
   * bad JSON) and `unescaped` the group name after URL unescaping (None: a
   * malformed escape).
   */
  function CreateEvent(w: World, caller: Option<Actor>, body: Option<Form>, unescaped: Option<string>,
                       freshId: int, now: int): (r: (int, World))
    requires Hub.Valid(w.out.hub)
    ensures body.None? ==> r == (Http.BadRequest, w)
    ensures body.Some? && FormError(body.value).Some? ==> r == (Http.BadRequest, w)
    ensures r.0 != Http.Created ==> r.1 == w
    ensures r.0 == Http.Created <==>
              body.Some? && FormError(body.value).None? && caller.Some? && unescaped.Some?
              && GroupStore.IdByName(w.groups, unescaped.value).Ok?
    ensures r.0 == Http.Created ==>
              var gid := GroupStore.IdByName(w.groups, unescaped.value).value;
              var me := caller.value;
              r.1.events == w.events + [Event(freshId, gid, me.id, body.value.title, body.value.description)]
              && r.1.members == w.members && r.1.groups == w.groups && r.1.responses == w.responses
              && Recipients(r.1.out.sent) == Recipients(w.out.sent) + Invitees(w.members, gid, me.id)
              && r.1.out == NotifyEach(w.out, Invitees(w.members, gid, me.id), EventNote(me, body.value, freshId, now))
  {
    match body
    case None => (Http.BadRequest, w)
    case Some(f) =>
      if FormError(f).Some? then (Http.BadRequest, w)
      else match caller
        case None => (Http.Unauthorized, w)
        case Some(me) =>
          match unescaped
          case None => (Http.BadRequest, w)
          case Some(name) =>
            match GroupStore.IdByName(w.groups, name)
            case Err(_) => (Http.NotFound, w)
            case Ok(gid) =>
              var ids := Invitees(w.members, gid, me.id);
              var make := EventNote(me, f, freshId, now);
              NotifyEachRecipients(w.out, ids, make);
              (Http.Created, w.(events := w.events + [Event(freshId, gid, me.id, f.title, f.description)],
                                out := NotifyEach(w.out, ids, make)))
  }

  /** The creator of an event is never sent its invitation, and every other accepted member is. */
  lemma CreatorIsNotInvited(w: World, me: Actor, f: Form, name: string, freshId: int, now: int, u: int)
    requires Hub.Valid(w.out.hub)
    requires FormError(f).None? && GroupStore.IdByName(w.groups, name).Ok?
    ensures var r := CreateEvent(w, Some(me), Some(f), Some(name), freshId, now).1;
            var gid := GroupStore.IdByName(w.groups, name).value;
            u in Recipients(r.out.sent) <==> u in Recipients(w.out.sent) || (u != me.id && GroupStore.IsAccepted(w.members, gid, u))
  {
  }

  /**
   * `RespondToEventHandler` (no middleware): the answer of the caller to the
   * event named by the `eventID` parameter replaces any earlier one. The
   * event's existence is not checked.
   */
  function Respond(w: World, caller: Option<int>, eventIdParam: string, answer: Option<string>): (r: (int, World))
    ensures answer.None? ==> r == (Http.BadRequest, w)
    ensures answer.Some? && caller.None? ==> r == (Http.Unauthorized, w)
    ensures r.0 == Http.Ok <==> answer.Some? && caller.Some? && Atoi.Atoi(eventIdParam).Some?
    ensures r.0 != Http.Ok ==> r.1 == w
    ensures r.0 == Http.Ok ==>
              var key := (Atoi.Atoi(eventIdParam).value, caller.value);
              key in r.1.responses && r.1.responses[key] == answer.value
              && r.1.responses.Keys == w.responses.Keys + {key}
              && (forall k :: k in w.responses && k != key ==> r.1.responses[k] == w.responses[k])
              && r.1.out == w.out && r.1.events == w.events
  {
    match answer
    case None => (Http.BadRequest, w)
    case Some(a) =>
      match caller
      case None => (Http.Unauthorized, w)
      case Some(me) =>
        match Atoi.Atoi(eventIdParam)
        case None => (Http.BadRequest, w)
        case Some(e) => (Http.Ok, w.(responses := w.responses[(e, me) := a]))
  }

  /** Answering twice keeps only the second answer. */
  lemma LastAnswerWins(w: World, me: int, eventIdParam: string, a1: string, a2: string)
    requires Atoi.Atoi(eventIdParam).Some?
    ensures var w1 := Respond(w, Some(me), eventIdParam, Some(a1)).1;
            Respond(w1, Some(me), eventIdParam, Some(a2)).1 == Respond(w, Some(me), eventIdParam, Some(a2)).1
  {
  }

  /** `GetEventResponsesHandler`: the answers to one event, by user. */
  function ResponsesTo(responses: Responses, eventIdParam: string): (r: (int, map<int, string>))
    ensures Atoi.Atoi(eventIdParam).None? ==> r == (Http.BadRequest, map[])
    ensures Atoi.Atoi(eventIdParam).Some? ==>
              r.0 == Http.Ok
              && forall u :: (u in r.1 <==> (Atoi.Atoi(eventIdParam).value, u) in responses)
                             && (u in r.1 ==> r.1[u] == responses[(Atoi.Atoi(eventIdParam).value, u)])
  {
    match Atoi.Atoi(eventIdParam)
    case None => (Http.BadRequest, map[])
    case Some(e) => (Http.Ok, map k | k in responses && k.0 == e :: k.1 := responses[k])
  }
}

=== FILE: follow_handler.dfy ===
/**
 * The follow endpoints (follow_handler.go): the follow button, the answer to
 * a follow request, and the followers/following listings.
 */
module FollowHandler {
  import opened Wrappers
  import opened Model
  import Text
  import Hub
  import Delivery
  import Http
  import FollowStore
  import NotificationStore
  import UserStore
  import opened Outbox

  datatype World = World(follows: FollowStore.Follows, out: Out)

  /** The text after the caller's username in the two notifications the follow button sends. */
  const FollowedText := " Started Following You."
  const RequestText := " sent you a follow request."

  /**
   * The notification the follow button sends, of type "follow" or
   * "follow_request". The follower is read with `GetUserByID`, which selects
   * only id, username and e-mail, so the notifying image is always empty.
   */
  function FollowNote(me: Actor, followed: int, kind: string, content: string, now: int): (n: Notification)
    ensures n.notifiedUserId == followed && n.notifyingUserId == me.id && n.kind == kind
    ensures n.objectId == me.id && n.objectName == me.username && !n.isRead
    ensures n.content == content && n.notifyingImage == ""
  {
    Notification(0, followed, me.id, kind, me.id, me.username, content, false, now, "")
  }

  /** The follow notification the "Follow" state withdraws: from the caller to the followed user about the caller. */
  function Withdrawn(t: NotificationStore.Table, me: Actor, followed: int): Notification {
    NotificationStore.ByDetails(t, me.id, followed, me.id, ["follow", "follow_request"], me.username)
  }

  /**
   * `InitFollowHandler`. `buttonState` is what the button showed: "Following"
   * follows outright (a public profile), "Follow" means the caller already
   * follows and unfollows, anything else sends a request. A 200 is written
   * implicitly on every path that does not fail.
   */
  function FollowButton(w: World, caller: Option<Actor>, followed: int, buttonState: string, now: int): (r: (int, World))
    requires Hub.Valid(w.out.hub)
    ensures caller.None? ==> r == (Http.Unauthorized, w)
    ensures caller.Some? && caller.value.id == followed ==> r == (Http.BadRequest, w)
    ensures r.0 != Http.Ok ==> r.1 == w
    ensures caller.Some? && caller.value.id != followed ==>
              var me := caller.value;
              (buttonState == "Following" ==>
                 r == (Http.Ok, World(FollowStore.Follow(w.follows, me.id, followed, FollowStore.Accepted),
                                      Notify(w.out, FollowNote(me, followed, "follow", me.username + FollowedText, now)))))
              && (buttonState == "Follow" ==>
                    (r.0 == Http.Ok <==> (me.id, followed) in w.follows)
                    && (r.0 == Http.Ok ==>
                          r.1.follows == w.follows - {(me.id, followed)}
                          && var n := Withdrawn(w.out.notes, me, followed);
                             (n.id == 0 ==> r.1.out == w.out)
                             && (n.id != 0 ==> (forall x :: x in r.1.out.notes <==> x in w.out.notes && x.id != n.id)
                                               && (r.1.out.sent == w.out.sent <==> n.isRead)
                                               && r.1.out.sent == w.out.sent + (if n.isRead then [] else [Sent(followed, Delivery.DenotificationEnvelope())])
                                               && r.1.out.notes == NotificationStore.Delete(w.out.notes, n.id))))
              && (buttonState != "Following" && buttonState != "Follow" ==>
                    r == (Http.Ok, World(FollowStore.Follow(w.follows, me.id, followed, FollowStore.Pending),
                                         Notify(w.out, FollowNote(me, followed, "follow_request", me.username + RequestText, now)))))
  {
    match caller
    case None => (Http.Unauthorized, w)
    case Some(me) =>
      if me.id == followed then (Http.BadRequest, w)
      else if buttonState == "Following" then
        (Http.Ok, World(FollowStore.Follow(w.follows, me.id, followed, FollowStore.Accepted),
                        Notify(w.out, FollowNote(me, followed, "follow", me.username + FollowedText, now))))
      else if buttonState == "Follow" then
        match FollowStore.Unfollow(w.follows, me.id, followed)
        case Err(_) => (Http.ServerError, w)
        case Ok(follows) =>
          var n := Withdrawn(w.out.notes, me, followed);
          if n.id == 0 then (Http.Ok, w.(follows := follows))
          else
            var out := if !n.isRead then Denotify(w.out, followed) else w.out;
            (Http.Ok, World(follows, out.(notes := NotificationStore.Delete(out.notes, n.id))))
      else
        (Http.Ok, World(FollowStore.Follow(w.follows, me.id, followed, FollowStore.Pending),
                        Notify(w.out, FollowNote(me, followed, "follow_request", me.username + RequestText, now))))
  }

  /**
   * A request followed at once by an unfollow puts the follow table and the
   * notification table back as they were, and the followed user is sent the
   * notification and then its withdrawal.
   */
  lemma RequestThenUnfollowRestores(w: World, me: Actor, followed: int, now: int)
    requires Hub.Valid(w.out.hub)
    requires me.id != followed && (me.id, followed) !in w.follows
    requires w.out.nextId != 0 && forall x :: x in w.out.notes ==> x.id != w.out.nextId
    requires forall i :: 0 <= i < |w.out.notes| ==>
               !NotificationStore.DetailsMatch(me.id, followed, me.id, ["follow", "follow_request"], me.username, w.out.notes[i])
    ensures var w1 := FollowButton(w, Some(me), followed, "Pending", now).1;
            var w2 := FollowButton(w1, Some(me), followed, "Follow", now).1;
            w2.follows == w.follows && w2.out.notes == w.out.notes
            && w2.out.sent == w.out.sent + [Sent(followed, Delivery.NotificationEnvelope(w1.out.notes[|w.out.notes|])),
                                            Sent(followed, Delivery.DenotificationEnvelope())]
  {
    var stored := FollowNote(me, followed, "follow_request", me.username + RequestText, now).(id := w.out.nextId);
    var w1 := FollowButton(w, Some(me), followed, "Pending", now).1;
    RequestStores(w, me, followed, now);
    WithdrawnIsStored(w.out.notes, stored, me, followed);
    UnfollowWithdraws(w1, me, followed, now, stored);
    NotificationStore.DeleteAppended(w.out.notes, stored);
    assert w1.follows - {(me.id, followed)} == w.follows;
  }

  /** The unfollow step: the row goes, and an unread follow notification is deleted and withdrawn. */
  lemma UnfollowWithdraws(w1: World, me: Actor, followed: int, now: int, stored: Notification)
    requires Hub.Valid(w1.out.hub) && me.id != followed && (me.id, followed) in w1.follows
    requires Withdrawn(w1.out.notes, me, followed) == stored && stored.id != 0 && !stored.isRead
    ensures var w2 := FollowButton(w1, Some(me), followed, "Follow", now).1;
            w2.follows == w1.follows - {(me.id, followed)}
            && w2.out.notes == NotificationStore.Delete(w1.out.notes, stored.id)
            && w2.out.sent == w1.out.sent + [Sent(followed, Delivery.DenotificationEnvelope())]
  {
  }

  /** The request step: a pending row, and the request notification stored under the next id and pushed. */
  lemma RequestStores(w: World, me: Actor, followed: int, now: int)
    requires Hub.Valid(w.out.hub) && me.id != followed
    ensures var stored := FollowNote(me, followed, "follow_request", me.username + RequestText, now).(id := w.out.nextId);
            var w1 := FollowButton(w, Some(me), followed, "Pending", now).1;
            Hub.Valid(w1.out.hub)
            && w1.out.notes == w.out.notes + [stored]
            && w1.out.sent == w.out.sent + [Sent(followed, Delivery.NotificationEnvelope(stored))]
            && w1.follows == w.follows[(me.id, followed) := FollowStore.Pending]
  {
    var n := FollowNote(me, followed, "follow_request", me.username + RequestText, now);
    var w1 := FollowButton(w, Some(me), followed, "Pending", now).1;
    assert w1.out == Notify(w.out, n);
  }

  /** The follow notification just appended is the one the unfollow finds. */
  lemma WithdrawnIsStored(t: NotificationStore.Table, stored: Notification, me: Actor, followed: int)
    requires NotificationStore.DetailsMatch(me.id, followed, me.id, ["follow", "follow_request"], me.username, stored)
    requires forall i :: 0 <= i < |t| ==>
               !NotificationStore.DetailsMatch(me.id, followed, me.id, ["follow", "follow_request"], me.username, t[i])
    ensures Withdrawn(t + [stored], me, followed) == stored
  {
    var t1 := t + [stored];
    assert forall i :: 0 <= i < |t| ==> t1[i] == t[i];
    NotificationStore.ByDetailsFirst(t1, me.id, followed, me.id, ["follow", "follow_request"], me.username, |t|);
  }

  /**
   * `FollowRequestHandler`: the caller answers `requester`'s request. Accept
   * turns a pending row accepted, decline deletes the row; both retype the
   * request notification to "follow".
   */
  function AnswerRequest(w: World, caller: Option<int>, requester: int, action: string): (r: (int, World))
    ensures caller.None? ==> r == (Http.Unauthorized, w)
    ensures caller.Some? && action != "accept" && action != "decline" ==> r == (Http.BadRequest, w)
    ensures r.0 == Http.Ok <==> caller.Some? && (action == "accept" || action == "decline")
    ensures r.0 == Http.Ok ==>
              r.1.out == w.out.(notes := NotificationStore.ChangeType(w.out.notes, requester, caller.value, ["follow_request"], "follow"))
              && r.1.follows == (if action == "accept" then FollowStore.Accept(w.follows, requester, caller.value)
                                 else FollowStore.Decline(w.follows, requester, caller.value))
  {
    match caller
    case None => (Http.Unauthorized, w)
    case Some(me) =>
      var out := w.out.(notes := NotificationStore.ChangeType(w.out.notes, requester, me, ["follow_request"], "follow"));
      if action == "accept" then (Http.Ok, World(FollowStore.Accept(w.follows, requester, me), out))
      else if action == "decline" then (Http.Ok, World(FollowStore.Decline(w.follows, requester, me), out))
      else (Http.BadRequest, w)
  }

  /** Accepting a pending request makes the requester an accepted follower of the caller. */
  lemma AcceptedRequesterFollows(w: World, me: int, requester: int)
    requires (requester, me) in w.follows && w.follows[(requester, me)] == FollowStore.Pending
    ensures requester in FollowStore.Followers(AnswerRequest(w, Some(me), requester, "accept").1.follows, me)
  {
  }

  /** The avatar the follow listings show in place of an empty one; note the lower-case first letter. */
  const ListingAvatar: string := "profileImage.png"

  /** One row of a follow listing: the `users` columns the join reads, with the listing's own default avatar. */
  function ListItem(v: UserStore.User): (it: UserStore.Item)
    ensures it.id == v.id && it.username == v.username && it.profileImg != ""
    ensures v.avatarUrl != "" ==> it.profileImg == v.avatarUrl
  {
    UserStore.Item(v.id, v.username, if v.avatarUrl == "" then ListingAvatar else v.avatarUrl, 0)
  }

  /** An accepted edge out of `u` (`following`) or into it. */
  predicate Edge(follows: FollowStore.Follows, u: int, v: int, following: bool) {
    if following then (u, v) in follows && follows[(u, v)] == FollowStore.Accepted
    else (v, u) in follows && follows[(v, u)] == FollowStore.Accepted
  }

  /**
   * `FollowingHandler` and `FollowersHandler`: the user named by the fourth
   * segment of the path, then one row per `users` row at the other end of an
   * accepted edge out of (`following`) or into that user; the inner join
   * drops an edge whose other user has no row. A user whose birth date is
   * NULL cannot be read, and the answer is 500.
   */
  function Listing(users: seq<UserStore.User>, follows: FollowStore.Follows, path: string, following: bool)
    : (r: (int, set<UserStore.Item>))
    ensures |Text.Split(path, '/')| < 4 ==> r == (Http.BadRequest, {})
    ensures |Text.Split(path, '/')| >= 4 ==>
              var name := Text.Split(path, '/')[3];
              ((forall u :: u in users ==> u.username != name) ==> r == (Http.NotFound, {}))
              && (UserStore.FetchByUsername(users, name).Unscannable? ==> r == (Http.ServerError, {}))
    ensures r.0 == Http.Ok <==> |Text.Split(path, '/')| >= 4 && UserStore.FetchByUsername(users, Text.Split(path, '/')[3]).Found?
    ensures r.0 == Http.Ok ==>
              var u := UserStore.FetchByUsername(users, Text.Split(path, '/')[3]).user.id;
              (forall it :: it in r.1 <==> exists v :: v in users && it == ListItem(v) && Edge(follows, u, v.id, following))
              && (forall v :: v in users ==> (ListItem(v) in r.1 <==> Edge(follows, u, v.id, following)))
  {
    var parts := Text.Split(path, '/');
    if |parts| < 4 then (Http.BadRequest, {})
    else match UserStore.FetchByUsername(users, parts[3])
      case Missing => (Http.NotFound, {})
      case Unscannable => (Http.ServerError, {})
      case Found(user) =>
        (Http.Ok, set v | v in users && Edge(follows, user.id, v.id, following) :: ListItem(v))
  }

  /**
   * The two listings read the same accepted edges from both ends: b's row is
   * in a's following iff a's row is in b's followers.
   */
  lemma ListingsAreDual(users: seq<UserStore.User>, follows: FollowStore.Follows, p: string, q: string)
    requires Listing(users, follows, p, true).0 == Http.Ok && Listing(users, follows, q, false).0 == Http.Ok
    ensures var a := UserStore.FetchByUsername(users, Text.Split(p, '/')[3]).user;
            var b := UserStore.FetchByUsername(users, Text.Split(q, '/')[3]).user;
            ListItem(b) in Listing(users, follows, p, true).1 <==> ListItem(a) in Listing(users, follows, q, false).1
  {
  }
}

=== FILE: follow_store.dfy ===
/**
 * The `followers` table (follow_db.go): one status per (follower, followed)
 * pair, the conflict key of the table. Statuses are the strings the code
 * writes, "pending" and "accepted".
 */
module FollowStore {
  import opened Wrappers

  const Pending := "pending"
  const Accepted := "accepted"

  /** (follower, followed) to status. */
  type Follows = map<(int, int), string>

  /** `FollowUser`: inserts the pair, or overwrites its status when it exists. */
  function Follow(t: Follows, follower: int, followed: int, status: string): (r: Follows)
    ensures (follower, followed) in r && r[(follower, followed)] == status
    ensures r.Keys == t.Keys + {(follower, followed)}
    ensures forall k :: k in t && k != (follower, followed) ==> r[k] == t[k]
  {
    t[(follower, followed) := status]
  }

  /** `UnfollowUser`: deletes the pair; an absent pair is an error. */
  function Unfollow(t: Follows, follower: int, followed: int): (r: Result<Follows>)
    ensures r.Err? <==> (follower, followed) !in t
    ensures r.Ok? ==> r.value.Keys == t.Keys - {(follower, followed)}
                           && forall k :: k in r.value ==> r.value[k] == t[k]
  {
    if (follower, followed) in t then Ok(t - {(follower, followed)})
    else Err("no follow relationship found to remove")
  }

  /** `DeclineFollowRequest`: deletes the pair whatever its status, with no error when it is absent. */
  function Decline(t: Follows, follower: int, followed: int): (r: Follows)
    ensures r.Keys == t.Keys - {(follower, followed)}
    ensures forall k :: k in r ==> r[k] == t[k]
  {
    t - {(follower, followed)}
  }

  /** `AcceptFollowRequest`: only a pending row of that pair becomes accepted. */
  function Accept(t: Follows, follower: int, followed: int): (r: Follows)
    ensures r.Keys == t.Keys
    ensures forall k :: k in t ==> r[k] == (if k == (follower, followed) && t[k] == Pending then Accepted else t[k])
  {
    var k := (follower, followed);
    if k in t && t[k] == Pending then t[k := Accepted] else t
  }

  /** `GetFollowing`: the users the given user follows with an accepted row. */
  function Following(t: Follows, u: int): (r: set<int>)
    ensures forall v :: v in r <==> (u, v) in t && t[(u, v)] == Accepted
  {
    set k | k in t && k.0 == u && t[k] == Accepted :: k.1
  }

  /** `GetFollowers`: the users who follow the given user with an accepted row. */
  function Followers(t: Follows, u: int): (r: set<int>)
    ensures forall v :: v in r <==> (v, u) in t && t[(v, u)] == Accepted
  {
    set k | k in t && k.1 == u && t[k] == Accepted :: k.0
  }

  /**
   * `GetUserStats`: (following, followers), each a `COUNT(*)` of the accepted
   * rows with the user as follower, or as followed. One row per pair makes
   * each count the number of users on the other end.
   */
  function Stats(t: Follows, u: int): (r: (nat, nat))
    ensures r.0 == |Following(t, u)| && r.1 == |Followers(t, u)|
  {
    var outRows := set k | k in t && k.0 == u && t[k] == Accepted;
    var inRows := set k | k in t && k.1 == u && t[k] == Accepted;
    var other := (k: (int, int)) => k.1;
    var follower := (k: (int, int)) => k.0;
    assert Following(t, u) == set k | k in outRows :: other(k) by {
      forall v | v in Following(t, u) ensures v in set k | k in outRows :: other(k) {
        assert (u, v) in outRows && other((u, v)) == v;
      }
    }
    assert Followers(t, u) == set k | k in inRows :: follower(k) by {
      forall v | v in Followers(t, u) ensures v in set k | k in inRows :: follower(k) {
        assert (v, u) in inRows && follower((v, u)) == v;
      }
    }
    ProjectionKeepsSize(outRows, other);
    ProjectionKeepsSize(inRows, follower);
    (|outRows|, |inRows|)
  }

  /** A projection that tells the rows apart counts as many values as there are rows. */
  lemma {:induction false} ProjectionKeepsSize(rows: set<(int, int)>, proj: ((int, int)) -> int)
    requires forall a, b :: a in rows && b in rows && proj(a) == proj(b) ==> a == b
    ensures |set k | k in rows :: proj(k)| == |rows|
    decreases rows
  {
    if rows != {} {
      var k :| k in rows;
      var rest := rows - {k};
      ProjectionKeepsSize(rest, proj);
      assert (set x | x in rows :: proj(x)) == (set x | x in rest :: proj(x)) + {proj(k)};
      assert proj(k) !in (set x | x in rest :: proj(x));
    }
  }

  /** Accepting a pending request adds exactly one to each side's counts. */
  lemma AcceptCounts(t: Follows, a: int, b: int)
    requires a != b && (a, b) in t && t[(a, b)] == Pending
    ensures Stats(Accept(t, a, b), a).0 == Stats(t, a).0 + 1
    ensures Stats(Accept(t, a, b), b).1 == Stats(t, b).1 + 1
  {
    AcceptAddsFollowing(t, a, b);
    AcceptAddsFollower(t, a, b);
  }

  lemma AcceptAddsFollowing(t: Follows, a: int, b: int)
    requires (a, b) in t && t[(a, b)] == Pending
    ensures b !in Following(t, a) && Following(Accept(t, a, b), a) == Following(t, a) + {b}
  {
    var r := Accept(t, a, b);
    assert r == t[(a, b) := Accepted];
    forall v ensures v in Following(r, a) <==> v in Following(t, a) + {b} {
      if v != b { assert (a, v) != (a, b); }
    }
  }

  lemma AcceptAddsFollower(t: Follows, a: int, b: int)
    requires (a, b) in t && t[(a, b)] == Pending
    ensures a !in Followers(t, b) && Followers(Accept(t, a, b), b) == Followers(t, b) + {a}
  {
    var r := Accept(t, a, b);
    assert r == t[(a, b) := Accepted];
    forall v ensures v in Followers(r, b) <==> v in Followers(t, b) + {a} {
      if v != a { assert (v, b) != (a, b); }
    }
  }

  /** Removing an accepted row takes exactly one off each side's counts. */
  lemma UnfollowCounts(t: Follows, a: int, b: int)
    requires a != b && (a, b) in t && t[(a, b)] == Accepted
    ensures Unfollow(t, a, b).Ok?
    ensures Stats(Unfollow(t, a, b).value, a).0 + 1 == Stats(t, a).0
    ensures Stats(Unfollow(t, a, b).value, b).1 + 1 == Stats(t, b).1
  {
    var r := Unfollow(t, a, b).value;
    assert Following(t, a) == Following(r, a) + {b};
    assert Followers(t, b) == Followers(r, b) + {a};
  }

  /** `CheckIfUserFollows`: the follow button's label for the pair. */
  function ButtonLabel(t: Follows, follower: int, followed: int): (r: string)
    ensures (follower, followed) !in t ==> r == "Follow"
    ensures (follower, followed) in t && t[(follower, followed)] == Pending ==> r == "Pending"
    ensures (follower, followed) in t && t[(follower, followed)] != Pending ==> r == "Following"
  {
    var k := (follower, followed);
    if k !in t then "Follow" else if t[k] == Pending then "Pending" else "Following"
  }

  /**
   * `CheckIfUsersFollowsOrFollowed`: the status of the first row the query
   * returns, for either direction. The row order is not fixed by the query,
   * so `forwardFirst` chooses which direction is read when both exist.
   */
  function FollowsOrFollowed(t: Follows, a: int, b: int, forwardFirst: bool): (r: bool)
    ensures (a, b) !in t && (b, a) !in t ==> !r
    ensures r ==> ((a, b) in t && t[(a, b)] == Accepted) || ((b, a) in t && t[(b, a)] == Accepted)
  {
    var first := if forwardFirst then (a, b) else (b, a);
    var second := if forwardFirst then (b, a) else (a, b);
    if first in t then t[first] == Accepted
    else if second in t then t[second] == Accepted
    else false
  }

  /** With a row in one direction only, the answer does not depend on the row order. */
  lemma OneDirectionIsDeterministic(t: Follows, a: int, b: int)
    requires (a, b) !in t || (b, a) !in t
    ensures FollowsOrFollowed(t, a, b, true) == FollowsOrFollowed(t, a, b, false)
  {
  }

  /** An accepted row one way and a pending row the other: the answer flips with the row order. */
  lemma MixedRowsDependOnOrder(t: Follows, a: int, b: int)
    requires a != b && (a, b) in t && (b, a) in t && t[(a, b)] == Accepted && t[(b, a)] == Pending
    ensures FollowsOrFollowed(t, a, b, true) && !FollowsOrFollowed(t, a, b, false)
  {
  }
}

=== FILE: group_deletion.dfy ===
/**
 * `DeleteGroupQuery` (group_db.go): three notification deletes, then the group
 * row. Posts and events are given as maps from their id to their group id.
 */
module GroupDeletion {
  import opened Model
  import opened SeqUtil
  import GroupStore
  import NotificationStore

  const GroupKinds := ["group", "group_invitation", "group_join_request"]
  const PostKinds := ["comment", "reaction", "post"]

  /** Notifications about the group itself. */
  predicate AboutGroup(g: int, n: Notification) { n.objectId == g && n.kind in GroupKinds }

  /** Notifications about a post of the group (comment, reaction and post rows all carry the post id). */
  predicate AboutGroupPost(postGroup: map<int, int>, g: int, n: Notification) {
    n.objectId in postGroup && postGroup[n.objectId] == g && n.kind in PostKinds
  }

  /** The third delete as written: type 'event' with the group's id. */
  predicate EventRowAsWritten(g: int, n: Notification) { n.objectId == g && n.kind == "event" }

  /** The rows the event handler actually writes: type 'event_creation' carrying an event id. */
  predicate EventRowOf(eventGroup: map<int, int>, g: int, n: Notification) {
    n.kind == "event_creation" && n.objectId in eventGroup && eventGroup[n.objectId] == g
  }

  function DeleteAsWritten(groups: seq<GroupStore.Group>, t: NotificationStore.Table, postGroup: map<int, int>, g: int)
    : (r: (seq<GroupStore.Group>, NotificationStore.Table))
    ensures forall x :: x in r.0 <==> x in groups && x.id != g
    ensures forall n :: n in r.1 <==>
              n in t && !AboutGroup(g, n) && !AboutGroupPost(postGroup, g, n) && !EventRowAsWritten(g, n)
  {
    var t1 := Filter(t, (n: Notification) => !AboutGroup(g, n));
    var t2 := Filter(t1, (n: Notification) => !AboutGroupPost(postGroup, g, n));
    var t3 := Filter(t2, (n: Notification) => !EventRowAsWritten(g, n));
    (Filter(groups, (x: GroupStore.Group) => x.id != g), t3)
  }

  /** The third delete aimed at the group's event notifications. */
  function Delete(groups: seq<GroupStore.Group>, t: NotificationStore.Table, postGroup: map<int, int>,
                  eventGroup: map<int, int>, g: int)
    : (r: (seq<GroupStore.Group>, NotificationStore.Table))
    ensures forall x :: x in r.0 <==> x in groups && x.id != g
    ensures forall n :: n in r.1 <==>
              n in t && !AboutGroup(g, n) && !AboutGroupPost(postGroup, g, n) && !EventRowOf(eventGroup, g, n)
  {
    var t1 := Filter(t, (n: Notification) => !AboutGroup(g, n));
    var t2 := Filter(t1, (n: Notification) => !AboutGroupPost(postGroup, g, n));
    var t3 := Filter(t2, (n: Notification) => !EventRowOf(eventGroup, g, n));
    (Filter(groups, (x: GroupStore.Group) => x.id != g), t3)
  }

  /** The written third delete removes nothing unless some row has type 'event', a type no handler writes. */
  lemma EventDeleteIsInert(groups: seq<GroupStore.Group>, t: NotificationStore.Table, postGroup: map<int, int>,
                           eventGroup: map<int, int>, g: int)
    requires forall n :: n in t ==> n.kind != "event"
    ensures forall n :: n in DeleteAsWritten(groups, t, postGroup, g).1 <==>
              n in t && !AboutGroup(g, n) && !AboutGroupPost(postGroup, g, n)
  {
  }

  /** An event notification of a deleted group survives the delete as written. */
  lemma EventNotificationSurvives()
    ensures var n := Notification(1, 2, 3, "event_creation", 9, "club", "", false, 0, "");
            var t := [n];
            EventRowOf(map[9 := 5], 5, n)
            && n in DeleteAsWritten([GroupStore.Group(5, "club", "", 3, "")], t, map[], 5).1
            && n !in Delete([GroupStore.Group(5, "club", "", 3, "")], t, map[], map[9 := 5], 5).1
  {
  }
}

=== FILE: group_forms.dfy ===
/**
 * The two group dialogs of the client: the create-group form (createGroup.tsx)
 * and the join/unjoin button of the group details dialog (groupDetails.tsx).
 */
module GroupForms {
  import opened Text

  const MaxTitle := 32
  const MaxDescription := 200

  /** The create form: title and description with their at-the-limit warnings. */
  datatype CreateForm = CreateForm(title: string, description: string, titleWarning: bool, descriptionWarning: bool)

  predicate FormValid(f: CreateForm) {
    Utf16Length(f.title) <= MaxTitle && Utf16Length(f.description) <= MaxDescription
    && (f.titleWarning <==> Utf16Length(f.title) == MaxTitle)
    && (f.descriptionWarning <==> Utf16Length(f.description) == MaxDescription)
  }

  /** An edit longer than the limit is ignored; otherwise it is taken and the warning shows iff the limit is reached. */
  function EditTitle(f: CreateForm, t: string): (r: CreateForm)
    ensures Utf16Length(t) > MaxTitle ==> r == f
    ensures Utf16Length(t) <= MaxTitle ==> r.title == t && (r.titleWarning <==> Utf16Length(t) == MaxTitle)
    ensures r.description == f.description && r.descriptionWarning == f.descriptionWarning
    ensures FormValid(f) ==> FormValid(r)
  {
    if Utf16Length(t) <= MaxTitle then f.(title := t, titleWarning := Utf16Length(t) == MaxTitle) else f
  }

  function EditDescription(f: CreateForm, d: string): (r: CreateForm)
    ensures Utf16Length(d) > MaxDescription ==> r == f
    ensures Utf16Length(d) <= MaxDescription ==> r.description == d && (r.descriptionWarning <==> Utf16Length(d) == MaxDescription)
    ensures r.title == f.title && r.titleWarning == f.titleWarning
    ensures FormValid(f) ==> FormValid(r)
  {
    if Utf16Length(d) <= MaxDescription then f.(description := d, descriptionWarning := Utf16Length(d) == MaxDescription) else f
  }

  datatype CreateOutcome = SlashRefused | MissingFields | Posted(title: string, description: string, members: seq<int>)

  /** `handleCreateGroup`'s checks in order: a '/' in the title, then an empty trimmed field or no member. */
  function Submit(f: CreateForm, checked: seq<int>): (r: CreateOutcome)
    ensures r.SlashRefused? <==> '/' in f.title
    ensures r.MissingFields? <==> '/' !in f.title && (Trim(f.title) == "" || Trim(f.description) == "" || |checked| == 0)
    ensures r.Posted? ==> r == Posted(f.title, f.description, checked)
  {
    if '/' in f.title then SlashRefused
    else if Trim(f.title) == "" || Trim(f.description) == "" || |checked| == 0 then MissingFields
    else Posted(f.title, f.description, checked)
  }

  /** A whitespace-only title is refused like an empty one. */
  lemma BlankTitleRefused(f: CreateForm, checked: seq<int>)
    requires IsBlank(f.title)
    ensures !Submit(f, checked).Posted?
  {
    TrimEmptyIffBlank(f.title);
  }

  datatype CreateReply = AlertDuplicate | Close | Failed

  /** The reply to a posted form: 409 alerts and keeps the dialog; only an ok status closes it. */
  function Reply(status: int): (r: CreateReply)
    ensures r == Close <==> 200 <= status <= 299
    ensures r == AlertDuplicate <==> status == 409
  {
    if status == 409 then AlertDuplicate
    else if 200 <= status <= 299 then Close
    else Failed
  }

  /** The details dialog's join button. */
  datatype JoinView = JoinView(title: string, description: string, isRequested: bool, memberStatus: string, error: string)

  datatype JoinRequest = Join | Unjoin

  /** A click: the effects it sends, the view afterwards, and whether it threw. */
  datatype JoinOutcome = JoinOutcome(view: JoinView, sent: seq<JoinRequest>, threw: bool)

  /**
   * `handleButtonClick`: an over-long title or description sets an error and
   * sends nothing; otherwise the request is 'unjoin' iff already requested, a
   * failed response throws before any state change, and an ok one flips
   * `isRequested` and sets the status to "pending" after join and "" after unjoin.
   */
  function ClickJoin(v: JoinView, ok: bool): (r: JoinOutcome)
    ensures Utf16Length(v.title) > MaxTitle ==> r == JoinOutcome(v.(error := "Title must not exceed 32 characters"), [], false)
    ensures Utf16Length(v.title) <= MaxTitle && Utf16Length(v.description) > MaxDescription ==>
              r == JoinOutcome(v.(error := "Description must not exceed 200 characters"), [], false)
    ensures Utf16Length(v.title) <= MaxTitle && Utf16Length(v.description) <= MaxDescription ==>
              r.sent == [if v.isRequested then Unjoin else Join]
    ensures Utf16Length(v.title) <= MaxTitle && Utf16Length(v.description) <= MaxDescription && !ok ==> r.view == v && r.threw
    ensures Utf16Length(v.title) <= MaxTitle && Utf16Length(v.description) <= MaxDescription && ok ==>
              !r.threw && r.view.isRequested == !v.isRequested
              && r.view.memberStatus == (if v.isRequested then "" else "pending")
  {
    if Utf16Length(v.title) > MaxTitle then JoinOutcome(v.(error := "Title must not exceed 32 characters"), [], false)
    else if Utf16Length(v.description) > MaxDescription then JoinOutcome(v.(error := "Description must not exceed 200 characters"), [], false)
    else
      var req := if v.isRequested then Unjoin else Join;
      if !ok then JoinOutcome(v, [req], true)
      else JoinOutcome(v.(isRequested := !v.isRequested, memberStatus := if req == Join then "pending" else ""), [req], false)
  }

  /** The Pending button is shown iff the status is "pending". */
  predicate ShowsPending(v: JoinView) {
    v.memberStatus == "pending"
  }

  /**
   * The dialog starts with `isRequested` from the list and an empty status, so the
   * two can disagree; a successful click brings them back in step.
   */
  lemma SuccessfulClickSyncsPending(v: JoinView)
    requires Utf16Length(v.title) <= MaxTitle && Utf16Length(v.description) <= MaxDescription
    ensures ShowsPending(ClickJoin(v, true).view) <==> ClickJoin(v, true).view.isRequested
  {
  }

  /** Two successful clicks return the button to where it was: join then unjoin, or unjoin then join. */
  lemma ClickTwiceRestores(v: JoinView)
    requires Utf16Length(v.title) <= MaxTitle && Utf16Length(v.description) <= MaxDescription
    ensures var once := ClickJoin(v, true).view;
            var twice := ClickJoin(once, true);
            twice.view.isRequested == v.isRequested && twice.sent != ClickJoin(v, true).sent
  {
  }
}

=== FILE: group_handler.dfy ===
/**
 * The group endpoints (group_handler.go) as decision tables over the groups
 * table, the membership rows and the outbox. Image uploads are left out: a
 * new group has no image and an update keeps the old one.
 */
module GroupHandler {
  import opened Wrappers
  import opened Model
  import opened SeqUtil
  import Atoi
  import Hub
  import Delivery
  import Http
  import GroupStore
  import GroupDeletion
  import NotificationStore
  import UserStore
  import opened Outbox

  const MaxTitleLength := 32
  const MaxDescriptionLength := 200

  datatype World = World(groups: seq<GroupStore.Group>, members: GroupStore.Members, out: Out)

  /** The `group_invitation` notification an invite sends to `u`. */
  function Invitation(actor: Actor, gid: int, name: string, now: int): (make: int -> Notification)
    ensures forall u :: make(u).notifiedUserId == u && make(u).kind == GroupInvitation && make(u).objectId == gid
  {
    (u: int) => Notification(0, u, actor.id, GroupInvitation, gid, name,
                             actor.username + " invited you to '" + name + "' group", false, now, actor.avatarUrl)
  }

  /** The rows the create loop inserts: the creator accepted, everyone else pending, one row per list entry. */
  function CreatedRows(gid: int, list: seq<int>, creator: int): (r: GroupStore.Members)
    ensures |r| == |list|
    ensures forall i :: 0 <= i < |list| ==>
              r[i] == GroupStore.MemberRow(gid, list[i], creator,
                                           if list[i] == creator then GroupStore.AcceptedStatus else GroupStore.PendingStatus)
  {
    seq(|list|, i requires 0 <= i < |list| =>
      GroupStore.MemberRow(gid, list[i], creator, if list[i] == creator then GroupStore.AcceptedStatus else GroupStore.PendingStatus))
  }

  function Others(list: seq<int>, me: int): seq<int> {
    Filter(list, (u: int) => u != me)
  }

  /**
   * `CreateGroupHandler`. `members` is the decoded `members` field (None: bad
   * JSON). Once the name is known to be free the handler writes 200, so every
   * later status is lost; a bad members field then leaves the group stored
   * with no member rows at all.
   */
  function CreateGroup(w: World, caller: Option<Actor>, title: string, description: string,
                       members: Option<seq<int>>, freshId: int, now: int): (r: (int, World))
    requires Hub.Valid(w.out.hub)
    ensures |title| > MaxTitleLength ==> r == (Http.BadRequest, w)
    ensures |title| <= MaxTitleLength && |description| > MaxDescriptionLength ==> r == (Http.BadRequest, w)
    ensures r.0 != Http.Ok ==> r.1 == w
    ensures r.0 == Http.Ok <==>
              |title| <= MaxTitleLength && |description| <= MaxDescriptionLength && caller.Some?
              && !GroupStore.NameExists(w.groups, title)
    ensures r.0 == Http.Ok ==>
              var me := caller.value.id;
              r.1.groups == w.groups + [GroupStore.Group(freshId, title, description, me, "")]
              && Hub.Valid(r.1.out.hub)
              && (members.None? ==> r.1.members == w.members && r.1.out == w.out)
              && (members.Some? ==>
                    r.1.members == w.members + CreatedRows(freshId, members.value + [me], me)
                    && r.1.out == NotifyEach(w.out, Others(members.value + [me], me), Invitation(caller.value, freshId, title, now))
                    && Recipients(r.1.out.sent) == Recipients(w.out.sent) + Others(members.value + [me], me))
  {
    if |title| > MaxTitleLength || |description| > MaxDescriptionLength then (Http.BadRequest, w)
    else match caller
      case None => (Http.Unauthorized, w)
      case Some(actor) =>
        if GroupStore.NameExists(w.groups, title) then (Http.Conflict, w)
        else
          var groups := w.groups + [GroupStore.Group(freshId, title, description, actor.id, "")];
          match members
          case None => (Http.Ok, w.(groups := groups))
          case Some(list) =>
            var all := list + [actor.id];
            var make := Invitation(actor, freshId, title, now);
            NotifyEachRecipients(w.out, Others(all, actor.id), make);
            (Http.Ok, World(groups, w.members + CreatedRows(freshId, all, actor.id),
                            NotifyEach(w.out, Others(all, actor.id), make)))
  }

  /** A group created with a well-formed member list has its creator as an accepted member. */
  lemma CreatorIsAccepted(w: World, actor: Actor, title: string, description: string, list: seq<int>, freshId: int, now: int)
    requires Hub.Valid(w.out.hub)
    requires |title| <= MaxTitleLength && |description| <= MaxDescriptionLength && !GroupStore.NameExists(w.groups, title)
    ensures GroupStore.IsAccepted(CreateGroup(w, Some(actor), title, description, Some(list), freshId, now).1.members, freshId, actor.id)
  {
    var t := CreateGroup(w, Some(actor), title, description, Some(list), freshId, now).1.members;
    var rows := CreatedRows(freshId, list + [actor.id], actor.id);
    assert t[|w.members| + |list|] == rows[|list|];
  }

  /** With a malformed member list the group is stored, the answer is 200, and not even the creator is a member. */
  lemma BadMemberListLeavesEmptyGroup(w: World, actor: Actor, title: string, description: string, freshId: int, now: int)
    requires Hub.Valid(w.out.hub)
    requires |title| <= MaxTitleLength && |description| <= MaxDescriptionLength && !GroupStore.NameExists(w.groups, title)
    requires forall m :: m in w.members ==> m.groupId != freshId
    ensures var r := CreateGroup(w, Some(actor), title, description, None, freshId, now);
            r.0 == Http.Ok && GroupStore.Group(freshId, title, description, actor.id, "") in r.1.groups
            && !GroupStore.IsAccepted(r.1.members, freshId, actor.id)
  {
  }

  /** What the group page shows. */
  datatype View = NoView | PendingNote | Shown(group: GroupStore.Group, memberIds: seq<int>) | NotMemberNote

  /**
   * `GetGroupHandler` (behind the middleware, so a caller is always known): a
   * lookup by name, then by the name with hyphens; a pending invitation wins
   * over everything, then membership or authorship shows the group, and
   * anyone else is told to send a request.
   */
  function ViewGroup(groups: seq<GroupStore.Group>, t: GroupStore.Members, name: string, caller: int): (r: (int, View))
    ensures name == "" ==> r == (Http.BadRequest, NoView)
    ensures name != "" && GroupStore.ByName(groups, t, name).Err? ==> r == (Http.NotFound, NoView)
    ensures r.0 == Http.Ok <==> name != "" && GroupStore.ByName(groups, t, name).Ok?
    ensures r.1.Shown? <==>
              name != "" && GroupStore.ByName(groups, t, name).Ok?
              && var g := GroupStore.ByName(groups, t, name).value.0;
                 GroupStore.MemberStatus(t, g.id, caller) != GroupStore.PendingStatus
                 && (GroupStore.MemberStatus(t, g.id, caller) == GroupStore.AcceptedStatus
                     || GroupStore.IsCreator(groups, g.id, caller) == Ok(true))
    ensures r.1.Shown? ==> r.1 == Shown(GroupStore.ByName(groups, t, name).value.0, GroupStore.ByName(groups, t, name).value.1)
    ensures r.1.PendingNote? <==>
              name != "" && GroupStore.ByName(groups, t, name).Ok?
              && GroupStore.MemberStatus(t, GroupStore.ByName(groups, t, name).value.0.id, caller) == GroupStore.PendingStatus
  {
    if name == "" then (Http.BadRequest, NoView)
    else
      var found := match GroupStore.ByName(groups, t, name)
        case Ok(v) => Ok(v)
        case Err(_) => GroupStore.ByName(groups, t, GroupStore.Hyphenate(name));
      ByNameFallbackIsRedundant(groups, t, name);
      match found
      case Err(_) => (Http.NotFound, NoView)
      case Ok((g, ids)) =>
        var status := GroupStore.MemberStatus(t, g.id, caller);
        match GroupStore.IsCreator(groups, g.id, caller)
        case Err(_) => assert false; (Http.ServerError, NoView)
        case Ok(isCreator) =>
          if status == GroupStore.PendingStatus then (Http.Ok, PendingNote)
          else if status == GroupStore.AcceptedStatus || isCreator then (Http.Ok, Shown(g, ids))
          else (Http.Ok, NotMemberNote)
  }

  /** Hyphenating twice is hyphenating once. */
  lemma HyphenateIdempotent(s: string)
    ensures GroupStore.Hyphenate(GroupStore.Hyphenate(s)) == GroupStore.Hyphenate(s)
  {
  }

  /** The handler's second lookup, by the hyphenated name, never finds what the first missed. */
  lemma ByNameFallbackIsRedundant(groups: seq<GroupStore.Group>, t: GroupStore.Members, name: string)
    ensures GroupStore.ByName(groups, t, name).Err? ==> GroupStore.ByName(groups, t, GroupStore.Hyphenate(name)).Err?
  {
    HyphenateIdempotent(name);
  }

  /** `RemoveMembersHandler`: the creator lookup comes first, then the session, then the creator check. */
  function RemoveMembers(w: World, caller: Option<int>, gid: int, ids: seq<int>): (r: (int, World))
    ensures r.0 == Http.NoContent <==> caller.Some? && GroupStore.IsCreator(w.groups, gid, caller.value) == Ok(true)
    ensures r.0 != Http.NoContent ==> r.1 == w
    ensures r.0 == Http.NoContent ==> r.1 == w.(members := GroupStore.RemoveMembers(w.members, gid, ids))
  {
    match caller
    case None => ((if GroupStore.IsCreator(w.groups, gid, 0).Err? then Http.ServerError else Http.Unauthorized), w)
    case Some(u) =>
      match GroupStore.IsCreator(w.groups, gid, u)
      case Err(_) => (Http.ServerError, w)
      case Ok(false) => (Http.Forbidden, w)
      case Ok(true) => (Http.NoContent, w.(members := GroupStore.RemoveMembers(w.members, gid, ids)))
  }

  /**
   * The remove-members route as registered: without the authentication
   * middleware the request context never holds a user, so no call can succeed.
   */
  function RemoveMembersRouteAsWritten(w: World, session: Option<int>, gid: int, ids: seq<int>): (r: (int, World))
    ensures r.1 == w
  {
    RemoveMembers(w, None, gid, ids)
  }

  lemma RemoveMembersRouteNeverSucceeds(w: World, session: Option<int>, gid: int, ids: seq<int>)
    ensures RemoveMembersRouteAsWritten(w, session, gid, ids).0 != Http.NoContent
  {
  }

  /** The route behind the authentication middleware: the session's user reaches the handler. */
  function RemoveMembersRoute(w: World, session: Option<int>, gid: int, ids: seq<int>): (r: (int, World))
    ensures session.None? ==> r == (Http.Unauthorized, w)
    ensures session.Some? ==> r == RemoveMembers(w, session, gid, ids)
  {
    if session.None? then (Http.Unauthorized, w) else RemoveMembers(w, session, gid, ids)
  }

  /** With the middleware in place the creator can remove members. */
  lemma RemoveMembersRouteLetsCreatorIn(w: World, creator: int, gid: int, ids: seq<int>)
    requires GroupStore.IsCreator(w.groups, gid, creator) == Ok(true)
    ensures RemoveMembersRoute(w, Some(creator), gid, ids).0 == Http.NoContent
  {
  }

  /**
   * `UpdateGroupHandler` (behind the middleware). The update is stored before
   * the removed-member ids are parsed, so a bad id answers 400 after the
   * group has already changed.
   */
  function UpdateGroup(w: World, caller: int, idParam: string, title: string, description: string,
                       removed: seq<string>): (r: (int, World))
    ensures Atoi.Atoi(idParam).None? ==> r == (Http.BadRequest, w)
    ensures Atoi.Atoi(idParam).Some? && GroupStore.IsCreator(w.groups, Atoi.Atoi(idParam).value, caller).Err? ==>
              r == (Http.ServerError, w)
    ensures Atoi.Atoi(idParam).Some? && GroupStore.IsCreator(w.groups, Atoi.Atoi(idParam).value, caller) == Ok(false) ==>
              r == (Http.Forbidden, w)
    ensures r.1 != w ==> Atoi.Atoi(idParam).Some? && GroupStore.IsCreator(w.groups, Atoi.Atoi(idParam).value, caller) == Ok(true)
    ensures r.0 == Http.Ok ==> forall s :: s in removed ==> Atoi.Atoi(s).Some?
    ensures Atoi.Atoi(idParam).Some? && GroupStore.IsCreator(w.groups, Atoi.Atoi(idParam).value, caller) == Ok(true) ==>
              var gid := Atoi.Atoi(idParam).value;
              r.1.groups == GroupStore.Update(w.groups, GroupStore.Group(gid, title, description, 0, ""))
              && (r.0 == Http.BadRequest <==> ParseIds(removed).None?)
              && (ParseIds(removed).Some? ==> r.0 == Http.Ok)
              && (r.0 == Http.BadRequest ==> r.1.members == w.members)
              && (r.0 == Http.Ok ==> r.1.members == GroupStore.RemoveMembers(w.members, gid, ParseIds(removed).value))
  {
    match Atoi.Atoi(idParam)
    case None => (Http.BadRequest, w)
    case Some(gid) =>
      match GroupStore.IsCreator(w.groups, gid, caller)
      case Err(_) => (Http.ServerError, w)
      case Ok(false) => (Http.Forbidden, w)
      case Ok(true) =>
        var updated := w.(groups := GroupStore.Update(w.groups, GroupStore.Group(gid, title, description, 0, "")));
        match ParseIds(removed)
        case None => (Http.BadRequest, updated)
        case Some(ids) => (Http.Ok, updated.(members := GroupStore.RemoveMembers(updated.members, gid, ids)))
  }

  /** Submitting the same edit again answers as the first submit did and leaves the groups as it left them. */
  lemma UpdateGroupResubmit(w: World, caller: int, idParam: string, title: string, description: string,
                            removed: seq<string>)
    requires Atoi.Atoi(idParam).Some?
    requires GroupStore.IsCreator(w.groups, Atoi.Atoi(idParam).value, caller) == Ok(true)
    ensures var once := UpdateGroup(w, caller, idParam, title, description, removed);
            var twice := UpdateGroup(once.1, caller, idParam, title, description, removed);
            twice.0 == once.0 && twice.1.groups == once.1.groups
  {
    var gid := Atoi.Atoi(idParam).value;
    var u := GroupStore.Group(gid, title, description, 0, "");
    GroupStore.UpdateKeepsCreator(w.groups, u, gid, caller);
    GroupStore.UpdateIdempotent(w.groups, u);
  }

  /** Every text parsed with `strconv.Atoi`, or None at the first that does not parse. */
  function ParseIds(texts: seq<string>): (r: Option<seq<int>>)
    ensures r.None? <==> exists s :: s in texts && Atoi.Atoi(s).None?
    ensures r.Some? ==> |r.value| == |texts| && forall i :: 0 <= i < |texts| ==> Atoi.Atoi(texts[i]) == Some(r.value[i])
  {
    if |texts| == 0 then Some([])
    else match (Atoi.Atoi(texts[0]), ParseIds(texts[1..]))
      case (Some(n), Some(rest)) => Some([n] + rest)
      case (None, _) => None
      case (_, None) => None
  }

  /**
   * `DeleteGroupHandler` (behind the middleware): `DeleteGroupQuery` as
   * written, so the group's `event_creation` notifications stay, then every
   * accepted member, whose rows stay, is sent a de-notification. `postGroup`
   * gives each post's group.
   */
  function DeleteGroup(w: World, caller: int, name: string, postGroup: map<int, int>): (r: (int, World))
    requires Hub.Valid(w.out.hub)
    ensures GroupStore.IdByName(w.groups, name).Err? ==> r == (Http.NotFound, w)
    ensures r.0 == Http.NoContent <==>
              GroupStore.IdByName(w.groups, name).Ok?
              && GroupStore.IsCreator(w.groups, GroupStore.IdByName(w.groups, name).value, caller) == Ok(true)
    ensures r.0 != Http.NoContent ==> r.1 == w
    ensures r.0 == Http.NoContent ==>
              var gid := GroupStore.IdByName(w.groups, name).value;
              (forall x :: x in r.1.groups <==> x in w.groups && x.id != gid)
              && r.1.members == w.members
              && (forall n :: n in r.1.out.notes <==>
                    n in w.out.notes && !GroupDeletion.AboutGroup(gid, n) && !GroupDeletion.AboutGroupPost(postGroup, gid, n)
                    && !GroupDeletion.EventRowAsWritten(gid, n))
              && |r.1.out.sent| == |w.out.sent| + |GroupStore.AcceptedIds(w.members, gid)|
              && r.1.out.sent[..|w.out.sent|] == w.out.sent
              && (forall v :: GroupStore.IsAccepted(w.members, gid, v) ==>
                    Sent(v, Delivery.DenotificationEnvelope()) in r.1.out.sent[|w.out.sent|..])
  {
    match GroupStore.IdByName(w.groups, name)
    case Err(_) => (Http.NotFound, w)
    case Ok(gid) =>
      match GroupStore.IsCreator(w.groups, gid, caller)
      case Err(_) => (Http.ServerError, w)
      case Ok(false) => (Http.Forbidden, w)
      case Ok(true) =>
        var (groups, notes) := GroupDeletion.DeleteAsWritten(w.groups, w.out.notes, postGroup, gid);
        var ids := GroupStore.AcceptedIds(w.members, gid);
        var out := DenotifyEach(w.out.(notes := notes), ids);
        DenotifiedMembers(w.out.(notes := notes), ids, out);
        (Http.NoContent, World(groups, w.members, out))
  }

  /** Every listed user is among the de-notifications `DenotifyEach` appends. */
  lemma DenotifiedMembers(o: Out, ids: seq<int>, r: Out)
    requires Hub.Valid(o.hub) && r == DenotifyEach(o, ids)
    ensures forall v :: v in ids ==> Sent(v, Delivery.DenotificationEnvelope()) in r.sent[|o.sent|..]
  {
    forall v | v in ids ensures Sent(v, Delivery.DenotificationEnvelope()) in r.sent[|o.sent|..] {
      var i :| 0 <= i < |ids| && ids[i] == v;
      assert r.sent[|o.sent|..][i] == r.sent[|o.sent| + i];
    }
  }

  /** As written, deleting a group leaves every `event_creation` notification of its events in the table. */
  lemma DeleteGroupKeepsEventNotes(w: World, caller: int, name: string, postGroup: map<int, int>,
                                   eventGroup: map<int, int>, n: Notification)
    requires Hub.Valid(w.out.hub)
    requires DeleteGroup(w, caller, name, postGroup).0 == Http.NoContent
    requires n in w.out.notes && GroupDeletion.EventRowOf(eventGroup, GroupStore.IdByName(w.groups, name).value, n)
    ensures n in DeleteGroup(w, caller, name, postGroup).1.out.notes
  {
  }

  /** With one group of the name, a deletion makes the name unknown: a second request is answered 404. */
  lemma DeleteTwiceIsNotFound(w: World, caller: int, name: string, postGroup: map<int, int>)
    requires Hub.Valid(w.out.hub)
    requires forall x, y :: x in w.groups && y in w.groups && x.name == name && y.name == name ==> x.id == y.id
    requires DeleteGroup(w, caller, name, postGroup).0 == Http.NoContent
    ensures var w1 := DeleteGroup(w, caller, name, postGroup).1;
            Hub.Valid(w1.out.hub) && DeleteGroup(w1, caller, name, postGroup) == (Http.NotFound, w1)
  {
    var w1 := DeleteGroup(w, caller, name, postGroup).1;
    var gid := GroupStore.IdByName(w.groups, name).value;
    forall x | x in w1.groups ensures x.name != name {
      var y :| y in w.groups && y.name == name && y.id == gid;
      assert x in w.groups && x.id != gid;
    }
    assert Hub.Valid(w1.out.hub) by {
      var ids := GroupStore.AcceptedIds(w.members, gid);
      var notes := GroupDeletion.DeleteAsWritten(w.groups, w.out.notes, postGroup, gid).1;
      assert w1.out == DenotifyEach(w.out.(notes := notes), ids);
    }
  }

  /**
   * `InviteUsersHandler` (behind the middleware): one invitee with any
   * membership row, whatever its status, refuses the whole request; otherwise
   * every listed user gets a pending row and an invitation.
   */
  function InviteUsers(w: World, actor: Actor, name: string, ids: Option<seq<int>>, now: int): (r: (int, World))
    requires Hub.Valid(w.out.hub)
    ensures GroupStore.IdByName(w.groups, name).Err? ==> r == (Http.NotFound, w)
    ensures r.0 != Http.NoContent ==> r.1 == w
    ensures GroupStore.IdByName(w.groups, name).Ok? && ids.Some? ==>
              (r.0 == Http.Conflict <==>
                 exists u :: u in ids.value && GroupStore.InGroup(w.members, GroupStore.IdByName(w.groups, name).value, u))
    ensures r.0 == Http.NoContent ==>
              var gid := GroupStore.IdByName(w.groups, name).value;
              ids.Some? && r.1.groups == w.groups && Hub.Valid(r.1.out.hub)
              && r.1.members == GroupStore.Invite(w.members, gid, ids.value, actor.id)
              && r.1.out == NotifyEach(w.out, ids.value, Invitation(actor, gid, name, now))
              && Recipients(r.1.out.sent) == Recipients(w.out.sent) + ids.value
  {
    match GroupStore.IdByName(w.groups, name)
    case Err(_) => (Http.NotFound, w)
    case Ok(gid) =>
      match ids
      case None => (Http.BadRequest, w)
      case Some(list) =>
        if exists u :: u in list && GroupStore.InGroup(w.members, gid, u) then (Http.Conflict, w)
        else
          var make := Invitation(actor, gid, name, now);
          NotifyEachRecipients(w.out, list, make);
          (Http.NoContent, World(w.groups, GroupStore.Invite(w.members, gid, list, actor.id), NotifyEach(w.out, list, make)))
  }

  /**
   * `GetGroupDetailsHandler` (behind the middleware): the group found by
   * either spelling of its name, with the caller's membership status ("" for
   * none).
   */
  function GroupDetails(groups: seq<GroupStore.Group>, t: GroupStore.Members, name: string, caller: int)
    : (r: (int, Option<(GroupStore.Group, string)>))
    ensures name == "" ==> r == (Http.BadRequest, None)
    ensures r.1.Some? <==> r.0 == Http.Ok
    ensures r.0 == Http.Ok <==> name != "" && GroupStore.ByName(groups, t, name).Ok?
    ensures r.1.Some? ==>
              var g := GroupStore.ByName(groups, t, name).value.0;
              r.1.value == (g, GroupStore.MemberStatus(t, g.id, caller))
  {
    if name == "" then (Http.BadRequest, None)
    else
      ByNameFallbackIsRedundant(groups, t, name);
      match GroupStore.ByName(groups, t, name)
      case Err(_) =>
        if GroupStore.ByName(groups, t, GroupStore.Hyphenate(name)).Ok? then assert false; (Http.ServerError, None)
        else (Http.NotFound, None)
      case Ok((g, _)) => (Http.Ok, Some((g, GroupStore.MemberStatus(t, g.id, caller))))
  }

  /**
   * `CancelInvitationHandler` (behind the middleware): the invitee's pending
   * row goes; when an invitation from the caller about this group is found,
   * the invitee gets a de-notification and every invitation from the caller
   * to the invitee is deleted, whatever its group.
   */
  function CancelInvitation(w: World, caller: int, name: string, invitee: Option<int>): (r: (int, World))
    requires Hub.Valid(w.out.hub)
    ensures GroupStore.IdByName(w.groups, name).Err? ==> r == (Http.NotFound, w)
    ensures GroupStore.IdByName(w.groups, name).Ok? && invitee.None? ==> r == (Http.BadRequest, w)
    ensures r.0 == Http.NoContent <==> GroupStore.IdByName(w.groups, name).Ok? && invitee.Some?
    ensures r.0 == Http.NoContent ==>
              var gid := GroupStore.IdByName(w.groups, name).value;
              var n := NotificationStore.ByDetails(w.out.notes, caller, invitee.value, gid, [GroupInvitation], name);
              r.1.groups == w.groups
              && r.1.members == GroupStore.DropPending(w.members, gid, invitee.value)
              && (n.id == 0 ==> r.1.out == w.out)
              && (n.id != 0 ==>
                    r.1.out.sent == w.out.sent + [Sent(invitee.value, Delivery.DenotificationEnvelope())]
                    && forall x :: x in r.1.out.notes <==>
                                   x in w.out.notes && !NotificationStore.InviteOf(caller, invitee.value, x))
  {
    match GroupStore.IdByName(w.groups, name)
    case Err(_) => (Http.NotFound, w)
    case Ok(gid) =>
      match invitee
      case None => (Http.BadRequest, w)
      case Some(u) =>
        var members := GroupStore.DropPending(w.members, gid, u);
        var n := NotificationStore.ByDetails(w.out.notes, caller, u, gid, [GroupInvitation], name);
        if n.id == 0 then (Http.NoContent, w.(members := members))
        else
          var out := Denotify(w.out, u);
          assert NotificationStore.InviteOf(caller, u, n);
          var notes := NotificationStore.DeleteInvite(out.notes, caller, u).1;
          (Http.NoContent, World(w.groups, members, out.(notes := notes)))
  }

  /** Inviting one user who had no row, then cancelling that invitation, restores the membership table. */
  lemma InviteThenCancelRestores(w: World, actor: Actor, name: string, u: int, now: int)
    requires Hub.Valid(w.out.hub)
    requires InviteUsers(w, actor, name, Some([u]), now).0 == Http.NoContent
    ensures var w1 := InviteUsers(w, actor, name, Some([u]), now).1;
            Hub.Valid(w1.out.hub) && CancelInvitation(w1, actor.id, name, Some(u)).1.members == w.members
  {
    var gid := GroupStore.IdByName(w.groups, name).value;
    var w1 := InviteUsers(w, actor, name, Some([u]), now).1;
    var row := GroupStore.MemberRow(gid, u, actor.id, GroupStore.PendingStatus);
    var keep := (m: GroupStore.MemberRow) => !GroupStore.PendingOf(gid, u, m);
    assert w1.members == w.members + [row];
    assert !GroupStore.InGroup(w.members, gid, u);
    forall m | m in w.members ensures keep(m) {
      var i :| 0 <= i < |w.members| && w.members[i] == m;
      assert !GroupStore.Of(gid, u, w.members[i]);
    }
    FilterKeepsAll(w.members, keep);
    FilterConcat(w.members, [row], keep);
    assert Filter([row], keep) == [];
    assert w.members + [] == w.members;
  }

  /** Cancelling an invitation to one group also deletes the caller's invitation to another group. */
  lemma CancelDropsOtherInvitations(hub: Hub.Hub, now: int)
    requires Hub.Valid(hub)
    ensures var a := Notification(5, 2, 1, GroupInvitation, 10, "chess", "", false, now, "");
            var b := Notification(6, 2, 1, GroupInvitation, 20, "books", "", false, now, "");
            var w := World([GroupStore.Group(10, "chess", "", 1, ""), GroupStore.Group(20, "books", "", 1, "")], [],
                           Out([a, b], hub, 7, []));
            b !in CancelInvitation(w, 1, "chess", Some(2)).1.out.notes
  {
    var a := Notification(5, 2, 1, GroupInvitation, 10, "chess", "", false, now, "");
    var b := Notification(6, 2, 1, GroupInvitation, 20, "books", "", false, now, "");
    var t := [a, b];
    assert NotificationStore.DetailsMatch(1, 2, 10, [GroupInvitation], "chess", t[0]);
    assert NotificationStore.ByDetails(t, 1, 2, 10, [GroupInvitation], "chess") == a;
    assert NotificationStore.InviteOf(1, 2, b);
  }

  datatype Invitee = Invitee(user: UserStore.Item, tag: string)

  /** The label of a non-member on the invite list. */
  function Label(status: string): (l: string)
    ensures l == "Pending" <==> status == GroupStore.PendingStatus
    ensures l != "Pending" ==> l == "Invite"
  {
    if status == GroupStore.PendingStatus then "Pending" else "Invite"
  }

  /** The users the invitation list keeps: those not accepted in group `gid`. */
  function NotAccepted(t: GroupStore.Members, gid: int): UserStore.Item -> bool {
    (it: UserStore.Item) => GroupStore.MemberStatus(t, gid, it.id) != GroupStore.AcceptedStatus
  }

  /**
   * `GetGroupInvitationListHandler`: an unknown group name gives 404.
   * Otherwise every other user, in table order, who is not an accepted
   * member, with their label.
   */
  function InvitationList(groups: seq<GroupStore.Group>, users: seq<UserStore.User>, t: GroupStore.Members,
                          name: string, caller: int): (r: (int, seq<Invitee>))
    ensures GroupStore.IdByName(groups, name).Err? ==> r == (Http.NotFound, [])
    ensures GroupStore.IdByName(groups, name).Ok? ==>
              var gid := GroupStore.IdByName(groups, name).value;
              var items := Filter(UserStore.AllExcluding(users, caller), NotAccepted(t, gid));
              r.0 == Http.Ok
              && |r.1| == |items|
              && (forall i :: 0 <= i < |r.1| ==>
                    r.1[i] == Invitee(items[i], Label(GroupStore.MemberStatus(t, gid, items[i].id))))
              && (forall x :: x in r.1 ==>
                    x.user in UserStore.AllExcluding(users, caller)
                    && GroupStore.MemberStatus(t, gid, x.user.id) != GroupStore.AcceptedStatus
                    && x.tag == Label(GroupStore.MemberStatus(t, gid, x.user.id)))
              && (forall it :: it in UserStore.AllExcluding(users, caller) && GroupStore.MemberStatus(t, gid, it.id) != GroupStore.AcceptedStatus ==>
                    Invitee(it, Label(GroupStore.MemberStatus(t, gid, it.id))) in r.1)
  {
    match GroupStore.IdByName(groups, name)
    case Err(_) => (Http.NotFound, [])
    case Ok(gid) =>
      var items := Filter(UserStore.AllExcluding(users, caller), NotAccepted(t, gid));
      (Http.Ok, Tagged(items, (it: UserStore.Item) => Label(GroupStore.MemberStatus(t, gid, it.id))))
  }

  /** A user invited to a group they had no row in shows in its invitation list as "Pending". */
  lemma InvitedShowsPending(groups: seq<GroupStore.Group>, users: seq<UserStore.User>, t: GroupStore.Members,
                            name: string, caller: int, it: UserStore.Item, inviter: int)
    requires GroupStore.IdByName(groups, name).Ok?
    requires !GroupStore.InGroup(t, GroupStore.IdByName(groups, name).value, it.id)
    requires it in UserStore.AllExcluding(users, caller)
    ensures Invitee(it, "Pending")
              in InvitationList(groups, users, GroupStore.Invite(t, GroupStore.IdByName(groups, name).value, [it.id], inviter), name, caller).1
  {
    var gid := GroupStore.IdByName(groups, name).value;
    var t1 := GroupStore.Invite(t, gid, [it.id], inviter);
    assert t1 == t + [GroupStore.MemberRow(gid, it.id, inviter, GroupStore.PendingStatus)];
    GroupStore.MemberStatusAppend(t, gid, it.id, GroupStore.MemberRow(gid, it.id, inviter, GroupStore.PendingStatus));
  }

  /** Each item paired with its tag, in item order. */
  function Tagged(items: seq<UserStore.Item>, tag: UserStore.Item -> string): (r: seq<Invitee>)
    ensures forall x :: x in r <==> x.user in items && x.tag == tag(x.user)
    ensures |r| == |items| && forall i :: 0 <= i < |items| ==> r[i] == Invitee(items[i], tag(items[i]))
  {
    var r := seq(|items|, i requires 0 <= i < |items| => Invitee(items[i], tag(items[i])));
    assert forall it :: it in items ==> Invitee(it, tag(it)) in r by {
      forall it | it in items ensures Invitee(it, tag(it)) in r {
        var i :| 0 <= i < |items| && items[i] == it;
        assert r[i] == Invitee(it, tag(it));
      }
    }
    r
  }

  /**
   * `GroupRequestHandler`: the invited user answers. Accept turns the pending
   * row into accepted, decline deletes it; both retype the invitation
   * notifications to "group".
   */
  function AnswerInvitation(w: World, notifying: int, notified: int, gid: int, action: string): (r: (int, World))
    ensures action != "accept" && action != "decline" ==> r == (Http.BadRequest, w)
    ensures action == "accept" ==>
              r == (Http.Ok, World(w.groups, GroupStore.AcceptInvitation(w.members, gid, notified),
                                   w.out.(notes := NotificationStore.ChangeType(w.out.notes, notifying, notified, [GroupInvitation], "group"))))
    ensures action == "decline" ==>
              r == (Http.Ok, World(w.groups, GroupStore.DropPending(w.members, gid, notified),
                                   w.out.(notes := NotificationStore.ChangeType(w.out.notes, notifying, notified, [GroupInvitation], "group"))))
  {
    var notes := NotificationStore.ChangeType(w.out.notes, notifying, notified, [GroupInvitation], "group");
    if action == "accept" then (Http.Ok, World(w.groups, GroupStore.AcceptInvitation(w.members, gid, notified), w.out.(notes := notes)))
    else if action == "decline" then (Http.Ok, World(w.groups, GroupStore.DropPending(w.members, gid, notified), w.out.(notes := notes)))
    else (Http.BadRequest, w)
  }

  /** An accepted invitation makes the invitee an accepted member. */
  lemma AcceptedInvitationJoins(w: World, notifying: int, notified: int, gid: int)
    requires exists m :: m in w.members && GroupStore.PendingOf(gid, notified, m)
    ensures GroupStore.IsAccepted(AnswerInvitation(w, notifying, notified, gid, "accept").1.members, gid, notified)
  {
    var m :| m in w.members && GroupStore.PendingOf(gid, notified, m);
    var i :| 0 <= i < |w.members| && w.members[i] == m;
    assert AnswerInvitation(w, notifying, notified, gid, "accept").1.members[i] == m.(status := GroupStore.AcceptedStatus);
  }

  /**
   * `AcceptInvitationHandler` and `RejectInvitationHandler` (no middleware): the
   * creator answers a join request. Without a session the membership change
   * is stored and the handler then fails on the missing user (500).
   */
  function AnswerJoinRequest(w: World, session: Option<int>, groupIdParam: string, userIdParam: string, accept: bool)
    : (r: (int, World))
    ensures Atoi.Atoi(groupIdParam).None? || Atoi.Atoi(userIdParam).None? ==> r == (Http.BadRequest, w)
    ensures Atoi.Atoi(groupIdParam).Some? && Atoi.Atoi(userIdParam).Some? ==>
              var g := Atoi.Atoi(groupIdParam).value;
              var u := Atoi.Atoi(userIdParam).value;
              r.1.members == (if accept then GroupStore.AcceptInvitation(w.members, g, u) else GroupStore.DropPending(w.members, g, u))
              && (session.None? ==> r.0 == Http.ServerError && r.1.out == w.out)
              && (session.Some? ==> (r.0 == Http.NoContent
                    && r.1.out.notes == NotificationStore.ChangeType(w.out.notes, u, session.value, [GroupJoinRequest], "group")))
  {
    match (Atoi.Atoi(groupIdParam), Atoi.Atoi(userIdParam))
    case (None, _) => (Http.BadRequest, w)
    case (_, None) => (Http.BadRequest, w)
    case (Some(g), Some(u)) =>
      var members := if accept then GroupStore.AcceptInvitation(w.members, g, u) else GroupStore.DropPending(w.members, g, u);
      match session
      case None => (Http.ServerError, w.(members := members))
      case Some(me) =>
        (Http.NoContent, World(w.groups, members,
          w.out.(notes := NotificationStore.ChangeType(w.out.notes, u, me, [GroupJoinRequest], "group"))))
  }

  /** The request a user sends to join: a `group_join_request` notification for the creator. */
  function JoinNote(actor: Actor, g: GroupStore.Group, now: int): (n: Notification)
    ensures n.notifiedUserId == g.creatorId && n.notifyingUserId == actor.id && n.kind == GroupJoinRequest
  {
    Notification(0, g.creatorId, actor.id, GroupJoinRequest, g.id, g.name,
                 actor.username + " requests to join '" + g.name + "' group", false, now, actor.avatarUrl)
  }

  /**
   * `GroupJoinRequestHandler` (no middleware; it reads the session itself).
   * "join" toggles a pending row and always notifies the creator; "unjoin"
   * removes every row of the user and withdraws the join-request notification,
   * with a de-notification only when it was unread.
   */
  function JoinRequest(w: World, caller: Option<Actor>, g: GroupStore.Group, requestType: string, now: int): (r: (int, World))
    requires Hub.Valid(w.out.hub)
    ensures caller.None? ==> r == (Http.Unauthorized, w)
    ensures caller.Some? && requestType != "join" && requestType != "unjoin" ==> r == (Http.BadRequest, w)
    ensures caller.Some? && requestType == "join" ==>
              r.0 == Http.Ok
              && r.1.members == GroupStore.RequestAdd(w.members, g.id, caller.value.id, GroupStore.PendingStatus, g.creatorId)
              && r.1.out == Notify(w.out, JoinNote(caller.value, g, now))
    ensures caller.Some? && requestType == "unjoin" ==>
              var n := NotificationStore.ByDetails(w.out.notes, caller.value.id, g.creatorId, g.id, [GroupJoinRequest], g.name);
              r.0 == Http.Ok
              && r.1.members == GroupStore.RemoveMember(w.members, g.id, caller.value.id)
              && (n.id == 0 ==> r.1.out == w.out)
              && (n.id != 0 ==> r.1.out.notes == NotificationStore.Delete(w.out.notes, n.id)
                                && (r.1.out.sent == w.out.sent <==> n.isRead))
  {
    match caller
    case None => (Http.Unauthorized, w)
    case Some(actor) =>
      if requestType == "join" then
        (Http.Ok, World(w.groups, GroupStore.RequestAdd(w.members, g.id, actor.id, GroupStore.PendingStatus, g.creatorId),
                        Notify(w.out, JoinNote(actor, g, now))))
      else if requestType == "unjoin" then
        var members := GroupStore.RemoveMember(w.members, g.id, actor.id);
        var n := NotificationStore.ByDetails(w.out.notes, actor.id, g.creatorId, g.id, [GroupJoinRequest], g.name);
        if n.id == 0 then (Http.Ok, w.(members := members))
        else
          var out := if !n.isRead then Denotify(w.out, g.creatorId) else w.out;
          (Http.Ok, World(w.groups, members, out.(notes := NotificationStore.Delete(out.notes, n.id))))
      else (Http.BadRequest, w)
  }

  /** Joining twice withdraws the pending row, yet the creator is notified both times. */
  lemma JoinTwiceNotifiesTwice(w: World, actor: Actor, g: GroupStore.Group, now: int)
    requires Hub.Valid(w.out.hub)
    requires forall i :: 0 <= i < |w.members| ==> !GroupStore.PendingOf(g.id, actor.id, w.members[i])
    ensures var once := JoinRequest(w, Some(actor), g, "join", now).1;
            var twice := JoinRequest(once, Some(actor), g, "join", now).1;
            twice.members == w.members && |twice.out.sent| == |w.out.sent| + 2
  {
    var once := JoinRequest(w, Some(actor), g, "join", now).1;
    GroupStore.RequestTwiceRestores(w.members, g.id, actor.id, g.creatorId);
    assert Hub.Valid(once.out.hub);
  }
}

=== FILE: group_store.dfy ===
/**
 * The `groups` and `group_members` tables (group_db.go). Membership rows are
 * kept in insertion order; the schema is not part of the model, so the "one
 * row per (group, user)" assumption the queries rely on is the predicate
 * `UniquePairs`, stated where it is needed.
 */
module GroupStore {
  import opened Wrappers
  import opened Model
  import opened SeqUtil

  const PendingStatus := "pending"
  const AcceptedStatus := "accepted"

  datatype Group = Group(id: int, name: string, description: string, creatorId: int, imageUrl: string)

  datatype MemberRow = MemberRow(groupId: int, userId: int, inviterId: int, status: string)

  type Members = seq<MemberRow>

  predicate Of(g: int, u: int, m: MemberRow) { m.groupId == g && m.userId == u }

  predicate PendingOf(g: int, u: int, m: MemberRow) { Of(g, u, m) && m.status == PendingStatus }

  predicate UniquePairs(t: Members) {
    forall i, j :: 0 <= i < j < |t| ==> !Of(t[i].groupId, t[i].userId, t[j])
  }

  predicate IsAccepted(t: Members, g: int, u: int) {
    exists i :: 0 <= i < |t| && Of(g, u, t[i]) && t[i].status == AcceptedStatus
  }

  /** `GetMemberStatus`: the status of the pair's first row, or "" when there is none. */
  function MemberStatus(t: Members, g: int, u: int): (r: string)
    ensures (forall i :: 0 <= i < |t| ==> !Of(g, u, t[i])) ==> r == ""
    ensures r != "" ==> exists i :: 0 <= i < |t| && Of(g, u, t[i]) && t[i].status == r
    ensures UniquePairs(t) ==> (r == AcceptedStatus <==> IsAccepted(t, g, u))
  {
    if |t| == 0 then ""
    else if Of(g, u, t[0]) then
      assert UniquePairs(t) ==> forall i :: 1 <= i < |t| ==> !Of(g, u, t[i]);
      t[0].status
    else
      assert UniquePairs(t) ==> UniquePairs(t[1..]);
      var r := MemberStatus(t[1..], g, u);
      assert r != "" ==> exists i :: 1 <= i < |t| && Of(g, u, t[i]) && t[i].status == r by {
        if r != "" {
          var j :| 0 <= j < |t[1..]| && Of(g, u, t[1..][j]) && t[1..][j].status == r;
          assert t[j + 1] == t[1..][j];
        }
      }
      assert IsAccepted(t, g, u) <==> IsAccepted(t[1..], g, u) by {
        if IsAccepted(t, g, u) {
          var i :| 0 <= i < |t| && Of(g, u, t[i]) && t[i].status == AcceptedStatus;
          assert i > 0 && t[1..][i - 1] == t[i];
        }
        if IsAccepted(t[1..], g, u) {
          var i :| 0 <= i < |t[1..]| && Of(g, u, t[1..][i]) && t[1..][i].status == AcceptedStatus;
          assert t[i + 1] == t[1..][i];
        }
      }
      r
  }

  /** `IsUserInGroup`: the pair has a row, whatever its status. */
  function InGroup(t: Members, g: int, u: int): (r: bool)
    ensures r <==> exists i :: 0 <= i < |t| && Of(g, u, t[i])
    ensures !r ==> MemberStatus(t, g, u) == ""
  {
    exists i :: 0 <= i < |t| && Of(g, u, t[i])
  }

  /** A row appended behind every row of the pair decides its status. */
  lemma {:induction false} MemberStatusAppend(t: Members, g: int, u: int, m: MemberRow)
    requires forall i :: 0 <= i < |t| ==> !Of(g, u, t[i])
    ensures MemberStatus(t + [m], g, u) == if Of(g, u, m) then m.status else ""
  {
    if |t| > 0 {
      assert (t + [m])[1..] == t[1..] + [m];
      MemberStatusAppend(t[1..], g, u, m);
    } else {
      assert (t + [m])[1..] == [];
    }
  }

  /** `AddGroupMember`, and each step of `InviteUsersToGroup` with status "pending". */
  function AddMember(t: Members, g: int, u: int, status: string, inviter: int): (r: Members)
    ensures r == t + [MemberRow(g, u, inviter, status)]
    ensures UniquePairs(t) && !InGroup(t, g, u) ==> UniquePairs(r)
  {
    t + [MemberRow(g, u, inviter, status)]
  }

  /** `InviteUsersToGroup`: one pending row per listed id, in order. */
  function Invite(t: Members, g: int, ids: seq<int>, inviter: int): (r: Members)
    ensures |r| == |t| + |ids| && r[..|t|] == t
    ensures forall k :: 0 <= k < |ids| ==> r[|t| + k] == MemberRow(g, ids[k], inviter, PendingStatus)
    decreases |ids|
  {
    if |ids| == 0 then t
    else
      var r := Invite(AddMember(t, g, ids[0], PendingStatus, inviter), g, ids[1..], inviter);
      r
  }

  /** `RemoveGroupMember`: every row of the pair, whatever its status. */
  function RemoveMember(t: Members, g: int, u: int): (r: Members)
    ensures forall m :: m in r <==> m in t && !Of(g, u, m)
  {
    Filter(t, (m: MemberRow) => !Of(g, u, m))
  }

  /** `CancelGroupInvitation` and `RejectGroupInvitation`: only the pair's pending rows. */
  function DropPending(t: Members, g: int, u: int): (r: Members)
    ensures forall m :: m in r <==> m in t && !PendingOf(g, u, m)
  {
    Filter(t, (m: MemberRow) => !PendingOf(g, u, m))
  }

  /** `AcceptGroupInvitation`: the pair's pending rows become accepted; nothing else changes. */
  function AcceptInvitation(t: Members, g: int, u: int): (r: Members)
    ensures |r| == |t|
    ensures forall i :: 0 <= i < |t| ==> r[i] == (if PendingOf(g, u, t[i]) then t[i].(status := AcceptedStatus) else t[i])
  {
    seq(|t|, i requires 0 <= i < |t| => if PendingOf(g, u, t[i]) then t[i].(status := AcceptedStatus) else t[i])
  }

  /** `RemoveGroupMembers`: `RemoveMember` for each listed id. */
  function RemoveMembers(t: Members, g: int, ids: seq<int>): (r: Members)
    ensures forall m :: m in r <==> m in t && !(m.groupId == g && m.userId in ids)
    decreases |ids|
  {
    if |ids| == 0 then t else RemoveMembers(RemoveMember(t, g, ids[0]), g, ids[1..])
  }

  /**
   * `RequestAddGroupMember`: a join request toggles. An existing pending row of
   * the pair is deleted; otherwise a row with the given status is inserted.
   */
  function RequestAdd(t: Members, g: int, u: int, status: string, inviter: int): (r: Members)
    ensures (exists i :: 0 <= i < |t| && PendingOf(g, u, t[i])) ==> r == DropPending(t, g, u)
    ensures (forall i :: 0 <= i < |t| ==> !PendingOf(g, u, t[i])) ==> r == AddMember(t, g, u, status, inviter)
  {
    if exists i :: 0 <= i < |t| && PendingOf(g, u, t[i]) then DropPending(t, g, u)
    else AddMember(t, g, u, status, inviter)
  }

  /** Requesting twice from no pending row, the second time withdrawing, restores the table exactly. */
  lemma RequestTwiceRestores(t: Members, g: int, u: int, inviter: int)
    requires forall i :: 0 <= i < |t| ==> !PendingOf(g, u, t[i])
    ensures RequestAdd(RequestAdd(t, g, u, PendingStatus, inviter), g, u, PendingStatus, inviter) == t
  {
    var t1 := RequestAdd(t, g, u, PendingStatus, inviter);
    assert t1 == t + [MemberRow(g, u, inviter, PendingStatus)];
    assert PendingOf(g, u, t1[|t|]);
    FilterConcat(t, [MemberRow(g, u, inviter, PendingStatus)], (m: MemberRow) => !PendingOf(g, u, m));
    FilterKeepsAll(t, (m: MemberRow) => !PendingOf(g, u, m));
  }

  /** The three tabs of the groups page for a user. */
  datatype Categories = Categories(created: seq<Group>, joined: seq<Group>, discover: seq<Group>)

  /**
   * `GetCategorizedGroups`: groups the user created; groups with an accepted
   * row whose creator is someone else; every other group whose creator is
   * someone else.
   */
  function Categorize(groups: seq<Group>, t: Members, u: int): (r: Categories)
    ensures forall g :: g in r.created <==> g in groups && g.creatorId == u
    ensures forall g :: g in r.joined <==> g in groups && IsAccepted(t, g.id, u) && g.creatorId != u
    ensures forall g :: g in r.discover <==> g in groups && !IsAccepted(t, g.id, u) && g.creatorId != u
  {
    Categories(
      Filter(groups, (g: Group) => g.creatorId == u),
      Filter(groups, (g: Group) => IsAccepted(t, g.id, u) && g.creatorId != u),
      Filter(groups, (g: Group) => !IsAccepted(t, g.id, u) && g.creatorId != u))
  }

  /** Every group lands in exactly one tab. */
  lemma CategoriesPartition(groups: seq<Group>, t: Members, u: int, g: Group)
    requires g in groups
    ensures var c := Categorize(groups, t, u);
            (g in c.created && g !in c.joined && g !in c.discover)
            || (g !in c.created && g in c.joined && g !in c.discover)
            || (g !in c.created && g !in c.joined && g in c.discover)
  {
  }

  /** `GetGroupsNotInUserMembership`: groups without an accepted row, or with a pending one. */
  function NotMemberOf(groups: seq<Group>, t: Members, u: int): (r: seq<Group>)
    ensures forall g :: g in r <==> g in groups && (!IsAccepted(t, g.id, u) || exists i :: 0 <= i < |t| && PendingOf(g.id, u, t[i]))
  {
    Filter(groups, (g: Group) => !IsAccepted(t, g.id, u) || exists i :: 0 <= i < |t| && PendingOf(g.id, u, t[i]))
  }

  /** With one row per pair, a pending row is never accepted, so the second test adds nothing. */
  lemma NotMemberOfIsNotAccepted(groups: seq<Group>, t: Members, u: int)
    requires UniquePairs(t)
    ensures forall g :: g in NotMemberOf(groups, t, u) <==> g in groups && !IsAccepted(t, g.id, u)
  {
    forall g | g in groups && (exists i :: 0 <= i < |t| && PendingOf(g.id, u, t[i]))
      ensures !IsAccepted(t, g.id, u)
    {
      var i :| 0 <= i < |t| && PendingOf(g.id, u, t[i]);
      forall j | 0 <= j < |t| && Of(g.id, u, t[j])
        ensures t[j].status != AcceptedStatus
      {
        OneRowPerPair(t, g.id, u, i, j);
      }
    }
  }

  lemma OneRowPerPair(t: Members, g: int, u: int, i: nat, j: nat)
    requires UniquePairs(t) && i < |t| && j < |t| && Of(g, u, t[i]) && Of(g, u, t[j])
    ensures i == j
  {
  }

  /** `strings.ReplaceAll(name, " ", "-")`. */
  function Hyphenate(s: string): (r: string)
    ensures |r| == |s| && forall i :: 0 <= i < |s| ==> r[i] == (if s[i] == ' ' then '-' else s[i])
  {
    seq(|s|, i requires 0 <= i < |s| => if s[i] == ' ' then '-' else s[i])
  }

  /** The first group of the table named `a` or `b`. */
  function FindNamed(groups: seq<Group>, a: string, b: string): (r: Option<nat>)
    ensures r.None? <==> forall i :: 0 <= i < |groups| ==> groups[i].name != a && groups[i].name != b
    ensures r.Some? ==> r.value < |groups| && (groups[r.value].name == a || groups[r.value].name == b)
                        && forall i :: 0 <= i < r.value ==> groups[i].name != a && groups[i].name != b
  {
    if |groups| == 0 then None
    else if groups[0].name == a || groups[0].name == b then Some(0)
    else match FindNamed(groups[1..], a, b)
      case None => None
      case Some(i) => Some(i + 1)
  }

  /** `GetGroupsMembers` order: the creator first, then the other accepted members in table order. */
  function AcceptedMembers(t: Members, g: int, creator: int): (r: seq<int>)
    ensures forall v :: v in r <==> IsAccepted(t, g, v)
    ensures IsAccepted(t, g, creator) ==> |r| > 0 && r[0] == creator
  {
    var rows := Filter(t, (m: MemberRow) => m.groupId == g && m.status == AcceptedStatus);
    var first := Filter(rows, (m: MemberRow) => m.userId == creator);
    var rest := Filter(rows, (m: MemberRow) => m.userId != creator);
    var r := UserIds(first) + UserIds(rest);
    assert forall v :: v in r <==> IsAccepted(t, g, v) by {
      forall v ensures v in r <==> IsAccepted(t, g, v) {
        if IsAccepted(t, g, v) {
          var i :| 0 <= i < |t| && Of(g, v, t[i]) && t[i].status == AcceptedStatus;
          assert t[i] in rows;
          if v == creator { assert t[i] in first; } else { assert t[i] in rest; }
        }
        if v in r {
          var m :| m in rows && m.userId == v;
          var i :| 0 <= i < |t| && t[i] == m;
        }
      }
    }
    r
  }

  function UserIds(rows: seq<MemberRow>): (r: seq<int>)
    ensures |r| == |rows| && forall i :: 0 <= i < |rows| ==> r[i] == rows[i].userId
    ensures forall v :: v in r <==> exists m :: m in rows && m.userId == v
  {
    var r := seq(|rows|, i requires 0 <= i < |rows| => rows[i].userId);
    assert forall m :: m in rows ==> m.userId in r by {
      forall m | m in rows ensures m.userId in r {
        var i :| 0 <= i < |rows| && rows[i] == m;
        assert r[i] == m.userId;
      }
    }
    r
  }

  /**
   * `GetGroupByName`: the first group named as given or with its spaces turned
   * into hyphens, with its accepted members, creator first.
   */
  function ByName(groups: seq<Group>, t: Members, name: string): (r: Result<(Group, seq<int>)>)
    ensures r.Err? <==> forall g :: g in groups ==> g.name != name && g.name != Hyphenate(name)
    ensures r.Ok? ==> r.value.0 in groups && (r.value.0.name == name || r.value.0.name == Hyphenate(name))
                      && r.value.1 == AcceptedMembers(t, r.value.0.id, r.value.0.creatorId)
  {
    match FindNamed(groups, name, Hyphenate(name))
    case None => Err("group not found")
    case Some(i) => Ok((groups[i], AcceptedMembers(t, groups[i].id, groups[i].creatorId)))
  }

  /** The URL form of a name finds the group whose stored name has hyphens. */
  lemma SpacedNameFindsHyphenated(t: Members)
    ensures ByName([Group(1, "book-club", "", 7, "")], t, "book club").Ok?
  {
    assert Hyphenate("book club") == "book-club";
  }

  /** `IsCreator`: an unknown group is an error; otherwise whether the user is its creator. */
  function IsCreator(groups: seq<Group>, g: int, u: int): (r: Result<bool>)
    ensures r.Err? <==> forall x :: x in groups ==> x.id != g
    ensures r.Ok? ==> exists x :: x in groups && x.id == g && (r.value <==> x.creatorId == u)
  {
    if |groups| == 0 then Err("no rows")
    else if groups[0].id == g then Ok(groups[0].creatorId == u)
    else IsCreator(groups[1..], g, u)
  }

  /** `CheckGroupNameExists`: an exact name match. */
  function NameExists(groups: seq<Group>, name: string): (r: bool)
    ensures r <==> exists g :: g in groups && g.name == name
  {
    exists g :: g in groups && g.name == name
  }

  /** `UpdateGroupQuery`: name and description always, the image only when one is given. */
  function Update(groups: seq<Group>, u: Group): (r: seq<Group>)
    ensures |r| == |groups|
    ensures forall i :: 0 <= i < |groups| ==>
              r[i] == (if groups[i].id == u.id
                       then groups[i].(name := u.name, description := u.description,
                                       imageUrl := if u.imageUrl != "" then u.imageUrl else groups[i].imageUrl)
                       else groups[i])
  {
    seq(|groups|, i requires 0 <= i < |groups| =>
      if groups[i].id == u.id
      then groups[i].(name := u.name, description := u.description,
                      imageUrl := if u.imageUrl != "" then u.imageUrl else groups[i].imageUrl)
      else groups[i])
  }
  /** An update touches neither ids nor creators, so the creator check answers as before. */
  lemma {:induction false} UpdateKeepsCreator(groups: seq<Group>, u: Group, g: int, c: int)
    ensures IsCreator(Update(groups, u), g, c) == IsCreator(groups, g, c)
  {
    if |groups| > 0 {
      assert Update(groups, u)[1..] == Update(groups[1..], u);
      UpdateKeepsCreator(groups[1..], u, g, c);
    }
  }

  /** Without a new image, updating twice is updating once. */
  lemma UpdateIdempotent(groups: seq<Group>, u: Group)
    requires u.imageUrl == ""
    ensures Update(Update(groups, u), u) == Update(groups, u)
  {
  }


  /** `GetGroupIDByName`: the first group with exactly this name. */
  function IdByName(groups: seq<Group>, name: string): (r: Result<int>)
    ensures r.Err? <==> forall x :: x in groups ==> x.name != name
    ensures r.Ok? ==> exists x :: x in groups && x.name == name && x.id == r.value
  {
    if |groups| == 0 then Err("group not found")
    else if groups[0].name == name then Ok(groups[0].id)
    else IdByName(groups[1..], name)
  }

  /** `GetGroupMembersAsUsers`: the accepted members' ids in table order. */
  function AcceptedIds(t: Members, g: int): (r: seq<int>)
    ensures forall v :: v in r <==> IsAccepted(t, g, v)
  {
    var rows := Filter(t, (m: MemberRow) => m.groupId == g && m.status == AcceptedStatus);
    assert forall v :: IsAccepted(t, g, v) ==> exists m :: m in rows && m.userId == v by {
      forall v | IsAccepted(t, g, v) ensures exists m :: m in rows && m.userId == v {
        var i :| 0 <= i < |t| && Of(g, v, t[i]) && t[i].status == AcceptedStatus;
        assert t[i] in rows;
      }
    }
    assert forall v :: (exists m :: m in rows && m.userId == v) ==> IsAccepted(t, g, v) by {
      forall v | exists m :: m in rows && m.userId == v ensures IsAccepted(t, g, v) {
        var m :| m in rows && m.userId == v;
        var i :| 0 <= i < |t| && t[i] == m;
      }
    }
    UserIds(rows)
  }
}

=== FILE: http.dfy ===
/**
 * The HTTP status codes the handlers write. A handler's status is the first
 * one it writes: net/http ignores later `WriteHeader` calls, and a panic that
 * reaches the recovery middleware before anything was written becomes 500.
 */
module Http {
  const Ok := 200
  const Created := 201
  const NoContent := 204
  const BadRequest := 400
  const Unauthorized := 401
  const Forbidden := 403
  const NotFound := 404
  const MethodNotAllowed := 405
  const Conflict := 409
  const ServerError := 500
}

=== FILE: hub.dfy ===
/**
 * The server's WebSocket registry (hub.go, websocket.go): a map from user id to
 * that user's current connection, each connection with a bounded send queue.
 * The hub goroutine's select loop is a sequence of transitions; a channel is its
 * queue plus a closed flag, and closing a closed channel (a Go panic that stops
 * the server) sets `panicked`.
 */
module Hub {
  import opened Wrappers
  import opened Model
  import Atoi

  /** Bytes of an inbound frame. */
  type Bytes = seq<bv8>

  /** What a send queue holds: a raw frame relayed from a client, or a server envelope. */
  datatype Packet = Frame(data: Bytes) | Push(env: Envelope)

  const SendCapacity := 256
  const MaxMessageLength := 2000

  datatype Conn = Conn(userId: int, queue: seq<Packet>, closed: bool)

  datatype Hub = Hub(clients: map<int, nat>, conns: map<nat, Conn>, panicked: bool)

  /** Every key of the registry is the user id of an open connection stored under it; no queue is over capacity. */
  predicate Valid(h: Hub) {
    (forall uid :: uid in h.clients ==>
       h.clients[uid] in h.conns && h.conns[h.clients[uid]].userId == uid && !h.conns[h.clients[uid]].closed)
    && (forall cid :: cid in h.conns ==> |h.conns[cid].queue| <= SendCapacity)
  }

  function Empty(): (h: Hub)
    ensures Valid(h) && h.clients == map[]
  {
    Hub(map[], map[], false)
  }

  /**
   * `ServeWs` with a fresh connection id: a `userID` that does not parse leaves
   * the connection unregistered; otherwise the new connection is registered,
   * replacing any earlier one for that user without closing it.
   */
  function Serve(h: Hub, cid: nat, userIdParam: string): (r: Hub)
    requires cid !in h.conns
    ensures Atoi.Atoi(userIdParam).None? ==> r == h
    ensures Atoi.Atoi(userIdParam).Some? ==>
              var uid := Atoi.Atoi(userIdParam).value;
              r.clients == h.clients[uid := cid] && r.conns == h.conns[cid := Conn(uid, [], false)] && r.panicked == h.panicked
    ensures Valid(h) ==> Valid(r)
  {
    match Atoi.Atoi(userIdParam)
    case None => h
    case Some(uid) => h.(clients := h.clients[uid := cid], conns := h.conns[cid := Conn(uid, [], false)])
  }

  /** Closes a connection's channel; closing it twice panics. */
  function Close(h: Hub, cid: nat): (r: Hub)
    requires cid in h.conns
    ensures r.clients == h.clients
    ensures h.conns[cid].closed ==> r == h.(panicked := true)
    ensures !h.conns[cid].closed ==> r == h.(conns := h.conns[cid := h.conns[cid].(closed := true)])
  {
    if h.conns[cid].closed then h.(panicked := true)
    else h.(conns := h.conns[cid := h.conns[cid].(closed := true)])
  }

  /**
   * The unregister case, keyed by the connection's user id only: when that user
   * has an entry, whichever connection it holds is removed, and this
   * connection's channel is closed.
   */
  function Unregister(h: Hub, cid: nat): (r: Hub)
    requires cid in h.conns
    ensures h.conns[cid].userId !in h.clients ==> r == h
    ensures h.conns[cid].userId in h.clients ==>
              r == Close(h.(clients := h.clients - {h.conns[cid].userId}), cid)
    ensures Valid(h) ==> Valid(r)
  {
    var uid := h.conns[cid].userId;
    if uid in h.clients then Close(h.(clients := h.clients - {uid}), cid) else h
  }

  predicate HasRoom(h: Hub, cid: nat)
    requires cid in h.conns
  {
    |h.conns[cid].queue| < SendCapacity
  }

  /** The registered connection ids. */
  function Registered(h: Hub): set<nat> {
    set uid | uid in h.clients :: h.clients[uid]
  }

  /**
   * The broadcast case: every registered connection with room gets the packet;
   * every full one is closed and its user removed. Go's random map order does
   * not matter, since each entry is handled on its own.
   */
  function Broadcast(h: Hub, p: Packet): (r: Hub)
    requires Valid(h)
    ensures r.panicked == h.panicked
    ensures forall uid :: uid in r.clients <==> uid in h.clients && HasRoom(h, h.clients[uid])
    ensures forall uid :: uid in r.clients ==> r.clients[uid] == h.clients[uid]
    ensures r.conns.Keys == h.conns.Keys
    ensures forall cid :: cid in h.conns && cid !in Registered(h) ==> r.conns[cid] == h.conns[cid]
    ensures forall uid :: uid in h.clients && HasRoom(h, h.clients[uid]) ==>
              r.conns[h.clients[uid]] == h.conns[h.clients[uid]].(queue := h.conns[h.clients[uid]].queue + [p])
    ensures forall uid :: uid in h.clients && !HasRoom(h, h.clients[uid]) ==>
              r.conns[h.clients[uid]] == h.conns[h.clients[uid]].(closed := true)
  {
    var conns := map cid | cid in h.conns ::
      if cid !in Registered(h) then h.conns[cid]
      else if HasRoom(h, cid) then h.conns[cid].(queue := h.conns[cid].queue + [p])
      else h.conns[cid].(closed := true);
    var clients := map uid | uid in h.clients && HasRoom(h, h.clients[uid]) :: h.clients[uid];
    Hub(clients, conns, h.panicked)
  }

  lemma BroadcastKeepsValid(h: Hub, p: Packet)
    requires Valid(h)
    ensures Valid(Broadcast(h, p))
  {
    var r := Broadcast(h, p);
    forall uid | uid in r.clients
      ensures r.clients[uid] in r.conns && r.conns[r.clients[uid]].userId == uid && !r.conns[r.clients[uid]].closed
    {
      assert h.clients[uid] in Registered(h);
    }
    forall cid | cid in r.conns
      ensures |r.conns[cid].queue| <= SendCapacity
    {
      if cid in Registered(h) {
        var uid :| uid in h.clients && h.clients[uid] == cid;
        assert uid in h.clients;
      }
    }
  }

  /** `readPump`: a frame over 2000 bytes is skipped; any other is broadcast to everyone. */
  function Inbound(h: Hub, frame: Bytes): (r: Hub)
    requires Valid(h)
    ensures |frame| > MaxMessageLength ==> r == h
    ensures |frame| <= MaxMessageLength ==> r == Broadcast(h, Frame(frame))
  {
    if |frame| > MaxMessageLength then h else Broadcast(h, Frame(frame))
  }

  /**
   * `SendMessageToUser`: nothing for a user who is not registered, nothing when
   * the queue is full (the packet is dropped, the caller is not told), and
   * otherwise the packet is queued. Sending on a closed channel would panic.
   */
  function SendToUser(h: Hub, uid: int, p: Packet): (r: Hub)
    requires uid in h.clients ==> h.clients[uid] in h.conns
    ensures uid !in h.clients ==> r == h
    ensures uid in h.clients && h.conns[h.clients[uid]].closed ==> r == h.(panicked := true)
    ensures uid in h.clients && !h.conns[h.clients[uid]].closed && !HasRoom(h, h.clients[uid]) ==> r == h
    ensures uid in h.clients && !h.conns[h.clients[uid]].closed && HasRoom(h, h.clients[uid]) ==>
              r == h.(conns := h.conns[h.clients[uid] := h.conns[h.clients[uid]].(queue := h.conns[h.clients[uid]].queue + [p])])
    ensures r.clients == h.clients && r.conns.Keys == h.conns.Keys
    ensures Valid(h) ==> Valid(r) && r.panicked == h.panicked
  {
    if uid !in h.clients then h
    else
      var cid := h.clients[uid];
      if h.conns[cid].closed then h.(panicked := true)
      else if !HasRoom(h, cid) then h
      else h.(conns := h.conns[cid := h.conns[cid].(queue := h.conns[cid].queue + [p])])
  }

  /** `writePump`: the oldest queued packet is written out. */
  function Drain(h: Hub, cid: nat): (r: (Hub, Option<Packet>))
    requires cid in h.conns
    ensures |h.conns[cid].queue| == 0 ==> r == (h, None)
    ensures |h.conns[cid].queue| > 0 ==>
              r.1 == Some(h.conns[cid].queue[0]) && r.0 == h.(conns := h.conns[cid := h.conns[cid].(queue := h.conns[cid].queue[1..])])
    ensures Valid(h) ==> Valid(r.0)
  {
    var c := h.conns[cid];
    if |c.queue| == 0 then (h, None)
    else (h.(conns := h.conns[cid := c.(queue := c.queue[1..])]), Some(c.queue[0]))
  }

  /**
   * A stale connection's unregister removes the user's newer, live connection
   * from the registry and closes only the stale channel: the live connection
   * stays open but can no longer be reached.
   */
  lemma StaleUnregisterRemovesLiveClient(h: Hub, stale: nat, live: nat)
    requires Valid(h) && stale in h.conns && live in h.conns && stale != live
    requires !h.conns[stale].closed
    requires h.conns[stale].userId in h.clients && h.clients[h.conns[stale].userId] == live
    ensures var r := Unregister(h, stale);
            h.conns[stale].userId !in r.clients && r.conns[stale].closed && !r.conns[live].closed
            && live !in Registered(r)
  {
  }

  /**
   * A full connection is closed by a broadcast; if the same user reconnects and
   * the old connection's read loop then unregisters, its channel is closed a
   * second time.
   */
  lemma DoubleCloseAfterReconnect(uid: int, full: seq<Packet>, p: Packet)
    requires |full| == SendCapacity
    ensures var h0 := Hub(map[uid := 0], map[0 := Conn(uid, full, false)], false);
            var h1 := Broadcast(h0, p);
            var h2 := Serve(h1, 1, Atoi.Show(if uid >= 0 then uid else 0));
            uid >= 0 && uid <= Atoi.MaxInt64 ==> Unregister(h2, 0).panicked
  {
    var h0 := Hub(map[uid := 0], map[0 := Conn(uid, full, false)], false);
    assert Valid(h0);
    var h1 := Broadcast(h0, p);
    assert h1.conns[0].closed && uid !in h1.clients;
    if 0 <= uid <= Atoi.MaxInt64 {
      Atoi.AtoiOfShow(uid);
      var h2 := Serve(h1, 1, Atoi.Show(uid));
      assert h2.clients[uid] == 1 && h2.conns[0].closed;
    }
  }
}

=== FILE: live_transcript.dfy ===
/**
 * The open conversation (chatMessages.tsx): the consumer that appends live chat
 * events to `realTimeMessages`, and the rendering of history plus live messages
 * as sent or received bubbles.
 */
module LiveTranscript {
  import opened Wrappers
  import opened Model
  import SeqUtil

  /** The direct-message half of the live-append test. */
  predicate DirectMatch(chat: Chat, e: Envelope) {
    e.kind == "chat" && e.payload.Some? && chat.userB.id != 0 && e.payload.value.ChatPayload?
    && var m := e.payload.value.msg;
       (m.senderId == chat.userB.id && m.receiverId == chat.userA.id)
       || (m.receiverId == chat.userB.id && m.senderId == chat.userA.id)
  }

  /**
   * The group half. By operator precedence it stands alone: it checks neither
   * the event type nor that a payload exists.
   */
  predicate GroupMatch(chat: Chat, e: Envelope) {
    chat.group.id != 0 && e.payload.Some? && e.payload.value.ChatPayload?
    && e.payload.value.msg.groupId == chat.group.id
  }

  /** The live-append test for one event; `Err` when reading `payload.groupId` throws. */
  function Matches(chat: Chat, e: Envelope): (r: Result<bool>)
    ensures r.Err? <==> !DirectMatch(chat, e) && chat.group.id != 0 && e.payload.None?
    ensures r.Ok? ==> (r.value <==> DirectMatch(chat, e) || GroupMatch(chat, e))
    ensures r == Ok(true) ==> e.payload.Some? && e.payload.value.ChatPayload?
  {
    if DirectMatch(chat, e) then Ok(true)
    else if chat.group.id == 0 then Ok(false)
    else match e.payload
      case None => Err("payload is undefined")
      case Some(ChatPayload(m)) => Ok(m.groupId == chat.group.id)
      case Some(NotificationPayload(_)) => Ok(false)
  }

  /** In a group view, a payload-less event such as a de-notification makes the consumer throw. */
  lemma DenotificationThrowsInGroupView(chat: Chat)
    requires chat.group.id != 0
    ensures Matches(chat, Envelope("denotification", None)).Err?
  {
  }

  /** Any event carrying a message of the open group is appended, whatever its type. */
  lemma GroupMatchIgnoresType(chat: Chat, kind: string, m: ChatMessage)
    requires chat.group.id != 0 && m.groupId == chat.group.id
    ensures Matches(chat, Envelope(kind, Some(ChatPayload(m)))) == Ok(true)
  {
  }

  /**
   * The `forEach` as written: every matching event calls
   * `setRealTimeMessages([...captured, payload])` with the array captured when
   * the effect started, and the last call wins.
   */
  function SetCalls(chat: Chat, captured: seq<ChatMessage>, pending: seq<ChatMessage>, events: seq<Envelope>): Result<seq<ChatMessage>>
    decreases |events|
  {
    if |events| == 0 then Ok(pending)
    else match Matches(chat, events[0])
      case Err(msg) => Err(msg)
      case Ok(hit) =>
        SetCalls(chat, captured, if hit then captured + [events[0].payload.value.msg] else pending, events[1..])
  }

  /** The live messages after the consumer has seen one batch. */
  function OnBatch(chat: Chat, realTime: seq<ChatMessage>, events: seq<Envelope>): (r: Result<seq<ChatMessage>>)
  {
    if |events| == 0 then Ok(realTime) else SetCalls(chat, realTime, realTime, events)
  }

  /** The messages of a batch that pass the test, in order; `Err` if the test throws on one. */
  function Matched(chat: Chat, events: seq<Envelope>): (r: Result<seq<ChatMessage>>)
    ensures r.Ok? ==> |r.value| <= |events|
    ensures r.Err? <==> exists i :: 0 <= i < |events| && Matches(chat, events[i]).Err?
    decreases |events|
  {
    assert forall i :: 1 <= i < |events| ==> events[1..][i - 1] == events[i];
    if |events| == 0 then Ok([])
    else match Matches(chat, events[0])
      case Err(msg) => Err(msg)
      case Ok(hit) =>
        match Matched(chat, events[1..])
        case Err(msg) => Err(msg)
        case Ok(rest) => Ok(if hit then [events[0].payload.value.msg] + rest else rest)
  }

  lemma {:induction false} SetCallsKeepsLast(chat: Chat, captured: seq<ChatMessage>, pending: seq<ChatMessage>, events: seq<Envelope>)
    ensures Matched(chat, events).Err? <==> SetCalls(chat, captured, pending, events).Err?
    ensures Matched(chat, events).Ok? ==>
              var ms := Matched(chat, events).value;
              SetCalls(chat, captured, pending, events) == Ok(if |ms| == 0 then pending else captured + [ms[|ms| - 1]])
    decreases |events|
  {
    if |events| > 0 && Matches(chat, events[0]).Ok? {
      var hit := Matches(chat, events[0]).value;
      var next := if hit then captured + [events[0].payload.value.msg] else pending;
      SetCallsKeepsLast(chat, captured, next, events[1..]);
    }
  }

  /**
   * However many events of a batch match, the live transcript grows by at most
   * one message: the last match.
   */
  lemma OnBatchKeepsOnlyLastMatch(chat: Chat, realTime: seq<ChatMessage>, events: seq<Envelope>)
    requires Matched(chat, events).Ok?
    ensures var ms := Matched(chat, events).value;
            OnBatch(chat, realTime, events) == Ok(if |ms| == 0 then realTime else realTime + [ms[|ms| - 1]])
  {
    SetCallsKeepsLast(chat, realTime, realTime, events);
  }

  /** Corrected: a functional update `prev => [...prev, payload]` keeps every match. */
  function OnBatchAppendAll(chat: Chat, realTime: seq<ChatMessage>, events: seq<Envelope>): (r: Result<seq<ChatMessage>>)
    ensures r.Ok? ==> |realTime| <= |r.value| <= |realTime| + |events| && r.value[..|realTime|] == realTime
    ensures r.Err? <==> Matched(chat, events).Err?
    ensures r.Ok? ==> r.value[|realTime|..] == Matched(chat, events).value
  {
    match Matched(chat, events)
    case Err(msg) => Err(msg)
    case Ok(ms) => Ok(realTime + ms)
  }

  /** Two messages of the open conversation in one batch: only the second survives as written. */
  lemma OnBatchDropsEarlierMatch(chat: Chat, m1: ChatMessage, m2: ChatMessage)
    requires chat.userB.id != 0
    requires m1.senderId == chat.userB.id && m1.receiverId == chat.userA.id
    requires m2.senderId == chat.userB.id && m2.receiverId == chat.userA.id
    ensures var batch := [Envelope("chat", Some(ChatPayload(m1))), Envelope("chat", Some(ChatPayload(m2)))];
            OnBatch(chat, [], batch) == Ok([m2])
            && OnBatchAppendAll(chat, [], batch) == Ok([m1, m2])
  {
    var batch := [Envelope("chat", Some(ChatPayload(m1))), Envelope("chat", Some(ChatPayload(m2)))];
    assert DirectMatch(chat, batch[0]) && DirectMatch(chat, batch[1]);
    assert batch[1..] == [batch[1]];
    assert batch[1..][1..] == [];
    assert Matches(chat, batch[0]) == Ok(true) && Matches(chat, batch[1]) == Ok(true);
    var tail := [batch[1]];
    assert tail[1..] == [];
    assert Matched(chat, tail[1..]) == Ok([]);
    var none: seq<ChatMessage> := [];
    assert [m2] + none == [m2];
    assert Matched(chat, tail) == Ok([m2]);
    assert batch[1..] == tail;
    assert [m1] + [m2] == [m1, m2];
    assert Matched(chat, batch) == Ok([m1, m2]);
    assert none + [m2] == [m2];
    assert none + [m1, m2] == [m1, m2];
    OnBatchKeepsOnlyLastMatch(chat, [], batch);
  }

  datatype Bubble =
    | Sent(msg: ChatMessage)
    | Received(msg: ChatMessage)
    | GroupSent(msg: ChatMessage, member: UserRef)
    | GroupReceived(msg: ChatMessage, member: UserRef)

  /** `generateUserMessages`: a message is sent iff the local user wrote it. */
  function RenderDirect(chat: Chat, ms: seq<ChatMessage>): (r: seq<Bubble>)
    ensures |r| == |ms|
    ensures forall i :: 0 <= i < |ms| ==> r[i].msg == ms[i]
    ensures forall i :: 0 <= i < |ms| ==> (r[i].Sent? <==> ms[i].senderId == chat.userA.id)
    ensures forall i :: 0 <= i < |ms| ==> (r[i].Received? <==> ms[i].senderId != chat.userA.id)
  {
    if |ms| == 0 then []
    else [if ms[0].senderId == chat.userA.id then Sent(ms[0]) else Received(ms[0])] + RenderDirect(chat, ms[1..])
  }

  /** `members.find`: the first member with the given id. */
  function FindMember(members: seq<UserRef>, id: int): (r: Option<UserRef>)
    ensures r.Some? ==> r.value in members && r.value.id == id
    ensures r.None? <==> forall i :: 0 <= i < |members| ==> members[i].id != id
  {
    if |members| == 0 then None
    else if members[0].id == id then Some(members[0])
    else FindMember(members[1..], id)
  }

  function Messages(bs: seq<Bubble>): (r: seq<ChatMessage>)
    ensures |r| == |bs| && forall i :: 0 <= i < |bs| ==> r[i] == bs[i].msg
  {
    if |bs| == 0 then [] else [bs[0].msg] + Messages(bs[1..])
  }

  lemma MessagesConcat(a: seq<Bubble>, b: seq<Bubble>)
    ensures Messages(a + b) == Messages(a) + Messages(b)
  {
    assert forall i :: 0 <= i < |a| + |b| ==> (a + b)[i].msg == (Messages(a) + Messages(b))[i];
  }

  function HasMember(chat: Chat): ChatMessage -> bool {
    (m: ChatMessage) => FindMember(chat.group.members, m.senderId).Some?
  }

  /** `generateGroupMessages`: messages whose sender is not a member render nothing. */
  function RenderGroup(chat: Chat, ms: seq<ChatMessage>): (r: seq<Bubble>)
    ensures Messages(r) == SeqUtil.Filter(ms, HasMember(chat))
    ensures forall i :: 0 <= i < |r| ==> (r[i].GroupSent? || r[i].GroupReceived?)
    ensures forall i :: 0 <= i < |r| ==> (r[i].GroupSent? <==> r[i].msg.senderId == chat.userA.id)
    ensures forall i :: 0 <= i < |r| ==> Some(r[i].member) == FindMember(chat.group.members, r[i].msg.senderId)
  {
    if |ms| == 0 then []
    else
      var rest := RenderGroup(chat, ms[1..]);
      match FindMember(chat.group.members, ms[0].senderId)
      case None => rest
      case Some(usr) =>
        [if ms[0].senderId == chat.userA.id then GroupSent(ms[0], usr) else GroupReceived(ms[0], usr)] + rest
  }

  /** The rendered view: history first, then live messages, neither re-sorted nor de-duplicated. */
  function Render(chat: Chat, realTime: seq<ChatMessage>): (r: seq<Bubble>)
    ensures chat.userB.id != 0 && chat.group.id == 0 ==> Messages(r) == chat.messages + realTime
    ensures chat.userB.id == 0 && chat.group.id == 0 ==> r == []
    ensures chat.userB.id == 0 && chat.group.id != 0 ==>
              Messages(r) == SeqUtil.Filter(chat.messages + realTime, HasMember(chat))
              && forall i :: 0 <= i < |r| ==> r[i].GroupSent? || r[i].GroupReceived?
    ensures chat.userB.id != 0 && chat.group.id != 0 ==>
              Messages(r) == chat.messages + realTime + SeqUtil.Filter(chat.messages + realTime, HasMember(chat))
  {
    var all := chat.messages + realTime;
    if chat.group.id == 0 then
      if chat.userB.id != 0 then DirectMessages(chat, all); RenderDirect(chat, all) else []
    else if chat.userB.id == 0 then RenderGroup(chat, all)
    else
      DirectMessages(chat, all);
      MessagesConcat(RenderDirect(chat, all), RenderGroup(chat, all));
      RenderDirect(chat, all) + RenderGroup(chat, all)
  }

  lemma DirectMessages(chat: Chat, ms: seq<ChatMessage>)
    ensures Messages(RenderDirect(chat, ms)) == ms
  {
    var r := RenderDirect(chat, ms);
    assert forall i :: 0 <= i < |ms| ==> Messages(r)[i] == ms[i];
  }
}

=== FILE: model.dfy ===
/**
 * Records shared by the server and the client: chat messages, notifications and
 * the `{type, payload}` envelope pushed over the WebSocket (`Message` on the
 * server, the parsed JSON object on the client). JSON field `type` is `kind` here
 * and the notification field `object` is `objectName`.
 */
module Model {
  import opened Wrappers

  datatype ChatMessage = ChatMessage(
    id: int, senderId: int, receiverId: int, groupId: int, content: string, createdAt: int)

  datatype Notification = Notification(
    id: int, notifiedUserId: int, notifyingUserId: int, kind: string,
    objectId: int, objectName: string, content: string, isRead: bool, createdAt: int,
    notifyingImage: string)

  /** The notification kinds the group handlers write and retype. */
  const GroupInvitation := "group_invitation"
  const GroupJoinRequest := "group_join_request"

  datatype Payload = ChatPayload(msg: ChatMessage) | NotificationPayload(note: Notification)

  datatype Envelope = Envelope(kind: string, payload: Option<Payload>)

  /** A user as the client sees it inside a conversation. */
  datatype UserRef = UserRef(id: int, username: string)

  datatype GroupRef = GroupRef(id: int, title: string, members: seq<UserRef>)

  /**
   * One conversation of the client's list: `userA` is the local user, `userB`
   * the peer (id 0 for a group conversation). `notification` is the unread
   * counter; `None` stands for a missing or non-numeric value.
   */
  datatype Chat = Chat(
    messages: seq<ChatMessage>, userA: UserRef, userB: UserRef, group: GroupRef,
    notification: Option<int>)
}

=== FILE: notification_bell.dfy ===
/**
 * The navigation bar's notification bell (nav.tsx): it consumes notification and
 * de-notification events from the shared queue, shows a toast, keeps the unread
 * badge and marks everything read when the open dropdown is dismissed.
 */
module NotificationBell {
  import opened Wrappers
  import opened Model

  datatype BellEffect = FetchUnreadCount | ShowToast(content: string) | ScheduleHide(delayMs: int) | ClearQueue | MarkAllRead

  datatype Bell = Bell(count: int, popupShown: bool, popupText: string, dropdownShown: bool)

  /** The toast is hidden this many milliseconds after it appears. */
  const HideDelayMs := 4000

  /** The bell when the bar mounts: the count the session reported, or 0. */
  function Initial(sessionCount: Option<int>): (b: Bell)
    ensures b.count == sessionCount.GetOr(0) && !b.popupShown && !b.dropdownShown
  {
    Bell(sessionCount.GetOr(0), false, "", false)
  }

  predicate HasKind(batch: seq<Envelope>, kind: string) {
    exists i :: 0 <= i < |batch| && batch[i].kind == kind
  }

  /** The index of the first event of a kind. */
  function FirstOfKind(batch: seq<Envelope>, kind: string): (r: Option<nat>)
    ensures r.Some? ==> r.value < |batch| && batch[r.value].kind == kind
    ensures r.Some? ==> forall j :: 0 <= j < r.value ==> batch[j].kind != kind
    ensures r.None? <==> !HasKind(batch, kind)
  {
    if |batch| == 0 then None
    else if batch[0].kind == kind then Some(0)
    else match FirstOfKind(batch[1..], kind)
      case None => None
      case Some(i) => Some(i + 1)
  }

  /** `payload.content`; `None` when there is no payload to read it from. */
  function Content(p: Option<Payload>): Option<string> {
    match p
    case None => None
    case Some(ChatPayload(m)) => Some(m.content)
    case Some(NotificationPayload(n)) => Some(n.content)
  }

  /**
   * One run of the queue consumer. A recount is requested iff the batch holds a
   * notification or de-notification; a toast with the first notification's
   * content is shown iff it holds a notification; the queue is then cleared.
   * `Err` when the first notification has no payload to read.
   */
  function OnBatch(bell: Bell, batch: seq<Envelope>): (r: Result<(Bell, seq<BellEffect>)>)
    ensures r.Ok? ==> r.value.0.count == bell.count && r.value.0.dropdownShown == bell.dropdownShown
    ensures |batch| == 0 ==> r == Ok((bell, []))
    ensures r.Ok? && |batch| > 0 ==> |r.value.1| > 0 && r.value.1[|r.value.1| - 1] == ClearQueue
    ensures r.Ok? ==> (FetchUnreadCount in r.value.1 <==> HasKind(batch, "notification") || HasKind(batch, "denotification"))
    ensures r.Ok? ==> (r.value.0.popupShown != bell.popupShown || r.value.0.popupText != bell.popupText ==> HasKind(batch, "notification"))
    ensures r.Ok? && HasKind(batch, "notification") ==>
              var first := batch[FirstOfKind(batch, "notification").value];
              r.value.0.popupShown && Some(r.value.0.popupText) == Content(first.payload)
              && ShowToast(r.value.0.popupText) in r.value.1 && ScheduleHide(HideDelayMs) in r.value.1
    ensures r.Ok? ==> forall c :: ShowToast(c) in r.value.1 ==> HasKind(batch, "notification")
    ensures r.Err? <==> HasKind(batch, "notification") && Content(batch[FirstOfKind(batch, "notification").value].payload).None?
  {
    if |batch| == 0 then Ok((bell, []))
    else
      var recount := if HasKind(batch, "notification") || HasKind(batch, "denotification") then [FetchUnreadCount] else [];
      match FirstOfKind(batch, "notification")
      case None => Ok((bell, recount + [ClearQueue]))
      case Some(i) =>
        match Content(batch[i].payload)
        case None => Err("payload is undefined")
        case Some(text) =>
          Ok((bell.(popupShown := true, popupText := text),
              recount + [ShowToast(text), ScheduleHide(HideDelayMs), ClearQueue]))
  }

  /** A batch of de-notifications only asks for a recount and never shows a toast. */
  lemma DenotificationsOnlyRecount(bell: Bell, batch: seq<Envelope>)
    requires |batch| > 0
    requires forall i :: 0 <= i < |batch| ==> batch[i].kind == "denotification"
    ensures OnBatch(bell, batch) == Ok((bell, [FetchUnreadCount, ClearQueue]))
  {
    assert batch[0].kind == "denotification";
    assert HasKind(batch, "denotification");
    assert !HasKind(batch, "notification");
    assert FirstOfKind(batch, "notification") == None;
    assert [FetchUnreadCount] + [ClearQueue] == [FetchUnreadCount, ClearQueue];
  }

  /** The scheduled hide firing. */
  function HideToast(bell: Bell): (r: Bell)
    ensures !r.popupShown && r.count == bell.count && r.dropdownShown == bell.dropdownShown
  {
    bell.(popupShown := false)
  }

  /** The only transition that changes the badge count: the fetched unread count arrives. */
  function OnUnreadCount(bell: Bell, fetched: int): (r: Bell)
    ensures r.count == fetched && r.(count := bell.count) == bell
  {
    bell.(count := fetched)
  }

  /** The badge is rendered iff the count is not 0. */
  predicate ShowBadge(bell: Bell) {
    bell.count != 0
  }

  function ToggleDropdown(bell: Bell): (r: Bell)
    ensures r.dropdownShown == !bell.dropdownShown && r.count == bell.count
  {
    bell.(dropdownShown := !bell.dropdownShown)
  }

  /** A mouse-down anywhere: outside the open dropdown it closes it and marks everything read. */
  function MouseDown(bell: Bell, insideDropdown: bool): (r: (Bell, seq<BellEffect>))
    ensures bell.dropdownShown && !insideDropdown ==> r == (bell.(dropdownShown := false), [MarkAllRead])
    ensures !(bell.dropdownShown && !insideDropdown) ==> r == (bell, [])
    ensures MarkAllRead in r.1 ==> bell.dropdownShown
  {
    if bell.dropdownShown && !insideDropdown then (bell.(dropdownShown := false), [MarkAllRead])
    else (bell, [])
  }

  datatype BellEvent = Batch(events: seq<Envelope>) | Hide | UnreadCount(n: int) | Toggle | Down(inside: bool)

  /** One bell event; a batch that throws leaves the bell as it was. */
  function Step(bell: Bell, e: BellEvent): (r: Bell)
    ensures r.count == if e.UnreadCount? then e.n else bell.count
  {
    match e
    case Batch(events) => (match OnBatch(bell, events) case Ok(v) => v.0 case Err(_) => bell)
    case Hide => HideToast(bell)
    case UnreadCount(n) => OnUnreadCount(bell, n)
    case Toggle => ToggleDropdown(bell)
    case Down(inside) => MouseDown(bell, inside).0
  }

  /** Replays bell events in order. */
  function Run(bell: Bell, trace: seq<BellEvent>): Bell
    decreases |trace|
  {
    if |trace| == 0 then bell else Run(Step(bell, trace[0]), trace[1..])
  }

  /** A trace without a fetched count leaves the badge count alone. */
  lemma {:induction false} NoFetchKeepsCount(bell: Bell, trace: seq<BellEvent>)
    requires forall i :: 0 <= i < |trace| ==> !trace[i].UnreadCount?
    ensures Run(bell, trace).count == bell.count
    decreases |trace|
  {
    if |trace| > 0 {
      assert !trace[0].UnreadCount?;
      assert forall i :: 0 <= i < |trace[1..]| ==> trace[1..][i] == trace[i + 1];
      NoFetchKeepsCount(Step(bell, trace[0]), trace[1..]);
    }
  }

  /** The fetch at index `k`, with no fetch after it, sets the final badge count. */
  lemma {:induction false} LastFetchWins(bell: Bell, trace: seq<BellEvent>, k: nat)
    requires k < |trace| && trace[k].UnreadCount?
    requires forall j :: k < j < |trace| ==> !trace[j].UnreadCount?
    ensures Run(bell, trace).count == trace[k].n
    decreases k
  {
    var rest := trace[1..];
    assert forall i :: 0 <= i < |rest| ==> rest[i] == trace[i + 1];
    if k == 0 {
      NoFetchKeepsCount(Step(bell, trace[0]), rest);
    } else {
      LastFetchWins(Step(bell, trace[0]), rest, k - 1);
    }
  }

  /** The badge count is never adjusted arithmetically: it is the last fetched count, or the initial one. */
  lemma CountComesFromFetches(bell: Bell, trace: seq<BellEvent>)
    ensures (forall i :: 0 <= i < |trace| ==> !trace[i].UnreadCount?) ==> Run(bell, trace).count == bell.count
    ensures forall k :: 0 <= k < |trace| && trace[k].UnreadCount? && (forall j :: k < j < |trace| ==> !trace[j].UnreadCount?) ==>
              Run(bell, trace).count == trace[k].n
  {
    if forall i :: 0 <= i < |trace| ==> !trace[i].UnreadCount? {
      NoFetchKeepsCount(bell, trace);
    }
    forall k | 0 <= k < |trace| && trace[k].UnreadCount? && (forall j :: k < j < |trace| ==> !trace[j].UnreadCount?)
      ensures Run(bell, trace).count == trace[k].n
    {
      LastFetchWins(bell, trace, k);
    }
  }
}

=== FILE: notification_routing.dfy ===
/**
 * The notification dropdown (notifications.tsx): which item each notification
 * becomes, where clicking it leads, the request an accept/decline sends, and the
 * accept/decline state of an item.
 */
module NotificationRouting {
  import opened Wrappers
  import opened Model

  datatype ItemKind = FollowRequestItem | GroupInvitationItem | GroupJoinRequestItem | InformingItem

  /** `NotificationItem`'s switch on the notification type. */
  function Dispatch(kind: string): (k: ItemKind)
    ensures k.FollowRequestItem? <==> kind == "follow_request"
    ensures k.GroupInvitationItem? <==> kind == "group_invitation"
    ensures k.GroupJoinRequestItem? <==> kind == "group_join_request"
  {
    match kind
    case "follow_request" => FollowRequestItem
    case "group_invitation" => GroupInvitationItem
    case "group_join_request" => GroupJoinRequestItem
    case _ => InformingItem
  }

  predicate IsPostKind(kind: string) {
    kind == "post" || kind == "comment" || kind == "reaction"
  }

  predicate IsGroupKind(kind: string) {
    kind == "group" || kind == "group_invitation" || kind == "group_join_request" || kind == "event_creation"
  }

  /** `Informing.handleClick`'s route by type; `None` is "stay". `show` renders the numeric id. */
  function InformingRoute(n: Notification, show: int -> string): (r: Option<string>)
    ensures IsPostKind(n.kind) ==> r == Some("/posts/" + show(n.objectId))
    ensures n.kind == "follow" ==> r == Some("/u/" + n.objectName)
    ensures IsGroupKind(n.kind) ==> r == Some("/groups/" + n.objectName)
    ensures r.None? <==> !IsPostKind(n.kind) && n.kind != "follow" && !IsGroupKind(n.kind)
  {
    if IsPostKind(n.kind) then Some("/posts/" + show(n.objectId))
    else if n.kind == "follow" then Some("/u/" + n.objectName)
    else if IsGroupKind(n.kind) then Some("/groups/" + n.objectName)
    else None
  }

  datatype ClickEffect = MarkAllRead | Navigate(path: string)

  /** The route of the item a notification is drawn as. */
  function ItemRoute(n: Notification, show: int -> string): Option<string> {
    match Dispatch(n.kind)
    case FollowRequestItem => Some("/u/" + n.objectName)
    case GroupInvitationItem => Some("/groups/" + n.objectName)
    case GroupJoinRequestItem => Some("/groups/" + n.objectName)
    case InformingItem => InformingRoute(n, show)
  }

  /** Clicking an item marks everything read first, then navigates when the item has a route. */
  function Click(n: Notification, show: int -> string): (r: seq<ClickEffect>)
    ensures |r| >= 1 && r[0] == MarkAllRead
    ensures |r| == 2 <==> ItemRoute(n, show).Some?
    ensures |r| == 2 ==> r[1] == Navigate(ItemRoute(n, show).value)
    ensures |r| <= 2
  {
    match ItemRoute(n, show)
    case None => [MarkAllRead]
    case Some(p) => [MarkAllRead, Navigate(p)]
  }

  /**
   * Every dedicated item leads where the generic item would, except a follow
   * request, which the generic item would not route at all.
   */
  lemma ItemRouteRefinesInforming(n: Notification, show: int -> string)
    ensures n.kind != "follow_request" ==> ItemRoute(n, show) == InformingRoute(n, show)
    ensures n.kind == "follow_request" ==> InformingRoute(n, show).None? && ItemRoute(n, show) == Some("/u/" + n.objectName)
  {
  }

  datatype Action = Accept | Decline

  /** The request an accept/decline button sends. */
  datatype ResponseRequest =
    | FollowResponse(userId: int, action: Action)
    | GroupInviteResponse(notifyingUserId: int, notifiedUserId: int, groupId: int, action: Action)
    | JoinResponse(accept: bool, groupId: int, userId: int)

  function Respond(n: Notification, a: Action): (r: Option<ResponseRequest>)
    ensures r.Some? <==> !Dispatch(n.kind).InformingItem?
    ensures r.Some? && r.value.JoinResponse? ==>
              r.value.groupId == n.objectId && r.value.userId == n.notifyingUserId && (r.value.accept <==> a == Accept)
    ensures r.Some? && r.value.FollowResponse? ==> r.value == FollowResponse(n.notifyingUserId, a)
    ensures r.Some? && r.value.GroupInviteResponse? ==>
              r.value == GroupInviteResponse(n.notifyingUserId, n.notifiedUserId, n.objectId, a)
  {
    match Dispatch(n.kind)
    case FollowRequestItem => Some(FollowResponse(n.notifyingUserId, a))
    case GroupInvitationItem => Some(GroupInviteResponse(n.notifyingUserId, n.notifiedUserId, n.objectId, a))
    case GroupJoinRequestItem => Some(JoinResponse(a == Accept, n.objectId, n.notifyingUserId))
    case InformingItem => None
  }

  /** The endpoint path of a join-request response. */
  function JoinEndpoint(r: ResponseRequest, show: int -> string): (p: string)
    requires r.JoinResponse?
  {
    (if r.accept then "/api/group/invite/accept" else "/api/group/invite/reject")
    + "?group_id=" + show(r.groupId) + "&user_id=" + show(r.userId)
  }

  /**
   * An item's decision: `None` shows the buttons; it becomes the chosen action
   * only when the response is ok. Once decided no button is left to click.
   */
  function Decide(state: Option<bool>, a: Action, ok: bool): (r: Option<bool>)
    ensures state.Some? ==> r == state
    ensures state.None? && ok ==> r == Some(a == Accept)
    ensures state.None? && !ok ==> r.None?
  {
    if state.Some? then state
    else if ok then Some(a == Accept)
    else None
  }

  function DecideAll(state: Option<bool>, responses: seq<(Action, bool)>): Option<bool>
    decreases |responses|
  {
    if |responses| == 0 then state
    else DecideAll(Decide(state, responses[0].0, responses[0].1), responses[1..])
  }

  /** The decision is the action of the first ok response; failed responses change nothing. */
  lemma {:induction false} FirstOkResponseDecides(state: Option<bool>, responses: seq<(Action, bool)>)
    ensures state.Some? ==> DecideAll(state, responses) == state
    ensures state.None? && (forall i :: 0 <= i < |responses| ==> !responses[i].1) ==> DecideAll(state, responses).None?
    ensures state.None? && |responses| > 0 && responses[0].1 ==> DecideAll(state, responses) == Some(responses[0].0 == Accept)
    decreases |responses|
  {
    if |responses| > 0 {
      FirstOkResponseDecides(Decide(state, responses[0].0, responses[0].1), responses[1..]);
      assert forall i :: 0 <= i < |responses| - 1 ==> responses[1..][i] == responses[i + 1];
    }
  }

  /** Whatever came before, the first ok response fixes the decision to its action. */
  lemma {:induction false} FirstOkAtDecides(state: Option<bool>, responses: seq<(Action, bool)>, k: nat)
    requires state.None? && k < |responses| && responses[k].1
    requires forall j :: 0 <= j < k ==> !responses[j].1
    ensures DecideAll(state, responses) == Some(responses[k].0 == Accept)
    decreases k
  {
    if k == 0 {
      FirstOkResponseDecides(state, responses);
    } else {
      assert !responses[0].1;
      assert forall j :: 0 <= j < k - 1 ==> responses[1..][j] == responses[j + 1];
      FirstOkAtDecides(Decide(state, responses[0].0, responses[0].1), responses[1..], k - 1);
    }
  }

  /** The dropdown's list and its "Show previous notifications" button. */
  datatype Panel = Panel(items: seq<Notification>, showPrevious: bool)

  datatype PanelEvent = Loaded(items: seq<Notification>) | ShowPrevious

  datatype PanelEffect = FetchAll

  function Step(p: Panel, e: PanelEvent): (r: (Panel, seq<PanelEffect>))
    ensures e.Loaded? ==> r == (p.(items := e.items), [])
    ensures e.ShowPrevious? ==> r == (p.(showPrevious := false), [FetchAll])
  {
    match e
    case Loaded(items) => (p.(items := items), [])
    case ShowPrevious => (p.(showPrevious := false), [FetchAll])
  }

  function Run(p: Panel, events: seq<PanelEvent>): Panel
    decreases |events|
  {
    if |events| == 0 then p else Run(Step(p, events[0]).0, events[1..])
  }

  /** Once pressed, the "Show previous notifications" button never comes back. */
  lemma {:induction false} ShowPreviousIsPermanent(p: Panel, events: seq<PanelEvent>)
    ensures !p.showPrevious ==> !Run(p, events).showPrevious
    ensures (exists i :: 0 <= i < |events| && events[i].ShowPrevious?) ==> !Run(p, events).showPrevious
    decreases |events|
  {
    if |events| > 0 {
      ShowPreviousIsPermanent(Step(p, events[0]).0, events[1..]);
      if exists i :: 1 <= i < |events| && events[i].ShowPrevious? {
        var i :| 1 <= i < |events| && events[i].ShowPrevious?;
        assert events[1..][i - 1].ShowPrevious?;
      }
    }
  }

  /** "No new notifications" is shown iff the list is empty. */
  predicate ShowsEmptyNote(p: Panel) {
    |p.items| == 0
  }
}

=== FILE: notification_store.dfy ===
/**
 * The `notifications` table (notification_db.go) as its rows in insertion
 * (rowid) order; `LIMIT 1` without an ORDER BY reads the first matching row in
 * that order.
 */
module NotificationStore {
  import opened Wrappers
  import opened Model
  import opened SeqUtil
  import Order

  type Table = seq<Notification>

  /** The zero `models.Notification` a lookup returns when nothing matches. */
  const Zero := Notification(0, 0, 0, "", 0, "", "", false, 0, "")

  function CreatedAt(n: Notification): int { n.createdAt }

  predicate ForUser(u: int, n: Notification) { n.notifiedUserId == u }

  predicate UnreadFor(u: int, n: Notification) { n.notifiedUserId == u && !n.isRead }

  /**
   * The row `CreateNotification` writes for a notification: the insert has no
   * image column, so a stored notification reads back without its image.
   */
  function Row(n: Notification, id: int): Notification {
    n.(id := id, notifyingImage := "")
  }

  /** The rows a sequence of numbered notifications becomes. */
  function Rows(ns: seq<Notification>): (r: Table)
    ensures |r| == |ns|
    ensures forall i :: 0 <= i < |ns| ==> r[i] == ns[i].(notifyingImage := "")
  {
    seq(|ns|, i requires 0 <= i < |ns| => Row(ns[i], ns[i].id))
  }

  lemma RowsConcat(a: seq<Notification>, b: seq<Notification>)
    ensures Rows(a + b) == Rows(a) + Rows(b)
  {
    forall i | 0 <= i < |a| + |b| ensures Rows(a + b)[i] == (Rows(a) + Rows(b))[i] {
      if i >= |a| { assert (a + b)[i] == b[i - |a|]; }
    }
  }

  /** `CreateNotification` with the row id the database assigns. */
  function Create(t: Table, n: Notification, freshId: int): (r: (Table, int))
    ensures r.1 == freshId && |r.0| == |t| + 1 && r.0[..|t|] == t
    ensures var s := r.0[|t|];
            s.id == freshId && s.notifyingImage == ""
            && s.notifiedUserId == n.notifiedUserId && s.notifyingUserId == n.notifyingUserId && s.kind == n.kind
            && s.objectId == n.objectId && s.objectName == n.objectName && s.content == n.content
            && s.isRead == n.isRead && s.createdAt == n.createdAt
  {
    (t + [Row(n, freshId)], freshId)
  }

  /** `GetNotificationsQuery`: the user's rows, newest first. */
  function All(t: Table, u: int): (r: seq<Notification>)
    ensures Order.SortedDesc(r, CreatedAt)
    ensures multiset(r) == multiset(Filter(t, (n: Notification) => ForUser(u, n)))
  {
    Order.SortDesc(Filter(t, (n: Notification) => ForUser(u, n)), CreatedAt)
  }

  /** `GetNewNotificationsQuery`: the user's unread rows, newest first. */
  function New(t: Table, u: int): (r: seq<Notification>)
    ensures Order.SortedDesc(r, CreatedAt)
    ensures forall n :: n in r <==> n in t && UnreadFor(u, n)
  {
    Order.SortDesc(Filter(t, (n: Notification) => UnreadFor(u, n)), CreatedAt)
  }

  /** `CountUnreadNotificationsQuery`. */
  function CountUnread(t: Table, u: int): (c: nat)
    ensures c <= |t|
    ensures c == 0 <==> forall n :: n in t ==> !UnreadFor(u, n)
  {
    var r := Filter(t, (n: Notification) => UnreadFor(u, n));
    assert |r| > 0 ==> r[0] in r;
    |r|
  }

  /** The new list is the unread part of the full list, and the count is its length. */
  lemma NewIsUnreadOfAll(t: Table, u: int)
    ensures New(t, u) == Filter(All(t, u), (n: Notification) => !n.isRead)
    ensures CountUnread(t, u) == |New(t, u)|
  {
    var mine := Filter(t, (n: Notification) => ForUser(u, n));
    FilterNarrow(t, (n: Notification) => UnreadFor(u, n), (n: Notification) => ForUser(u, n));
    assert Filter(mine, (n: Notification) => UnreadFor(u, n)) == Filter(mine, (n: Notification) => !n.isRead) by {
      FilterSame(mine, (n: Notification) => UnreadFor(u, n), (n: Notification) => !n.isRead);
    }
    Order.FilterSortCommute(mine, CreatedAt, (n: Notification) => !n.isRead);
  }

  /** `MarkNotificationReadQuery`. */
  function MarkRead(t: Table, id: int): (r: Table)
    ensures |r| == |t|
    ensures forall i :: 0 <= i < |t| ==> r[i] == (if t[i].id == id then t[i].(isRead := true) else t[i])
  {
    seq(|t|, i requires 0 <= i < |t| => if t[i].id == id then t[i].(isRead := true) else t[i])
  }

  /** The rows' ids are distinct, as the table's primary key makes them. */
  predicate UniqueIds(t: Table) {
    forall i, j :: 0 <= i < j < |t| ==> t[i].id != t[j].id
  }

  /** The unread count splits into the first row and the rest. */
  lemma CountUnreadCons(t: Table, u: int)
    requires |t| > 0
    ensures CountUnread(t, u) == (if UnreadFor(u, t[0]) then 1 else 0) + CountUnread(t[1..], u)
  {
  }

  /** Marking one row read lowers its owner's unread count by one when it was unread, and leaves it alone otherwise. */
  lemma {:induction false} MarkReadLowersCount(t: Table, id: int, u: int)
    requires UniqueIds(t)
    ensures CountUnread(MarkRead(t, id), u) + (if exists i :: 0 <= i < |t| && t[i].id == id && UnreadFor(u, t[i]) then 1 else 0)
            == CountUnread(t, u)
  {
    if |t| > 0 {
      var r := MarkRead(t, id);
      assert r[1..] == MarkRead(t[1..], id);
      assert UniqueIds(t[1..]);
      MarkReadLowersCount(t[1..], id, u);
      CountUnreadCons(t, u);
      CountUnreadCons(r, u);
      if t[0].id == id {
        assert forall i :: 1 <= i < |t| ==> t[i].id != id;
        assert !(exists i :: 0 <= i < |t[1..]| && t[1..][i].id == id && UnreadFor(u, t[1..][i]));
      } else {
        assert (exists i :: 0 <= i < |t| && t[i].id == id && UnreadFor(u, t[i]))
               <==> (exists i :: 0 <= i < |t[1..]| && t[1..][i].id == id && UnreadFor(u, t[1..][i])) by {
          if exists i :: 0 <= i < |t| && t[i].id == id && UnreadFor(u, t[i]) {
            var i :| 0 <= i < |t| && t[i].id == id && UnreadFor(u, t[i]);
            assert t[1..][i - 1] == t[i];
          }
        }
      }
    }
  }

  /** `MarkAllNotificationsReadQuery`. */
  function MarkAllRead(t: Table, u: int): (r: Table)
    ensures |r| == |t|
    ensures forall i :: 0 <= i < |t| ==> r[i] == (if t[i].notifiedUserId == u then t[i].(isRead := true) else t[i])
  {
    seq(|t|, i requires 0 <= i < |t| => if t[i].notifiedUserId == u then t[i].(isRead := true) else t[i])
  }

  /** After mark-all-read the user has no unread row, and no other user's row changed. */
  lemma MarkAllReadClears(t: Table, u: int)
    ensures CountUnread(MarkAllRead(t, u), u) == 0
    ensures forall i :: 0 <= i < |t| && t[i].notifiedUserId != u ==> MarkAllRead(t, u)[i] == t[i]
  {
    var r := MarkAllRead(t, u);
    FilterNone(r, (n: Notification) => UnreadFor(u, n));
  }

  /** `ChangeNotificationType`: retypes the pair's rows whose type is listed. */
  function ChangeType(t: Table, notifying: int, notified: int, types: seq<string>, newType: string): (r: Table)
    ensures |r| == |t|
    ensures forall i :: 0 <= i < |t| ==>
              r[i] == (if t[i].notifiedUserId == notified && t[i].notifyingUserId == notifying && t[i].kind in types
                       then t[i].(kind := newType) else t[i])
  {
    seq(|t|, i requires 0 <= i < |t| =>
      if t[i].notifiedUserId == notified && t[i].notifyingUserId == notifying && t[i].kind in types
      then t[i].(kind := newType) else t[i])
  }

  /** `DeleteNotificationQuery`. */
  function Delete(t: Table, id: int): (r: Table)
    ensures forall n :: n in r <==> n in t && n.id != id
  {
    Filter(t, (n: Notification) => n.id != id)
  }

  predicate FollowNoteOf(notifying: int, notified: int, n: Notification) {
    n.notifyingUserId == notifying && n.notifiedUserId == notified && n.kind in ["follow", "follow_request"]
  }

  /** `DeleteSpecificNotificationQuery`: the pair's follow and follow-request rows. */
  function DeleteFollowNotes(t: Table, notifying: int, notified: int): (r: Table)
    ensures forall n :: n in r <==> n in t && !FollowNoteOf(notifying, notified, n)
  {
    Filter(t, (n: Notification) => !FollowNoteOf(notifying, notified, n))
  }

  predicate InviteOf(notifying: int, notified: int, n: Notification) {
    n.notifyingUserId == notifying && n.notifiedUserId == notified && n.kind == "group_invitation"
  }

  /** The first row satisfying `p`, in table order. */
  function First(t: Table, p: Notification -> bool): (r: Option<nat>)
    ensures r.None? <==> forall i :: 0 <= i < |t| ==> !p(t[i])
    ensures r.Some? ==> r.value < |t| && p(t[r.value]) && forall i :: 0 <= i < r.value ==> !p(t[i])
  {
    if |t| == 0 then None
    else if p(t[0]) then Some(0)
    else match First(t[1..], p)
      case None => None
      case Some(i) => Some(i + 1)
  }

  /**
   * `DeleteInviteNotificationQuery`: with no matching invitation, 0 and no
   * change; otherwise the first match's id, and every match is deleted.
   */
  function DeleteInvite(t: Table, notifying: int, notified: int): (r: (int, Table))
    ensures First(t, (n: Notification) => InviteOf(notifying, notified, n)).None? ==> r == (0, t)
    ensures First(t, (n: Notification) => InviteOf(notifying, notified, n)).Some? ==>
              r.0 == t[First(t, (n: Notification) => InviteOf(notifying, notified, n)).value].id
              && forall n :: n in r.1 <==> n in t && !InviteOf(notifying, notified, n)
  {
    match First(t, (n: Notification) => InviteOf(notifying, notified, n))
    case None => (0, t)
    case Some(i) => (t[i].id, Filter(t, (n: Notification) => !InviteOf(notifying, notified, n)))
  }

  predicate DetailsMatch(notifying: int, notified: int, objectId: int, types: seq<string>, objectName: string, n: Notification) {
    n.notifyingUserId == notifying && n.notifiedUserId == notified && n.kind in types
    && n.objectId == objectId && n.objectName == objectName
  }

  /** `GetNotificationByDetails`: the first match, or the zero notification (id 0) and no error. */
  function ByDetails(t: Table, notifying: int, notified: int, objectId: int, types: seq<string>, objectName: string): (r: Notification)
    ensures (forall i :: 0 <= i < |t| ==> !DetailsMatch(notifying, notified, objectId, types, objectName, t[i])) ==> r == Zero
    ensures r != Zero ==> r in t && DetailsMatch(notifying, notified, objectId, types, objectName, r)
  {
    match First(t, (n: Notification) => DetailsMatch(notifying, notified, objectId, types, objectName, n))
    case None => Zero
    case Some(i) => t[i]
  }

  /** Deleting an id no row has changes nothing. */
  lemma DeleteAbsent(t: Table, id: int)
    requires forall x :: x in t ==> x.id != id
    ensures Delete(t, id) == t
  {
    FilterKeepsAll(t, (n: Notification) => n.id != id);
  }

  /** Deleting the id of a row appended with a fresh id removes just that row. */
  lemma DeleteAppended(t: Table, n: Notification)
    requires forall x :: x in t ==> x.id != n.id
    ensures Delete(t + [n], n.id) == t
  {
    FilterConcat(t, [n], (x: Notification) => x.id != n.id);
    DeleteAbsent(t, n.id);
  }

  /** The lookup returns the first matching row. */
  lemma ByDetailsFirst(t: Table, notifying: int, notified: int, objectId: int, types: seq<string>, objectName: string, k: nat)
    requires k < |t| && DetailsMatch(notifying, notified, objectId, types, objectName, t[k])
    requires forall i :: 0 <= i < k ==> !DetailsMatch(notifying, notified, objectId, types, objectName, t[i])
    ensures ByDetails(t, notifying, notified, objectId, types, objectName) == t[k]
  {
    var f := First(t, (n: Notification) => DetailsMatch(notifying, notified, objectId, types, objectName, n));
    assert f.Some?;
    assert f.value == k;
  }

  /**
   * `GetNotificationsByDetails`: every row of the notifying user on the object
   * with a listed type. The `object` argument is accepted but not used.
   */
  function AllByDetails(t: Table, notifying: int, objectId: int, types: seq<string>, objectName: string): (r: seq<Notification>)
    ensures forall n :: n in r <==> n in t && n.notifyingUserId == notifying && n.objectId == objectId && n.kind in types
  {
    Filter(t, (n: Notification) => n.notifyingUserId == notifying && n.objectId == objectId && n.kind in types)
  }

  /** Two lookups that differ only in `object` return the same rows. */
  lemma AllByDetailsIgnoresObject(t: Table, notifying: int, objectId: int, types: seq<string>, o1: string, o2: string)
    ensures AllByDetails(t, notifying, objectId, types, o1) == AllByDetails(t, notifying, objectId, types, o2)
  {
  }
}

=== FILE: order.dfy ===
/**
 * `ORDER BY <key> DESC` over a table's rows: a stable insertion sort, so rows
 * with equal keys keep their table order (SQLite leaves that order open; any
 * fixed choice is a refinement of it).
 */
module Order {
  import opened SeqUtil

  predicate SortedDesc<T(!new)>(s: seq<T>, key: T -> int) {
    forall i, j :: 0 <= i < j < |s| ==> key(s[i]) >= key(s[j])
  }

  /** Places `x` before the first element whose key is not larger than its own. */
  function Insert<T(!new)>(x: T, s: seq<T>, key: T -> int): (r: seq<T>)
    ensures multiset(r) == multiset(s) + multiset{x} && |r| == |s| + 1
  {
    if |s| == 0 || key(s[0]) <= key(x) then [x] + s
    else
      assert s == [s[0]] + s[1..];
      [s[0]] + Insert(x, s[1..], key)
  }

  /** Inserting into a sorted sequence keeps it sorted. */
  lemma {:induction false} InsertSorted<T(!new)>(x: T, s: seq<T>, key: T -> int)
    requires SortedDesc(s, key)
    ensures SortedDesc(Insert(x, s, key), key)
  {
    if |s| == 0 || key(s[0]) <= key(x) {
      ConsSorted(x, s, key);
    } else {
      var rest := Insert(x, s[1..], key);
      InsertSorted(x, s[1..], key);
      forall i | 0 <= i < |rest| ensures key(rest[i]) <= key(s[0]) {
        assert rest[i] in multiset(rest);
        if rest[i] != x {
          assert rest[i] in multiset(s[1..]);
          var k :| 0 <= k < |s[1..]| && s[1..][k] == rest[i];
          assert s[k + 1] == rest[i];
        }
      }
      ConsSorted(s[0], rest, key);
    }
  }

  /** A head no smaller than every later key keeps a sorted tail sorted. */
  lemma ConsSorted<T(!new)>(h: T, rest: seq<T>, key: T -> int)
    requires SortedDesc(rest, key)
    requires forall i :: 0 <= i < |rest| ==> key(rest[i]) <= key(h)
    ensures SortedDesc([h] + rest, key)
  {
    var r := [h] + rest;
    forall i, j | 0 <= i < j < |r| ensures key(r[i]) >= key(r[j]) {
      assert r[j] == rest[j - 1];
      if i > 0 {
        assert r[i] == rest[i - 1];
      }
    }
  }

  /** The rows ordered by `key`, largest first. */
  function SortDesc<T(!new)>(s: seq<T>, key: T -> int): (r: seq<T>)
    ensures multiset(r) == multiset(s) && |r| == |s|
    ensures forall x :: x in r <==> x in s
    ensures SortedDesc(r, key)
  {
    if |s| == 0 then [] else
      assert s == [s[0]] + s[1..];
      var r := Insert(s[0], SortDesc(s[1..], key), key);
      InsertSorted(s[0], SortDesc(s[1..], key), key);
      assert forall x :: x in r <==> x in multiset(r);
      r
  }

  lemma InsertFront<T(!new)>(x: T, s: seq<T>, key: T -> int)
    requires forall i :: 0 <= i < |s| ==> key(s[i]) <= key(x)
    ensures Insert(x, s, key) == [x] + s
  {
  }

  /** Filtering and inserting commute on a sorted sequence. */
  lemma {:induction false} FilterInsert<T(!new)>(x: T, s: seq<T>, key: T -> int, p: T -> bool)
    requires SortedDesc(s, key)
    ensures Filter(Insert(x, s, key), p) == if p(x) then Insert(x, Filter(s, p), key) else Filter(s, p)
  {
    if |s| == 0 {
    } else if key(s[0]) <= key(x) {
      var f := Filter(s, p);
      assert forall i :: 0 <= i < |f| ==> f[i] in s;
      assert forall y :: y in s ==> key(y) <= key(x);
      InsertFront(x, f, key);
    } else {
      FilterInsert(x, s[1..], key, p);
    }
  }

  /** Sorting the kept rows is keeping the rows of the sorted table: a filtered feed stays ordered alike. */
  lemma {:induction false} FilterSortCommute<T(!new)>(s: seq<T>, key: T -> int, p: T -> bool)
    ensures SortDesc(Filter(s, p), key) == Filter(SortDesc(s, key), p)
  {
    if |s| > 0 {
      FilterSortCommute(s[1..], key, p);
      FilterInsert(s[0], SortDesc(s[1..], key), key, p);
    }
  }
}

=== FILE: outbox.dfy ===
/**
 * What a handler leaves behind besides its status: the notifications table,
 * the hub, the next row id the table hands out, and the log of pushes it
 * attempted (user and envelope), whether or not the hub could deliver them.
 */
module Outbox {
  import opened Model
  import Hub
  import Delivery
  import NotificationStore

  /** The part of the authenticated `models.User` a handler reads. */
  datatype Actor = Actor(id: int, username: string, avatarUrl: string)

  datatype Sent = Sent(userId: int, env: Envelope)

  datatype Out = Out(notes: NotificationStore.Table, hub: Hub.Hub, nextId: int, sent: seq<Sent>)

  /**
   * `CreateNotification` then `SendNotificationToUser` for the notified user.
   * The push carries the image; the stored row has none.
   */
  function Notify(o: Out, n: Notification): (r: Out)
    requires Hub.Valid(o.hub)
    ensures Hub.Valid(r.hub) && r.hub.clients == o.hub.clients
    ensures r.notes == o.notes + [n.(id := o.nextId, notifyingImage := "")] && r.nextId == o.nextId + 1
    ensures r.sent == o.sent + [Sent(n.notifiedUserId, Delivery.NotificationEnvelope(n.(id := o.nextId)))]
    ensures Delivery.Reachable(o.hub, n.notifiedUserId) ==>
              Delivery.Got(o.hub, r.hub, n.notifiedUserId, Hub.Push(Delivery.NotificationEnvelope(n.(id := o.nextId))))
  {
    var (notes, id) := NotificationStore.Create(o.notes, n, o.nextId);
    var stored := n.(id := id);
    Out(notes, Delivery.SendNotification(o.hub, n.notifiedUserId, stored), o.nextId + 1,
        o.sent + [Sent(n.notifiedUserId, Delivery.NotificationEnvelope(stored))])
  }

  /** `SendDeNotificationToUser`. */
  function Denotify(o: Out, uid: int): (r: Out)
    requires Hub.Valid(o.hub)
    ensures Hub.Valid(r.hub) && r.hub.clients == o.hub.clients
    ensures r.notes == o.notes && r.nextId == o.nextId
    ensures r.sent == o.sent + [Sent(uid, Delivery.DenotificationEnvelope())]
  {
    o.(hub := Delivery.SendDenotification(o.hub, uid), sent := o.sent + [Sent(uid, Delivery.DenotificationEnvelope())])
  }

  /** The notification `make` builds for each listed user, with the ids the table hands out in turn. */
  function Stored(ids: seq<int>, make: int -> Notification, firstId: int): (r: seq<Notification>)
    ensures |r| == |ids|
    ensures forall i :: 0 <= i < |ids| ==> r[i] == make(ids[i]).(id := firstId + i)
  {
    seq(|ids|, i requires 0 <= i < |ids| => make(ids[i]).(id := firstId + i))
  }

  lemma StoredSplit(ids: seq<int>, make: int -> Notification, firstId: int)
    requires |ids| > 0
    ensures Stored(ids, make, firstId) == [make(ids[0]).(id := firstId)] + Stored(ids[1..], make, firstId + 1)
  {
    var head := [make(ids[0]).(id := firstId)];
    var tail := Stored(ids[1..], make, firstId + 1);
    forall i | 1 <= i < |ids| ensures (head + tail)[i] == Stored(ids, make, firstId)[i] {
      assert (head + tail)[i] == tail[i - 1];
    }
  }

  function Pushes(ns: seq<Notification>): (r: seq<Sent>)
    ensures |r| == |ns|
    ensures forall i :: 0 <= i < |ns| ==> r[i] == Sent(ns[i].notifiedUserId, Delivery.NotificationEnvelope(ns[i]))
  {
    seq(|ns|, i requires 0 <= i < |ns| => Sent(ns[i].notifiedUserId, Delivery.NotificationEnvelope(ns[i])))
  }

  lemma PushesConcat(a: seq<Notification>, b: seq<Notification>)
    ensures Pushes(a + b) == Pushes(a) + Pushes(b)
  {
    forall i | 0 <= i < |a| + |b| ensures Pushes(a + b)[i] == (Pushes(a) + Pushes(b))[i] {
      if i >= |a| { assert (a + b)[i] == b[i - |a|]; }
    }
  }

  /** One `Notify` per listed user, in list order. */
  function NotifyEach(o: Out, ids: seq<int>, make: int -> Notification): (r: Out)
    requires Hub.Valid(o.hub)
    requires forall u :: make(u).notifiedUserId == u
    ensures Hub.Valid(r.hub) && r.hub.clients == o.hub.clients
    ensures r.nextId == o.nextId + |ids|
    ensures r.notes == o.notes + NotificationStore.Rows(Stored(ids, make, o.nextId))
    ensures r.sent == o.sent + Pushes(Stored(ids, make, o.nextId))
    decreases |ids|
  {
    if |ids| == 0 then o
    else
      var o1 := Notify(o, make(ids[0]));
      var r := NotifyEach(o1, ids[1..], make);
      NotifyEachStep(o, o1, r, ids, make);
      r
  }

  /** One `Notify` followed by the rest of the list is the whole list's rows and pushes. */
  lemma NotifyEachStep(o: Out, o1: Out, r: Out, ids: seq<int>, make: int -> Notification)
    requires |ids| > 0
    requires o1.notes == o.notes + [make(ids[0]).(id := o.nextId, notifyingImage := "")]
    requires o1.sent == o.sent + [Sent(make(ids[0]).notifiedUserId, Delivery.NotificationEnvelope(make(ids[0]).(id := o.nextId)))]
    requires r.notes == o1.notes + NotificationStore.Rows(Stored(ids[1..], make, o.nextId + 1))
    requires r.sent == o1.sent + Pushes(Stored(ids[1..], make, o.nextId + 1))
    ensures r.notes == o.notes + NotificationStore.Rows(Stored(ids, make, o.nextId))
    ensures r.sent == o.sent + Pushes(Stored(ids, make, o.nextId))
  {
    var first := make(ids[0]).(id := o.nextId);
    var rest := Stored(ids[1..], make, o.nextId + 1);
    StoredSplit(ids, make, o.nextId);
    assert Stored(ids, make, o.nextId) == [first] + rest;
    NotificationStore.RowsConcat([first], rest);
    assert NotificationStore.Rows([first]) == [first.(notifyingImage := "")];
    assert r.notes == (o.notes + NotificationStore.Rows([first])) + NotificationStore.Rows(rest);
    PushesConcat([first], rest);
    assert Pushes([first]) == [Sent(first.notifiedUserId, Delivery.NotificationEnvelope(first))];
    Associative(o.notes, NotificationStore.Rows([first]), NotificationStore.Rows(rest));
    Associative(o.sent, Pushes([first]), Pushes(rest));
  }

  lemma Associative<T>(a: seq<T>, b: seq<T>, c: seq<T>)
    ensures a + b + c == a + (b + c)
  {
  }

  /** One de-notification per listed user, in list order. */
  function DenotifyEach(o: Out, ids: seq<int>): (r: Out)
    requires Hub.Valid(o.hub)
    ensures Hub.Valid(r.hub) && r.hub.clients == o.hub.clients
    ensures r.notes == o.notes && r.nextId == o.nextId
    ensures |r.sent| == |o.sent| + |ids| && r.sent[..|o.sent|] == o.sent
    ensures forall i :: 0 <= i < |ids| ==> r.sent[|o.sent| + i] == Sent(ids[i], Delivery.DenotificationEnvelope())
    decreases |ids|
  {
    if |ids| == 0 then o
    else
      var r := DenotifyEach(Denotify(o, ids[0]), ids[1..]);
      r
  }

  /** The users a push log addresses. */
  function Recipients(s: seq<Sent>): (r: seq<int>)
    ensures |r| == |s| && forall i :: 0 <= i < |s| ==> r[i] == s[i].userId
  {
    seq(|s|, i requires 0 <= i < |s| => s[i].userId)
  }

  /** Notifying a list pushes to exactly that list, in order. */
  lemma NotifyEachRecipients(o: Out, ids: seq<int>, make: int -> Notification)
    requires Hub.Valid(o.hub) && forall u :: make(u).notifiedUserId == u
    ensures Recipients(NotifyEach(o, ids, make).sent) == Recipients(o.sent) + ids
  {
    var added := Pushes(Stored(ids, make, o.nextId));
    forall i | 0 <= i < |ids| ensures added[i].userId == ids[i] {
    }
    forall i | 0 <= i < |o.sent| + |ids| ensures Recipients(o.sent + added)[i] == (Recipients(o.sent) + ids)[i] {
      if i >= |o.sent| { assert (o.sent + added)[i] == added[i - |o.sent|]; }
    }
  }
}

=== FILE: post_handler.dfy ===
/**
 * The post endpoints (post_handler.go): creating a post or a group post and
 * notifying its audience, updating and deleting one's own post, and the
 * read paths that apply the visibility rule. Titles and text bodies are not
 * modelled; a post carries its privacy, group, author and file.
 */
module PostHandler {
  import opened Wrappers
  import opened Model
  import opened SeqUtil
  import Atoi
  import Hub
  import Delivery
  import Http
  import Order
  import FollowStore
  import GroupStore
  import NotificationStore
  import UserStore
  import PostVisibility
  import opened Outbox

  type Post = PostVisibility.Post

  datatype World = World(vis: PostVisibility.World, posts: seq<Post>, groups: seq<GroupStore.Group>, out: Out)

  predicate ValidPrivacy(privacy: string) {
    privacy == "public" || privacy == "private" || privacy == "almost_private"
  }

  /** The "post" notification each member of the audience gets; its `object` is left empty. */
  function PostNote(me: Actor, postId: int, now: int): (make: int -> Notification)
    ensures forall u :: make(u).notifiedUserId == u && make(u).notifyingUserId == me.id
                        && make(u).kind == "post" && make(u).objectId == postId
  {
    (u: int) => Notification(0, u, me.id, "post", postId, "", me.username + " Added a New Post.", false, now, me.avatarUrl)
  }

  function ViewerRows(postId: int, ids: seq<int>): (r: seq<PostVisibility.ViewerRow>)
    ensures forall v :: PostVisibility.ViewerRow(postId, v) in r <==> v in ids
    ensures forall x :: x in r ==> x.postId == postId
  {
    PostVisibility.UpdateViewers([], postId, ids)
  }

  /**
   * `CreatePostHandler` (no middleware). `followerRows` is the list
   * `GetFollowers` returns: the caller's accepted followers, in table order.
   * The post is stored before the viewer list is parsed, so a malformed list
   * answers 400 and leaves the post without viewers.
   */
  function CreatePost(w: World, caller: Option<Actor>, privacy: string, file: string, checked: Option<seq<int>>,
                      followerRows: seq<int>, freshId: int, now: int): (r: (int, World))
    requires Hub.Valid(w.out.hub)
    requires caller.Some? ==> forall v :: v in followerRows <==> v in FollowStore.Followers(w.vis.follows, caller.value.id)
    ensures !ValidPrivacy(privacy) ==> r == (Http.BadRequest, w)
    ensures ValidPrivacy(privacy) && caller.None? ==> r == (Http.Unauthorized, w)
    ensures ValidPrivacy(privacy) && caller.Some? ==>
              var me := caller.value;
              r.1.posts == w.posts + [PostVisibility.Post(freshId, me.id, privacy, None, now, file)]
              && r.1.groups == w.groups
              && (r.0 == Http.Ok <==> privacy != "almost_private" || checked.Some?)
              && (r.0 != Http.Ok ==> r.1.vis == w.vis && r.1.out == w.out)
              && (privacy == "almost_private" && checked.Some? ==>
                    r.1.vis == w.vis.(viewers := w.vis.viewers + ViewerRows(freshId, checked.value))
                    && r.1.out == NotifyEach(w.out, checked.value, PostNote(me, freshId, now))
                    && Recipients(r.1.out.sent) == Recipients(w.out.sent) + checked.value)
              && (privacy != "almost_private" ==>
                    r.1.vis == w.vis && r.1.out == NotifyEach(w.out, followerRows, PostNote(me, freshId, now))
                    && Recipients(r.1.out.sent) == Recipients(w.out.sent) + followerRows)
  {
    if !ValidPrivacy(privacy) then (Http.BadRequest, w)
    else match caller
      case None => (Http.Unauthorized, w)
      case Some(me) =>
        var posts := w.posts + [PostVisibility.Post(freshId, me.id, privacy, None, now, file)];
        var make := PostNote(me, freshId, now);
        if privacy == "almost_private" then
          match checked
          case None => (Http.BadRequest, w.(posts := posts))
          case Some(ids) =>
            NotifyEachRecipients(w.out, ids, make);
            (Http.Ok, World(w.vis.(viewers := w.vis.viewers + ViewerRows(freshId, ids)), posts, w.groups,
                            NotifyEach(w.out, ids, make)))
        else
          NotifyEachRecipients(w.out, followerRows, make);
          (Http.Ok, World(w.vis, posts, w.groups, NotifyEach(w.out, followerRows, make)))
  }

  /** A public or private post notifies exactly the author's accepted followers. */
  lemma PostNotifiesFollowers(w: World, me: Actor, privacy: string, file: string, followerRows: seq<int>,
                              freshId: int, now: int, v: int)
    requires Hub.Valid(w.out.hub)
    requires privacy == "public" || privacy == "private"
    requires forall u :: u in followerRows <==> u in FollowStore.Followers(w.vis.follows, me.id)
    ensures var r := CreatePost(w, Some(me), privacy, file, None, followerRows, freshId, now).1;
            v in Recipients(r.out.sent)[|w.out.sent|..] <==> (v, me.id) in w.vis.follows && w.vis.follows[(v, me.id)] == FollowStore.Accepted
  {
    var r := CreatePost(w, Some(me), privacy, file, None, followerRows, freshId, now).1;
    assert Recipients(r.out.sent)[|w.out.sent|..] == followerRows;
  }

  /** An almost-private post is visible to exactly the listed users besides its author, who are also the ones notified. */
  lemma AlmostPrivateAudience(w: World, me: Actor, file: string, ids: seq<int>, followerRows: seq<int>,
                              freshId: int, now: int, v: int)
    requires Hub.Valid(w.out.hub)
    requires forall u :: u in followerRows <==> u in FollowStore.Followers(w.vis.follows, me.id)
    requires me.id in w.vis.isPublic && v != me.id
    requires forall x :: x in w.vis.viewers ==> x.postId != freshId
    ensures var r := CreatePost(w, Some(me), "almost_private", file, Some(ids), followerRows, freshId, now).1;
            var p := PostVisibility.Post(freshId, me.id, "almost_private", None, now, file);
            PostVisibility.Permitted(r.vis, p, v) <==> v in ids
  {
    var r := CreatePost(w, Some(me), "almost_private", file, Some(ids), followerRows, freshId, now).1;
    var rows := ViewerRows(freshId, ids);
    assert PostVisibility.ViewerRow(freshId, v) in r.vis.viewers <==> PostVisibility.ViewerRow(freshId, v) in rows;
  }

  /** `GetPostsHandler` (no middleware): the caller's feed, newest first. */
  function Posts(w: World, caller: Option<int>): (r: (int, seq<Post>))
    ensures caller.None? ==> r == (Http.Unauthorized, [])
    ensures caller.Some? ==> r.0 == Http.Ok && Order.SortedDesc(r.1, PostVisibility.CreatedAt)
    ensures caller.Some? ==>
              forall p :: p in r.1 <==> p in w.posts && PostVisibility.Joined(w.vis, p) && PostVisibility.Permitted(w.vis, p, caller.value)
  {
    match caller
    case None => (Http.Unauthorized, [])
    case Some(me) => (Http.Ok, PostVisibility.Feed(w.vis, w.posts, me))
  }

  /** The post's file after an update: cleared on request, else an upload replaces it, else it stays. */
  function NewFile(current: string, clearFile: string, upload: Option<string>): (f: string)
    ensures clearFile == "true" ==> f == ""
    ensures clearFile != "true" && upload.Some? ==> f == upload.value
    ensures clearFile != "true" && upload.None? ==> f == current
  {
    if clearFile == "true" then "" else if upload.Some? then upload.value else current
  }

  /** `UpdatePostQuery`: every row with the id gets the new privacy and file. */
  function Rewrite(posts: seq<Post>, id: int, privacy: string, file: string): (r: seq<Post>)
    ensures |r| == |posts|
    ensures forall i :: 0 <= i < |posts| ==>
              r[i] == (if posts[i].id == id then posts[i].(privacy := privacy, file := file) else posts[i])
  {
    seq(|posts|, i requires 0 <= i < |posts| =>
      if posts[i].id == id then posts[i].(privacy := privacy, file := file) else posts[i])
  }

  /**
   * `UpdatePostHandler` (no middleware). The post is fetched through the
   * visibility rule, so a post the caller cannot see is "not found" (404)
   * and only a visible post of someone else is forbidden (403). The new
   * privacy is stored unchecked; the viewer list is replaced only for
   * "almost_private", after the post itself is updated.
   */
  function UpdatePost(w: World, caller: Option<int>, idParam: string, privacy: string, clearFile: string,
                      upload: Option<string>, checked: Option<seq<int>>): (r: (int, World))
    ensures caller.None? ==> r == (Http.Unauthorized, w)
    ensures caller.Some? && Atoi.Atoi(idParam).None? ==> r == (Http.BadRequest, w)
    ensures r.1 != w ==> caller.Some? && Atoi.Atoi(idParam).Some?
                         && PostVisibility.Find(w.posts, Atoi.Atoi(idParam).value).Some?
                         && PostVisibility.Find(w.posts, Atoi.Atoi(idParam).value).value.authorId == caller.value
    ensures caller.Some? && Atoi.Atoi(idParam).Some? ==>
              var id := Atoi.Atoi(idParam).value;
              var s := PostVisibility.SinglePost(w.vis, w.posts, id, caller.value);
              (s.Err? ==> r == (Http.NotFound, w))
              && (s.Ok? && s.value.authorId != caller.value ==> r == (Http.Forbidden, w))
              && (s.Ok? && s.value.authorId == caller.value ==>
                    r.1.posts == Rewrite(w.posts, id, privacy, NewFile(s.value.file, clearFile, upload))
                    && r.1.out == w.out && r.1.groups == w.groups
                    && (r.0 == Http.Ok <==> privacy != "almost_private" || checked.Some?)
                    && (privacy == "almost_private" && checked.Some? ==>
                          r.1.vis == w.vis.(viewers := PostVisibility.UpdateViewers(w.vis.viewers, id, checked.value)))
                    && (privacy != "almost_private" || checked.None? ==> r.1.vis == w.vis))
  {
    match caller
    case None => (Http.Unauthorized, w)
    case Some(me) =>
      match Atoi.Atoi(idParam)
      case None => (Http.BadRequest, w)
      case Some(id) =>
        match PostVisibility.SinglePost(w.vis, w.posts, id, me)
        case Err(_) => (Http.NotFound, w)
        case Ok(p) =>
          if p.authorId != me then (Http.Forbidden, w)
          else
            var updated := w.(posts := Rewrite(w.posts, id, privacy, NewFile(p.file, clearFile, upload)));
            if privacy == "almost_private" then
              match checked
              case None => (Http.BadRequest, updated)
              case Some(ids) =>
                (Http.Ok, updated.(vis := w.vis.(viewers := PostVisibility.UpdateViewers(w.vis.viewers, id, ids))))
            else (Http.Ok, updated)
  }

  /** An update can store a privacy no form offers; the post is then hidden from everyone outside its group but its author. */
  lemma UnknownPrivacyHidesPost(w: World, me: int, idParam: string, v: int)
    requires Atoi.Atoi(idParam).Some?
    requires PostVisibility.SinglePost(w.vis, w.posts, Atoi.Atoi(idParam).value, me).Ok?
    requires PostVisibility.SinglePost(w.vis, w.posts, Atoi.Atoi(idParam).value, me).value.authorId == me
    requires v != me
    ensures var r := UpdatePost(w, Some(me), idParam, "secret", "", None, None);
            var p := PostVisibility.SinglePost(w.vis, w.posts, Atoi.Atoi(idParam).value, me).value;
            r.0 == Http.Ok
            && p.(privacy := "secret") in r.1.posts
            && (PostVisibility.Permitted(r.1.vis, p.(privacy := "secret"), v) <==> PostVisibility.GroupMember(r.1.vis, p, v))
  {
    var id := Atoi.Atoi(idParam).value;
    var p := PostVisibility.SinglePost(w.vis, w.posts, id, me).value;
    var i :| 0 <= i < |w.posts| && w.posts[i] == p;
    var r := UpdatePost(w, Some(me), idParam, "secret", "", None, None);
    assert r.1.posts[i] == p.(privacy := "secret", file := p.file);
  }

  /** Each listed id is deleted in turn with `DeleteNotificationQuery`. */
  function DeleteEach(t: NotificationStore.Table, ids: seq<int>): (r: NotificationStore.Table)
    ensures forall x :: x in r <==> x in t && x.id !in ids
    decreases |ids|
  {
    if |ids| == 0 then t else DeleteEach(NotificationStore.Delete(t, ids[0]), ids[1..])
  }

  function Ids(ns: seq<Notification>): (r: seq<int>)
    ensures |r| == |ns| && forall i :: 0 <= i < |ns| ==> r[i] == ns[i].id
  {
    seq(|ns|, i requires 0 <= i < |ns| => ns[i].id)
  }

  function NotifiedUsers(ns: seq<Notification>): (r: seq<int>)
    ensures |r| == |ns| && forall i :: 0 <= i < |ns| ==> r[i] == ns[i].notifiedUserId
  {
    seq(|ns|, i requires 0 <= i < |ns| => ns[i].notifiedUserId)
  }

  /** Every row of the table with the id goes. */
  function RemovePost(posts: seq<Post>, id: int): (r: seq<Post>)
    ensures forall p :: p in r <==> p in posts && p.id != id
  {
    Filter(posts, (p: Post) => p.id != id)
  }

  function Denotifications(ids: seq<int>): (r: seq<Sent>)
    ensures |r| == |ids| && forall i :: 0 <= i < |ids| ==> r[i] == Sent(ids[i], Delivery.DenotificationEnvelope())
  {
    seq(|ids|, i requires 0 <= i < |ids| => Sent(ids[i], Delivery.DenotificationEnvelope()))
  }

  /**
   * The loop of `DeletePostHandler`: each "post" notification the author
   * sent about the post, whatever its `object`, is de-notified to its
   * recipient and deleted by id.
   */
  function Withdraw(o: Out, me: int, id: int): (r: Out)
    requires Hub.Valid(o.hub)
    ensures Hub.Valid(r.hub)
    ensures forall x :: x in r.notes <==> x in o.notes && x.id !in Ids(NotificationStore.AllByDetails(o.notes, me, id, ["post"], "post"))
    ensures forall x :: x in o.notes && x.notifyingUserId == me && x.objectId == id && x.kind == "post" ==> x !in r.notes
    ensures r.sent == o.sent + Denotifications(NotifiedUsers(NotificationStore.AllByDetails(o.notes, me, id, ["post"], "post")))
  {
    var matched := NotificationStore.AllByDetails(o.notes, me, id, ["post"], "post");
    var out := DenotifyEach(o, NotifiedUsers(matched));
    assert out.sent == o.sent + Denotifications(NotifiedUsers(matched)) by {
      assert out.sent[..|o.sent|] == o.sent;
    }
    assert forall x :: x in matched ==> x.id in Ids(matched) by {
      forall x | x in matched ensures x.id in Ids(matched) {
        var i :| 0 <= i < |matched| && matched[i] == x;
        assert Ids(matched)[i] == x.id;
      }
    }
    out.(notes := DeleteEach(out.notes, Ids(matched)))
  }

  /**
   * `DeletePostHandler` (no middleware). Every "post" notification the
   * author sent about the post is withdrawn, read or not, with one
   * de-notification each, and then the post is deleted.
   */
  function DeletePost(w: World, caller: Option<int>, idParam: string): (r: (int, World))
    requires Hub.Valid(w.out.hub)
    ensures caller.None? ==> r == (Http.Unauthorized, w)
    ensures caller.Some? && Atoi.Atoi(idParam).None? ==> r == (Http.BadRequest, w)
    ensures r.0 != Http.Ok ==> r.1 == w
    ensures r.0 == Http.Ok <==>
              caller.Some? && Atoi.Atoi(idParam).Some?
              && PostVisibility.SinglePost(w.vis, w.posts, Atoi.Atoi(idParam).value, caller.value).Ok?
              && PostVisibility.SinglePost(w.vis, w.posts, Atoi.Atoi(idParam).value, caller.value).value.authorId == caller.value
    ensures r.0 == Http.Ok ==>
              var id := Atoi.Atoi(idParam).value;
              (forall p :: p in r.1.posts <==> p in w.posts && p.id != id)
              && r.1.out == Withdraw(w.out, caller.value, id)
  {
    match caller
    case None => (Http.Unauthorized, w)
    case Some(me) =>
      match Atoi.Atoi(idParam)
      case None => (Http.BadRequest, w)
      case Some(id) =>
        match PostVisibility.SinglePost(w.vis, w.posts, id, me)
        case Err(_) => (Http.NotFound, w)
        case Ok(p) =>
          if p.authorId != me then (Http.Forbidden, w)
          else
            (Http.Ok, World(w.vis, RemovePost(w.posts, id), w.groups, Withdraw(w.out, me, id)))
  }

  /** Deleting a post sends a de-notification for each of its "post" notifications, including those already read. */
  lemma DeleteDenotifiesReadNotes(w: World, me: int, idParam: string, n: Notification)
    requires Hub.Valid(w.out.hub)
    requires DeletePost(w, Some(me), idParam).0 == Http.Ok
    requires n in w.out.notes && n.isRead
    requires n.notifyingUserId == me && n.objectId == Atoi.Atoi(idParam).value && n.kind == "post"
    ensures Sent(n.notifiedUserId, Delivery.DenotificationEnvelope()) in DeletePost(w, Some(me), idParam).1.out.sent[|w.out.sent|..]
  {
    var id := Atoi.Atoi(idParam).value;
    var matched := NotificationStore.AllByDetails(w.out.notes, me, id, ["post"], "post");
    var d := Denotifications(NotifiedUsers(matched));
    var r := DeletePost(w, Some(me), idParam).1;
    assert r.out.sent == w.out.sent + d;
    assert r.out.sent[|w.out.sent|..] == d;
    DenotifiedIn(matched, n);
  }

  /** A matched notification's recipient is among the de-notified users. */
  lemma DenotifiedIn(matched: seq<Notification>, n: Notification)
    requires n in matched
    ensures Sent(n.notifiedUserId, Delivery.DenotificationEnvelope()) in Denotifications(NotifiedUsers(matched))
  {
    var i :| 0 <= i < |matched| && matched[i] == n;
    assert Denotifications(NotifiedUsers(matched))[i] == Sent(n.notifiedUserId, Delivery.DenotificationEnvelope());
  }

  /**
   * `GetSinglePostHandler` (no middleware): the permission check answers 403
   * before the post is read through the same rule.
   */
  function ViewPost(w: World, caller: Option<int>, idParam: string): (r: (int, Option<Post>))
    ensures idParam == "" ==> r == (Http.BadRequest, None)
    ensures idParam != "" && caller.None? ==> r == (Http.Unauthorized, None)
    ensures r.1.Some? <==> r.0 == Http.Ok
    ensures r.0 == Http.Ok <==>
              idParam != "" && caller.Some? && Atoi.Atoi(idParam).Some?
              && PostVisibility.IsPermitted(w.vis, w.posts, Atoi.Atoi(idParam).value, caller.value) == Ok(true)
    ensures r.0 == Http.Ok ==> r.1.value == PostVisibility.Find(w.posts, Atoi.Atoi(idParam).value).value
    ensures caller.Some? && Atoi.Atoi(idParam).Some? && idParam != ""
            && PostVisibility.IsPermitted(w.vis, w.posts, Atoi.Atoi(idParam).value, caller.value) == Ok(false)
            ==> r == (Http.Forbidden, None)
  {
    if idParam == "" then (Http.BadRequest, None)
    else match caller
      case None => (Http.Unauthorized, None)
      case Some(me) =>
        match Atoi.Atoi(idParam)
        case None => (Http.BadRequest, None)
        case Some(id) =>
          match PostVisibility.IsPermitted(w.vis, w.posts, id, me)
          case Err(_) => (Http.ServerError, None)
          case Ok(false) => (Http.Forbidden, None)
          case Ok(true) =>
            PostVisibility.SinglePostAgreesWithCheck(w.vis, w.posts, id, me);
            match PostVisibility.SinglePost(w.vis, w.posts, id, me)
            case Err(_) => assert false; (Http.ServerError, None)
            case Ok(p) => (Http.Ok, Some(p))
  }

  /**
   * `GetUserPostsHandler` (no middleware): the named user's page; a visitor
   * without a session is looked at as user 0. Every lookup error, the NULL
   * birth date's scan error included, is answered 404.
   */
  function UserPosts(w: World, users: seq<UserStore.User>, caller: Option<int>, username: string): (r: (int, seq<Post>))
    ensures username == "" ==> r == (Http.BadRequest, [])
    ensures username != "" && !UserStore.FetchByUsername(users, username).Found? ==> r == (Http.NotFound, [])
    ensures (username != "" && (exists u :: u in users && u.username == username && u.dateOfBirth.None?)
             && forall u :: u in users && u.username == username ==> u.dateOfBirth.None?) ==> r == (Http.NotFound, [])
    ensures r.0 == Http.Ok <==> username != "" && UserStore.FetchByUsername(users, username).Found?
    ensures r.0 == Http.Ok ==>
              Order.SortedDesc(r.1, PostVisibility.CreatedAt)
              && var target := UserStore.FetchByUsername(users, username).user.id;
                 forall p :: p in r.1 <==> p in w.posts && PostVisibility.Joined(w.vis, p)
                                           && PostVisibility.ProfileAdmits(w.vis, p, target, caller.GetOr(0))
  {
    if username == "" then (Http.BadRequest, [])
    else match UserStore.FetchByUsername(users, username)
      case Missing => (Http.NotFound, [])
      case Unscannable => (Http.NotFound, [])
      case Found(target) => (Http.Ok, PostVisibility.ProfilePosts(w.vis, w.posts, target.id, caller.GetOr(0)))
  }

  /**
   * `CreateGroupPostHandler` (no middleware). `unescaped` is the group name
   * after URL unescaping. Every accepted member is notified, the author
   * included.
   */
  function CreateGroupPost(w: World, caller: Option<Actor>, privacy: string, unescaped: Option<string>, file: string,
                           freshId: int, now: int): (r: (int, World))
    requires Hub.Valid(w.out.hub)
    ensures unescaped.None? || GroupStore.IdByName(w.groups, unescaped.value).Err? ==> r == (Http.BadRequest, w)
    ensures r.0 != Http.Ok ==> r.1 == w
    ensures r.0 == Http.Ok <==> unescaped.Some? && GroupStore.IdByName(w.groups, unescaped.value).Ok? && caller.Some?
    ensures r.0 == Http.Ok ==>
              var gid := GroupStore.IdByName(w.groups, unescaped.value).value;
              r.1.posts == w.posts + [PostVisibility.Post(freshId, caller.value.id, privacy, Some(gid), now, file)]
              && r.1.vis == w.vis && r.1.groups == w.groups
              && r.1.out == NotifyEach(w.out, GroupStore.AcceptedIds(w.vis.members, gid), PostNote(caller.value, freshId, now))
              && Recipients(r.1.out.sent) == Recipients(w.out.sent) + GroupStore.AcceptedIds(w.vis.members, gid)
  {
    match unescaped
    case None => (Http.BadRequest, w)
    case Some(name) =>
      match GroupStore.IdByName(w.groups, name)
      case Err(_) => (Http.BadRequest, w)
      case Ok(gid) =>
        match caller
        case None => (Http.Unauthorized, w)
        case Some(me) =>
          var ids := GroupStore.AcceptedIds(w.vis.members, gid);
          var make := PostNote(me, freshId, now);
          NotifyEachRecipients(w.out, ids, make);
          (Http.Ok, World(w.vis, w.posts + [PostVisibility.Post(freshId, me.id, privacy, Some(gid), now, file)], w.groups,
                          NotifyEach(w.out, ids, make)))
  }

  /** An author who is an accepted member is notified of their own group post. */
  lemma GroupPostNotifiesAuthor(w: World, me: Actor, privacy: string, name: string, file: string, freshId: int, now: int)
    requires Hub.Valid(w.out.hub)
    requires GroupStore.IdByName(w.groups, name).Ok?
    requires GroupStore.IsAccepted(w.vis.members, GroupStore.IdByName(w.groups, name).value, me.id)
    ensures me.id in Recipients(CreateGroupPost(w, Some(me), privacy, Some(name), file, freshId, now).1.out.sent)
  {
  }

  /**
   * `GetGroupPostsHandler` (no middleware): every post of the named group
   * whose author has a `users` row (the query's inner join), newest first,
   * with no session or membership check.
   */
  function GroupPosts(w: World, name: string): (r: (int, seq<Post>))
    ensures name == "" || GroupStore.IdByName(w.groups, name).Err? ==> r == (Http.BadRequest, [])
    ensures r.0 == Http.Ok <==> name != "" && GroupStore.IdByName(w.groups, name).Ok?
    ensures r.0 == Http.Ok ==>
              Order.SortedDesc(r.1, PostVisibility.CreatedAt)
              && forall p :: p in r.1 <==>
                   p in w.posts && PostVisibility.Joined(w.vis, p) && p.groupId == Some(GroupStore.IdByName(w.groups, name).value)
  {
    if name == "" then (Http.BadRequest, [])
    else match GroupStore.IdByName(w.groups, name)
      case Err(_) => (Http.BadRequest, [])
      case Ok(gid) =>
        (Http.Ok, Order.SortDesc(Filter(w.posts, (p: Post) => PostVisibility.Joined(w.vis, p) && p.groupId == Some(gid)),
                                 PostVisibility.CreatedAt))
  }

  /** The group page lists a post to someone the visibility rule keeps it from. */
  lemma GroupPostsIgnoreVisibility(out: Out)
    ensures var p := PostVisibility.Post(1, 7, "public", Some(3), 0, "");
            var w := World(PostVisibility.World(map[7 := true], map[], [], []), [p], [GroupStore.Group(3, "club", "", 7, "")], out);
            p in GroupPosts(w, "club").1 && !PostVisibility.Permitted(w.vis, p, 9)
  {
    var p := PostVisibility.Post(1, 7, "public", Some(3), 0, "");
    var w := World(PostVisibility.World(map[7 := true], map[], [], []), [p], [GroupStore.Group(3, "club", "", 7, "")], out);
    assert !GroupStore.IsAccepted(w.vis.members, 3, 9);
  }
}

=== FILE: post_visibility.dfy ===
/**
 * Who may see a post (post_db.go). The same rule is written four times: the
 * CASE of `IsUserPermittedToViewPost`, the WHERE of `GetPostsQuery` and of
 * `GetSinglePostQuery`, and a looser variant in `GetUserPostsQuery`. The joined
 * tables are the follow relation, the `post_viewers` rows, the group
 * membership rows and each user's `is_public` flag.
 */
module PostVisibility {
  import opened Wrappers
  import opened SeqUtil
  import FollowStore
  import GroupStore
  import Order

  datatype Post = Post(id: int, authorId: int, privacy: string, groupId: Option<int>, createdAt: int, file: string)

  /** A `post_viewers` row. */
  datatype ViewerRow = ViewerRow(postId: int, viewerId: int)

  datatype World = World(
    isPublic: map<int, bool>, follows: FollowStore.Follows, viewers: seq<ViewerRow>, members: GroupStore.Members)

  predicate AcceptedFollower(w: World, viewer: int, author: int) {
    (viewer, author) in w.follows && w.follows[(viewer, author)] == FollowStore.Accepted
  }

  predicate Listed(w: World, postId: int, viewer: int) {
    ViewerRow(postId, viewer) in w.viewers
  }

  predicate AuthorPublic(w: World, p: Post) {
    p.authorId in w.isPublic && w.isPublic[p.authorId]
  }

  predicate GroupMember(w: World, p: Post, viewer: int) {
    p.groupId.Some? && GroupStore.IsAccepted(w.members, p.groupId.value, viewer)
  }

  /** The CASE of `IsUserPermittedToViewPost`, first matching arm wins. */
  function Permitted(w: World, p: Post, viewer: int): bool {
    if p.authorId == viewer then true
    else if p.privacy == "public" && AuthorPublic(w, p) && p.groupId.None? then true
    else if p.privacy == "private" && AcceptedFollower(w, viewer, p.authorId) && p.groupId.None? then true
    else if p.privacy == "almost_private" && Listed(w, p.id, viewer) && p.groupId.None? then true
    else if GroupMember(w, p, viewer) then true
    else false
  }

  /** The WHERE of `GetPostsQuery` (and, with the id test, of `GetSinglePostQuery`). */
  predicate FeedAdmits(w: World, p: Post, viewer: int) {
    GroupMember(w, p, viewer)
    || (p.privacy == "public" && AuthorPublic(w, p) && p.groupId.None?)
    || (p.privacy == "almost_private" && Listed(w, p.id, viewer) && p.groupId.None?)
    || (p.privacy == "private" && AcceptedFollower(w, viewer, p.authorId) && p.groupId.None?)
    || p.authorId == viewer
  }

  /** The WHERE of `GetUserPostsQuery` for one author's page. */
  predicate ProfileAdmits(w: World, p: Post, target: int, viewer: int) {
    p.authorId == target && (
      (p.privacy == "public" && (AuthorPublic(w, p) || AcceptedFollower(w, viewer, p.authorId)) && p.groupId.None?)
      || (p.privacy == "almost_private" && Listed(w, p.id, viewer) && p.groupId.None?)
      || (p.privacy == "private" && AcceptedFollower(w, viewer, p.authorId) && p.groupId.None?)
      || GroupMember(w, p, viewer)
      || viewer == target)
  }

  /** The permission check spelled out: one of five independent reasons. */
  lemma PermittedMeans(w: World, p: Post, viewer: int)
    ensures Permitted(w, p, viewer) <==>
              p.authorId == viewer
              || (p.groupId.None? && (
                   (p.privacy == "public" && AuthorPublic(w, p))
                   || (p.privacy == "private" && AcceptedFollower(w, viewer, p.authorId))
                   || (p.privacy == "almost_private" && Listed(w, p.id, viewer))))
              || GroupMember(w, p, viewer)
  {
  }

  /** A non-owner sees a group post exactly when an accepted member, whatever its privacy. */
  lemma GroupPostNeedsMembership(w: World, p: Post, viewer: int)
    requires p.groupId.Some? && p.authorId != viewer
    ensures Permitted(w, p, viewer) <==> GroupStore.IsAccepted(w.members, p.groupId.value, viewer)
  {
  }

  /** The feed filter and the permission check agree on every post. */
  lemma FeedMatchesPermission(w: World, p: Post, viewer: int)
    ensures FeedAdmits(w, p, viewer) <==> Permitted(w, p, viewer)
  {
  }

  /** On an author's page the profile filter admits everything the permission check allows... */
  lemma ProfileAdmitsPermitted(w: World, p: Post, viewer: int)
    requires Permitted(w, p, viewer)
    ensures ProfileAdmits(w, p, p.authorId, viewer)
  {
  }

  /** ...and more: a public post of a private author is listed for an accepted follower, but not permitted. */
  lemma ProfileAdmitsMore()
    ensures var w := World(map[1 := false], map[(2, 1) := FollowStore.Accepted], [], []);
            var p := Post(10, 1, "public", None, 0, "");
            ProfileAdmits(w, p, 1, 2) && !Permitted(w, p, 2)
  {
  }

  function CreatedAt(p: Post): int { p.createdAt }

  /** Posts whose author has a `users` row; the inner join drops the others. */
  predicate Joined(w: World, p: Post) { p.authorId in w.isPublic }

  /** `GetPostsQuery`: the admitted posts, newest first. */
  function Feed(w: World, posts: seq<Post>, viewer: int): (r: seq<Post>)
    ensures Order.SortedDesc(r, CreatedAt)
    ensures forall p :: p in r <==> p in posts && Joined(w, p) && Permitted(w, p, viewer)
  {
    Order.SortDesc(Filter(posts, (p: Post) => Joined(w, p) && FeedAdmits(w, p, viewer)), CreatedAt)
  }

  /** `GetUserPostsQuery`: the author's admitted posts, newest first. */
  function ProfilePosts(w: World, posts: seq<Post>, target: int, viewer: int): (r: seq<Post>)
    ensures Order.SortedDesc(r, CreatedAt)
    ensures forall p :: p in r <==> p in posts && Joined(w, p) && ProfileAdmits(w, p, target, viewer)
  {
    Order.SortDesc(Filter(posts, (p: Post) => Joined(w, p) && ProfileAdmits(w, p, target, viewer)), CreatedAt)
  }

  /** The first post of the table with the given id. */
  function Find(posts: seq<Post>, id: int): (r: Option<Post>)
    ensures r.None? <==> forall p :: p in posts ==> p.id != id
    ensures r.Some? ==> r.value in posts && r.value.id == id
  {
    if |posts| == 0 then None
    else if posts[0].id == id then Some(posts[0])
    else Find(posts[1..], id)
  }

  /** `IsUserPermittedToViewPost`: an error when the post or its author is missing. */
  function IsPermitted(w: World, posts: seq<Post>, id: int, viewer: int): (r: Result<bool>)
    ensures r.Err? <==> Find(posts, id).None? || !Joined(w, Find(posts, id).value)
    ensures r.Ok? ==> r.value == Permitted(w, Find(posts, id).value, viewer)
  {
    match Find(posts, id)
    case None => Err("error checking post permissions")
    case Some(p) => if Joined(w, p) then Ok(Permitted(w, p, viewer)) else Err("error checking post permissions")
  }

  /** `GetSinglePostQuery`: a miss, for whatever reason, is the same error. */
  function SinglePost(w: World, posts: seq<Post>, id: int, viewer: int): (r: Result<Post>)
    ensures r.Ok? <==> Find(posts, id).Some? && Joined(w, Find(posts, id).value) && Permitted(w, Find(posts, id).value, viewer)
    ensures r.Ok? ==> r.value == Find(posts, id).value
    ensures r.Err? ==> r.error == "post not found or user not permitted to view"
  {
    match Find(posts, id)
    case Some(p) =>
      if Joined(w, p) && FeedAdmits(w, p, viewer) then Ok(p)
      else Err("post not found or user not permitted to view")
    case None => Err("post not found or user not permitted to view")
  }

  /** The single-post read succeeds exactly when the permission check says yes. */
  lemma SinglePostAgreesWithCheck(w: World, posts: seq<Post>, id: int, viewer: int)
    ensures SinglePost(w, posts, id, viewer).Ok? <==> IsPermitted(w, posts, id, viewer) == Ok(true)
  {
  }

  /** `UpdatePostViewers`: the post's rows are replaced by one row per given id. */
  function UpdateViewers(rows: seq<ViewerRow>, postId: int, ids: seq<int>): (r: seq<ViewerRow>)
    ensures forall v :: ViewerRow(postId, v) in r <==> v in ids
    ensures forall x :: x in r && x.postId != postId <==> x in rows && x.postId != postId
  {
    var kept := Filter(rows, (x: ViewerRow) => x.postId != postId);
    var added := seq(|ids|, i requires 0 <= i < |ids| => ViewerRow(postId, ids[i]));
    assert forall v :: ViewerRow(postId, v) in added <==> v in ids by {
      forall v ensures ViewerRow(postId, v) in added <==> v in ids {
        if v in ids {
          var i :| 0 <= i < |ids| && ids[i] == v;
          assert added[i] == ViewerRow(postId, v);
        }
      }
    }
    kept + added
  }
}

=== FILE: rate_limiter.dfy ===
/**
 * The per-address request limiter (ratelimit.go): each remote address keeps the
 * times of its last admitted requests, at most 100 of them; a request is
 * refused when the list is full and its oldest entry is less than a minute old.
 * Times are integer nanoseconds.
 */
module RateLimiter {

  const Capacity := 100
  const Minute := 60_000_000_000

  type Limiter = map<string, seq<int>>

  function Times(l: Limiter, ip: string): seq<int> {
    if ip in l then l[ip] else []
  }

  /** The last `n` entries of `s` (all of them when there are fewer). */
  function LastN(s: seq<int>, n: nat): (r: seq<int>)
    ensures |r| <= n && |r| <= |s|
  {
    if |s| > n then s[|s| - n..] else s
  }

  /** One request from `ip` at `now`: the limiter afterwards and whether the request is forwarded. */
  function Admit(l: Limiter, ip: string, now: int): (r: (Limiter, bool))
    requires |Times(l, ip)| <= Capacity
    ensures !r.1 <==> |Times(l, ip)| >= Capacity && now - Times(l, ip)[0] < Minute
    ensures !r.1 ==> r.0 == l
    ensures r.1 ==> r.0 == l[ip := LastN(Times(l, ip) + [now], Capacity)]
    ensures forall other :: other != ip ==> Times(r.0, other) == Times(l, other)
    ensures |Times(r.0, ip)| <= Capacity
  {
    var times := Times(l, ip);
    if |times| >= Capacity then
      if now - times[0] < Minute then (l, false)
      else
        assert times[1..] + [now] == (times + [now])[|times + [now]| - Capacity..];
        (l[ip := times[1..] + [now]], true)
    else (l[ip := times + [now]], true)
  }

  predicate Sorted(s: seq<int>) {
    forall i, j :: 0 <= i < j < |s| ==> s[i] <= s[j]
  }

  /** With a clock that never goes back, every list stays in time order. */
  lemma AdmitKeepsSorted(l: Limiter, ip: string, now: int)
    requires |Times(l, ip)| <= Capacity && Sorted(Times(l, ip))
    requires forall i :: 0 <= i < |Times(l, ip)| ==> Times(l, ip)[i] <= now
    ensures Sorted(Times(Admit(l, ip, now).0, ip))
  {
  }

  /** A refusal means the whole list, 100 requests, fell within the last minute. */
  lemma RefusalMeansFullMinute(l: Limiter, ip: string, now: int)
    requires |Times(l, ip)| <= Capacity && Sorted(Times(l, ip))
    requires forall i :: 0 <= i < |Times(l, ip)| ==> Times(l, ip)[i] <= now
    requires !Admit(l, ip, now).1
    ensures |Times(l, ip)| == Capacity
    ensures forall i :: 0 <= i < |Times(l, ip)| ==> now - Minute < Times(l, ip)[i] <= now
  {
  }

  /** A request at or after a minute past the oldest entry is always forwarded. */
  lemma OldestExpiredAdmits(l: Limiter, ip: string, now: int)
    requires |Times(l, ip)| <= Capacity
    requires |Times(l, ip)| > 0 && now - Times(l, ip)[0] >= Minute
    ensures Admit(l, ip, now).1
    ensures |Times(l, ip)| == Capacity ==> Times(Admit(l, ip, now).0, ip) == Times(l, ip)[1..] + [now]
  {
  }

  predicate Bounded(l: Limiter) {
    forall ip :: ip in l ==> |l[ip]| <= Capacity
  }

  lemma AdmitKeepsBounded(l: Limiter, ip: string, now: int)
    requires Bounded(l)
    ensures Bounded(Admit(l, ip, now).0)
  {
    var r := Admit(l, ip, now).0;
    forall a | a in r
      ensures |r[a]| <= Capacity
    {
      assert r[a] == Times(r, a);
    }
  }

  /** A run of requests: the addresses and times in arrival order, and which were forwarded. */
  function Run(l: Limiter, reqs: seq<(string, int)>): (r: (Limiter, seq<bool>))
    requires Bounded(l)
    ensures Bounded(r.0) && |r.1| == |reqs|
    decreases |reqs|
  {
    if |reqs| == 0 then (l, [])
    else
      var first := Admit(l, reqs[0].0, reqs[0].1);
      AdmitKeepsBounded(l, reqs[0].0, reqs[0].1);
      var rest := Run(first.0, reqs[1..]);
      (rest.0, [first.1] + rest.1)
  }

  /** The admitted times of `ip` in a run, in order. */
  function AdmittedTimes(l: Limiter, reqs: seq<(string, int)>, ip: string): seq<int>
    requires Bounded(l)
    decreases |reqs|
  {
    if |reqs| == 0 then []
    else
      var first := Admit(l, reqs[0].0, reqs[0].1);
      AdmitKeepsBounded(l, reqs[0].0, reqs[0].1);
      (if reqs[0].0 == ip && first.1 then [reqs[0].1] else []) + AdmittedTimes(first.0, reqs[1..], ip)
  }

  /** Only the last `n` entries matter to `LastN`. */
  lemma LastNOfLongSuffix(p: seq<int>, y: seq<int>, n: nat)
    requires |y| >= n
    ensures LastN(p + y, n) == LastN(y, n)
  {
    var x := p + y;
    assert forall i :: |p| <= i < |x| ==> x[i] == y[i - |p|];
    if |x| > n {
      assert x[|x| - n..] == y[|y| - n..];
    }
  }

  lemma LastNAppend(s: seq<int>, t: seq<int>, n: nat)
    ensures LastN(LastN(s, n) + t, n) == LastN(s + t, n)
  {
    if |s| > n {
      var k := |s| - n;
      assert s + t == s[..k] + (s[k..] + t);
      LastNOfLongSuffix(s[..k], s[k..] + t, n);
    }
  }

  /** One step of the run, as `LastN` sees it. */
  lemma AdmitIsLastN(l: Limiter, ip: string, a: string, now: int)
    requires Bounded(l)
    ensures Times(Admit(l, a, now).0, ip) == LastN(Times(l, ip) + (if a == ip && Admit(l, a, now).1 then [now] else []), Capacity)
  {
    var head: seq<int> := if a == ip && Admit(l, a, now).1 then [now] else [];
    assert Times(l, ip) + head == Times(l, ip) || head == [now];
    if head == [] {
      assert Times(l, ip) + head == Times(l, ip);
      assert ip in l ==> |l[ip]| <= Capacity;
    }
  }

  /** The admitted time a single request contributes for `ip`. */
  function Contribution(l: Limiter, a: string, now: int, ip: string): seq<int>
    requires Bounded(l)
  {
    if a == ip && Admit(l, a, now).1 then [now] else []
  }

  lemma RunStep(l: Limiter, reqs: seq<(string, int)>, ip: string)
    requires Bounded(l) && |reqs| > 0
    ensures Bounded(Admit(l, reqs[0].0, reqs[0].1).0)
    ensures Run(l, reqs).0 == Run(Admit(l, reqs[0].0, reqs[0].1).0, reqs[1..]).0
    ensures AdmittedTimes(l, reqs, ip)
            == Contribution(l, reqs[0].0, reqs[0].1, ip) + AdmittedTimes(Admit(l, reqs[0].0, reqs[0].1).0, reqs[1..], ip)
    ensures Times(Admit(l, reqs[0].0, reqs[0].1).0, ip) == LastN(Times(l, ip) + Contribution(l, reqs[0].0, reqs[0].1, ip), Capacity)
  {
    AdmitKeepsBounded(l, reqs[0].0, reqs[0].1);
    AdmitIsLastN(l, ip, reqs[0].0, reqs[0].1);
  }

  lemma Regroup(t: seq<int>, head: seq<int>, tail: seq<int>, whole: seq<int>)
    requires whole == head + tail
    ensures LastN(t + head + tail, Capacity) == LastN(t + whole, Capacity)
  {
    assert t + head + tail == t + whole;
  }

  /** An address's list is always its last 100 admitted request times. */
  lemma {:induction false} ListIsLastAdmitted(l: Limiter, reqs: seq<(string, int)>, ip: string)
    requires Bounded(l)
    ensures Times(Run(l, reqs).0, ip) == LastN(Times(l, ip) + AdmittedTimes(l, reqs, ip), Capacity)
    decreases |reqs|
  {
    if |reqs| == 0 {
      assert Times(l, ip) + [] == Times(l, ip);
      assert ip in l ==> |l[ip]| <= Capacity;
    } else {
      RunStep(l, reqs, ip);
      var next := Admit(l, reqs[0].0, reqs[0].1).0;
      var head := Contribution(l, reqs[0].0, reqs[0].1, ip);
      var tail := AdmittedTimes(next, reqs[1..], ip);
      ListIsLastAdmitted(next, reqs[1..], ip);
      LastNAppend(Times(l, ip) + head, tail, Capacity);
      Regroup(Times(l, ip), head, tail, AdmittedTimes(l, reqs, ip));
    }
  }
}

=== FILE: reaction_handler.dfy ===
/**
 * `ReactHandler` (reaction_handler.go), behind the authentication middleware:
 * the reaction toggle, the notification that follows it, and the counts sent
 * back.
 */
module ReactionHandler {
  import opened Wrappers
  import opened Model
  import Hub
  import Http
  import Delivery
  import NotificationStore
  import ReactionStore
  import opened Outbox

  datatype World = World(reactions: ReactionStore.Reactions, out: Out)

  /** The JSON body: exactly one of the two targets is expected. */
  datatype Request = Request(postId: Option<int>, commentId: Option<int>, kind: int)

  datatype Response = Response(counts: map<string, nat>, mine: Option<int>)

  datatype Reply = Reply(status: int, world: World, response: Option<Response>)

  predicate OneTarget(q: Request) { q.postId.Some? != q.commentId.Some? }

  function TargetOf(q: Request): ReactionStore.Target
    requires OneTarget(q)
  {
    if q.postId.Some? then ReactionStore.OnPost(q.postId.value) else ReactionStore.OnComment(q.commentId.value)
  }

  /** The notification a new or changed reaction sends to the post's owner; its `object` is left empty. */
  function ReactionNote(me: Actor, owner: int, postId: int, now: int): (n: Notification)
    ensures n.notifiedUserId == owner && n.notifyingUserId == me.id && n.kind == "reaction"
    ensures n.objectId == postId && n.objectName == "" && !n.isRead
  {
    Notification(0, owner, me.id, "reaction", postId, "", me.username + " Reacted on your Post.", false, now, me.avatarUrl)
  }

  /** The earlier reaction notification from the caller to the owner about the post, or the zero notification. */
  function Earlier(t: NotificationStore.Table, me: int, owner: int, postId: int): Notification {
    NotificationStore.ByDetails(t, me, owner, postId, ["reaction"], "")
  }

  /**
   * The notification step once the reaction is stored and the post's owner
   * is known. With no earlier notification the lookup yields the zero
   * notification, which reads as unread, so removing a reaction whose
   * notification is gone still sends a de-notification.
   */
  function NotifyOwner(out: Out, me: Actor, owner: int, postId: int, removed: bool, now: int): (r: Out)
    requires Hub.Valid(out.hub)
    ensures Hub.Valid(r.hub)
    ensures owner == me.id ==> r == out
    ensures owner != me.id && !removed ==>
              var n := ReactionNote(me, owner, postId, now);
              r.notes == NotificationStore.Delete(out.notes, Earlier(out.notes, me.id, owner, postId).id)
                         + [n.(id := out.nextId, notifyingImage := "")]
              && r.sent == out.sent + [Sent(owner, Delivery.NotificationEnvelope(n.(id := out.nextId)))]
    ensures owner != me.id && removed ==>
              var n := Earlier(out.notes, me.id, owner, postId);
              r.notes == NotificationStore.Delete(out.notes, n.id)
              && r.sent == out.sent + (if n.isRead then [] else [Sent(owner, Delivery.DenotificationEnvelope())])
  {
    if owner == me.id then out
    else
      var n := Earlier(out.notes, me.id, owner, postId);
      if !removed then Notify(out.(notes := NotificationStore.Delete(out.notes, n.id)), ReactionNote(me, owner, postId, now))
      else
        var out1 := if !n.isRead then Denotify(out, owner) else out;
        out1.(notes := NotificationStore.Delete(out1.notes, n.id))
  }

  /**
   * `ReactHandler`. `posts` maps each post to its author. The reaction is
   * stored before the post's author is looked up through the post id, so a
   * comment reaction, which has no post id, is stored and then fails (500).
   */
  function React(w: World, types: ReactionStore.Types, posts: map<int, int>, me: Actor, httpMethod: string,
                 body: Option<Request>, now: int): (r: Reply)
    requires Hub.Valid(w.out.hub)
    ensures httpMethod != "POST" ==> r == Reply(Http.MethodNotAllowed, w, None)
    ensures httpMethod == "POST" && (body.None? || !OneTarget(body.value)) ==> r == Reply(Http.BadRequest, w, None)
    ensures httpMethod == "POST" && body.Some? && OneTarget(body.value) ==>
              var q := body.value;
              var (t, removed) := ReactionStore.Toggle(w.reactions, me.id, TargetOf(q), q.kind);
              r.world.reactions == t
              && (r.status == Http.Ok <==> q.postId.Some? && q.postId.value in posts)
              && (r.status != Http.Ok ==> r.status == Http.ServerError && r.world.out == w.out && r.response.None?)
              && (r.status == Http.Ok ==>
                    r.world.out == NotifyOwner(w.out, me, posts[q.postId.value], q.postId.value, removed, now)
                    && r.response == Some(Response(ReactionStore.Counts(t, types, TargetOf(q)),
                                                   ReactionStore.UserReaction(t, me.id, TargetOf(q)))))
  {
    if httpMethod != "POST" then Reply(Http.MethodNotAllowed, w, None)
    else match body
      case None => Reply(Http.BadRequest, w, None)
      case Some(q) =>
        if !OneTarget(q) then Reply(Http.BadRequest, w, None)
        else
          var target := TargetOf(q);
          var (t, removed) := ReactionStore.Toggle(w.reactions, me.id, target, q.kind);
          match q.postId
          case None => Reply(Http.ServerError, w.(reactions := t), None)
          case Some(p) =>
            if p !in posts then Reply(Http.ServerError, w.(reactions := t), None)
            else
              var out := NotifyOwner(w.out, me, posts[p], p, removed, now);
              Reply(Http.Ok, World(t, out),
                    Some(Response(ReactionStore.Counts(t, types, target), ReactionStore.UserReaction(t, me.id, target))))
  }

  /** A reaction on a comment is stored, yet the request always fails. */
  lemma CommentReactionStoredThenFails(w: World, types: ReactionStore.Types, posts: map<int, int>, me: Actor,
                                       commentId: int, kind: int, now: int)
    requires Hub.Valid(w.out.hub)
    ensures var r := React(w, types, posts, me, "POST", Some(Request(None, Some(commentId), kind)), now);
            r.status == Http.ServerError
            && r.world.reactions == ReactionStore.Toggle(w.reactions, me.id, ReactionStore.OnComment(commentId), kind).0
  {
  }

  /**
   * Reacting then changing the reaction leaves the owner with one reaction
   * notification from the caller on that post, the newer one.
   */
  lemma ChangedReactionReplacesNotification(out: Out, me: Actor, owner: int, postId: int, now: int)
    requires Hub.Valid(out.hub)
    requires owner != me.id && out.nextId > 0
    requires forall x :: x in out.notes ==> 0 < x.id < out.nextId
    requires forall i :: 0 <= i < |out.notes| ==> !NotificationStore.DetailsMatch(me.id, owner, postId, ["reaction"], "", out.notes[i])
    ensures var o1 := NotifyOwner(out, me, owner, postId, false, now);
            var o2 := NotifyOwner(o1, me, owner, postId, false, now);
            o2.notes == out.notes + [ReactionNote(me, owner, postId, now).(id := out.nextId + 1, notifyingImage := "")]
  {
    var n := ReactionNote(me, owner, postId, now);
    assert Earlier(out.notes, me.id, owner, postId) == NotificationStore.Zero;
    NotificationStore.DeleteAbsent(out.notes, 0);
    var o1 := NotifyOwner(out, me, owner, postId, false, now);
    var first := n.(id := out.nextId, notifyingImage := "");
    assert o1.notes == out.notes + [first];
    assert o1.nextId == out.nextId + 1;
    assert forall i :: 0 <= i < |out.notes| ==> o1.notes[i] == out.notes[i];
    NotificationStore.ByDetailsFirst(o1.notes, me.id, owner, postId, ["reaction"], "", |out.notes|);
    assert Earlier(o1.notes, me.id, owner, postId) == first;
    NotificationStore.DeleteAppended(out.notes, first);
  }
}

=== FILE: reaction_store.dfy ===
/**
 * The `reactions` table (reactions_db.go). The conflict key
 * `(user_id, IFNULL(post_id, 0), IFNULL(comment_id, 0))` is the map key, so a
 * user holds at most one reaction per post or comment by construction; the
 * value is the reaction type id. `reaction_types` maps type ids to names.
 */
module ReactionStore {
  import opened Wrappers

  datatype Target = OnPost(postId: int) | OnComment(commentId: int)

  type Reactions = map<(int, Target), int>
  type Types = map<int, string>

  /** `GetUserReaction`: the caller's reaction type, or nil. */
  function UserReaction(t: Reactions, user: int, target: Target): (r: Option<int>)
    ensures r.None? <==> (user, target) !in t
    ensures r.Some? ==> t[(user, target)] == r.value
  {
    if (user, target) in t then Some(t[(user, target)]) else None
  }

  /**
   * `AddOrUpdateReaction`: the same type again removes the reaction and
   * answers true; anything else inserts or overwrites it and answers false.
   */
  function Toggle(t: Reactions, user: int, target: Target, kind: int): (r: (Reactions, bool))
    ensures r.1 <==> UserReaction(t, user, target) == Some(kind)
    ensures r.1 ==> UserReaction(r.0, user, target).None?
    ensures !r.1 ==> UserReaction(r.0, user, target) == Some(kind)
    ensures forall k :: k in t && k != (user, target) ==> k in r.0 && r.0[k] == t[k]
    ensures forall k :: k in r.0 && k != (user, target) ==> k in t
  {
    if (user, target) in t && t[(user, target)] == kind then (t - {(user, target)}, true)
    else (t[(user, target) := kind], false)
  }

  /** Reacting twice with the same type from no reaction leaves the table as it was. */
  lemma ToggleTwiceRestores(t: Reactions, user: int, target: Target, kind: int)
    requires (user, target) !in t
    ensures Toggle(t, user, target, kind).1 == false
    ensures Toggle(Toggle(t, user, target, kind).0, user, target, kind) == (t, true)
  {
    var once := Toggle(t, user, target, kind).0;
    assert once == t[(user, target) := kind];
    assert once - {(user, target)} == t;
  }

  /** The users whose reaction on the target has the type called `name`. */
  function UsersWith(t: Reactions, types: Types, target: Target, name: string): set<int> {
    set k | k in t && k.1 == target && t[k] in types && types[t[k]] == name :: k.0
  }

  function Count(t: Reactions, types: Types, target: Target, name: string): nat {
    |UsersWith(t, types, target, name)|
  }

  /** The names of the types reacted with on the target. */
  function NamesOn(t: Reactions, types: Types, target: Target): set<string> {
    set k | k in t && k.1 == target && t[k] in types :: types[t[k]]
  }

  /** `GetReactionsByContent`: a count per type name; names nobody used are absent. */
  function Counts(t: Reactions, types: Types, target: Target): (r: map<string, nat>)
    ensures forall name :: name in r <==> Count(t, types, target, name) > 0
    ensures forall name :: name in r ==> r[name] == Count(t, types, target, name)
  {
    forall name ensures name in NamesOn(t, types, target) <==> Count(t, types, target, name) > 0 {
      if name in NamesOn(t, types, target) {
        var k :| k in t && k.1 == target && t[k] in types && types[t[k]] == name;
        assert k.0 in UsersWith(t, types, target, name);
      }
    }
    map name | name in NamesOn(t, types, target) :: Count(t, types, target, name)
  }

  /** Removing a reaction takes exactly one off its type's count and leaves the other names alone. */
  lemma RemovalCounts(t: Reactions, types: Types, user: int, target: Target, kind: int, name: string)
    requires UserReaction(t, user, target) == Some(kind)
    ensures var after := Toggle(t, user, target, kind).0;
            Count(after, types, target, name) ==
              if kind in types && types[kind] == name then Count(t, types, target, name) - 1
              else Count(t, types, target, name)
  {
    var after := Toggle(t, user, target, kind).0;
    assert after == t - {(user, target)};
    UsersWithRemoved(t, types, user, target, name);
  }

  /** The users of a name once one user's reaction is gone. */
  lemma UsersWithRemoved(t: Reactions, types: Types, user: int, target: Target, name: string)
    requires (user, target) in t
    ensures var before := UsersWith(t, types, target, name);
            var now := UsersWith(t - {(user, target)}, types, target, name);
            if t[(user, target)] in types && types[t[(user, target)]] == name
            then user in before && now == before - {user}
            else now == before
  {
    var after := t - {(user, target)};
    var before := UsersWith(t, types, target, name);
    var now := UsersWith(after, types, target, name);
    var kind := t[(user, target)];
    if kind in types && types[kind] == name {
      assert user in before;
      forall v ensures v in now <==> v in before - {user} {
        if v in before - {user} {
          assert (v, target) in after;
        }
      }
    } else {
      forall v ensures v in now <==> v in before {
        if v in before {
          assert v != user;
          assert (v, target) in after;
        }
      }
    }
  }

  /** A first reaction adds exactly one to its type's count and leaves the other names alone. */
  lemma AdditionCounts(t: Reactions, types: Types, user: int, target: Target, kind: int, name: string)
    requires UserReaction(t, user, target).None?
    ensures var after := Toggle(t, user, target, kind).0;
            Count(after, types, target, name) ==
              if kind in types && types[kind] == name then Count(t, types, target, name) + 1
              else Count(t, types, target, name)
  {
    var after := Toggle(t, user, target, kind).0;
    assert after == t[(user, target) := kind];
    UsersWithAdded(t, types, user, target, kind, name);
  }

  /** The users of a name once a user without a reaction reacts with `kind`. */
  lemma UsersWithAdded(t: Reactions, types: Types, user: int, target: Target, kind: int, name: string)
    requires (user, target) !in t
    ensures var before := UsersWith(t, types, target, name);
            var now := UsersWith(t[(user, target) := kind], types, target, name);
            user !in before
            && if kind in types && types[kind] == name then now == before + {user} else now == before
  {
    var after := t[(user, target) := kind];
    var before := UsersWith(t, types, target, name);
    var now := UsersWith(after, types, target, name);
    assert user !in before;
    if kind in types && types[kind] == name {
      forall v ensures v in now <==> v in before + {user} {
        if v in now && v != user {
          assert (v, target) in t;
        }
        if v == user {
          assert after[(user, target)] == kind;
        }
      }
    } else {
      forall v ensures v in now <==> v in before {
        if v in now {
          assert v != user;
          assert (v, target) in t;
        }
      }
    }
  }
}

=== FILE: seq_util.dfy ===
/** Order-preserving filtering over sequences, used wherever the source filters a list. */
module SeqUtil {

  /** The elements of `s` that satisfy `keep`, in their original order. */
  function Filter<T(!new)>(s: seq<T>, keep: T -> bool): (r: seq<T>)
    ensures |r| <= |s|
    ensures forall i :: 0 <= i < |r| ==> keep(r[i])
    ensures forall x :: x in r <==> x in s && keep(x)
  {
    if |s| == 0 then []
    else if keep(s[0]) then [s[0]] + Filter(s[1..], keep)
    else Filter(s[1..], keep)
  }

  /** Each kept value occurs as often as in the input; every other value is gone. */
  lemma {:induction false} FilterCounts<T(!new)>(s: seq<T>, keep: T -> bool)
    ensures forall x :: multiset(Filter(s, keep))[x] == if keep(x) then multiset(s)[x] else 0
  {
    if |s| > 0 {
      FilterCounts(s[1..], keep);
      assert s == [s[0]] + s[1..];
    }
  }

  /** Filtering distributes over concatenation, so the relative order of kept elements is preserved. */
  lemma {:induction false} FilterConcat<T(!new)>(a: seq<T>, b: seq<T>, keep: T -> bool)
    ensures Filter(a + b, keep) == Filter(a, keep) + Filter(b, keep)
  {
    if |a| == 0 {
      assert a + b == b;
    } else {
      assert (a + b)[1..] == a[1..] + b;
      FilterConcat(a[1..], b, keep);
    }
  }

  /** Surroundings that keep nothing leave the filter of the middle. */
  lemma FilterAround<T(!new)>(a: seq<T>, m: seq<T>, b: seq<T>, keep: T -> bool)
    requires Filter(a, keep) == [] && Filter(b, keep) == []
    ensures Filter(a + m + b, keep) == Filter(m, keep)
  {
    FilterConcat(a + m, b, keep);
    FilterConcat(a, m, keep);
    assert [] + Filter(m, keep) + [] == Filter(m, keep);
  }

  /** Nothing is dropped exactly when every element is kept. */
  lemma {:induction false} FilterKeepsAll<T(!new)>(s: seq<T>, keep: T -> bool)
    ensures Filter(s, keep) == s <==> forall i :: 0 <= i < |s| ==> keep(s[i])
  {
    if |s| > 0 {
      var t := Filter(s[1..], keep);
      FilterKeepsAll(s[1..], keep);
      if !keep(s[0]) {
        assert |Filter(s, keep)| == |t| < |s|;
      } else {
        assert Filter(s, keep) == [s[0]] + t;
        if Filter(s, keep) == s {
          assert t == s[1..];
        }
        if forall i :: 0 <= i < |s| ==> keep(s[i]) {
          assert forall i :: 0 <= i < |s[1..]| ==> keep(s[1..][i]);
          assert [s[0]] + s[1..] == s;
        }
      }
    }
  }

  /** Nothing survives when no element is kept. */
  lemma {:induction false} FilterNone<T(!new)>(s: seq<T>, keep: T -> bool)
    requires forall i :: 0 <= i < |s| ==> !keep(s[i])
    ensures Filter(s, keep) == []
  {
    if |s| > 0 {
      FilterNone(s[1..], keep);
    }
  }

  /** The position in `s` of the `k`-th kept element. */
  function FilterIndex<T(!new)>(s: seq<T>, keep: T -> bool, k: nat): (i: nat)
    requires k < |Filter(s, keep)|
    ensures i < |s| && s[i] == Filter(s, keep)[k]
    decreases |s|
  {
    if keep(s[0]) then (if k == 0 then 0 else 1 + FilterIndex(s[1..], keep, k - 1))
    else 1 + FilterIndex(s[1..], keep, k)
  }

  /** When a weaker predicate is kept, every element the stronger one keeps survives too. */
  lemma {:induction false} FilterMonotone<T(!new)>(s: seq<T>, strong: T -> bool, weak: T -> bool)
    requires forall x :: x in s && strong(x) ==> weak(x)
    ensures forall x :: x in Filter(s, strong) ==> x in Filter(s, weak)
  {
  }

  /** Filtering by a narrower predicate after a wider one is the same as filtering by the narrower alone. */
  lemma {:induction false} FilterNarrow<T(!new)>(s: seq<T>, strong: T -> bool, weak: T -> bool)
    requires forall x :: x in s && strong(x) ==> weak(x)
    ensures Filter(Filter(s, weak), strong) == Filter(s, strong)
  {
    if |s| > 0 {
      assert forall x :: x in s[1..] ==> x in s;
      FilterNarrow(s[1..], strong, weak);
      if weak(s[0]) {
        assert Filter(s, weak) == [s[0]] + Filter(s[1..], weak);
        assert ([s[0]] + Filter(s[1..], weak))[1..] == Filter(s[1..], weak);
      }
    }
  }

  /** Two predicates that agree on every element filter alike. */
  lemma {:induction false} FilterSame<T(!new)>(s: seq<T>, p: T -> bool, q: T -> bool)
    requires forall x :: x in s ==> p(x) == q(x)
    ensures Filter(s, p) == Filter(s, q)
  {
    if |s| > 0 {
      FilterSame(s[1..], p, q);
    }
  }
}

=== FILE: session_store.dfy ===
/**
 * The `sessions` table (session_db.go): session id to (user, expiry). Time
 * is whole seconds supplied by the caller in place of `time.Now()`, and the
 * fresh uuid is a parameter.
 */
module SessionStore {
  import opened Wrappers

  /** 24 hours, the lifetime given to a new or refreshed session. */
  const Lifetime: int := 24 * 60 * 60

  datatype Session = Session(userId: int, expiresAt: int)

  type Sessions = map<string, Session>

  /** The condition every lookup shares: the row exists and `expires_at > now`. */
  predicate Live(t: Sessions, id: string, now: int) {
    id in t && t[id].expiresAt > now
  }

  /** `CreateSession` (INSERT OR REPLACE): the id now belongs to the user for a day. */
  function Create(t: Sessions, id: string, user: int, now: int): (r: Sessions)
    ensures id in r && r[id].userId == user
    ensures forall later :: now <= later < now + Lifetime ==> Live(r, id, later)
    ensures !Live(r, id, now + Lifetime)
    ensures forall s :: s != id ==> (s in r <==> s in t) && (s in t ==> r[s] == t[s])
  {
    t[id := Session(user, now + Lifetime)]
  }

  /** `DeleteSession`. */
  function Delete(t: Sessions, id: string): (r: Sessions)
    ensures id !in r
    ensures forall s :: s != id ==> (s in r <==> s in t) && (s in t ==> r[s] == t[s])
  {
    t - {id}
  }

  /** `GetUserIDBySession`: 0 for a missing or expired session. */
  function UserIdOf(t: Sessions, id: string, now: int): (r: int)
    ensures Live(t, id, now) ==> r == t[id].userId
    ensures !Live(t, id, now) ==> r == 0
  {
    if Live(t, id, now) then t[id].userId else 0
  }

  /** `IsSessionValid`. */
  function IsValid(t: Sessions, id: string, now: int): (r: bool)
    ensures r ==> id in t && UserIdOf(t, id, now) == t[id].userId
    ensures !r ==> UserIdOf(t, id, now) == 0
  {
    Live(t, id, now)
  }

  /** `GetSessionUser`: the live session's user, when that user still has a row; nil otherwise. */
  function SessionUser(t: Sessions, users: set<int>, id: string, now: int): (r: Option<int>)
    ensures r.Some? <==> Live(t, id, now) && t[id].userId in users
    ensures r.Some? ==> r.value == UserIdOf(t, id, now)
  {
    if Live(t, id, now) && t[id].userId in users then Some(t[id].userId) else None
  }

  /** `RefreshSession`: an existing session, expired or not, lives another day. */
  function Refresh(t: Sessions, id: string, now: int): (r: Sessions)
    ensures Live(r, id, now) <==> id in t
    ensures id in t ==> r[id] == Session(t[id].userId, now + Lifetime)
    ensures forall s :: s != id ==> (s in r <==> s in t) && (s in t ==> r[s] == t[s])
  {
    if id in t then t[id := Session(t[id].userId, now + Lifetime)] else t
  }

  /** `DeleteExpiredSessions`: drops the rows with `expires_at <= now`. */
  function DeleteExpired(t: Sessions, now: int): (r: Sessions)
    ensures forall s :: s in r <==> Live(t, s, now)
    ensures forall s :: s in r ==> s in t && r[s] == t[s]
  {
    map s | s in t && t[s].expiresAt > now :: t[s]
  }

  /** Purging changes no lookup: a session answers the same before and after. */
  lemma DeleteExpiredKeepsLookups(t: Sessions, id: string, now: int)
    ensures Live(DeleteExpired(t, now), id, now) <==> Live(t, id, now)
    ensures UserIdOf(DeleteExpired(t, now), id, now) == UserIdOf(t, id, now)
  {
  }

  /** `RemoveExistingSession`: every session of the user goes, and only those. */
  function RemoveUser(t: Sessions, user: int): (r: Sessions)
    ensures forall s :: s in r ==> r[s].userId != user
    ensures forall s :: s in r <==> s in t && t[s].userId != user
    ensures forall s :: s in r ==> s in t && r[s] == t[s]
  {
    map s | s in t && t[s].userId != user :: t[s]
  }

  /** The sessions a user holds. */
  function SessionsOf(t: Sessions, user: int): set<string> {
    set s | s in t && t[s].userId == user
  }

  /** Removing then creating leaves the user exactly one session, the new one. */
  lemma RemoveThenCreateLeavesOne(t: Sessions, id: string, user: int, now: int)
    ensures SessionsOf(Create(RemoveUser(t, user), id, user, now), user) == {id}
  {
    var r := Create(RemoveUser(t, user), id, user, now);
    forall s ensures s in SessionsOf(r, user) <==> s == id {
    }
  }
}

=== FILE: text.dfy ===
/**
 * String helpers with the semantics of the JavaScript built-ins the client uses:
 * `split` on one character, `trim`, `includes`, and `toLowerCase` restricted to ASCII.
 */
module Text {

  /**
   * JavaScript's `length`: UTF-16 code units, so a character outside the Basic
   * Multilingual Plane counts twice.
   */
  function Utf16Length(s: string): (n: nat)
    ensures |s| <= n <= 2 * |s|
    ensures (forall i :: 0 <= i < |s| ==> s[i] as int <= 0xFFFF) ==> n == |s|
  {
    if |s| == 0 then 0
    else (if s[0] as int > 0xFFFF then 2 else 1) + Utf16Length(s[1..])
  }

  /** An emoji is one character but two code units. */
  lemma EmojiCountsTwice(s: string)
    requires s == "ab\U{1F600}"
    ensures |s| == 3 && Utf16Length(s) == 4
  {
    var e := "\U{1F600}";
    assert s[1..][1..] == e && e[1..] == "";
    assert Utf16Length(e) == 2 + Utf16Length("");
    assert Utf16Length(s[1..]) == 1 + Utf16Length(e);
    assert Utf16Length(s) == 1 + Utf16Length(s[1..]);
  }

  /** The first index of `c` in `s`, or `|s|` when `c` does not occur. */
  function IndexOf(s: string, c: char): (i: nat)
    ensures i <= |s|
    ensures c !in s[..i]
    ensures i < |s| ==> s[i] == c
  {
    if |s| == 0 then 0
    else if s[0] == c then 0
    else 1 + IndexOf(s[1..], c)
  }

  /** `s.split(sep)`: the pieces between occurrences of `sep`; an empty string splits into one empty piece. */
  function Split(s: string, sep: char): (r: seq<string>)
    ensures |r| >= 1
    ensures forall i :: 0 <= i < |r| ==> sep !in r[i]
    decreases |s|
  {
    var i := IndexOf(s, sep);
    if i == |s| then [s]
    else [s[..i]] + Split(s[i + 1..], sep)
  }

  /** `parts.join(sep)`. */
  function Join(parts: seq<string>, sep: char): string
    requires |parts| >= 1
  {
    if |parts| == 1 then parts[0]
    else parts[0] + [sep] + Join(parts[1..], sep)
  }

  /** Joining the pieces of a split gives back the original string. */
  lemma {:induction false} JoinSplit(s: string, sep: char)
    ensures Join(Split(s, sep), sep) == s
    decreases |s|
  {
    var i := IndexOf(s, sep);
    if i < |s| {
      JoinSplit(s[i + 1..], sep);
      assert s == s[..i] + [sep] + s[i + 1..];
    }
  }

  lemma IndexOfJoined(a: string, sep: char, b: string)
    requires sep !in a
    ensures IndexOf(a + [sep] + b, sep) == |a|
  {
    var s := a + [sep] + b;
    assert s[|a|] == sep;
    assert s[..|a|] == a;
  }

  /** Splitting a join of separator-free pieces gives back exactly those pieces. */
  lemma {:induction false} SplitJoin(parts: seq<string>, sep: char)
    requires |parts| >= 1
    requires forall i :: 0 <= i < |parts| ==> sep !in parts[i]
    ensures Split(Join(parts, sep), sep) == parts
  {
    if |parts| == 1 {
      assert IndexOf(parts[0], sep) == |parts[0]|;
    } else {
      var rest := Join(parts[1..], sep);
      var s := parts[0] + [sep] + rest;
      IndexOfJoined(parts[0], sep, rest);
      assert s[..|parts[0]|] == parts[0];
      assert s[|parts[0]| + 1..] == rest;
      SplitJoin(parts[1..], sep);
    }
  }

  /** The characters `String.prototype.trim` removes: white space and line terminators. */
  predicate IsJsWhitespace(c: char) {
    c == '\t' || c == '\n' || c == '\U{000B}' || c == '\U{000C}' || c == '\r' || c == ' '
    || c == '\U{00A0}' || c == '\U{1680}' || ('\U{2000}' <= c <= '\U{200A}')
    || c == '\U{2028}' || c == '\U{2029}' || c == '\U{202F}' || c == '\U{205F}'
    || c == '\U{3000}' || c == '\U{FEFF}'
  }

  predicate IsBlank(s: string) {
    forall i :: 0 <= i < |s| ==> IsJsWhitespace(s[i])
  }

  function TrimStart(s: string): (r: string)
    ensures |r| <= |s| && r == s[|s| - |r|..]
    ensures IsBlank(s[..|s| - |r|])
    ensures |r| > 0 ==> !IsJsWhitespace(r[0])
  {
    if |s| == 0 then s
    else if IsJsWhitespace(s[0]) then TrimStart(s[1..])
    else s
  }

  function TrimEnd(s: string): (r: string)
    ensures |r| <= |s| && r == s[..|r|]
    ensures IsBlank(s[|r|..])
    ensures |r| > 0 ==> !IsJsWhitespace(r[|r| - 1])
  {
    if |s| == 0 then s
    else if IsJsWhitespace(s[|s| - 1]) then TrimEnd(s[..|s| - 1])
    else s
  }

  /** `s.trim()`. */
  function Trim(s: string): string {
    TrimEnd(TrimStart(s))
  }

  /** A string trims to the empty string exactly when it is all white space. */
  lemma TrimEmptyIffBlank(s: string)
    ensures Trim(s) == "" <==> IsBlank(s)
  {
    var t := TrimStart(s);
    if Trim(s) == "" {
      assert t[0..] == t;
      assert |t| == 0;
      assert s[..|s|] == s;
    }
    if IsBlank(s) {
      TrimStartOfBlank(s);
    }
  }

  lemma {:induction false} TrimStartOfBlank(s: string)
    requires IsBlank(s)
    ensures TrimStart(s) == ""
  {
    if |s| > 0 {
      assert IsBlank(s[1..]) by {
        assert forall i :: 0 <= i < |s| - 1 ==> s[1..][i] == s[i + 1];
      }
      TrimStartOfBlank(s[1..]);
    }
  }

  /** `c.toLowerCase()` on the ASCII letters; every other character is left as it is. */
  function LowerChar(c: char): char {
    if 'A' <= c <= 'Z' then (c as int + 32) as char else c
  }

  function Lower(s: string): (r: string)
    ensures |r| == |s|
    ensures forall i :: 0 <= i < |s| ==> r[i] == LowerChar(s[i])
  {
    if |s| == 0 then [] else [LowerChar(s[0])] + Lower(s[1..])
  }

  /** `t` occurs in `s` starting at index `i`. */
  predicate OccursAt(s: string, t: string, i: int) {
    0 <= i && i + |t| <= |s| && s[i..i + |t|] == t
  }

  /** `s.includes(t)`. */
  predicate Includes(s: string, t: string) {
    exists i :: 0 <= i <= |s| - |t| && OccursAt(s, t, i)
  }

  lemma IncludesEmpty(s: string)
    ensures Includes(s, "")
  {
    assert OccursAt(s, "", 0);
  }

  /** Substring containment is transitive. */
  lemma IncludesTransitive(a: string, b: string, c: string)
    requires Includes(a, b) && Includes(b, c)
    ensures Includes(a, c)
  {
    var i :| 0 <= i <= |a| - |b| && OccursAt(a, b, i);
    var j :| 0 <= j <= |b| - |c| && OccursAt(b, c, j);
    forall k | 0 <= k < |c|
      ensures a[i + j + k] == c[k]
    {
      assert c[k] == b[j..j + |c|][k] == b[j + k];
      assert b[j + k] == a[i..i + |b|][j + k] == a[i + j + k];
    }
    assert a[i + j..i + j + |c|] == c;
    assert OccursAt(a, c, i + j);
  }

  /** The ASCII lower-case map of the empty string is empty. */
  lemma LowerEmpty()
    ensures Lower("") == ""
  {
  }
}

=== FILE: user_handler.dfy ===
/**
 * The profile endpoints (user_handler.go): the user list, one user's
 * profile with its counters and ownership flag, the profile update and the
 * most active users. Saving an uploaded image is outside the model: an
 * upload is given as the name it was saved under.
 */
module UserHandler {
  import opened Wrappers
  import Text
  import SeqUtil
  import Http
  import FollowStore
  import NotificationStore
  import UserStore
  import Order

  /** `GetUsersHandler` (no middleware). Without a session the nil user is dereferenced; the error middleware answers 500. */
  function Users(users: seq<UserStore.User>, caller: Option<int>): (r: (int, seq<UserStore.Item>))
    ensures caller.None? ==> r == (Http.ServerError, [])
    ensures caller.Some? ==> r.0 == Http.Ok && forall i :: 0 <= i < |r.1| ==> r.1[i].id != caller.value
    ensures caller.Some? ==> forall u :: u in users && u.id != caller.value ==> exists i :: 0 <= i < |r.1| && r.1[i].id == u.id
    ensures caller.Some? ==>
              var others := UserStore.Others(users, caller.value);
              |r.1| == |others|
              && forall i :: 0 <= i < |r.1| ==>
                   r.1[i] == UserStore.Item(others[i].id, others[i].username, UserStore.Avatar(others[i].avatarUrl), 0)
  {
    match caller
    case None => (Http.ServerError, [])
    case Some(me) =>
      var r := UserStore.AllExcluding(users, me);
      assert forall u :: u in users && u.id != me ==> exists i :: 0 <= i < |r| && r[i].id == u.id by {
        forall u | u in users && u.id != me ensures exists i :: 0 <= i < |r| && r[i].id == u.id {
          var others := UserStore.Others(users, me);
          assert u in others;
          var k :| 0 <= k < |others| && others[k] == u;
          assert r[k].id == u.id;
        }
      }
      (Http.Ok, r)
  }

  /** A user added to the table appears once more, at the end of everyone else's list, and never in their own. */
  lemma UsersListsNewUserLast(users: seq<UserStore.User>, v: UserStore.User, me: int)
    ensures v.id != me ==>
              Users(users + [v], Some(me)).1 == Users(users, Some(me)).1 + [UserStore.Item(v.id, v.username, UserStore.Avatar(v.avatarUrl), 0)]
    ensures v.id == me ==> Users(users + [v], Some(me)).1 == Users(users, Some(me)).1
  {
    UserStore.AllExcludingAppend(users, v, me);
  }

  /** The body of a profile answer. */
  datatype Profile = Profile(
    user: UserStore.User, following: nat, followers: nat, unread: nat, postCount: nat, followState: string, isOwner: bool)

  /**
   * `GetUserHandler` (no middleware). The username is the fourth piece of the
   * path; a visitor without a session is looked at as user 0, who owns no
   * profile and follows nobody. A user whose birth date is NULL cannot be
   * read, and the answer is 500.
   */
  function Profiles(users: seq<UserStore.User>, follows: FollowStore.Follows, notes: NotificationStore.Table,
                    authors: seq<int>, path: string, caller: Option<int>): (r: (int, Option<Profile>))
    ensures r.1.Some? <==> r.0 == Http.Ok
    ensures |Text.Split(path, '/')| < 4 ==> r == (Http.BadRequest, None)
    ensures r.0 == Http.Ok <==> |Text.Split(path, '/')| >= 4 && UserStore.FetchByUsername(users, Text.Split(path, '/')[3]).Found?
    ensures |Text.Split(path, '/')| >= 4 ==>
              var name := Text.Split(path, '/')[3];
              ((forall u :: u in users ==> u.username != name) ==> r == (Http.NotFound, None))
              && (UserStore.FetchByUsername(users, name).Unscannable? ==> r == (Http.ServerError, None))
    ensures r.0 == Http.BadRequest || r.0 == Http.NotFound || r.0 == Http.ServerError || r.0 == Http.Ok
    ensures r.1.Some? ==>
              var p := r.1.value;
              var viewer := caller.GetOr(0);
              p.user in users && p.user.username == Text.Split(path, '/')[3]
              && (p.isOwner <==> p.user.id == viewer)
              && p.followers == |FollowStore.Followers(follows, p.user.id)|
              && p.following == |FollowStore.Following(follows, p.user.id)|
              && p.unread == NotificationStore.CountUnread(notes, p.user.id)
              && p.postCount == multiset(authors)[p.user.id]
              && (p.postCount == 0 <==> p.user.id !in authors)
              && (p.followState == "Follow" <==> (viewer, p.user.id) !in follows)
  {
    var parts := Text.Split(path, '/');
    if |parts| < 4 then (Http.BadRequest, None)
    else match UserStore.FetchByUsername(users, parts[3])
      case Missing => (Http.NotFound, None)
      case Unscannable => (Http.ServerError, None)
      case Found(u) =>
        var viewer := caller.GetOr(0);
        var stats := FollowStore.Stats(follows, u.id);
        (Http.Ok, Some(Profile(u, stats.0, stats.1, NotificationStore.CountUnread(notes, u.id), UserStore.PostCount(authors, u.id),
                               FollowStore.ButtonLabel(follows, viewer, u.id), u.id == viewer)))
  }

  /**
   * The route is registered for the prefix "/api/user/", so every path it
   * receives has a fourth piece and the 400 answer cannot be reached.
   */
  lemma RoutedPathNamesUser(name: string)
    requires '/' !in name
    ensures var parts := Text.Split("/api/user/" + name, '/');
            |parts| == 4 && parts[3] == name
  {
    var parts := ["", "api", "user", name];
    assert Text.Join(parts, '/') == "/api/user/" + name by {
      assert Text.Join(parts[3..], '/') == name;
      assert Text.Join(parts[2..], '/') == "user/" + name;
      assert Text.Join(parts[1..], '/') == "api/user/" + name;
    }
    Text.SplitJoin(parts, '/');
  }

  /** A visitor without a session never owns the profile of a stored user (ids start at 1). */
  lemma VisitorOwnsNothing(users: seq<UserStore.User>, follows: FollowStore.Follows, notes: NotificationStore.Table,
                           authors: seq<int>, path: string)
    requires forall u :: u in users ==> u.id > 0
    ensures var r := Profiles(users, follows, notes, authors, path, None);
            r.1.Some? ==> !r.1.value.isOwner
  {
  }

  /** The avatar an update stores: an upload wins, then a deletion request, else the current one. */
  function NewAvatar(current: string, upload: Option<string>, isAvatarDeleted: string): (a: string)
    ensures upload.Some? ==> a == upload.value
    ensures upload.None? && isAvatarDeleted == "true" ==> a == ""
    ensures upload.None? && isAvatarDeleted != "true" ==> a == current
  {
    match upload
    case Some(name) => name
    case None => if isAvatarDeleted == "true" then "" else current
  }

  /** The profile fields of the update form. */
  datatype Edit = Edit(firstName: string, lastName: string, nickname: string, dateOfBirth: string, aboutMe: string,
                       password: string, isPublic: string, isAvatarDeleted: string)

  /**
   * `UpdateUserHandler` (no middleware). The row updated is always the
   * caller's. `hashed` is the bcrypt hash of a non-empty new password; the
   * handler computes the new password but the UPDATE statement has no
   * password column, so it is never stored.
   */
  function UpdateUser(users: seq<UserStore.User>, caller: Option<UserStore.User>, e: Edit, upload: Option<string>,
                      hashed: string): (r: (int, seq<UserStore.User>))
    ensures caller.None? ==> r == (Http.Unauthorized, users)
    ensures caller.Some? ==> r.0 == Http.Ok && |r.1| == |users|
    ensures caller.Some? ==> forall i :: 0 <= i < |users| ==>
              r.1[i].id == users[i].id && r.1[i].password == users[i].password
              && r.1[i].username == users[i].username && r.1[i].email == users[i].email
              && (users[i].id != caller.value.id ==> r.1[i] == users[i])
              && (users[i].id == caller.value.id ==>
                    r.1[i].firstName == e.firstName && r.1[i].lastName == e.lastName && r.1[i].nickname == e.nickname
                    && r.1[i].dateOfBirth == Some(e.dateOfBirth) && r.1[i].aboutMe == e.aboutMe
                    && (r.1[i].isPublic <==> e.isPublic == "true")
                    && r.1[i].avatarUrl == UserStore.Avatar(NewAvatar(caller.value.avatarUrl, upload, e.isAvatarDeleted)))
  {
    match caller
    case None => (Http.Unauthorized, users)
    case Some(me) =>
      var password := if e.password != "" then hashed else me.password;
      var form := UserStore.Form(me.username, me.email, password, e.firstName, e.lastName, e.nickname, e.dateOfBirth,
                                 e.aboutMe, NewAvatar(me.avatarUrl, upload, e.isAvatarDeleted), e.isPublic == "true");
      (Http.Ok, UserStore.Update(users, me.id, form))
  }

  /** Asking to delete the avatar, with no new upload, stores the default image. */
  lemma DeletedAvatarBecomesDefault(users: seq<UserStore.User>, me: UserStore.User, e: Edit, hashed: string, i: nat)
    requires e.isAvatarDeleted == "true" && i < |users| && users[i].id == me.id
    ensures UpdateUser(users, Some(me), e, None, hashed).1[i].avatarUrl == UserStore.DefaultAvatar
  {
  }

  /** Whatever password the form carries, the stored table is the same. */
  lemma PasswordIsNeverStored(users: seq<UserStore.User>, me: UserStore.User, e: Edit, upload: Option<string>,
                              hashed: string, other: string, otherHash: string)
    ensures UpdateUser(users, Some(me), e, upload, hashed) == UpdateUser(users, Some(me), e.(password := other), upload, otherHash)
  {
  }

  /** `GetTopEngagedUsersHandler` (no middleware): the three users with the most posts. */
  function TopEngaged(users: seq<UserStore.User>, authors: seq<int>): (r: (int, seq<UserStore.Item>))
    ensures r.0 == Http.Ok && |r.1| == if |users| < 3 then |users| else 3
    ensures Order.SortedDesc(r.1, UserStore.CountOf) && r.1 == UserStore.Ranked(users, authors)[..|r.1|]
    ensures forall i, j :: 0 <= i < |r.1| <= j < |users| ==> UserStore.Ranked(users, authors)[j].postCount <= r.1[i].postCount
  {
    (Http.Ok, UserStore.TopEngaged(users, authors, 3))
  }
}

=== FILE: user_search.dfy ===
/** The user search box (search.tsx): a case-insensitive substring filter over usernames. */
module UserSearch {
  import opened Text
  import SeqUtil

  datatype User = User(id: int, username: string, profileImg: string)

  predicate Hit(q: string, u: User) {
    Includes(Lower(u.username), Lower(q))
  }

  function HitFor(q: string): User -> bool {
    u => Hit(q, u)
  }

  /** The users whose lower-cased name contains the lower-cased query, in their original order. */
  function Search(users: seq<User>, q: string): (r: seq<User>)
    ensures |r| <= |users|
    ensures forall u :: u in r <==> u in users && Includes(Lower(u.username), Lower(q))
    ensures forall u :: multiset(r)[u] == if Includes(Lower(u.username), Lower(q)) then multiset(users)[u] else 0
  {
    SeqUtil.FilterCounts(users, HitFor(q));
    SeqUtil.Filter(users, HitFor(q))
  }

  /** The result keeps the list's order: hits from an earlier part of the list come first. */
  lemma SearchKeepsOrder(a: seq<User>, b: seq<User>, q: string)
    ensures Search(a + b, q) == Search(a, q) + Search(b, q)
  {
    SeqUtil.FilterConcat(a, b, HitFor(q));
  }

  /** An empty query lists every user. */
  lemma EmptyQueryListsAll(users: seq<User>)
    ensures Search(users, "") == users
  {
    LowerEmpty();
    forall i | 0 <= i < |users|
      ensures HitFor("")(users[i])
    {
      IncludesEmpty(Lower(users[i].username));
    }
    SeqUtil.FilterKeepsAll(users, HitFor(""));
  }

  /**
   * Typing more narrows the list: when the longer query contains the shorter one,
   * its result is the shorter query's result filtered again.
   */
  lemma LongerQueryNarrows(users: seq<User>, q1: string, q2: string)
    requires Includes(Lower(q2), Lower(q1))
    ensures Search(Search(users, q1), q2) == Search(users, q2)
    ensures forall u :: u in Search(users, q2) ==> u in Search(users, q1)
  {
    forall u | u in users && HitFor(q2)(u)
      ensures HitFor(q1)(u)
    {
      IncludesTransitive(Lower(u.username), Lower(q2), Lower(q1));
    }
    SeqUtil.FilterNarrow(users, HitFor(q2), HitFor(q1));
  }

  datatype SearchEffect = Focused | Filtered(users: seq<User>)

  /** `handleSearchChange`: the focus callback (when given) runs first, then the filtered list is handed up. */
  function Change(users: seq<User>, q: string, hasOnFocus: bool): (r: seq<SearchEffect>)
    ensures |r| == (if hasOnFocus then 2 else 1)
    ensures r[|r| - 1] == Filtered(Search(users, q))
    ensures hasOnFocus ==> r[0] == Focused
  {
    (if hasOnFocus then [Focused] else []) + [Filtered(Search(users, q))]
  }
}

=== FILE: user_store.dfy ===
/**
 * The `users` table (user_db.go), in rowid order. `date_of_birth` is NULL-able;
 * the password column holds whatever hash the caller supplies.
 */
module UserStore {
  import opened Wrappers
  import opened SeqUtil
  import FollowStore
  import Order

  /** The avatar stored in place of an empty one. */
  const DefaultAvatar: string := "ProfileImage.png"

  datatype User = User(
    id: int, username: string, email: string, password: string, firstName: string, lastName: string,
    nickname: string, dateOfBirth: Option<string>, aboutMe: string, avatarUrl: string, isPublic: bool)

  /** The fields of `models.User` a create or update request carries. */
  datatype Form = Form(
    username: string, email: string, password: string, firstName: string, lastName: string,
    nickname: string, dateOfBirth: string, aboutMe: string, avatarUrl: string, isPublic: bool)

  /** `models.UserItem`. */
  datatype Item = Item(id: int, username: string, profileImg: string, postCount: int)

  /** `COALESCE(NULLIF(?, ''), 'ProfileImage.png')`. */
  function Avatar(s: string): (r: string)
    ensures r != ""
    ensures s != "" ==> r == s
  {
    if s == "" then DefaultAvatar else s
  }

  /** `CreateUser`: appends a row under the fresh id the database assigns. */
  function Create(t: seq<User>, f: Form, freshId: int): (r: (seq<User>, int))
    ensures r.1 == freshId && |r.0| == |t| + 1 && r.0[..|t|] == t
    ensures var u := r.0[|t|];
            u.id == freshId && u.username == f.username && u.email == f.email && u.password == f.password
            && u.firstName == f.firstName && u.lastName == f.lastName && u.nickname == f.nickname
            && u.aboutMe == f.aboutMe && u.isPublic
            && u.avatarUrl == Avatar(f.avatarUrl)
            && (u.avatarUrl == DefaultAvatar <==> f.avatarUrl == "" || f.avatarUrl == DefaultAvatar)
            && (u.dateOfBirth.None? <==> f.dateOfBirth == "")
            && (u.dateOfBirth.Some? ==> u.dateOfBirth.value == f.dateOfBirth)
  {
    // the guard in the source turns a false `is_public` into true, so every stored value is true
    var isPublic := if !f.isPublic then true else f.isPublic;
    var dob := if f.dateOfBirth == "" then None else Some(f.dateOfBirth);
    (t + [User(freshId, f.username, f.email, f.password, f.firstName, f.lastName, f.nickname, dob,
               f.aboutMe, Avatar(f.avatarUrl), isPublic)], freshId)
  }

  /**
   * `UpdateUser`: rewrites the profile columns of the row with the id. The
   * statement has no password, username or e-mail column, so those never change.
   */
  function Update(t: seq<User>, id: int, f: Form): (r: seq<User>)
    ensures |r| == |t|
    ensures forall i :: 0 <= i < |t| ==>
              r[i].id == t[i].id && r[i].username == t[i].username && r[i].email == t[i].email
              && r[i].password == t[i].password
    ensures forall i :: 0 <= i < |t| && t[i].id != id ==> r[i] == t[i]
    ensures forall i :: 0 <= i < |t| && t[i].id == id ==>
              r[i].firstName == f.firstName && r[i].lastName == f.lastName && r[i].nickname == f.nickname
              && r[i].aboutMe == f.aboutMe && r[i].isPublic == f.isPublic && r[i].avatarUrl == Avatar(f.avatarUrl)
              && r[i].dateOfBirth == Some(f.dateOfBirth)
  {
    seq(|t|, i requires 0 <= i < |t| =>
      if t[i].id == id then
        t[i].(firstName := f.firstName, lastName := f.lastName, nickname := f.nickname,
              dateOfBirth := Some(f.dateOfBirth), aboutMe := f.aboutMe,
              avatarUrl := Avatar(f.avatarUrl), isPublic := f.isPublic)
      else t[i])
  }

  /** `FollowUnfollowUser`: "follow" adds a pending row unless one exists, "unfollow" deletes it. */
  function FollowUnfollow(follows: FollowStore.Follows, follower: int, followed: int, action: string)
    : (r: Result<FollowStore.Follows>)
    ensures r.Err? <==> action != "follow" && action != "unfollow"
    ensures action == "follow" ==>
              (r.Ok? && (follower, followed) in r.value
               && r.value[(follower, followed)] ==
                    if (follower, followed) in follows then follows[(follower, followed)] else FollowStore.Pending)
    ensures action == "unfollow" ==> r.Ok? && (follower, followed) !in r.value
    ensures r.Ok? ==> forall k :: k != (follower, followed) ==>
              (k in r.value <==> k in follows) && (k in follows ==> r.value[k] == follows[k])
  {
    if action == "follow" then
      if (follower, followed) in follows then Ok(follows)
      else Ok(follows[(follower, followed) := FollowStore.Pending])
    else if action == "unfollow" then Ok(follows - {(follower, followed)})
    else Err("invalid action: " + action)
  }

  /** Following twice is the same as following once. */
  lemma FollowIsIdempotent(follows: FollowStore.Follows, a: int, b: int)
    ensures var once := FollowUnfollow(follows, a, b, "follow").value;
            FollowUnfollow(once, a, b, "follow") == Ok(once)
  {
  }

  function ItemOf(u: User, postCount: int): Item {
    Item(u.id, u.username, u.avatarUrl, postCount)
  }

  function NotUser(id: int): User -> bool {
    (u: User) => u.id != id
  }

  /** The rows of every user but one, in table order. */
  function Others(t: seq<User>, id: int): (r: seq<User>)
    ensures forall u :: u in r <==> u in t && u.id != id
  {
    Filter(t, NotUser(id))
  }

  /** `GetAllUsersExcluding`: every other user, in table order, with the default avatar filled in. */
  function AllExcluding(t: seq<User>, id: int): (r: seq<Item>)
    ensures |r| == |Others(t, id)|
    ensures forall i :: 0 <= i < |r| ==> r[i].id != id && r[i].profileImg != ""
    ensures forall i :: 0 <= i < |r| ==>
              var u := Others(t, id)[i];
              r[i] == Item(u.id, u.username, Avatar(u.avatarUrl), 0)
  {
    var others := Others(t, id);
    assert forall i :: 0 <= i < |others| ==> others[i].id != id by {
      forall i | 0 <= i < |others| ensures others[i].id != id { assert others[i] in others; }
    }
    seq(|others|, i requires 0 <= i < |others| =>
      var u := others[i];
      Item(u.id, u.username, if u.avatarUrl == "" then DefaultAvatar else u.avatarUrl, 0))
  }

  /** A row appended to the table is listed last for everyone but its own user. */
  lemma AllExcludingAppend(t: seq<User>, v: User, id: int)
    ensures v.id != id ==> AllExcluding(t + [v], id) == AllExcluding(t, id) + [Item(v.id, v.username, Avatar(v.avatarUrl), 0)]
    ensures v.id == id ==> AllExcluding(t + [v], id) == AllExcluding(t, id)
  {
    FilterConcat(t, [v], NotUser(id));
    var before := Others(t, id);
    var after := Others(t + [v], id);
    var r0 := AllExcluding(t, id);
    var r1 := AllExcluding(t + [v], id);
    if v.id != id {
      assert Filter([v], NotUser(id)) == [v];
      assert after == before + [v];
      var item := Item(v.id, v.username, Avatar(v.avatarUrl), 0);
      forall i | 0 <= i < |r1|
        ensures r1[i] == (r0 + [item])[i]
      {
        if i < |r0| {
          assert after[i] == before[i];
        }
      }
    } else {
      assert Filter([v], NotUser(id)) == [];
      assert after == before;
    }
  }

  /** The number of posts whose author is the user. */
  function PostCount(authors: seq<int>, id: int): (n: nat)
    ensures n <= |authors|
    ensures n == 0 <==> id !in authors
    ensures n == multiset(authors)[id]
  {
    if |authors| == 0 then 0
    else
      assert authors == [authors[0]] + authors[1..];
      (if authors[0] == id then 1 else 0) + PostCount(authors[1..], id)
  }

  function CountOf(i: Item): int { i.postCount }

  /** Every user with their post count, the most active first. */
  function Ranked(t: seq<User>, authors: seq<int>): (r: seq<Item>)
    ensures |r| == |t| && Order.SortedDesc(r, CountOf)
    ensures multiset(r) == multiset(seq(|t|, i requires 0 <= i < |t| => ItemOf(t[i], PostCount(authors, t[i].id))))
  {
    Order.SortDesc(seq(|t|, i requires 0 <= i < |t| => ItemOf(t[i], PostCount(authors, t[i].id))), CountOf)
  }

  /** `GetTopEngagedUsers`: the first `limit` ranked users; SQLite reads a negative limit as none. */
  function TopEngaged(t: seq<User>, authors: seq<int>, limit: int): (r: seq<Item>)
    ensures limit >= 0 ==> |r| == if limit < |t| then limit else |t|
    ensures limit < 0 ==> |r| == |t|
    ensures Order.SortedDesc(r, CountOf)
    ensures r == Ranked(t, authors)[..|r|]
    ensures forall i, j :: 0 <= i < |r| <= j < |t| ==> Ranked(t, authors)[j].postCount <= r[i].postCount
  {
    var all := Ranked(t, authors);
    if 0 <= limit < |all| then all[..limit] else all
  }

  /** `GetUserIdByUsername`: the first user with the name. */
  function ByUsername(t: seq<User>, name: string): (r: Option<User>)
    ensures r.None? <==> forall u :: u in t ==> u.username != name
    ensures r.Some? ==> r.value in t && r.value.username == name
    ensures r.Some? ==> exists i :: 0 <= i < |t| && t[i] == r.value && forall j :: 0 <= j < i ==> t[j].username != name
  {
    if |t| == 0 then None
    else if t[0].username == name then Some(t[0])
    else ByUsername(t[1..], name)
  }

  /**
   * What `GetUserByUsername` gives back. Its row scan reads `date_of_birth`
   * into a string, so a NULL birth date is an error other than "no rows".
   */
  datatype Fetch = Missing | Unscannable | Found(user: User)

  /** `GetUserByUsername`: the first user with the name, read with every profile column. */
  function FetchByUsername(t: seq<User>, name: string): (r: Fetch)
    ensures r.Missing? <==> forall u :: u in t ==> u.username != name
    ensures r.Found? ==> r.user in t && r.user.username == name && r.user.dateOfBirth.Some?
    ensures r.Unscannable? ==> exists u :: u in t && u.username == name && u.dateOfBirth.None?
    ensures r.Found? || r.Unscannable? ==> ByUsername(t, name).Some?
    ensures r.Found? <==> ByUsername(t, name).Some? && ByUsername(t, name).value.dateOfBirth.Some?
  {
    match ByUsername(t, name)
    case None => Missing
    case Some(u) => if u.dateOfBirth.None? then Unscannable else Found(u)
  }

  /** A name held only by users with a birth date is always found. */
  lemma DatedNameIsFound(t: seq<User>, name: string)
    requires exists u :: u in t && u.username == name
    requires forall u :: u in t && u.username == name ==> u.dateOfBirth.Some?
    ensures FetchByUsername(t, name).Found?
  {
  }
}

=== FILE: validation.dfy ===
/**
 * Input validation on both sides: the server's `ValidateUser`, `isValidName`
 * and `sanitizeInput` (validation.go), the register handler's extra username
 * check, and the signup form's `validateForm` (signup/page.tsx).
 */
module Validation {
  import opened Wrappers
  import opened CharClass
  import SeqUtil
  import Text

  /** The fields of a registration both sides look at. */
  datatype Signup = Signup(username: string, email: string, firstName: string, lastName: string, nickname: string, dateOfBirth: string)

  /** The messages of the server's `ValidateUser` (the client's form shares the last five). */
  const InvalidEmail := "Invalid email format"
  const EmailTaken := "Email already exists"
  const BadUsername := "Username must contain only letters, numbers, and special characters"
  const UsernameTaken := "Username already exists"
  const BadNickname := "Nickname must contain only letters, numbers, and special characters"
  const BadFirstName := "First name must contain only letters, numbers, and special characters"
  const BadLastName := "Last name must contain only letters, numbers, and special characters"
  const BadDate := "Invalid date of birth format. Use YYYY-MM-DD"
  const Underage := "User must be at least 18 years old"

  /** The messages only the client's form produces. */
  const UsernameLength := "Username must be between 3 and 20 characters"
  const UsernameClass := "Username must contain only letters, numbers, underscores, and hyphens"
  const EmailTooLong := "Email must not exceed 254 characters"

  /**
   * `ValidateUser`: the first failing check in the order e-mail format, e-mail
   * taken, username class, username taken, nickname, first name, last name, date
   * format, age. The users table is the two sets of e-mails and usernames; the
   * date parse and the age computation are given as their outcomes.
   */
  function ValidateUser(u: Signup, emails: set<string>, usernames: set<string>, dateParses: bool, ofAge: bool): (r: Option<string>)
    ensures r.None? <==>
              EmailPattern(u.email) && u.email !in emails && IsName(u.username) && u.username !in usernames
              && (u.nickname == "" || IsName(u.nickname)) && IsName(u.firstName) && IsName(u.lastName)
              && dateParses && ofAge
    ensures !EmailPattern(u.email) ==> r == Some(InvalidEmail)
    ensures EmailPattern(u.email) && u.email in emails ==> r == Some(EmailTaken)
    ensures EmailPattern(u.email) && u.email !in emails && !IsName(u.username) ==>
              r == Some(BadUsername)
    ensures EmailPattern(u.email) && u.email !in emails && IsName(u.username) && u.username in usernames ==>
              r == Some(UsernameTaken)
  {
    if !EmailPattern(u.email) then Some(InvalidEmail)
    else if u.email in emails then Some(EmailTaken)
    else if !IsName(u.username) then Some(BadUsername)
    else if u.username in usernames then Some(UsernameTaken)
    else if u.nickname != "" && !IsName(u.nickname) then Some(BadNickname)
    else if !IsName(u.firstName) then Some(BadFirstName)
    else if !IsName(u.lastName) then Some(BadLastName)
    else if !dateParses then Some(BadDate)
    else if !ofAge then Some(Underage)
    else None
  }

  datatype RegisterOutcome = Rejected(message: string) | Created

  /** `RegisterHandler`'s gates after hashing: `ValidateUser`, then `isValidUsername`. */
  function Register(u: Signup, emails: set<string>, usernames: set<string>, dateParses: bool, ofAge: bool): (r: RegisterOutcome)
    ensures r.Created? <==> ValidateUser(u, emails, usernames, dateParses, ofAge).None?
  {
    match ValidateUser(u, emails, usernames, dateParses, ofAge)
    case Some(msg) => Rejected(msg)
    case None =>
      if !IsName(u.username) then Rejected("Invalid username")
      else Created
  }

  /** `isValidUsername` uses the same class as `isValidName`, so its check can never refuse anything `ValidateUser` let through. */
  lemma UsernameCheckIsRedundant(u: Signup, emails: set<string>, usernames: set<string>, dateParses: bool, ofAge: bool)
    requires ValidateUser(u, emails, usernames, dateParses, ofAge).None?
    ensures IsName(u.username)
  {
  }

  /** Go's `unicode.IsSpace`, as `strings.TrimSpace` uses it. */
  predicate IsGoSpace(c: char) {
    c == '\t' || c == '\n' || c == '\U{000B}' || c == '\U{000C}' || c == '\r' || c == ' '
    || c == '\U{0085}' || c == '\U{00A0}' || c == '\U{1680}' || ('\U{2000}' <= c <= '\U{200A}')
    || c == '\U{2028}' || c == '\U{2029}' || c == '\U{202F}' || c == '\U{205F}' || c == '\U{3000}'
  }

  /** The number of leading spaces. */
  function SpacesBefore(s: string): (i: nat)
    ensures i <= |s| && (forall k :: 0 <= k < i ==> IsGoSpace(s[k])) && (i < |s| ==> !IsGoSpace(s[i]))
  {
    if |s| == 0 || !IsGoSpace(s[0]) then 0 else 1 + SpacesBefore(s[1..])
  }

  /** Where the trailing spaces after `from` begin. */
  function SpacesAfter(s: string, from: nat): (j: nat)
    requires from <= |s|
    ensures from <= j <= |s| && (forall k :: j <= k < |s| ==> IsGoSpace(s[k])) && (j > from ==> !IsGoSpace(s[j - 1]))
    decreases |s|
  {
    if |s| == from || !IsGoSpace(s[|s| - 1]) then |s| else SpacesAfter(s[..|s| - 1], from)
  }

  /** `strings.TrimSpace`: the text between the leading and the trailing spaces. */
  function TrimSpace(s: string): (r: string)
    ensures |r| <= |s|
    ensures |r| > 0 ==> !IsGoSpace(r[0]) && !IsGoSpace(r[|r| - 1])
    ensures (forall k :: 0 <= k < |s| ==> IsGoSpace(s[k])) ==> r == []
    ensures (forall k :: 0 <= k < |s| ==> !IsGoSpace(s[k])) ==> r == s
  {
    s[SpacesBefore(s)..SpacesAfter(s, SpacesBefore(s))]
  }

  /** `sanitizeInput`: trim, then delete every character outside `[a-zA-Z0-9_-]`. */
  function Sanitize(s: string): (r: string)
    ensures All(r, IsNameChar)
  {
    SeqUtil.Filter(TrimSpace(s), IsNameChar)
  }

  lemma NoNameChars(s: string)
    requires forall k :: 0 <= k < |s| ==> IsGoSpace(s[k])
    ensures SeqUtil.Filter(s, IsNameChar) == []
  {
    SeqUtil.FilterNone(s, IsNameChar);
  }

  lemma {:induction false} FilterOfSlice(s: string, i: nat, j: nat)
    requires i <= j <= |s|
    requires forall k :: 0 <= k < i ==> IsGoSpace(s[k])
    requires forall k :: j <= k < |s| ==> IsGoSpace(s[k])
    ensures SeqUtil.Filter(s[i..j], IsNameChar) == SeqUtil.Filter(s, IsNameChar)
  {
    var a, m, b := s[..i], s[i..j], s[j..];
    assert s == a + m + b;
    assert forall k :: 0 <= k < |a| ==> IsGoSpace(a[k]);
    assert forall k :: 0 <= k < |b| ==> IsGoSpace(b[k]) by {
      forall k | 0 <= k < |b| ensures IsGoSpace(b[k]) {
        assert b[k] == s[j + k];
      }
    }
    NoNameChars(a);
    NoNameChars(b);
    SeqUtil.FilterAround(a, m, b, IsNameChar);
  }

  /** The trim cannot matter: every space it removes would be deleted anyway. */
  lemma SanitizeIsFilter(s: string)
    ensures Sanitize(s) == SeqUtil.Filter(s, IsNameChar)
  {
    var i := SpacesBefore(s);
    FilterOfSlice(s, i, SpacesAfter(s, i));
  }

  /** A valid name comes back unchanged. */
  lemma SanitizeKeepsValidName(s: string)
    requires IsName(s)
    ensures Sanitize(s) == s
  {
    SanitizeIsFilter(s);
    SeqUtil.FilterKeepsAll(s, IsNameChar);
  }

  /** Sanitizing twice is sanitizing once. */
  lemma SanitizeIdempotent(s: string)
    ensures Sanitize(Sanitize(s)) == Sanitize(s)
  {
    var t := Sanitize(s);
    SanitizeIsFilter(t);
    SeqUtil.FilterKeepsAll(t, IsNameChar);
  }

  /** Whatever survives sanitizing, if anything, is a valid name. */
  lemma SanitizedIsName(s: string)
    requires Sanitize(s) != ""
    ensures IsName(Sanitize(s))
  {
  }

  const MinUsername := 3
  const MaxUsername := 20
  const MaxEmail := 254
  const MaxName := 50
  const MaxNickname := 30

  /**
   * `validateForm`: the first failing check's message, in the order username
   * length, username class, e-mail length, e-mail pattern, first name, last name,
   * nickname, age; `None` when all pass. The age outcome is a parameter.
   */
  function ValidateForm(u: Signup, ofAge: bool): (r: Option<string>)
    ensures r.None? <==>
              MinUsername <= Text.Utf16Length(u.username) <= MaxUsername && IsName(u.username)
              && Text.Utf16Length(u.email) <= MaxEmail && EmailPattern(u.email)
              && IsName(u.firstName) && Text.Utf16Length(u.firstName) <= MaxName
              && IsName(u.lastName) && Text.Utf16Length(u.lastName) <= MaxName
              && (u.nickname == "" || (IsName(u.nickname) && Text.Utf16Length(u.nickname) <= MaxNickname))
              && ofAge
    ensures !(MinUsername <= Text.Utf16Length(u.username) <= MaxUsername) ==> r == Some(UsernameLength)
    ensures MinUsername <= Text.Utf16Length(u.username) <= MaxUsername && !IsName(u.username) ==>
              r == Some(UsernameClass)
  {
    if Text.Utf16Length(u.username) < MinUsername || Text.Utf16Length(u.username) > MaxUsername then Some(UsernameLength)
    else if !IsName(u.username) then Some(UsernameClass)
    else if Text.Utf16Length(u.email) > MaxEmail then Some(EmailTooLong)
    else if !EmailPattern(u.email) then Some(InvalidEmail)
    else if !IsName(u.firstName) || Text.Utf16Length(u.firstName) > MaxName then Some(BadFirstName)
    else if !IsName(u.lastName) || Text.Utf16Length(u.lastName) > MaxName then Some(BadLastName)
    else if u.nickname != "" && (!IsName(u.nickname) || Text.Utf16Length(u.nickname) > MaxNickname) then Some(BadNickname)
    else if !ofAge then Some(Underage)
    else None
  }

  /**
   * A form the client accepts passes every format check of the server: the
   * server can only refuse it for a taken e-mail or username, the date format or
   * the age.
   */
  lemma ClientAcceptImpliesServerFormat(u: Signup, emails: set<string>, usernames: set<string>, dateParses: bool, ofAge: bool)
    requires ValidateForm(u, ofAge).None?
    ensures ValidateUser(u, emails, usernames, dateParses, ofAge) in
              {None, Some(EmailTaken), Some(UsernameTaken),
               Some(BadDate)}
  {
  }

  /** The client's username rule is strictly narrower than the server's: length is checked only on the client. */
  lemma ServerAcceptsShortUsername()
    ensures var u := Signup("ab", "a@b.cd", "a", "b", "", "2000-01-01");
            ValidateUser(u, {}, {}, true, true).None? && ValidateForm(u, true).Some?
  {
    var u := Signup("ab", "a@b.cd", "a", "b", "", "2000-01-01");
    assert EmailSplitsAt(u.email, 1, 3);
    assert IsName(u.username) && IsName(u.firstName) && IsName(u.lastName);
  }
}

=== FILE: wrappers.dfy ===
/** Optional values and error-carrying results shared by every module. */
module Wrappers {

  datatype Option<+T> = None | Some(value: T) {
    /** The wrapped value, or `default` when there is none. */
    function GetOr(default: T): T {
      match this
      case None => default
      case Some(v) => v
    }
  }

  datatype Result<+T> = Ok(value: T) | Err(error: string) {
    predicate IsFailure() {
      Err?
    }
  }
}

=== FILE: ws_decoder.dfy ===
/**
 * The client's WebSocket frame handler (`socket.onmessage` in websocket.ts):
 * split the frame on newlines, drop blank fragments, parse each survivor as JSON
 * and hand it to the subscriber. Parsing is a parameter: `parse(f)` is `None`
 * exactly when `JSON.parse(f)` throws.
 */
module WsDecoder {
  import opened Wrappers
  import opened Text
  import SeqUtil

  predicate NonBlank(f: string) {
    Trim(f) != ""
  }

  /** The fragments of a frame that reach `JSON.parse`, in frame order. */
  function Fragments(data: string): (r: seq<string>)
    ensures forall i :: 0 <= i < |r| ==> NonBlank(r[i]) && '\n' !in r[i]
    ensures forall f :: f in r <==> f in Split(data, '\n') && NonBlank(f)
  {
    SeqUtil.Filter(Split(data, '\n'), NonBlank)
  }

  /**
   * The events delivered from a list of fragments: each fragment is parsed and
   * delivered in turn, and the first fragment that fails to parse ends the frame.
   */
  function Deliver<E>(frags: seq<string>, parse: string -> Option<E>): (r: seq<E>)
    ensures |r| <= |frags|
    ensures forall i :: 0 <= i < |r| ==> parse(frags[i]) == Some(r[i])
    ensures |r| < |frags| ==> parse(frags[|r|]).None?
  {
    if |frags| == 0 then []
    else match parse(frags[0])
      case None => []
      case Some(e) => [e] + Deliver(frags[1..], parse)
  }

  /** The three properties of `Deliver` determine its result. */
  lemma {:induction false} DeliverUnique<E>(frags: seq<string>, parse: string -> Option<E>, r: seq<E>)
    requires |r| <= |frags|
    requires forall i :: 0 <= i < |r| ==> parse(frags[i]) == Some(r[i])
    requires |r| < |frags| ==> parse(frags[|r|]).None?
    ensures r == Deliver(frags, parse)
  {
    if |frags| > 0 && |r| > 0 {
      assert parse(frags[0]) == Some(r[0]);
      assert forall i :: 0 <= i < |r| - 1 ==> frags[1..][i] == frags[i + 1] && r[1..][i] == r[i + 1];
      DeliverUnique(frags[1..], parse, r[1..]);
      assert r == [r[0]] + r[1..];
    }
  }

  /**
   * The handler itself: the try/catch sits outside the loop, so a parse failure
   * stops delivery of every later fragment.
   */
  method OnMessage<E>(data: string, parse: string -> Option<E>) returns (delivered: seq<E>)
    ensures delivered == Deliver(Fragments(data), parse)
  {
    delivered := DeliverEach(Fragments(data), parse);
  }

  /** The `forEach` loop over the surviving fragments, inside the try block. */
  method DeliverEach<E>(msgs: seq<string>, parse: string -> Option<E>) returns (delivered: seq<E>)
    ensures delivered == Deliver(msgs, parse)
  {
    delivered := [];
    var i := 0;
    while i < |msgs|
      invariant 0 <= i <= |msgs|
      invariant |delivered| == i
      invariant forall k :: 0 <= k < i ==> parse(msgs[k]) == Some(delivered[k])
    {
      var message := parse(msgs[i]);
      if message.None? {
        break;
      }
      delivered := delivered + [message.value];
      i := i + 1;
    }
    DeliverUnique(msgs, parse, delivered);
  }

  /** Every fragment is delivered exactly when every fragment parses. */
  lemma DeliverAllIffAllParse<E>(frags: seq<string>, parse: string -> Option<E>)
    ensures |Deliver(frags, parse)| == |frags| <==> forall i :: 0 <= i < |frags| ==> parse(frags[i]).Some?
  {
  }

  /** A frame whose every line is blank delivers nothing. */
  lemma {:induction false} BlankFrameDeliversNothing<E>(data: string, parse: string -> Option<E>)
    requires IsBlank(data)
    ensures Deliver(Fragments(data), parse) == []
  {
    var parts := Split(data, '\n');
    JoinSplit(data, '\n');
    forall i | 0 <= i < |parts|
      ensures !NonBlank(parts[i])
    {
      BlankPiece(parts, parts[i]);
      TrimEmptyIffBlank(parts[i]);
    }
    SeqUtil.FilterNone(parts, NonBlank);
  }

  lemma {:induction false} BlankPiece(parts: seq<string>, f: string)
    requires |parts| >= 1 && f in parts
    requires IsBlank(Join(parts, '\n'))
    ensures IsBlank(f)
  {
    if |parts| > 1 {
      var rest := Join(parts[1..], '\n');
      var s := parts[0] + ['\n'] + rest;
      assert forall i :: 0 <= i < |parts[0]| ==> parts[0][i] == s[i];
      assert forall i :: 0 <= i < |rest| ==> rest[i] == s[|parts[0]| + 1 + i];
      if f != parts[0] {
        assert f in parts[1..];
        BlankPiece(parts[1..], f);
      }
    }
  }

  /**
   * End to end: when the sender writes several serialised events on separate
   * lines, and serialisation yields non-blank, newline-free text that parses back
   * to the event, the handler delivers exactly those events in order.
   */
  lemma {:induction false} DecodeLines<E>(events: seq<E>, encode: E -> string, parse: string -> Option<E>)
    requires |events| >= 1
    requires forall e :: parse(encode(e)) == Some(e)
    requires forall e :: '\n' !in encode(e) && NonBlank(encode(e))
    ensures Deliver(Fragments(Join(EncodeAll(events, encode), '\n')), parse) == events
  {
    var lines := EncodeAll(events, encode);
    SplitJoin(lines, '\n');
    SeqUtil.FilterKeepsAll(lines, NonBlank);
    assert Fragments(Join(lines, '\n')) == lines;
    DeliverUnique(lines, parse, events);
  }

  function EncodeAll<E>(events: seq<E>, encode: E -> string): (r: seq<string>)
    ensures |r| == |events|
    ensures forall i :: 0 <= i < |events| ==> r[i] == encode(events[i])
  {
    if |events| == 0 then [] else [encode(events[0])] + EncodeAll(events[1..], encode)
  }
}
